=== FILE: README.md ===
# apli core, modelled in Dafny

apli is a C toolkit for building parsers and small interpreters. This project models its core as pure Dafny functions over immutable datatypes, and proves properties about them:

- the generic containers (doubly linked list, vector, chained hash map, hash set, 128-bit bitset);
- the automata (a DFA over maps, a flat byte-table DFA, and an NFA with its subset construction);
- the two regex front ends that compile a pattern into a DFA and search text with it;
- the grammar helpers of the parser;
- the arithmetic calculator;
- the current Lisp evaluator and its older environment;
- the pure logic of the integration harness.

Each `.dfy` file is one Dafny module, and each module models one source file or a small group of them:

| file | module | models |
|---|---|---|
| wrappers.dfy | Wrappers | `Option`, `Result` and the faults the C code can hit (failed assertion, NULL dereference, exit codes, undefined behaviour) |
| list.dfy | DList | src/util/list.h |
| vector.dfy | Vec | src/util/vector.h |
| hashmap.dfy | HashMap | src/util/map.h |
| hashset.dfy | HashSet | src/util/set.h |
| bitset.dfy | Bitset | src/util/bitset.h |
| dfa.dfy | MapDfa | src/lexer/dfa.h |
| flat_dfa.dfy | FlatDfa | src/lexer/flat_dfa.c |
| nfa.dfy | Nfa | src/lexer/nfa_optimized.h |
| regex_syntax.dfy | RegexSyntax | the alternative split and repeat-bound parsing shared by src/lexer/greedy_regex.h and src/lexer/regex.c |
| regex_tokens.dfy | RegexTokens | the token scan `_regex_split_by_tokens`, in both directions |
| thompson.dfy | Thompson | Thompson's construction from tokens to NFA edits, for both front ends |
| greedy_regex.dfy | GreedyRegex | src/lexer/greedy_regex.h: compilation, greedy runs and the find-all loop |
| classic_regex.dfy | ClassicRegex | src/lexer/regex.c: compilation, the chunked left-most search and the two find-all loops |
| ctext.dfy | CText | C text and integer helpers: `atoi`, 32-bit `int` range, truncating division, `add_pre_post_buffer` |
| grammar.dfy | Grammar | src/parser/parser.h |
| lisp.dfy | Lisp | evaluators/lisp/lisp.c |
| lisp_old.dfy | LispOld | the environment of test/lisp.c |
| calculator.dfy | Calculator | evaluators/arithmetic/calculator.c |
| harness.dfy | Harness | test/integration/test_lisp.py and test/integration/benchmark.py, without processes or timing |

A C failure is modelled as a value. An `assert` that fails, a NULL dereference, an `exit` and undefined behaviour are each a `Failure` of a `Result`. The contracts state which inputs fail. A failed `map_at` is an `exit` or a NULL dereference depending on whether the key's bucket holds other keys. Where the model does not track that bucket layout, the contract names the layout fact that decides the kind (HashMap.AtMissFault, Nfa.BeginMissFault, and the `shared` parameter of Nfa.RemoveAlphabetTransitionAsWritten).

Unsigned `size_t` arithmetic wraps modulo 2^64 where the code depends on the wrap. Examples are the list counter and the regex parenthesis depth. Signed `int` arithmetic is checked against the 32-bit range, and any result outside that range is undefined behaviour.

Callback parameters replace code this model cannot see or does not cover:

- the hash function of a map or set;
- the longest-match run `dfa_run_greedy` that the greedy front end uses;
- the Lisp built-ins that depend on parse-tree shapes or on output.

## Model

| member | source | states |
|---|---|---|
| DList.Dec | src/util/list.h:82 | decrementing a `size_t` count gives one less for a positive count and wraps to SIZE_MAX at 0 |
| DList.New | src/util/list.h:119-126 | a new list is empty and its count agrees with its contents |
| DList.GetSize | src/util/list.h:109-111 | the reported size equals the number of elements whenever the count is consistent |
| DList.GetFirst | src/util/list.h:41-43 | fails (NULL dereference) exactly on an empty list, otherwise yields the head |
| DList.GetLast | src/util/list.h:44-46 | fails exactly on an empty list, otherwise yields the tail |
| DList.PushFront | src/util/list.h:47-62 | contents become `[v] + old`, the count grows by one, and consistency is preserved |
| DList.PushBack | src/util/list.h:63-78 | contents become `old + [v]`, the count grows by one, and consistency is preserved |
| DList.PopFront | src/util/list.h:79-90 | fails on an empty list; otherwise drops exactly the head and keeps the count consistent |
| DList.PopBack | src/util/list.h:91-102 | fails on an empty list; otherwise drops exactly the tail and keeps the count consistent |
| DList.NodeRemoveAsWritten | src/util/list.h:30-40 | unlinks exactly node i keeping the order of the rest, but an interior removal leaves the count unchanged |
| DList.NodeRemove | src/util/list.h:30-40 | corrected removal: unlinks exactly node i and the count stays equal to the node count |
| DList.InteriorRemoveBreaksCount | src/util/list.h:36-38 | after an interior removal as written, the reported size exceeds the node count by one |
| DList.StaleCountCrashesPop | src/util/list.h:79-90 | on `[1,2,3]`, removing the middle node as written and popping twice dereferences NULL; the corrected removal pops to empty |
| DList.PushPopFront | src/util/list.h:47-90 | `pop_front` undoes `push_front`, and `get_first` after `push_front(v)` is v |
| DList.PushPopBack | src/util/list.h:63-102 | `pop_back` undoes `push_back`, and `get_last` after `push_back(v)` is v |
| DList.ApplyMatchesMirror | test/unit/util/list_test.cpp:63-99 | any push/pop sequence the reference sequence model accepts leaves the list with exactly the mirror's contents and a consistent count |
| Vec.New | src/util/vector.h:81-88 | a new vector is empty with capacity 1 |
| Vec.Set | src/util/vector.h:40-42 | writes index i only; size, capacity and every other index are unchanged |
| Vec.DoubleCapacity | src/util/vector.h:31-39 | keeps the contents and doubles the capacity, which stays a power of two |
| Vec.PushBack | src/util/vector.h:54-58 | appends the value; capacity stays or doubles, stays a power of two, and `size <= capacity` is kept |
| Vec.PopBack | src/util/vector.h:51-53 | size drops by one, the remaining prefix and the capacity are unchanged |
| Vec.Remove | src/util/vector.h:43-50 | returns `old[i]`, the contents become `old[..i] + old[i+1..]`, and the multiset is preserved up to the removed value |
| Vec.Resize | src/util/vector.h:59-71 | size becomes n, the common prefix is kept, new slots hold the fill value, capacity becomes `max(n, 1)` |
| Vec.GetAfterSet | test/util/vector_test.cpp:55-62 | reading after `set(i, x)` gives x at i and the old value elsewhere |
| Vec.PopUndoesPush | src/util/vector.h:51-58 | `pop_back` after `push_back` restores the contents |
| Vec.PushesKeepCapacityTight | src/util/vector.h:31-58 | any sequence of pushes from a new vector yields exactly those values, with `size <= capacity`, a power-of-two capacity and capacity at most twice the size (or 1) |
| HashMap.New | src/util/map.h:200-209 | a new map has exactly one (NULL) bucket and size 0 |
| HashMap.NewIsEmpty | src/util/map.h:200-209 | the new map is well formed and every lookup misses |
| HashMap.Count | src/util/map.h:164-175 | `count` is 0 or 1, and 1 exactly when the bucket walk finds a match with equal hash and key |
| HashMap.At | src/util/map.h:132-145 | yields the stored value exactly when the key is counted; a missing key dereferences NULL on an empty bucket and otherwise exits with INVKEY = 1 |
| HashMap.AtMissFault | src/util/map.h:132-145 | on a well-formed map a missing key's `at` exits with INVKEY exactly when some stored key shares its bucket, and dereferences NULL otherwise |
| HashMap.BucketsAfter | src/util/map.h:103-105 | the bucket count after k inserts of new keys into a new map is a power of two that keeps `k < 0.8 * buckets` |
| HashMap.InsertFresh | src/util/map.h:121-130 | inserting an absent key grows the size by one and doubles the buckets exactly when the grown size reaches 0.8 of them |
| HashMap.InsertAllFresh | src/util/map.h:121-130 | inserting distinct absent keys in turn keeps the map well formed, adds exactly those keys, grows the size by their number and leaves the bucket count `BucketsAfter` of the size |
| HashMap.DistinctKeysCount | src/util/map.h:121-130 | a list of pairs with distinct keys holds as many keys as pairs |
| HashMap.FilledMissFault | src/util/map.h:132-145 | a map filled by inserting distinct keys, asked for a key it lacks, exits with INVKEY exactly when an inserted key shares that key's bucket among `BucketsAfter` buckets, and dereferences NULL otherwise |
| HashMap.Size | src/util/map.h:177-179 | reports the size counter |
| HashMap.Erase | src/util/map.h:147-162 | returns `count(k)`, decrements the size by it, removes k and leaves every other key's value unchanged |
| HashMap.EraseStep | src/util/map.h:150-158 | unlinking the matching entry from its bucket keeps the table well formed, removes k only and lowers the size by one |
| HashMap.EraseTwice | src/util/map.h:147-162 | a second erase of the same key returns 0 |
| HashMap.Allocate | src/util/map.h:88-100 | after erasing any earlier match and appending, k maps to v, other keys keep their values, and the bucket count is unchanged |
| HashMap.AllocateStep | src/util/map.h:97-99 | appending a fresh key's match to its bucket keeps the table well formed and makes it visible |
| HashMap.Rehash | src/util/map.h:106-118 | re-bucketing produces twice as many buckets |
| HashMap.CheckResize | src/util/map.h:103-119 | doubles the bucket count exactly when `size >= 0.8 * buckets`, keeps the size, well-formedness and every key's lookup |
| HashMap.Insert | src/util/map.h:121-130 | after insert k maps to v, other keys are unchanged, the size grows by one only for a new key, and the bucket count stays or doubles |
| HashMap.LookupFindsStored | src/util/map.h:132-145 | in a well-formed map the hashed lookup finds v for k exactly when some bucket stores the match (k, v) |
| HashMap.LookupFindsKey | src/util/map.h:164-175 | the hashed lookup finds k exactly when some bucket stores k |
| HashMap.AtAfterInsert | test/util/map_test.cpp:55-58 | `at(k)` after `insert(k, v)` is v; other keys' `at` results are unchanged |
| HashMap.ReinsertKeepsSize | test/util/map_test.cpp:126-128 | re-inserting a key overwrites its value and leaves the size unchanged |
| HashMap.FindValSound | src/util/map.h:136-142 | a successful bucket walk returns the value of a stored match with that hash and key |
| HashMap.FindValAbsent | src/util/map.h:136-142 | the walk misses when no match has the key |
| HashMap.FindValUnique | src/util/map.h:136-142 | in a bucket without duplicate keys, the walk finds every stored match's value |
| HashMap.RemoveKeyFinds | src/util/map.h:152-158 | unlinking k's match hides k and leaves every other key's walk result unchanged |
| HashMap.RehashPreserves | src/util/map.h:106-118 | re-bucketing into twice as many buckets keeps the map well formed and every key's lookup |
| HashMap.RehashTotal | src/util/map.h:106-118 | re-bucketing keeps the number of stored matches, and the bucket count stays a power of two |
| HashMap.RehashLookup | test/util/map_test.cpp:67-89 | every key's lookup is the same after a resize |
| HashMap.EraseCounted | src/util/map.h:147-162 | erase with the bucket counters kept as the code keeps them: an empty map or a key with no match returns 0 and changes nothing, a match returns 1 and lowers the size, and the only fault is a NULL dereference |
| HashMap.CountCounted | src/util/map.h:164-175 | while every bucket counter is right, `count` through the counters equals the corrected `Count`; the only fault is a NULL dereference |
| HashMap.AllocateCounted | src/util/map.h:88-100 | erasing the earlier match and pushing the new one through the counters keeps the bucket count |
| HashMap.MoveOne | src/util/map.h:114-116 | one pass of the resize loop (first, pop front, re-allocate) keeps the bucket count |
| HashMap.MoveCounted | src/util/map.h:113-117 | the inner resize loop, run for the bucket's counter value, keeps the bucket count |
| HashMap.ResizeFrom | src/util/map.h:108-118 | the outer resize loop from bucket i keeps the bucket count |
| HashMap.CheckResizeCounted | src/util/map.h:103-119 | below the 0.8 ratio the map is unchanged; otherwise the map has twice as many buckets, or a fault |
| HashMap.InsertCounted | src/util/map.h:121-130 | insert through the counters leaves at least one bucket |
| HashMap.EraseCountedAgrees | src/util/map.h:147-162 | while the counters are right, erase succeeds with the same contents and return value as the corrected `Erase`, and the counters stay right exactly when the removed match was the last of its bucket |
| HashMap.EraseTwiceCounted | src/util/map.h:147-162 | on a well-formed map with right counters, erasing a key twice succeeds and the second erase returns 0 |
| HashMap.CheckResizeCountedAgrees | src/util/map.h:103-119 | on a well-formed map with right counters, the resize succeeds, keeps the counters right and produces the same buckets as the corrected `CheckResize` |
| HashMap.InsertCountedAgrees | src/util/map.h:121-130 | inserting a fresh key into a well-formed map with right counters succeeds, keeps them right and agrees with the corrected `Insert` |
| HashMap.StaleCounterCrashesErase | src/util/map.h:147-162 | a bucket `[a, x, z]`: erasing x leaves the counter at 3 over two matches, erasing a leaves it at 2 over one, and erasing z then dereferences NULL |
| HashMap.ErasesThreeCorrected | src/util/map.h:147-162 | with the corrected removal the same three erases each return 1 and empty the bucket |
| HashMap.StaleCounterCrashesResize | src/util/map.h:103-119 | a first bucket whose counter says 3 over two matches, the first of which moves to the new half, makes the resize dereference NULL |
| HashMap.StaleCounterExample | src/util/map.h:147-162 | keys 4, 0 and 12 in bucket 0 of four, identity hash: erasing 0 leaves the bucket `[4, 12]` with counter 3, and a map with that bucket and size 4 (as after two inserts into other buckets) dereferences NULL when it resizes |
| HashSet.New | src/util/set.h:241-250 | a new set has one bucket and size 0 |
| HashSet.NewIsEmpty | src/util/set.h:241-250 | the new set is well formed and has no members |
| HashSet.Count | src/util/set.h:182-195 | `count` is 1 exactly for members and 0 exactly for non-members |
| HashSet.Insert | src/util/set.h:155-162 | afterwards `count(v)` is 1, other memberships are unchanged, and the size grows only when v was absent |
| HashSet.Erase | src/util/set.h:164-180 | returns 1 exactly when v was a member, v is absent afterwards, the size drops by the result, other members stay |
| HashSet.ContainsAll | src/util/set.h:201-215 | true exactly when every value stored in the second set is counted by the first |
| HashSet.Equals | src/util/set.h:217-220 | true exactly when each set contains all stored values of the other |
| HashSet.EqualsMeansSameMembers | test/util/set_test.cpp:24-34 | for well-formed sets, mutual containment holds exactly when the two sets have the same members |
| HashSet.MemberIsStored | src/util/set.h:201-215 | containment transfers membership from one set to the other |
| HashSet.StoredMembers | src/util/set.h:201-215 | if every member of s is a member of t, then t contains all of s |
| Bitset.New | src/util/bitset.h:135-144 | a new bitset is four zero 32-bit words with no members |
| Bitset.Insert | src/util/bitset.h:63-68 | fails its assertion exactly when the index is at least 128; otherwise adds exactly that index |
| Bitset.Erase | src/util/bitset.h:70-74 | returns 1 exactly when the index was a member and removes exactly that index |
| Bitset.Count | src/util/bitset.h:76-78 | is 1 exactly for members and 0 exactly for non-members |
| Bitset.SetBitPreserves | src/util/bitset.h:67-72 | or-ing a word with the index's bit adds exactly that index; and-not-ing removes exactly it |
| Bitset.BitOpBit | src/util/bitset.h:67-113 | a bitwise and/or/and-not of two words has bit j exactly when the gate holds for the operands' bit j |
| Bitset.ClearLowestBit | src/util/bitset.h:84-87 | `n & (n - 1)` is below n and has one fewer set bit, so the popcount loop terminates and counts bits |
| Bitset.Size | src/util/bitset.h:80-90 | the popcount over all words equals the length of the element list |
| Bitset.SizeIsCardinality | test/unit/util/bitset_test.c:14-20 | the size equals the number of members |
| Bitset.Union | src/util/bitset.h:111-115 | the result's members are exactly the union of the two sets' members |
| Bitset.Equals | src/util/bitset.h:92-100 | word-wise equality holds exactly when the two sets have the same members |
| Bitset.SameMembersSameWords | src/util/bitset.h:92-100 | two well-formed bitsets with the same members have identical words |
| Bitset.EqualsAgreesWithHash | src/util/bitset.h:56-61 | equal bitsets have equal collection hashes |
| Bitset.ElementListFacts | src/util/bitset.h:102-109 | the element list has one entry per set bit, contains exactly the members, and is strictly ascending |
| Bitset.ElementListIsMembers | src/util/bitset.h:102-109 | `get_element_list` returns exactly the members, strictly ascending |
| Bitset.InsertAllMembers | test/unit/util/bitset_test.c:14-20 | inserting in-range indices one by one yields exactly the old members plus those indices |
| Bitset.InsertedFiveHasSizeFive | test/unit/util/bitset_test.c:14-20 | inserting 2, 3, 3, 5, 7, 11 gives the five members {2, 3, 5, 7, 11} and size 5 |
| MapDfa.New | src/lexer/dfa.h:178-186 | a new DFA has no transitions, no accept states, the given begin state, and is unlocked |
| MapDfa.Run | src/lexer/dfa.h:109-121 | returns 1 exactly when every symbol has a transition and the final state accepts, and 0 otherwise |
| MapDfa.AcceptsEmpty | test/lexer/dfa_test.c:76-82 | the empty word is accepted exactly when the begin state accepts |
| MapDfa.AddTransition | src/lexer/dfa.h:123-128 | asserts exactly when locked; otherwise (from, t) maps to `to`, replacing any earlier target, and nothing else changes |
| MapDfa.RemoveTransition | src/lexer/dfa.h:130-134 | asserts exactly when locked; otherwise returns 1 exactly when the pair existed, which is then absent, and nothing else changes |
| MapDfa.AddAcceptState | src/lexer/dfa.h:136-140 | asserts exactly when locked; otherwise adds the state to the accept set only |
| MapDfa.RemoveAcceptState | src/lexer/dfa.h:142-145 | asserts exactly when locked; otherwise returns whether the state was accepting and removes it only |
| MapDfa.ToFdfa | src/lexer/dfa.h:161-168 | wraps the same DFA, which becomes locked, with transitions, begin and accept states unchanged |
| MapDfa.LockedRejectsMutation | src/lexer/dfa.h:102-106 | after `dfa_to_fdfa` every mutator fails its assertion |
| MapDfa.Call | src/lexer/dfa.h:152-154 | the fdfa call returns 1 exactly when the wrapped DFA accepts the word |
| MapDfa.FdfaAcceptsSameLanguage | test/lexer/dfa_test.c:31-35 | the wrapped DFA accepts exactly the words the original accepts |
| MapDfa.DeltaAppend | src/lexer/dfa.h:109-119 | running `u + v` is running u and then v from where u stopped |
| MapDfa.RemoveTransitionShrinks | src/lexer/dfa.h:130-134 | a word that still runs after removing a transition ends in the same state as before |
| MapDfa.AddTransitionGrows | src/lexer/dfa.h:123-128 | adding a transition for a fresh pair does not change where existing runs end |
| MapDfa.NumberDfaExample | test/lexer/dfa_test.c:40-65 | a reduced form of the tests' signed-number DFA accepts "-0" and "10" and rejects "-" and "01" |
| FlatDfa.Index | src/lexer/flat_dfa.c:20 | the cell index `(state << 7) + c` decodes back to the state and the byte |
| FlatDfa.New | src/lexer/flat_dfa.c:250-260 | a new table has `state_size << 7` cells, every one the missing marker 0xFF |
| FlatDfa.AddTransition | src/lexer/flat_dfa.c:132-138 | the cell for (from, c) becomes a non-accepting edge to `to`; every other cell is unchanged |
| FlatDfa.RemoveTransition | src/lexer/flat_dfa.c:140-144 | the cell becomes missing and other cells are unchanged; the result is `_flat_dfa_state_exists` of the old cell, that is the old cell widened to `size_t` plus one, so 0 exactly when the edge was absent and `2 * target + accept + 1` (between 1 and 128) when it was present |
| FlatDfa.MarkState | src/lexer/flat_dfa.c:146-161 | sets or clears the accept bit on exactly the present edges into the state |
| FlatDfa.AddAcceptingState | src/lexer/flat_dfa.c:146-152 | every present edge keeps its target and becomes accepting exactly when it was accepting or leads into the state |
| FlatDfa.RemoveAcceptingState | src/lexer/flat_dfa.c:154-161 | returns 1; every present edge keeps its target and stays accepting exactly when it was accepting and does not lead into the state |
| FlatDfa.Run | src/lexer/flat_dfa.c:114-130 | returns 1 exactly when every step has a cell and the last edge taken is accepting |
| FlatDfa.EmptyIsRejected | src/lexer/flat_dfa.c:114-130 | the empty word is rejected whatever the begin state |
| FlatDfa.RunGreedyIterator | src/lexer/flat_dfa.c:83-111 | returns ~0 when no prefix ends on an accepting edge; otherwise an accepting end position after which any further accepting position lies past a return to the begin state |
| FlatDfa.RunGreedy | src/lexer/flat_dfa.c:54-80 | the buffer variant scans the first `size + 1` bytes with the same result |
| FlatDfa.GreedyBoundUnique | src/lexer/flat_dfa.c:83-111 | the greedy result is determined by the table and the word |
| FlatDfa.LeRoundTrip | src/lexer/flat_dfa.c:170-171 | reading back a little-endian `size_t` header word gives the stored number |
| FlatDfa.Serialize | src/lexer/flat_dfa.c:168-177 | the buffer is 16 header bytes followed by one byte per cell |
| FlatDfa.Deserialize | src/lexer/flat_dfa.c:236-247 | asserts exactly when the first header word is not 7; otherwise the state size is the second header word |
| FlatDfa.SerializeRoundTrip | test/unit/lexer/flat_dfa_test.c:73-102 | deserialising a serialised table gives back the same state size and cells |
| FlatDfa.MaxState | src/lexer/flat_dfa.c:181-190 | the computed maximum bounds every source and target state and is one of them (or 0) |
| FlatDfa.FromCompressed | src/lexer/flat_dfa.c:179-210 | asserts exactly when the begin state is not 0; otherwise every cell holds the map DFA's transition, accepting exactly when its target accepts |
| FlatDfa.AddAllLookup | src/lexer/flat_dfa.c:194-199 | after adding the listed transitions to a fresh table, a cell is present exactly when its pair is listed |
| FlatDfa.AcceptAllLookup | src/lexer/flat_dfa.c:202-206 | marking the listed accept states makes exactly the edges into them accepting |
| FlatDfa.FromCompressedLanguage | test/unit/lexer/flat_dfa_test.c:51-64 | the flat table accepts exactly the non-empty words the map DFA accepts |
| FlatDfa.ReachAgrees | src/lexer/flat_dfa.c:114-130 | on a non-empty word, the flat run ends on an accepting edge exactly when the map run ends in an accept state |
| Nfa.New | src/lexer/nfa_optimized.h:428-439 | a new NFA has no edges, no accept states, an empty state set, and an empty ε-set recorded for the begin state |
| Nfa.Link | src/lexer/nfa_optimized.h:115-133 | adds exactly the one labelled edge and both endpoints to the state set, creating the per-state label map on demand |
| Nfa.AddTransition | src/lexer/nfa_optimized.h:127-133 | fails the bitset assertion exactly when an endpoint is 128 or more; otherwise adds exactly the edge (from, c, to) and both endpoints |
| Nfa.AddAlphabetTransition | src/lexer/nfa_optimized.h:144-149 | same, for the ALL-labelled edge |
| Nfa.AddEpsilonTransition | src/lexer/nfa_optimized.h:136-141 | same, for an ε-edge; both endpoints get an ε-set entry |
| Nfa.AddTransitionIdempotent | src/lexer/nfa_optimized.h:127-133 | adding the same edge twice is the same as adding it once |
| Nfa.Unlink | src/lexer/nfa_optimized.h:152-160 | returns 1 exactly when the labelled edge existed and removes exactly that edge |
| Nfa.RemoveTransition | src/lexer/nfa_optimized.h:152-160 | returns 1 exactly when (from, c, to) existed and removes exactly that edge |
| Nfa.RemoveAfterAdd | src/lexer/nfa_optimized.h:127-160 | removing a just-added edge reports 1 |
| Nfa.RemoveEpsilonTransition | src/lexer/nfa_optimized.h:162-167 | returns 1 exactly when the ε-edge existed and removes exactly that ε-edge |
| Nfa.RemoveAlphabetTransitionAsWritten | src/lexer/nfa_optimized.h:169-176 | the guard probes the last labelled key: a missing probe returns 0 whatever ALL edges exist; a present probe without ALL edges fails in the `map_at` of ALL, with `exit(INVKEY)` when another label shares ALL's bucket and a NULL dereference when none does |
| Nfa.RemoveAlphabetTransition | src/lexer/nfa_optimized.h:169-176 | corrected: returns 1 exactly when the ALL edge existed and removes exactly that edge |
| Nfa.AlphabetRemovalMissed | src/lexer/nfa_optimized.h:169-176 | with an ALL edge 0→1 and a last probe 'a' that state 0 lacks, the code as written returns 0 and keeps the edge; the corrected removal returns 1 and deletes it |
| Nfa.AddAcceptState | src/lexer/nfa_optimized.h:178-180 | fails exactly for a state of 128 or more; otherwise adds the state to the accept set only |
| Nfa.RemoveAcceptState | src/lexer/nfa_optimized.h:182-184 | returns 1 exactly when the state was accepting and removes it only |
| Nfa.Adjacent | src/lexer/nfa_optimized.h:202-208 | the pushed neighbours are exactly the ε-successors of the state |
| Nfa.Ers | src/lexer/nfa_optimized.h:187-216 | the ε-reachable set of a state contains it and is closed under ε-edges |
| Nfa.WalkSpec | src/lexer/nfa_optimized.h:194-210 | the depth-first walk keeps what it has seen, visits every stacked state, and ends ε-closed |
| Nfa.WalkLeast | src/lexer/nfa_optimized.h:194-210 | the walk stays inside every ε-closed set that holds its seen states and its stack |
| Nfa.ErsIsLeast | src/lexer/nfa_optimized.h:187-216 | the ε-reachable set is contained in every ε-closed set that holds the root, so it is the least such set |
| Nfa.ErsMap | src/lexer/nfa_optimized.h:187-216 | the ε-reachable map has one entry per NFA state |
| Nfa.AllEdges | src/lexer/nfa_optimized.h:230-245 | the expansion list holds exactly (s, c, t) for each ALL edge s→t and each alphabet symbol c |
| Nfa.Fan | src/lexer/nfa_optimized.h:218-228 | one ALL entry fans out to exactly its targets times the alphabet |
| Nfa.AddEdges | src/lexer/nfa_optimized.h:218-228 | adding the listed labelled edges adds exactly those edges |
| Nfa.ExpandAll | src/lexer/nfa_optimized.h:230-245 | after expansion, s has a c-edge to t exactly when it had one before or had an ALL edge to t and c is in the alphabet |
| Nfa.ExpandKeepsErs | src/lexer/nfa_optimized.h:368-369 | the expansion does not change any ε-reachable set |
| Nfa.TransitionSet | src/lexer/nfa_optimized.h:247-270 | the c-successor of a state set is the union of the ε-reachable sets of all direct c-successors |
| Nfa.NoLabelNoSuccessors | src/lexer/nfa_optimized.h:254-258 | a label no state in the set carries has an empty successor set |
| Nfa.ProcessLabel | src/lexer/nfa_optimized.h:305-320 | one label of a state set adds its DFA transition (labelled only), marks the successor accepting when it holds an NFA accept state, and queues it |
| Nfa.ProcessSet | src/lexer/nfa_optimized.h:294-326 | every label of the state set gets its DFA transition and queued successor, with accept status from the NFA accept states |
| Nfa.BeginMissFault | src/lexer/nfa_optimized.h:366-370 | the failure of `map_at(epsilon_reachable_map, begin_state)` for a begin state that is not recorded: `exit(INVKEY)` when a recorded state falls in the same bucket of the map's bucket count, a NULL dereference otherwise (stated by Nfa.BeginMissFaultAgrees) |
| Nfa.BeginMissFaultAgrees | src/lexer/nfa_optimized.h:187-216 | filling the ε-reachable map with one insert per recorded state, in any order and with the identity hash of a `size_t` key, and then looking up the missing begin state fails exactly as `BeginMissFault` says |
| Nfa.NoEdgesDerefsNull | src/lexer/nfa_optimized.h:366-370 | an NFA with no edges records no state, and the lookup of its begin state dereferences NULL |
| Nfa.ToDfa | src/lexer/nfa_optimized.h:366-375 | fails exactly when the begin state is in no edge, and then as `BeginMissFault` says (a NULL dereference, or `exit(INVKEY)` when a recorded state shares the begin state's bucket); otherwise the DFA starts at ERS(begin), its accepting sets hold an NFA accept state, and it accepts exactly the words the ALL-expanded NFA accepts |
| Nfa.Advance | src/lexer/nfa_optimized.h:335-342 | one queue step keeps the construction's invariants and either grows the seen sets or shortens the queue, so each distinct set is expanded once and the loop ends |
| Nfa.Explore | src/lexer/nfa_optimized.h:328-345 | the worklist loop ends with every seen set's row complete |
| Nfa.ToDfaLanguage | test/unit/lexer/nfa_test.c:40-53 | a complete subset construction accepts exactly the NFA's language |
| Nfa.ClosedRun | src/lexer/nfa_optimized.h:328-345 | running the constructed DFA from a seen set follows the subset run and stays among the seen sets, and a missing transition means the subset run is empty |
| RegexSyntax.PlainStep | src/lexer/greedy_regex.h:235-243 | one unescaped character updates the `size_t` depth modulo 2^64 and cuts exactly at a `|` that brings it to 0 |
| RegexSyntax.EscapeStep | src/lexer/greedy_regex.h:231-234 | a backslash and the character after it change neither the depth nor the cuts |
| RegexSyntax.FinishStep | src/lexer/greedy_regex.h:249-250 | the final segment is appended exactly when it is non-empty |
| RegexSyntax.GroupScan | src/lexer/greedy_regex.h:230-251 | the scan fails its assertion exactly when the final depth is non-zero modulo 2^64; otherwise its slices tile the pattern between cuts |
| RegexSyntax.SplitGroups | src/lexer/greedy_regex.h:226-252 | splits at exactly the unescaped depth-0 `|`, failing only on a non-zero final depth; a `)` before its `(` is accepted |
| RegexSyntax.FinishTiles | src/lexer/greedy_regex.h:226-252 | the groups start at 0 and each later group starts right after a cut that ends the previous one |
| RegexSyntax.Rejoin | src/lexer/greedy_regex.h:226-252 | joining the groups with `|` gives back the pattern, or the pattern without its trailing `|` |
| RegexSyntax.RejoinPrefix | src/lexer/greedy_regex.h:240-242 | the first n groups joined with `|` are the pattern up to the end of group n |
| RegexSyntax.CheckedGroupScan | src/lexer/greedy_regex.h:244-245 | a scan that also rejects a negative depth fails exactly on an unbalanced pattern and otherwise agrees with the plain scan |
| RegexSyntax.SplitGroupsChecked | src/lexer/greedy_regex.h:244-248 | corrected split: fails exactly on an unbalanced pattern, and otherwise returns the same groups as the code as written |
| RegexSyntax.BalancedMeansNeverNegative | src/lexer/greedy_regex.h:244-248 | "no `)` closes an unopened group" plus final depth 0 is the same as "depth never negative and ends at 0" |
| RegexSyntax.UnopenedParenAccepted | src/lexer/regex.c:118-143 | `")("` is split as one group by the code as written but rejected by the corrected split |
| RegexSyntax.ScanTo | src/lexer/greedy_regex.h:400-401 | the scan stops at the first stop character before the closing brace, or at the closing brace |
| RegexSyntax.RepeatBounds | src/lexer/greedy_regex.h:398-415 | both bounds lie in 1..SIZE_MAX, and every rejection is an assertion |
| RegexSyntax.AtoiDecimal | src/lexer/greedy_regex.h:404 | `atoi` of a decimal numeral gives back its value |
| RegexSyntax.RepeatExact | src/lexer/greedy_regex.h:405-407 | `{m}` with m ≥ 1 gives `from = to = m` |
| RegexSyntax.RepeatRange | src/lexer/greedy_regex.h:409-414 | `{m,n}` with m, n ≥ 1 gives `from = m`, `to = n` |
| RegexSyntax.RepeatOpen | src/lexer/greedy_regex.h:352-414 | `{m,}` gives `from = m` and leaves `to` at its preset SIZE_MAX, meaning unbounded |
| RegexSyntax.RepeatBoundsSplit | src/lexer/regex.c:274-291 | for any `{d,e}` token, the bounds are `atoi` of the two numerals modulo 2^64 |
| RegexSyntax.RepeatBoundsOpen | src/lexer/regex.c:274-291 | for any `{d,}` token, the bounds are `atoi(d)` modulo 2^64 and SIZE_MAX |
| RegexSyntax.RepeatNeedsLowerBound | src/lexer/greedy_regex.h:403-404 | `{0}`, `{}` and `{,3}` all fail the assertion |
| RegexTokens.Emit | src/lexer/greedy_regex.h:523-533 | appending a token succeeds except when the backward scan must swap a quantifier that has no atom before it, which dereferences NULL |
| RegexTokens.Step | src/lexer/greedy_regex.h:514-577 | one scan step moves forward, keeps the pending-token and nesting invariants, and appends at most one token |
| RegexTokens.Loop | src/lexer/greedy_regex.h:514-577 | the whole scan keeps the invariants up to the end of the alternative and only ever appends |
| RegexTokens.Assemble | src/lexer/greedy_regex.h:500-507 | building the list by push-back or push-front keeps one entry per append |
| RegexTokens.AssembleForward | src/lexer/greedy_regex.h:500-507 | in the forward direction the list is the appends in order |
| RegexTokens.AssemblePermutes | src/lexer/greedy_regex.h:523-574 | in either direction, with swaps, the list is a permutation of the appended slices |
| RegexTokens.ForwardOrdered | src/lexer/greedy_regex.h:514-577 | forward tokens are contiguous, non-empty and in input order, and the pending tail continues them |
| RegexTokens.FixAnchors | src/lexer/greedy_regex.h:579-597 | the anchor fix-up keeps the number of tokens |
| RegexTokens.FixAnchorsPermutes | src/lexer/greedy_regex.h:579-597 | the anchor fix-up only reorders tokens |
| RegexTokens.AnchorsToEnds | src/lexer/greedy_regex.h:579-597 | a lone `^` at the back moves to the front and a lone `$` at the front moves to the back; middle tokens keep their order, and with neither the list is unchanged |
| RegexTokens.Finish | src/lexer/greedy_regex.h:579-602 | asserts exactly on an open paren or bracket (and dereferences NULL on no tokens); otherwise the result is the appended slices plus the non-empty tail, contiguous in the forward direction |
| RegexTokens.WithTrailing | src/lexer/greedy_regex.h:600-601 | the tail slice is added exactly when it is non-empty, keeping forward order |
| RegexTokens.SplitTokens | src/lexer/greedy_regex.h:510-603 | a successful split returns at least one in-range token, contiguous and in order in the forward direction |
| RegexTokens.SplitTokensClassic | src/lexer/regex.c:357-412 | the older front end's split returns in-range tokens, contiguous and in input order |
| RegexTokens.ClassicAgrees | src/lexer/regex.c:357-412 | where the newer forward split succeeds the older one returns the same tokens; otherwise the newer one failed only on its NULL dereference |
| RegexTokens.EmptyAlternative | src/lexer/greedy_regex.h:580-583 | an empty alternative makes the newer split read a missing front token, while the older one returns no tokens |
| RegexTokens.LoopDirections | src/lexer/greedy_regex.h:514-577 | the backward scan appends the same tokens as the forward scan, or fails on a leading quantifier |
| RegexTokens.BackwardPermutesForward | src/lexer/greedy_regex.h:500-597 | a successful backward split is a permutation of the forward split, and a backward-only failure is the NULL dereference |
| RegexTokens.BackwardFlips | src/lexer/greedy_regex.h:523-574 | when every quantifier follows an atom, the backward list is the tokens reversed with each quantifier kept right after its atom |
| RegexTokens.FlippedReverses | src/lexer/greedy_regex.h:500-507 | without quantifiers the backward list is exactly the reversed token list |
| RegexTokens.UnitAt | src/lexer/greedy_regex.h:514-577 | the reference tokenizer's unit at i is a non-empty slice starting at i |
| RegexTokens.UnitsScan | src/lexer/greedy_regex.h:514-577 | over an alternative that splits into reference units, the scan appends exactly those units |
| RegexTokens.UnitsTokens | src/lexer/greedy_regex.h:510-603 | for an alternative made of reference units, both forward splits return the units, and the backward split returns the flipped units with anchors fixed |
| RegexTokens.ClassScan | src/lexer/greedy_regex.h:535-555 | from an opening `[` the scan consumes the class up to its closing `]` and appends it as one non-quantifier token |
| RegexTokens.CurlyScan | src/lexer/greedy_regex.h:558-575 | from a `{` the scan consumes the repeat up to its `}` and appends it as one quantifier token |
| RegexTokens.ParenScan | src/lexer/greedy_regex.h:540-557 | from a `(` the scan counts nesting and appends the group as one token at its matching `)` |
| RegexTokens.AtomScan | src/lexer/greedy_regex.h:515-534 | a plain character, a quantifier or an escape pair is appended as its own token |
| RegexTokens.ForwardUnits | src/lexer/greedy_regex.h:510-603 | the forward split of a text made of reference units is exactly those units |
| RegexTokens.ClassicUnits | src/lexer/regex.c:357-412 | the older split of a text made of reference units is exactly those units, also when there are none |
| RegexTokens.BackwardUnits | src/lexer/greedy_regex.h:510-603 | the backward split of such a text is the flipped units with anchors fixed |
| Thompson.Signed | src/lexer/greedy_regex.h:468-472 | a byte read as a signed `char` lies in -128..127 and is congruent to the byte modulo 256 |
| Thompson.Fan | src/lexer/greedy_regex.h:216-219 | closing a list of ends adds one epsilon edge from each end, in order, to the common end state |
| Thompson.Items | src/lexer/greedy_regex.h:464-485 | the items read from a bracket body are single characters or spans within the signed `char` range |
| Thompson.RangeOpsWithin | src/lexer/greedy_regex.h:472-476 | the edits for a character span only touch the class's start state and the next state |
| Thompson.Tokens | src/lexer/greedy_regex.h:272 | the tokens an alternative is split into lie within the alternative |
| Thompson.ExpandToken | src/lexer/greedy_regex.h:438-491 | expanding one token from state b ends at or after b and only touches states from b up to its end |
| Thompson.Chain | src/lexer/greedy_regex.h:357-370 | chaining m copies of an atom ends where the next copy starts, records one end per copy, and stays within its states |
| Thompson.Quantified | src/lexer/greedy_regex.h:330-386 | expanding an atom with the token that follows it stays within the states from `next_start` to the new end, and a quantifier with nothing to apply to adds nothing |
| Thompson.Quant | src/lexer/greedy_regex.h:332-350 | the `*`, `?` and `+` wrappers stay within the states from `next_start` to one past the atom's end |
| Thompson.Repeat | src/lexer/greedy_regex.h:351-383 | a `{m}`, `{m,n}` or `{m,}` repeat stays within the states from `next_start` to its end |
| Thompson.QuantifierEdges | src/lexer/greedy_regex.h:332-350 | `*`, `?` and `+` fail exactly when the atom fails; on success they enter the atom and leave it to a fresh end, the back edge is present exactly for `*` and `+`, and the skip edge exactly for `*` and `?` |
| Thompson.QuantEdges | src/lexer/greedy_regex.h:332-350 | the same presence and absence of the back and skip edges, stated for the wrapper alone |
| Thompson.ExactRepeat | src/lexer/greedy_regex.h:351-375 | `{m,m}` is an entry edge, m chained copies, one step to a fresh end and a self-loop edge on that end |
| Thompson.NonRoot | src/lexer/greedy_regex.h:325-396 | the token loop only appends edits, within the states from `end` to its new end, and leaves the last token as the current one |
| Thompson.Expand | src/lexer/greedy_regex.h:269-309 | expanding an alternative succeeds only when it splits into at least one token and stays within its states; in the older front end an unanchored root alternative starts with an any-character loop, and one not ending in `$` ends with one |
| Thompson.Closed | src/lexer/regex.c:173-175 | the root-at-end step only appends, and without a trailing `$` it appends the any-character loop |
| Thompson.Walked | src/lexer/regex.c:160-175 | the root-at-start step followed by the token loop stays within its states, and without a leading `^` the older front end starts with the any-character loop |
| Thompson.Alts | src/lexer/greedy_regex.h:206-219 | the alternatives loop keeps what it built, links the start to each alternative and links every alternative's end to the common end |
| Thompson.Parse | src/lexer/greedy_regex.h:194-223 | parsing from state b only touches states from b to its end, and a non-empty pattern enters its first alternative from b |
| Thompson.WrittenJoin | src/lexer/greedy_regex.h:127-133 | an edge is mentioned by a sequence of edits exactly when one of its parts mentions it |
| Thompson.LabelledJoin | src/lexer/nfa_optimized.h:127-160 | after two runs of edits an edge is present as the second run last left it, or else as the first run did |
| Thompson.UniformLabels | src/lexer/greedy_regex.h:462-484 | when a class only adds (or only removes) labels on one edge, a label is present exactly when it is not inverted and some edit mentions it |
| Thompson.SignedUnique | src/lexer/greedy_regex.h:468-472 | a signed `char` value and a byte denote the same character exactly when the value is the byte's signed reading |
| Thompson.CharOpsWritten | src/lexer/regex.c:328-345 | reading a bracket body character by character mentions exactly the characters listed |
| Thompson.RangeOpsWritten | src/lexer/greedy_regex.h:472-476 | a span `a-z` mentions exactly the bytes whose signed value lies from a to z |
| Thompson.ItemOpsWritten | src/lexer/greedy_regex.h:464-485 | a bracket body mentions exactly the bytes covered by one of its items |
| Thompson.ClassLabels | src/lexer/greedy_regex.h:456-487 | a class labels a byte exactly when the byte is in the class, flipped by a leading `^` |
| Thompson.ClassFailure | src/lexer/greedy_regex.h:466-471 | the newer class expansion fails exactly when a span runs backwards, and the older one never fails |
| Thompson.BackwardSpan | src/lexer/greedy_regex.h:470-471 | a span whose end is below its start stops the construction with the assertion |
| Thompson.PlainItems | src/lexer/greedy_regex.h:478-484 | a bracket body without `-` is read as single characters, the same as character by character |
| Thompson.FrontsAgree | src/lexer/regex.c:328-345 | without `-` in the body, both front ends build the same class |
| Thompson.AtomLabels | src/lexer/greedy_regex.h:441-487 | a one-character, escaped or class atom adds one labelled step b to b+1, labelled exactly with the bytes the atom matches, and no epsilon edges |
| Thompson.EscapeBytes | src/lexer/greedy_regex.h:444-453 | `\n`, `\r` and `\t` denote newline, carriage return and tab, and any other escaped character denotes itself |
| Thompson.EmptyParse | src/lexer/greedy_regex.h:226-252 | an empty pattern has no alternatives, so parsing it adds nothing and ends at the start state |
| Thompson.GreedyRootPlain | src/lexer/greedy_regex.h:269-295 | in the newer front end a root alternative not starting with `^` is built exactly as a non-root one |
| GreedyRegex.From | src/lexer/greedy_regex.h:105-119 | a pattern is accepted exactly when it is non-empty (an empty one reads before its buffer); it is kept uncompiled, left-rooted exactly when it starts with `^` and right-rooted exactly when it ends with `$` |
| GreedyRegex.AddEvery | src/lexer/greedy_regex.h:493-498 | adding a transition for every byte from i on adds exactly those labelled edges between the two states and changes nothing else; it fails only when a state is past the transition sets' capacity |
| GreedyRegex.Step | src/lexer/nfa_optimized.h:127-160 | one construction edit applies whenever its states fit, keeps the begin and accept states, and keeps the automaton well formed |
| GreedyRegex.StepEdges | src/lexer/nfa_optimized.h:127-160 | after one edit, a labelled edge it names is present exactly when the edit adds it, every other edge is unchanged, and the epsilon edges gain exactly the edit's edge |
| GreedyRegex.DelStep | src/lexer/nfa_optimized.h:152-160 | removing a labelled edge removes exactly that edge and leaves all others and the epsilon edges as they were |
| GreedyRegex.Apply | src/lexer/greedy_regex.h:162-167 | replaying the construction's edits succeeds when all states fit and keeps the begin and accept states and well-formedness |
| GreedyRegex.ApplyEdges | src/lexer/greedy_regex.h:162-167 | after replaying the edits, a labelled edge is present exactly when the last edit naming it added it (or none named it and it was there before), and the epsilon edges are the old ones plus those the edits add |
| GreedyRegex.Build | src/lexer/greedy_regex.h:153-167 | a built automaton is well formed |
| GreedyRegex.BuildEdges | src/lexer/greedy_regex.h:153-167 | the built automaton begins at state 0, accepts exactly the end state the parse returns, and its edges are exactly the parse's labelled and epsilon edges |
| GreedyRegex.LabelledWritten | src/lexer/nfa_optimized.h:127-160 | an edge can only be present after the edits if some edit names it |
| GreedyRegex.Compile | src/lexer/greedy_regex.h:153-187 | compiling succeeds exactly when both the forward and the backward automata build, and stores both |
| GreedyRegex.Reverse | src/lexer/greedy_regex.h:610-613 | the reversed string has the same length and holds the k-th character from the end at position k |
| GreedyRegex.ReversedTail | src/lexer/greedy_regex.h:622-626 | the last m characters of the reversed input are the reversed first m characters of the input |
| GreedyRegex.Run | src/lexer/greedy_regex.h:605-640 | running an uncompiled regex asserts; with no forward match it rejects; otherwise it asserts exactly when the backward scan of the reversed prefix finds nothing, and accepts exactly when it finds something and the roots hold (left bound 0 for `^`, right bound at the end for `$`) |
| GreedyRegex.UnrootedRun | src/lexer/greedy_regex.h:615-639 | an unrooted regex accepts exactly when the forward scan finds a match |
| GreedyRegex.MatchesAsWritten | src/lexer/greedy_regex.h:656-677 | the loop as written from an offset fails only on the backward-scan assertion or by never ending (a forward match of length 0) |
| GreedyRegex.WrittenEndsIncrease | src/lexer/greedy_regex.h:656-677 | the right ends of the matches the loop records lie past the offset and strictly increase |
| GreedyRegex.OverlappingMatches | src/lexer/greedy_regex.h:665-676 | with scans that take two characters when they can, the loop as written reports `Match(0, 2)` and `Match(1, 2)` on "bbb", that is `[0, 2)` and `[1, 3)`: the second match begins inside the first |
| GreedyRegex.WrittenDone | src/lexer/greedy_regex.h:657 | at the end of the input the loop records nothing |
| GreedyRegex.WrittenStep | src/lexer/greedy_regex.h:658-676 | a non-empty forward match records `[right - backward, right)` and continues from the right end |
| GreedyRegex.EmptyMatchLoops | src/lexer/greedy_regex.h:656-677 | when the forward scan matches the empty prefix, the offset never advances and the loop never ends |
| GreedyRegex.Matches | src/lexer/greedy_regex.h:642-682 | the corrected search only fails on the backward-scan assertion |
| GreedyRegex.MatchesOrdered | src/lexer/greedy_regex.h:656-677 | the corrected matches lie within the input after the offset, and each begins at or after the end of the one before |
| GreedyRegex.MatchesFirst | src/lexer/greedy_regex.h:657-664 | there are no matches exactly when the offset is at the end or the forward scan finds nothing, and the first match ends where the forward scan says |
| GreedyRegex.MatchesChain | src/lexer/greedy_regex.h:656-677 | each following match ends where the forward scan from the previous end says |
| GreedyRegex.MatchesShort | src/lexer/greedy_regex.h:657-664 | without a non-empty forward match the search returns nothing or the single empty match at the offset |
| GreedyRegex.EmptyMatch | src/lexer/greedy_regex.h:663-676 | an empty forward match at the offset is recorded once and ends the search |
| GreedyRegex.MatchesUnfold | src/lexer/greedy_regex.h:663-676 | a non-empty forward match yields a first match ending at the right bound, followed by the search from that bound |
| GreedyRegex.MatchesStop | src/lexer/greedy_regex.h:656-677 | the search ends only where the input is used up or the forward scan finds nothing or only the empty match |
| GreedyRegex.FindAllAsWritten | src/lexer/greedy_regex.h:642-682 | finding matches without compiling asserts; otherwise the loop as written fails only on the backward-scan assertion or by never ending, and the right ends it records lie in the input and strictly increase |
| GreedyRegex.FindAll | src/lexer/greedy_regex.h:642-682 | the intended search: without compiling it asserts; the matches found lie within the input and do not overlap, in order |
| GreedyRegex.AgreeWhenDisjoint | src/lexer/greedy_regex.h:656-677 | where the loop as written succeeds with matches that start at or after the offset and do not overlap, the corrected loop returns the same matches |
| GreedyRegex.FindAllAgrees | src/lexer/greedy_regex.h:642-682 | for a compiled regex whose search as written succeeds, the intended search returns the same matches exactly when they do not overlap |
| ClassicRegex.Codes | src/lexer/regex.c:414-425 | the DFA reads one byte per character of the input, in order |
| ClassicRegex.From | src/lexer/regex.c:23-33 | a new regex keeps its pattern and is not compiled |
| ClassicRegex.Compile | src/lexer/regex.c:65-81 | compiling succeeds exactly when the classic parse builds and its start state received an edge (otherwise the subset construction fails in the lookup of the start state, as `Nfa.BeginMissFault` says); the result is locked and accepts exactly what the NFA, with its any-byte edges expanded over all 256 bytes, accepts |
| ClassicRegex.EmptyPatternDerefsNull | src/lexer/regex.c:65-81 | the empty pattern parses to no edits, so no state is recorded, the start state is missing, and compiling dereferences NULL in the lookup of its ε-reachable set |
| ClassicRegex.Run | src/lexer/regex.c:414-425 | running fails with an assertion exactly when the regex is not compiled, and otherwise accepts exactly when the DFA accepts the whole input |
| ClassicRegex.Mid | src/lexer/regex.c:476 | the i-th cut point is `lo + (i+1)(hi-lo)/k`, the weighted mean the source computes |
| ClassicRegex.MidBounds | src/lexer/regex.c:473-479 | each cut point lies in `[lo, hi]`, strictly inside when there are at least k positions |
| ClassicRegex.MidOrder | src/lexer/regex.c:473-479 | cut points never decrease, and strictly increase when there are at least k positions |
| ClassicRegex.GetMids | src/lexer/regex.c:473-479 | `_regex_get_mids` returns k-1 cut points within the interval, in order, strictly inside and strictly increasing when the interval has at least k positions |
| ClassicRegex.Parts | src/lexer/regex.c:491 | the number of parts is at least 2, at most the width for widths of 2 or more, and otherwise the number of whole chunks in the width |
| ClassicRegex.FirstAccepted | src/lexer/regex.c:488-504 | the reference first accepted prefix end: accepted, and no earlier end is; none when no end is accepted |
| ClassicRegex.LastAccepted | src/lexer/regex.c:508-517 | the reference last start: if any start in range is accepted this one is, and no later one is |
| ClassicRegex.Leftmost | src/lexer/regex.c:481-523 | the reference left-most match begins at or after start, is non-empty and ends before end |
| ClassicRegex.Narrow | src/lexer/regex.c:490-503 | one round of the right-bound search keeps the prefix up to left rejected and up to right accepted, and strictly narrows the interval |
| ClassicRegex.RightBound | src/lexer/regex.c:488-504 | the right-bound search stops with left and right adjacent, the prefix up to left rejected and the one up to right accepted or at the end |
| ClassicRegex.LastStart | src/lexer/regex.c:508-517 | the backward scan from the right bound returns the last start whose slice up to the right end is accepted |
| ClassicRegex.LeftmostMatch | src/lexer/regex.c:481-523 | the chunked search returns a non-empty match that ends at the shortest accepted prefix and begins at the last accepted start, or nothing when the prefix up to the end is rejected; for an unrooted pattern this is the reference left-most match |
| ClassicRegex.FoundLeftmost | src/lexer/regex.c:504-523 | once the right bound is found and not at the end, the match built from it is the reference left-most match |
| ClassicRegex.LinearIsLeftmost | src/lexer/regex.c:428-462 | the match built from the first accepted end and the last accepted start is the reference left-most match |
| ClassicRegex.NoMatch | src/lexer/regex.c:506 | when the whole prefix up to the end is rejected there is no left-most match |
| ClassicRegex.FirstMatchEnd | src/lexer/regex.c:488-506 | the shortest accepted prefix end is the reference first accepted end |
| ClassicRegex.NarrowLeft | src/lexer/regex.c:553-566 | one round of the left-bound search keeps the slice from left accepted and from right rejected, and strictly narrows the interval |
| ClassicRegex.LeftBound | src/lexer/regex.c:551-567 | the left-bound search returns a start whose slice is accepted and whose next start's slice is rejected |
| ClassicRegex.LastStartIs | src/lexer/regex.c:551-571 | when accepted slices only grow leftwards, that start is the reference last accepted start |
| ClassicRegex.LeftmostMatchFull | src/lexer/regex.c:525-573 | the two-way binary search returns a non-empty match ending at the shortest accepted prefix, or nothing; with acceptance monotone in both directions it is the reference left-most match |
| ClassicRegex.FullIsLeftmost | src/lexer/regex.c:547-573 | the match built from both bounds is the reference left-most match |
| ClassicRegex.Advance | src/lexer/regex.c:584-589 | the next search starts one past the current begin; its match begins later and is non-empty, and the matches found so far plus those still to come are unchanged |
| ClassicRegex.FindAll | src/lexer/regex.c:576-600 | finding matches fails exactly when the regex is not compiled; the matches are non-empty, inside the input, with strictly increasing begins, and for an unrooted pattern they are the reference sequence of left-most matches |
| ClassicRegex.Predicted | src/lexer/regex.c:618-621 | the predicted chunk size is at most `SEARCH_CHUNK_SIZE`, equals it until three intervals are collected, and is at least 1 while the intervals sum to at least their count |
| ClassicRegex.AdvanceAdaptive | src/lexer/regex.c:618-626 | with the predicted chunk size the next match is still non-empty and later and the remaining matches are unchanged; one interval is counted and the sum stays at least the count |
| ClassicRegex.FindAllAdaptive | src/lexer/regex.c:602-638 | the adaptive loop returns the same reference matches as the plain one |
| CText.Checked | evaluators/lisp/lisp.c:415-452 | a result is kept exactly when it fits a 32-bit `int`, and is otherwise undefined behaviour |
| CText.TruncDivMeaning | evaluators/arithmetic/calculator.c:82 | C's `/` on `int` truncates toward zero: the remainder is smaller than the divisor, carries the dividend's sign, and the quotient is no larger than the dividend in magnitude |
| CText.SkipSpaces | evaluators/arithmetic/calculator.c:134 | `atoi` skips exactly the leading white space |
| CText.DigitsEnd | evaluators/arithmetic/calculator.c:134 | `atoi` reads exactly the longest run of digits |
| CText.Decimal | evaluators/lisp/lisp.c:249 | a number's decimal text is non-empty digits without a leading zero |
| CText.DecimalValue | evaluators/lisp/lisp.c:249 | reading a number's decimal text gives the number back |
| CText.AtoiDecimal | evaluators/lisp/lisp.c:249 | `atoi` on the decimal text of an `int`, with or without a minus sign, gives that value back |
| CText.Spaces | evaluators/lisp/lisp.c:283-285 | the padding is k blanks |
| CText.AddPrePostBuffer | evaluators/lisp/lisp.c:280-294 | the padded copy is k blanks, the input unchanged, then k blanks |
| CText.PaddingRoundTrip | evaluators/lisp/lisp.c:280-294 | a padded copy is exactly blanks + input + blanks, and stripping k characters from each end gives the input back |
| Grammar.AgreeFrom | src/parser/parser.h:95-99 | the name scan succeeds exactly when the names agree on every position from i up to the shorter length |
| Grammar.TerminalEquals | src/parser/parser.h:92-101 | two terminals compare equal exactly when their kinds and names are equal |
| Grammar.TerminalEqualsEquivalence | src/parser/parser.h:92-101 | terminal equality is reflexive and symmetric |
| Grammar.FirstDifference | src/parser/parser.h:83-86 | the scan stops at the first position where the right-hand sides differ, or at the bound, and they agree before it |
| Grammar.LeftmostDifference | src/parser/parser.h:79-90 | the left-most difference is `SIZE_MAX` or at most the shorter right-hand side's length (its meaning is stated by Grammar.LeftmostDifferenceMeaning) |
| Grammar.LeftmostDifferenceMeaning | src/parser/parser.h:79-90 | rules with different heads differ at 0; otherwise the index is the length of the common prefix, where the sides differ or one ends, and it is `SIZE_MAX` exactly when the rules are identical |
| Grammar.LeftmostDifferenceSymmetric | src/parser/parser.h:79-90 | the left-most difference of two rules does not depend on their order |
| Grammar.FirstDifferenceSymmetric | src/parser/parser.h:83-86 | the first difference of two sequences does not depend on their order |
| Grammar.AddRule | src/parser/parser.h:59-61 | adding a rule appends it after the existing rules and keeps them unchanged |
| Grammar.MinAgainstLater | src/parser/parser.h:68-74 | the inner loop's minimum is at most its start, bounds the difference to every later rule, and is either its start or one of those differences |
| Grammar.OuterStep | src/parser/parser.h:66-75 | after rule i the running minimum bounds every pair before i+1 and is still attained by some pair or `SIZE_MAX` |
| Grammar.FindMinimumLookahead | src/parser/parser.h:63-76 | the minimum look-ahead is the least left-most difference over all pairs of rules, and `SIZE_MAX` when there are fewer than two rules |
| Lisp.SegEq | evaluators/lisp/lisp.c:335-345 | two segments compare equal exactly when their contents are equal |
| Lisp.SegHash | evaluators/lisp/lisp.c:321-333 | byte j of the hash is the exclusive-or of every input byte at a position congruent to j modulo 8 |
| Lisp.LaneStep | evaluators/lisp/lisp.c:326-330 | one more input byte changes only the hash byte its position selects, by exclusive-or |
| Lisp.VisibleInnermost | evaluators/lisp/lisp.c:301-311 | an identifier bound in frame i and in no later frame is seen with frame i's value |
| Lisp.VisibleUnbound | evaluators/lisp/lisp.c:301-316 | an identifier bound in no frame is not seen |
| Lisp.ResolveIdentifier | evaluators/lisp/lisp.c:296-319 | resolution returns the value in the innermost frame that binds the identifier, and the identifier itself when none does |
| Lisp.PushFrame | evaluators/lisp/lisp.c:347-352 | pushing adds one empty frame on top and leaves the others unchanged |
| Lisp.PopFrame | evaluators/lisp/lisp.c:354-358 | popping fails with the assertion exactly when there are no frames, and otherwise removes exactly the top frame |
| Lisp.ExtendEnv | evaluators/lisp/lisp.c:360-367 | binding fails exactly when the warning is on and the value is an identifier, or there is no frame; otherwise only the top frame changes, gaining the binding |
| Lisp.ExtendThenResolve | evaluators/lisp/lisp.c:296-367 | after binding an identifier it resolves to the new value, and every other identifier resolves as before |
| Lisp.PushPop | evaluators/lisp/lisp.c:347-358 | pushing a frame changes no visible binding, and popping it gives back the environment |
| Lisp.ExtendAllKeepsBelow | evaluators/lisp/lisp.c:360-367 | a run of bindings changes only the top frame |
| Lisp.PushBindPop | evaluators/lisp/lisp.c:505-510 | a `let` that pushes a frame, binds, and pops leaves the environment as it was |
| Lisp.Compare | evaluators/lisp/lisp.c:453-499 | a comparison yields 0 or 1, and 0 whenever either side is not a number |
| Lisp.CompareLaws | evaluators/lisp/lisp.c:453-499 | `=` is symmetric, `<`/`>` and `<=`/`>=` are mirror images, on numbers `<=` is the negation of `>` and the disjunction of `<` and `=`, and a non-number makes every comparison 0 |
| Lisp.Step | evaluators/lisp/lisp.c:380-395 | a non-number argument stops with the assertion; `+`, `-`, `*` give the exact result when it fits an `int` and undefined behaviour otherwise, and dividing by 0 is undefined |
| Lisp.FoldMeaning | evaluators/lisp/lisp.c:415-452 | a successful fold saw only numbers; `+` adds their sum, `-` subtracts it, `*` multiplies by their product, and `/` never grows the magnitude |
| Lisp.FoldNonNumber | evaluators/lisp/lisp.c:385-389 | an argument that is not a number makes the fold fail |
| Lisp.AndValues | evaluators/lisp/lisp.c:634-651 | `and` of evaluated arguments is 0 exactly when one of them is the number 0, and 1 otherwise |
| Lisp.OrValues | evaluators/lisp/lisp.c:652-669 | `or` of evaluated arguments is 1 exactly when one of them is truthy, and 0 otherwise |
| Lisp.AndOrDuals | evaluators/lisp/lisp.c:634-711 | `and` is 1 exactly when every argument is truthy, and `or` is 0 exactly when none is |
| Lisp.EvalAtom | evaluators/lisp/lisp.c:241-264 | a token starting with a digit evaluates to its `atoi` value (undefined when that overflows); otherwise the older evaluator yields the identifier itself and the current one resolves it |
| Lisp.Eval | test/lisp.c:135-186 | in the older evaluator every successful evaluation yields a number or an identifier, never a string |
| Lisp.Call | evaluators/lisp/lisp.c:402-412 | calling a number or a string fails; in the older evaluator a call yields only numbers and identifiers |
| Lisp.Builtin | evaluators/lisp/lisp.c:413-674 | arithmetic and comparison built-ins yield numbers; `and` and `or` yield the number 0 or 1, which for `(and)` and `(or)` with no arguments is the corrected tag (Lisp.AndAsWritten); the older evaluator yields only numbers and identifiers |
| Lisp.ArithLoop | evaluators/lisp/lisp.c:380-395 | the argument loop of an arithmetic built-in yields a number (its fold is stated by Lisp.ArithLoopFolds) |
| Lisp.AndLoop | evaluators/lisp/lisp.c:634-651 | the `and` loop yields the number 0 or 1; with no arguments the tag NUMBER is the corrected one (Lisp.AndAsWritten) |
| Lisp.OrLoop | evaluators/lisp/lisp.c:652-669 | the `or` loop yields the number 0 or 1; with no arguments the tag NUMBER is the corrected one (Lisp.OrAsWritten) |
| Lisp.PrognLoop | evaluators/lisp/lisp.c:213-223 | `progn` yields the value of its last argument |
| Lisp.EvalAll | evaluators/lisp/lisp.c:380-395 | evaluating the arguments from k on yields one value per argument, each the value of that argument |
| Lisp.ArithLoopFolds | evaluators/lisp/lisp.c:380-452 | the argument loop of an arithmetic built-in computes the fold of the evaluated arguments |
| Lisp.LogicLoopsAgree | evaluators/lisp/lisp.c:634-669 | when every argument evaluates, the `and` and `or` loops give the values of `and` and `or` on the evaluated arguments |
| Lisp.AndShortCircuit | evaluators/lisp/lisp.c:639-644 | `and` returns 0 at the first argument that is the number 0, without evaluating later ones |
| Lisp.AndPasses | evaluators/lisp/lisp.c:639-647 | an argument other than the number 0 lets `and` go on to the next one |
| Lisp.OrShortCircuit | evaluators/lisp/lisp.c:657-662 | `or` returns 1 at the first truthy argument, without evaluating later ones |
| Lisp.OrPasses | evaluators/lisp/lisp.c:657-665 | a falsy argument lets `or` go on to the next one |
| Lisp.IfChooses | evaluators/lisp/lisp.c:545-555 | `if` evaluates the then-branch when the condition is truthy and the else-branch otherwise; the branch not taken does not affect the result |
| Lisp.AndAsWritten | evaluators/lisp/lisp.c:634-651 | with arguments the result is a number; with none its tag is whatever was left in the uninitialised return value |
| Lisp.OrAsWritten | evaluators/lisp/lisp.c:652-669 | the same for `or`, with value 0 |
| Lisp.EmptyLogicUntagged | evaluators/lisp/lisp.c:635-650 | `(and)` or `(or)` can return a value not tagged as a number |
| Lisp.EmptyLogicTagged | evaluators/lisp/lisp.c:634-669 | the corrected `and` and `or` with no arguments return the numbers 1 and 0, and always return numbers |
| LispOld.WordBytes | test/lisp.c:218 | a 64-bit word is read as eight bytes |
| LispOld.AddressHash | test/lisp.c:216-227 | the older hash reads `length` bytes of the segment struct itself, which stays inside the struct exactly when the segment has at most 16 characters |
| LispOld.FirstLane | test/lisp.c:218-223 | the first byte of the older hash of a one-character segment is the low byte of the segment's address, not its character |
| LispOld.Count | test/lisp.c:208 | `map_count` fails exactly when the key cannot be hashed, and otherwise finds the key exactly when some entry has the same hash and equal contents |
| LispOld.Find | test/lisp.c:208-209 | `map_at` finds a value exactly when some entry has the same hash and equal contents |
| LispOld.Without | src/util/map.h:121-130 | removing a key's old entry leaves only entries that do not match it, all taken from the frame |
| LispOld.Insert | test/lisp.c:252-254 | inserting fails exactly when the key cannot be hashed, and otherwise the key then finds the new value, stored last |
| LispOld.FindAfterWithout | src/util/map.h:121-130 | an entry added after every old match is removed is the one found |
| LispOld.Resolve | test/lisp.c:204-214 | resolution from the top frame stops with the assertion when no frame holds the identifier, and otherwise returns the value in the innermost frame that holds it |
| LispOld.ResolveFrom | test/lisp.c:204-214 | resolution stops with the assertion when no frame holds the identifier, and otherwise returns the value in the innermost frame that holds it |
| LispOld.PushFrame | test/lisp.c:238-244 | pushing adds one empty frame on top |
| LispOld.PopFrame | test/lisp.c:246-250 | popping an empty stack reads past the vector before the assertion, and otherwise removes the top frame |
| LispOld.ExtendEnv | test/lisp.c:252-254 | binding with no frame reads past the vector, and otherwise changes only the top frame |
| LispOld.PushPop | test/lisp.c:238-250 | popping a pushed frame gives back the stack |
| LispOld.BindThenResolve | test/lisp.c:204-254 | after binding in a fresh frame, an identifier resolves to the value exactly when its hash and contents match the bound segment's, and otherwise stops with the assertion |
| LispOld.AddressHashMisses | test/lisp.c:216-227 | binding `x` at one address and asking for `x` at another stops with "Invalid identifier", although the names are equal |
| LispOld.ContentHashFinds | evaluators/lisp/lisp.c:321-333 | with the content hash, asking for the same name at any address finds the bound value |
| LispOld.EarlyIdentifierConditionTruthy | test/lisp.c:160-177 | in the older evaluator a non-numeric condition of `if` is an unresolved identifier, so `if` always takes the then-branch |
| Calculator.NumToInt | evaluators/arithmetic/calculator.c:129-135 | a token of 20 or more characters overruns the 20-byte buffer; a shorter one is read by `atoi` |
| Calculator.RepeatMul | evaluators/arithmetic/calculator.c:98-103 | the power loop fails only by an `int` overflow, and only when it runs at least one step (its value is stated by Calculator.RepeatMulMeaning) |
| Calculator.EvalExpr | evaluators/arithmetic/calculator.c:60-72 | `expr` fails only by undefined behaviour or by overrunning a token buffer (its value is stated by Calculator.EvalExprSound) |
| Calculator.EvalTerm | evaluators/arithmetic/calculator.c:74-86 | the same for `term` |
| Calculator.EvalFactor | evaluators/arithmetic/calculator.c:91-111 | the same for `factor` |
| Calculator.RepeatMulMeaning | evaluators/arithmetic/calculator.c:98-103 | the power loop, when no step overflows, multiplies by the base once per remaining step: `ret * base^(pow - times)`, and 1 for exponents up to 0 |
| Calculator.RepeatMulInRange | evaluators/arithmetic/calculator.c:98-103 | every value the power loop yields fits an `int` |
| Calculator.EvalExprSound | evaluators/arithmetic/calculator.c:60-72 | whenever `expr` evaluates without undefined behaviour, its value is the integer the expression denotes, with `/` rounding toward zero |
| Calculator.EvalTermSound | evaluators/arithmetic/calculator.c:74-86 | the same for `term` |
| Calculator.EvalFactorSound | evaluators/arithmetic/calculator.c:91-111 | the same for `factor`: a number, a power, or a parenthesised expression |
| Calculator.EvalInRange | evaluators/arithmetic/calculator.c:60-72 | a value `expr` computes fits an `int` |
| Calculator.TermInRange | evaluators/arithmetic/calculator.c:74-86 | a value `term` computes fits an `int` |
| Calculator.FactorInRange | evaluators/arithmetic/calculator.c:91-111 | a value `factor` computes fits an `int` |
| Calculator.ZeroDivisorUndefined | evaluators/arithmetic/calculator.c:82 | dividing by a factor that evaluates to 0 is undefined behaviour and has no integer value |
| Harness.Split | test/integration/test_lisp.py:31 | `split("/")` gives at least one piece, none containing `/` |
| Harness.JoinSplit | test/integration/test_lisp.py:31 | joining the pieces of a split with `/` gives the path back |
| Harness.SplitJoin | test/integration/test_lisp.py:31 | splitting a join of slash-free pieces gives the pieces back |
| Harness.SplitCons | test/integration/test_lisp.py:31 | splitting `a/b` with a slash-free `a` gives `a` followed by the pieces of `b` |
| Harness.JoinAppend | test/integration/test_lisp.py:40 | joining two runs of pieces is joining each and putting a `/` between |
| Harness.LabelOfFile | test/integration/test_lisp.py:75-77 | a stored test path `dirpath/filename` is labelled with the file name |
| Harness.KeyPath | test/integration/test_lisp.py:31 | the key path of a walked directory is its pieces after the first three, none containing `/` |
| Harness.KeyPathBelow | test/integration/test_lisp.py:28-31 | the walked root `./test/integration/resources` has key path `["resources"]`, and a directory below it that name followed by its own pieces |
| Harness.Find | test/integration/test_lisp.py:35-36 | the child lookup finds the first child with the name, or reports that there is none |
| Harness.Insert | test/integration/test_lisp.py:32-40 | adding a walked directory fails with `AssertionError` exactly when its key path contains the reserved name |
| Harness.InsertLeafAt | test/integration/test_lisp.py:32-40 | after adding a directory its node holds the new file list, and every other node's list is unchanged |
| Harness.InsertChildren | test/integration/test_lisp.py:35-39 | an existing child is descended into and updated in place; a missing one is created at the end |
| Harness.InsertValid | test/integration/test_lisp.py:32-40 | adding a directory keeps child names distinct and the reserved name out of them |
| Harness.InsertKeepsOrder | test/integration/test_lisp.py:35-39 | the top-level names stay as they were, or gain the new name at the end |
| Harness.LeafPaths | test/integration/test_lisp.py:40 | a directory's file list is `dirpath/f` for each file, in walk order |
| Harness.Build | test/integration/test_lisp.py:26-40 | building the tree fails only with the modelled `AssertionError` of the reserved-name check (CPython raises `TypeError` there instead; see "## Left out") |
| Harness.BuildFails | test/integration/test_lisp.py:26-40 | building the tree fails exactly when some walked directory has the reserved name in its key path |
| Harness.BuildMeaning | test/integration/test_lisp.py:26-40 | a built tree is well formed, and each node's file list is the one the last walked directory with that key path set |
| Harness.FileLines | test/integration/test_lisp.py:48-51 | each file of a node is reported once, in order, at the same indentation |
| Harness.Report | test/integration/test_lisp.py:47-58 | the report of a node fails only with `KeyError`, and every line it prints is indented deeper than the node |
| Harness.ReportFrom | test/integration/test_lisp.py:52-58 | the same for the sub-directories from position i on |
| Harness.RunAll | test/integration/test_lisp.py:43-45 | the run fails only with `KeyError`; it prints the `resources` heading first at indentation 0, and every later line deeper |
| Harness.ReportFromHasChild | test/integration/test_lisp.py:52-58 | the report of a node includes the report of each of its sub-directories |
| Harness.FileReportedAtDepth | test/integration/test_lisp.py:47-62 | a file k levels below a node is reported at the node's indentation plus k + 1 |
| Harness.ReportFromLine | test/integration/test_lisp.py:52-58 | every line of the sub-directory part is a sub-directory heading or a line of its report |
| Harness.ReportedFileHasDepth | test/integration/test_lisp.py:47-62 | conversely, a file reported at indentation n lies exactly n - 1 levels below the node |
| Harness.RunAllReportsEveryFile | test/integration/test_lisp.py:43-58 | every file below `resources` is reported, at one more than its depth |
| Harness.LeafAtChild | test/integration/test_lisp.py:35-36 | the node at `name/q` is the node at `q` in the child called `name`, if there is one |
| Harness.Trunc | test/integration/test_lisp.py:81 | Python's `int()` on a float rounds toward zero |
| Harness.NumTests | test/integration/test_lisp.py:81 | the number of timed runs is at least `MIN_TESTS` |
| Harness.NumTestsFillsLimit | test/integration/benchmark.py:64-66 | above the minimum, the calibration run and the sample fit in the time limit and one more run would not |
| Harness.NumTestsMonotone | test/integration/test_lisp.py:79-82 | a slower calibration run never asks for more repetitions |
| Harness.RunSample | test/integration/benchmark.py:69-73 | the sample has one duration per run, in run order |
| Harness.BenchCommand | test/integration/benchmark.py:63 | the timed command is `./a.out ` followed by the test path |
| Harness.Verdict | test/integration/test_lisp.py:69-77 | a test passes exactly when both interpreters print the same standard output, and is labelled with the last piece of its path |
| Harness.VerdictTitle | test/integration/test_lisp.py:74-77 | a stored test is reported under its file name |

## Left out

- Vec: `_capacity` and `_size` are `unsigned int` (vector.h:19-20) and wrap at 2^32. The model's sizes and capacities are unbounded, so a vector that reaches 2^32 elements, or whose capacity doubles past 2^31, is not modelled.
- Vec.PopBack: requires a non-empty vector. On an empty vector the source decrements `_size` past zero, wraps it to SIZE_MAX, and every later access reads out of bounds. The model has no array memory to describe that state.
- Bitset.Erase, Bitset.Count: require an index below 128. `bitset_erase` and `bitset_count` index the word array without the bounds assertion that `bitset_insert` makes, so a larger index reads memory outside the bitset.
- Nfa.RemoveTransition, Nfa.RemoveEpsilonTransition, Nfa.RemoveAlphabetTransition and Nfa.RemoveAcceptState: require the erased state to be below 128. The erase goes through the same unchecked bitset erase, for the same reason. Inserts, by contrast, model the bitset's assertion as a failure.
- Nfa.RemoveAlphabetTransitionAsWritten: whether a missing ALL label ends in `exit(INVKEY)` or a NULL dereference is the parameter `shared`. The label map's default hash reads every byte of the label struct, and the ALL label's `val` and the struct's padding are never set, so the bucket layout is not a function of the modelled state.
- FlatDfa: the operations require targets below 64 and input bytes below 128. A cell is a signed `char` holding `(target << 1) | accept`, and the stride is 7 bits, so larger values alias other cells.
- FlatDfa.EmptyIsRejected: `flat_dfa_run` keeps accept flags on edges, so an empty word is rejected even when the begin state accepts. This is how the table encoding works, so it is stated as a lemma. FlatDfa.FromCompressedLanguage therefore speaks only of non-empty words.
- RegexSyntax.RepeatExact, RegexSyntax.RepeatRange, RegexSyntax.RepeatOpen: require numerals of at most nine digits (`FitsBuffer`). Longer numerals overrun the ten-byte buffer that `_regex_process_repeat_token` copies them into. The unbounded cases are still covered, with `size_t` wrap, by RegexSyntax.RepeatBoundsSplit and RegexSyntax.RepeatBoundsOpen.
- GreedyRegex.FindAll: this is the intended search, built on the corrected loop GreedyRegex.Matches. The loop as written is GreedyRegex.FindAllAsWritten. The two agree exactly when the matches as written do not overlap (GreedyRegex.FindAllAgrees). They differ on the inputs of GreedyRegex.OverlappingMatches and GreedyRegex.EmptyMatchLoops.
- GreedyRegex: `dfa_run_greedy` is not part of this model. It is the parameter `Longest`, which gives the end of the longest accepted prefix, and the search is proved for any such function.
- ClassicRegex.LinearIsLeftmost: `_regex_find_left_most_match_linear_scan` in src/lexer/regex.c is never called. Only its result is stated, with no step-by-step model of the scan.
- HashMap.Erase, HashMap.EraseTwice, HashMap.CheckResize, HashMap.Insert: these use the corrected list removal, so each bucket's size is read off its contents. `iter_remove` at map.h:156 goes through `node_remove`, which leaves the bucket counter unchanged for an interior match, and the code's later erases and resizes trust that counter. The as-written behaviour is the `Counted` members (HashMap.EraseCounted, HashMap.CheckResizeCounted, HashMap.InsertCounted): they agree with these members while the counters are right and fault once one is stale (HashMap.StaleCounterCrashesErase, HashMap.StaleCounterCrashesResize).
- HashMap.AllocateCounted, HashMap.MoveOne, HashMap.MoveCounted, HashMap.ResizeFrom, HashMap.InsertCounted: their own contracts state only that the bucket count is kept. What they compute is stated by HashMap.InsertCountedAgrees and HashMap.CheckResizeCountedAgrees while the counters are right, and by HashMap.StaleCounterCrashesResize when one is stale.
- MapDfa.AddTransition, MapDfa.RemoveTransition, MapDfa.AddAcceptState, MapDfa.RemoveAcceptState, Nfa.ToDfa, GreedyRegex.Compile, ClassicRegex.Compile: the DFA's `transition_map` and `accept_states` (dfa.h:127-144) are map.h maps, and these members model them by their contents with the corrected list removal, so they succeed whenever the DFA is unlocked or the begin state is recorded. As written, `map_insert` of a present key and `map_erase` go through `iter_remove` (map.h:94, map.h:156) and can leave a bucket counter stale, and a later resize or erase may then dereference NULL. nfa_to_dfa reaches this path: it inserts each accepting target set into the accept map (nfa_optimized.h:317) and inserts it again when that set is processed (nfa_optimized.h:298). The counters as written are modelled only for the map itself, by HashMap.InsertCounted and HashMap.EraseCounted, with the crash shown by HashMap.StaleCounterCrashesResize; they are not threaded through the DFA or the subset construction.
- ClassicRegex.Compile: src/lexer/regex.c does not match the NFA interface it compiles against, and the model takes the evident intent. regex.h:9 includes nfa_optimized.h, but regex.c:2 then includes nfa.h, whose lines 24-37 redefine `nfa_new`, `nfa_to_dfa` and the other NFA macros as empty (and `nfa_to_dfa` with one argument), so regex.c:67 expands to `regex->nfa = ;` and regex.c:75 passes two arguments to a one-argument macro. regex.c:63 also declares the alphabet as a `Set(char)`, where nfa_optimized.h:366 takes a `Vector(char)`. The model binds regex.c to nfa_optimized.h's conversion and takes the alphabet to be the 256 bytes that regex.c:69-71 put in the set.
- HashSet.Erase, HashSet.Insert: `iter_remove` at set.h:173 leaves a bucket counter stale in the same way, and the resize inside insert trusts that counter. The set model reads sizes off contents, as the corrected map model does, and the stale-counter behaviour is modelled only for the map.
- HashMap, HashSet: the default `key_eq` and `value_equals` compare the raw bytes of two keys, padding included. The model compares keys with Dafny's `==`, which matches the default only for key types without padding or when the caller supplies its own equality.
- HashMap, HashSet: the hash function is a parameter, because `map->hash` is a function pointer that the caller supplies. `define_set_hash` refers to names that do not exist and is left out.
- Harness.Insert, Harness.Build: the `is not` identity test at test_lisp.py:34 is modelled as string inequality, because the identity of Python string objects is outside a value model. In CPython `split` returns fresh string objects, so that assertion never fires. A directory with the reserved name then descends into the parent's file list, and the next assignment into it (line 38 or line 40) raises `TypeError` where the model reports the assertion.
- Lisp.Builtin, Lisp.AndLoop, Lisp.OrLoop: `(and)` and `(or)` with no arguments yield `Number(1)` and `Number(0)`, the corrected behaviour. lisp.c:634-669 sets the NUMBER tag only when there is an argument, so as written the result's tag is whatever the uninitialised return value held. That behaviour is Lisp.AndAsWritten, Lisp.OrAsWritten and Lisp.EmptyLogicUntagged. Lisp.Eval in the current dialect inherits the corrected case through Lisp.Builtin.
- Lisp: the `let`, `defun`, `lambda` and `funcall` built-ins are the parameter `Extern`, and so are `write`, `write-string` and `write-line`. They depend on parse-tree shapes from a parser that is not part of this model, on closure cloning through `map_clone`, and on output. Function values are not modelled.
- Lisp, LispOld: each frame is a finite map from keys to values. The generic hash map it stands for is modelled separately in HashMap.
- I/O: file reading (`ftoca`), every print helper, the token-highlighting programs and the ANSI colouring of the harness are left out.
- Memory: allocation, `free`/destroy functions and the arena allocator evaluators/lisp/arena.c are left out.
- Harness: the subprocess runs, the wall clock, the scipy t-interval and floating-point rounding are parameters or left out. Only the test tree, the visiting order, the repetition count and the verdict are modelled.
- Unseen helpers: `dfa_compress`, `map_get_list`, `map_clone`, `set_get_list`, `list_get_front` and `list_get_iterator` are not part of this model. Where their results matter, the model gives them the behaviour their callers rely on: the list and set helpers yield the stored elements, and `list_get_front` on an empty list is taken to read through the NULL first node as `list_get_first` does, so it is a NULL dereference (RegexTokens.Emit).
- Drafts: src/util/list.c, src/util/vector.c and src/lexer/dfa.c are superseded or do not compile, and so are src/lex/dfa.c, src/util/map.c, src/lexer/nfa.h and src/lexer/lexer.c. The model follows list.h, vector.h and dfa.h.
- Duplicates: test/calculator.c and test/apli_test.c repeat the calculator hooks without `^`, so the Calculator module covers them.

## Findings

| source | as written | input that shows it | evidently intended | confidence | as-written member | corrected member |
|---|---|---|---|---|---|---|
| src/util/list.h:36-38 | removing an interior node with `node_remove` unlinks it but does not decrement `_size` | remove the middle node of `[1, 2, 3]`, then `pop_front` twice: the count still says 2 after the first pop, and the second pop dereferences NULL | every removal lowers the count by one | not executed | DList.InteriorRemoveBreaksCount, DList.StaleCountCrashesPop | DList.NodeRemove |
| src/lexer/nfa_optimized.h:169-176 | `remove_alphabet_transition` guards on `tmp_transition`, the key left over from the last labelled operation, instead of the ALL label | an ALL edge 0→1 with a leftover key 'a' that state 0 lacks: returns 0 and keeps the edge | remove the ALL edge whenever it exists | not executed | Nfa.AlphabetRemovalMissed | Nfa.RemoveAlphabetTransition |
| src/lexer/greedy_regex.h:244-245 | `0 > paren_level` on a `size_t` is never true, so a `)` before its `(` is accepted | `")("`: the depth wraps to SIZE_MAX and back to 0, and the pattern is split as one group | reject any `)` that closes no open group | not executed | RegexSyntax.UnopenedParenAccepted | RegexSyntax.SplitGroupsChecked |
| test/lisp.c:216-227 | `seg_hash` hashes the bytes of the segment struct (pointer and length), not the characters | `x` bound through a token at one address and looked up through a token at another address: the lookup fails its assert | hash the characters, as evaluators/lisp/lisp.c does | not executed | LispOld.AddressHashMisses | LispOld.ContentHashFinds |
| src/lexer/greedy_regex.h:656-677 | the next search starts at the forward end, but the backward scan can reach back past the previous match | pattern `bb\|b` on `bbb` gives `[0, 2)` and then `[1, 3)` | matches that do not overlap, in increasing order | not executed | GreedyRegex.OverlappingMatches | GreedyRegex.MatchesOrdered |
| src/lexer/greedy_regex.h:656-677 | a forward match of length 0 leaves the offset unchanged, and the loop repeats forever | pattern `a*` on `b` | record the empty match and stop | not executed | GreedyRegex.EmptyMatchLoops | GreedyRegex.EmptyMatch |
| evaluators/lisp/lisp.c:635-650 | `(and)` and `(or)` with no arguments return a value whose tag was never set | `(and)` with an uninitialised tag that is not NUMBER | `(and)` is the number 1 and `(or)` is the number 0 | not executed | Lisp.EmptyLogicUntagged | Lisp.EmptyLogicTagged |
| src/util/map.h:156 | `erase` removes a match through `iter_remove`, which leaves the bucket's counter unchanged when the match is not at either end; later erases and resizes loop for that counter | keys 4, 0 and 12 in bucket 0 of four buckets, identity hash: erase 0, then insert 1 and 2; the resize moves 4 out of bucket 0, and popping 12, the last node while the counter still says 2, dereferences NULL. Erasing 0, 4 and 8 in turn from a bucket `[4, 0, 8]` faults on the third erase the same way | every erase lowers its bucket's counter | not executed | HashMap.StaleCounterCrashesErase, HashMap.StaleCounterCrashesResize | HashMap.Erase, HashMap.ErasesThreeCorrected |

=== FILE: bitset.dfy ===
/**
 The fixed-width bitset of src/util/bitset.h.

 A bitset is four `size_t` words; element `ind` is bit `ind & 31` of word
 `ind >> 5` (the chunk size is `3 + (sizeof(size_t) >> 2)` = 5 on LP64),
 so only the low 32 bits of each word are used and the elements are
 0 .. 127. Words are natural numbers below 2^32 and the C bit operators
 are written out bit by bit.
 */
module Bitset {
  import opened Wrappers

  const Words: nat := 4        // BITSET_SIZE
  const ChunkBits: nat := 32   // 1 << BITSET_CHUNK_SIZE
  const Capacity: nat := 128   // Words * ChunkBits

  /* ---------- bit arithmetic on naturals ---------- */

  function Pow2(j: nat): (p: nat)
    ensures p >= 1
  {
    if j == 0 then 1 else 2 * Pow2(j - 1)
  }

  /** Bit `j` of `w`. */
  predicate Bit(w: nat, j: nat)
  {
    if j == 0 then w % 2 == 1 else Bit(w / 2, j - 1)
  }

  datatype Gate = Or | And | AndNot | Xor
  {
    predicate Apply(x: bool, y: bool)
    {
      match this
      case Or => x || y
      case And => x && y
      case AndNot => x && !y
      case Xor => x != y
    }
  }

  /** `a | b`, `a & b`, `a & ~b` and `a ^ b` on naturals, one bit at a time. */
  function BitOp(g: Gate, a: nat, b: nat): nat
    decreases a + b
  {
    if a == 0 && b == 0 then 0
    else 2 * BitOp(g, a / 2, b / 2) + (if g.Apply(a % 2 == 1, b % 2 == 1) then 1 else 0)
  }

  lemma {:induction false} BitOpBit(g: Gate, a: nat, b: nat, j: nat)
    ensures Bit(BitOp(g, a, b), j) <==> g.Apply(Bit(a, j), Bit(b, j))
    decreases j
  {
    if a == 0 && b == 0 {
      ZeroHasNoBits(j);
    } else if j > 0 {
      BitOpBit(g, a / 2, b / 2, j - 1);
    }
  }

  lemma {:induction false} ZeroHasNoBits(j: nat)
    ensures !Bit(0, j)
  {
    if j > 0 {
      ZeroHasNoBits(j - 1);
    }
  }

  lemma {:induction false} BitOpBound(g: Gate, a: nat, b: nat, k: nat)
    requires a < Pow2(k) && b < Pow2(k)
    ensures BitOp(g, a, b) < Pow2(k)
    decreases k
  {
    if k > 0 && !(a == 0 && b == 0) {
      BitOpBound(g, a / 2, b / 2, k - 1);
    }
  }

  lemma {:induction false} BitOfPow2(j: nat, i: nat)
    ensures Bit(Pow2(j), i) <==> i == j
    decreases j
  {
    if j == 0 {
      if i > 0 {
        ZeroHasNoBits(i - 1);
      }
    } else if i > 0 {
      BitOfPow2(j - 1, i - 1);
    }
  }

  lemma {:induction false} NoBitsAbove(w: nat, k: nat, j: nat)
    requires w < Pow2(k) && j >= k
    ensures !Bit(w, j)
    decreases k
  {
    if k == 0 {
      ZeroHasNoBits(j);
    } else {
      NoBitsAbove(w / 2, k - 1, j - 1);
    }
  }

  /** Two words below 2^k with the same low k bits are equal. */
  lemma {:induction false} BitsDetermineWord(a: nat, b: nat, k: nat)
    requires a < Pow2(k) && b < Pow2(k)
    requires forall j :: 0 <= j < k ==> (Bit(a, j) <==> Bit(b, j))
    ensures a == b
    decreases k
  {
    if k > 0 {
      assert Bit(a, 0) <==> Bit(b, 0);
      forall j | 0 <= j < k - 1
        ensures Bit(a / 2, j) <==> Bit(b / 2, j)
      {
        assert Bit(a, j + 1) <==> Bit(b, j + 1);
      }
      BitsDetermineWord(a / 2, b / 2, k - 1);
    }
  }

  /* ---------- population count ---------- */

  function Pop(w: nat): nat
  {
    if w == 0 then 0 else w % 2 + Pop(w / 2)
  }

  /** `n &= n - 1` clears exactly one set bit. */
  lemma {:induction false} ClearLowestBit(n: nat)
    requires n > 0
    ensures BitOp(And, n, n - 1) < n
    ensures Pop(BitOp(And, n, n - 1)) + 1 == Pop(n)
  {
    if n % 2 == 1 {
      AndSelf(n / 2);
      assert BitOp(And, n, n - 1) == 2 * BitOp(And, n / 2, (n - 1) / 2);
      assert BitOp(And, n, n - 1) == n - 1;
      PopDouble(n / 2);
    } else {
      ClearLowestBit(n / 2);
      assert (n - 1) / 2 == n / 2 - 1;
      assert BitOp(And, n, n - 1) == 2 * BitOp(And, n / 2, n / 2 - 1);
      PopDouble(BitOp(And, n / 2, n / 2 - 1));
      PopDouble(n / 2);
    }
  }

  lemma {:induction false} AndSelf(x: nat)
    ensures BitOp(And, x, x) == x
  {
    if x > 0 {
      AndSelf(x / 2);
    }
  }

  lemma PopDouble(x: nat)
    ensures Pop(2 * x) == Pop(x)
  {
  }

  /* ---------- the bitset ---------- */

  datatype Bitset = Bitset(words: seq<nat>)

  ghost predicate Valid(bs: Bitset)
  {
    |bs.words| == Words && forall i :: 0 <= i < |bs.words| ==> bs.words[i] < Pow2(ChunkBits)
  }

  /** Element `ind` is present: bit `ind & 31` of word `ind >> 5`. */
  predicate Has(bs: Bitset, ind: nat)
  {
    ind / ChunkBits < |bs.words| && Bit(bs.words[ind / ChunkBits], ind % ChunkBits)
  }

  ghost function Members(bs: Bitset): set<nat>
  {
    set ind | 0 <= ind < ChunkBits * |bs.words| && Has(bs, ind)
  }

  /** `bitset_new`: four zero words. */
  function New(): (bs: Bitset)
    ensures Valid(bs) && Members(bs) == {}
  {
    forall ind: nat ensures !Has(Bitset([0, 0, 0, 0]), ind) {
      ZeroHasNoBits(ind % ChunkBits);
    }
    Bitset([0, 0, 0, 0])
  }

  /** `insert`: asserts `ind >> 5 < 4`, then sets the bit. */
  function Insert(bs: Bitset, ind: nat): (r: Result<Bitset, Fault>)
    requires Valid(bs)
    ensures ind >= Capacity <==> r == Failure(AssertFailed)
    ensures r.Success? ==> Valid(r.value) && Members(r.value) == Members(bs) + {ind}
  {
    if ind / ChunkBits >= Words then Failure(AssertFailed)
    else
      var w := ind / ChunkBits;
      var r := Bitset(bs.words[w := BitOp(Or, bs.words[w], Pow2(ind % ChunkBits))]);
      SetBitPreserves(bs, ind, Or);
      Success(r)
  }

  /** `erase`: clears the bit and returns whether it was set. */
  function Erase(bs: Bitset, ind: nat): (res: (Bitset, nat))
    requires Valid(bs) && ind < Capacity
    ensures Valid(res.0)
    ensures res.1 == 1 <==> ind in Members(bs)
    ensures res.1 == 0 <==> ind !in Members(bs)
    ensures Members(res.0) == Members(bs) - {ind}
  {
    var w := ind / ChunkBits;
    var n := bs.words[w];
    SetBitPreserves(bs, ind, AndNot);
    BitOpBit(And, n, Pow2(ind % ChunkBits), ind % ChunkBits);
    BitOfPow2(ind % ChunkBits, ind % ChunkBits);
    (Bitset(bs.words[w := BitOp(AndNot, n, Pow2(ind % ChunkBits))]),
     if Bit(BitOp(And, n, Pow2(ind % ChunkBits)), ind % ChunkBits) then 1 else 0)
  }

  /** `count`: 1 exactly when the bit is set. */
  function Count(bs: Bitset, ind: nat): (r: nat)
    requires Valid(bs) && ind < Capacity
    ensures r == 1 <==> ind in Members(bs)
    ensures r == 0 <==> ind !in Members(bs)
  {
    var n := bs.words[ind / ChunkBits];
    BitOpBit(And, n, Pow2(ind % ChunkBits), ind % ChunkBits);
    BitOfPow2(ind % ChunkBits, ind % ChunkBits);
    if Bit(BitOp(And, n, Pow2(ind % ChunkBits)), ind % ChunkBits) then 1 else 0
  }

  /** Setting (`|`) or clearing (`& ~`) one bit changes exactly that element. */
  lemma SetBitPreserves(bs: Bitset, ind: nat, g: Gate)
    requires Valid(bs) && ind < Capacity && (g == Or || g == AndNot)
    ensures var w := ind / ChunkBits;
      var r := Bitset(bs.words[w := BitOp(g, bs.words[w], Pow2(ind % ChunkBits))]);
      && Valid(r)
      && Members(r) == (if g == Or then Members(bs) + {ind} else Members(bs) - {ind})
  {
    var w := ind / ChunkBits;
    var off := Pow2(ind % ChunkBits);
    var r := Bitset(bs.words[w := BitOp(g, bs.words[w], off)]);
    SetBitValid(bs, r, ind, g);
    SetBitMembers(bs, r, ind, g);
  }

  lemma SetBitValid(bs: Bitset, r: Bitset, ind: nat, g: Gate)
    requires Valid(bs) && ind < Capacity
    requires r == Bitset(bs.words[ind / ChunkBits := BitOp(g, bs.words[ind / ChunkBits], Pow2(ind % ChunkBits))])
    ensures Valid(r)
  {
    var w := ind / ChunkBits;
    PowBelow(ind % ChunkBits, ChunkBits);
    BitOpBound(g, bs.words[w], Pow2(ind % ChunkBits), ChunkBits);
    forall i | 0 <= i < |r.words| ensures r.words[i] < Pow2(ChunkBits) {
      if i != w {
        assert r.words[i] == bs.words[i];
      }
    }
  }

  lemma SetBitMembers(bs: Bitset, r: Bitset, ind: nat, g: Gate)
    requires Valid(bs) && ind < Capacity && (g == Or || g == AndNot)
    requires r == Bitset(bs.words[ind / ChunkBits := BitOp(g, bs.words[ind / ChunkBits], Pow2(ind % ChunkBits))])
    ensures Members(r) == (if g == Or then Members(bs) + {ind} else Members(bs) - {ind})
  {
    var target := if g == Or then Members(bs) + {ind} else Members(bs) - {ind};
    forall x ensures x in Members(r) <==> x in target {
      SetBitAt(bs, ind, g, x);
    }
  }

  /** `SetBitPreserves` for one element `x`. */
  lemma SetBitAt(bs: Bitset, ind: nat, g: Gate, x: nat)
    requires Valid(bs) && ind < Capacity && (g == Or || g == AndNot)
    ensures var w := ind / ChunkBits;
      var r := Bitset(bs.words[w := BitOp(g, bs.words[w], Pow2(ind % ChunkBits))]);
      x in Members(r) <==> (if g == Or then x in Members(bs) || x == ind else x in Members(bs) && x != ind)
  {
    var w := ind / ChunkBits;
    if x < Capacity {
      if x / ChunkBits == w {
        BitOpBit(g, bs.words[w], Pow2(ind % ChunkBits), x % ChunkBits);
        BitOfPow2(ind % ChunkBits, x % ChunkBits);
        assert x == ind <==> x % ChunkBits == ind % ChunkBits;
      } else {
        assert x != ind;
      }
    }
  }

  lemma {:induction false} PowBelow(j: nat, k: nat)
    requires j < k
    ensures Pow2(j) < Pow2(k)
    decreases k
  {
    if j < k - 1 {
      PowBelow(j, k - 1);
    }
  }

  /** `union`: ORs each word of `bs2` into `bs1`. */
  function Union(bs1: Bitset, bs2: Bitset): (r: Bitset)
    requires Valid(bs1) && Valid(bs2)
    ensures Valid(r) && Members(r) == Members(bs1) + Members(bs2)
  {
    var r := Bitset(seq(Words, i requires 0 <= i < Words => BitOp(Or, bs1.words[i], bs2.words[i])));
    forall i | 0 <= i < Words
      ensures r.words[i] < Pow2(ChunkBits)
    {
      BitOpBound(Or, bs1.words[i], bs2.words[i], ChunkBits);
    }
    forall x | 0 <= x < Capacity
      ensures Has(r, x) <==> Has(bs1, x) || Has(bs2, x)
    {
      BitOpBit(Or, bs1.words[x / ChunkBits], bs2.words[x / ChunkBits], x % ChunkBits);
    }
    r
  }

  /** `equals`: same word count and the same words. */
  function Equals(bs1: Bitset, bs2: Bitset): (r: bool)
    ensures Valid(bs1) && Valid(bs2) ==> (r <==> Members(bs1) == Members(bs2))
  {
    EqualsStep(bs1, bs2);
    |bs1.words| == |bs2.words| && forall i :: 0 <= i < |bs1.words| ==> bs1.words[i] == bs2.words[i]
  }

  lemma EqualsStep(bs1: Bitset, bs2: Bitset)
    ensures Valid(bs1) && Valid(bs2) && Members(bs1) == Members(bs2) ==> bs1.words == bs2.words
  {
    if Valid(bs1) && Valid(bs2) && Members(bs1) == Members(bs2) {
      SameMembersSameWords(bs1, bs2);
    }
  }

  lemma SameMembersSameWords(bs1: Bitset, bs2: Bitset)
    requires Valid(bs1) && Valid(bs2) && Members(bs1) == Members(bs2)
    ensures bs1.words == bs2.words
  {
    forall i | 0 <= i < Words
      ensures bs1.words[i] == bs2.words[i]
    {
      forall j | 0 <= j < ChunkBits
        ensures Bit(bs1.words[i], j) <==> Bit(bs2.words[i], j)
      {
        var x := ChunkBits * i + j;
        assert x / ChunkBits == i && x % ChunkBits == j;
        assert Has(bs1, x) <==> x in Members(bs1);
        assert Has(bs2, x) <==> x in Members(bs2);
      }
      BitsDetermineWord(bs1.words[i], bs2.words[i], ChunkBits);
    }
  }

  /** `collection_hash`: the XOR of the words. */
  function CollectionHash(bs: Bitset): nat
  {
    XorWords(bs.words)
  }

  function XorWords(words: seq<nat>): nat
  {
    if |words| == 0 then 0
    else BitOp(Xor, XorWords(words[..|words| - 1]), words[|words| - 1])
  }

  /** Bitsets that `equals` identifies get the same `collection_hash`. */
  lemma EqualsAgreesWithHash(bs1: Bitset, bs2: Bitset)
    requires Valid(bs1) && Valid(bs2) && Equals(bs1, bs2)
    ensures CollectionHash(bs1) == CollectionHash(bs2)
  {
    SameMembersSameWords(bs1, bs2);
  }

  /* ---------- element list and size ---------- */

  /** The elements base + j for the set bits j of `w`, lowest first. */
  function Elems(w: nat, base: nat): seq<nat>
    decreases w
  {
    if w == 0 then []
    else (if w % 2 == 1 then [base] else []) + Elems(w / 2, base + 1)
  }

  /** `get_element_list`: each word's elements in turn, word 0 first. */
  function ElementList(words: seq<nat>): seq<nat>
  {
    if |words| == 0 then []
    else ElementList(words[..|words| - 1]) + Elems(words[|words| - 1], ChunkBits * (|words| - 1))
  }

  ghost predicate StrictlyIncreasing(s: seq<nat>)
  {
    forall i, j :: 0 <= i < j < |s| ==> s[i] < s[j]
  }

  function SumPop(words: seq<nat>): nat
  {
    if |words| == 0 then 0 else SumPop(words[..|words| - 1]) + Pop(words[|words| - 1])
  }

  lemma {:induction false} ElemsFacts(w: nat, base: nat)
    ensures |Elems(w, base)| == Pop(w)
    ensures forall x: nat :: x in Elems(w, base) <==> x >= base && Bit(w, x - base)
    ensures StrictlyIncreasing(Elems(w, base))
    ensures forall x | x in Elems(w, base) :: x >= base
  {
    if w == 0 {
      forall x: nat
        ensures x in Elems(w, base) <==> x >= base && Bit(w, x - base)
      {
        if x >= base {
          ZeroHasNoBits(x - base);
        }
      }
    } else {
      ElemsFacts(w / 2, base + 1);
      var head: seq<nat> := if w % 2 == 1 then [base] else [];
      var rest := Elems(w / 2, base + 1);
      forall i, j | 0 <= i < j < |head + rest|
        ensures (head + rest)[i] < (head + rest)[j]
      {
        if i < |head| {
          assert (head + rest)[j] in rest;
        }
      }
      forall x: nat
        ensures x in Elems(w, base) <==> x >= base && Bit(w, x - base)
      {
        if x > base {
          assert Bit(w, x - base) == Bit(w / 2, x - (base + 1));
        }
      }
    }
  }

  lemma ElemsBelow(w: nat, base: nat)
    requires w < Pow2(ChunkBits)
    ensures forall x | x in Elems(w, base) :: x < base + ChunkBits
  {
    ElemsFacts(w, base);
    forall x | x in Elems(w, base)
      ensures x < base + ChunkBits
    {
      if x >= base + ChunkBits {
        NoBitsAbove(w, ChunkBits, x - base);
      }
    }
  }

  lemma {:induction false} ElementListFacts(words: seq<nat>)
    requires forall i :: 0 <= i < |words| ==> words[i] < Pow2(ChunkBits)
    ensures |ElementList(words)| == SumPop(words)
    ensures forall x: nat :: x in ElementList(words) <==> x < ChunkBits * |words| && Has(Bitset(words), x)
    ensures StrictlyIncreasing(ElementList(words))
  {
    if |words| > 0 {
      var m := |words| - 1;
      var front := words[..m];
      var base := ChunkBits * m;
      ElementListFacts(front);
      ElemsFacts(words[m], base);
      ElemsBelow(words[m], base);
      var l := ElementList(front);
      var e := Elems(words[m], base);
      forall x: nat
        ensures x in ElementList(words) <==> x < ChunkBits * |words| && Has(Bitset(words), x)
      {
        assert x in ElementList(words) <==> x in l || x in e;
        HasLastWord(words, x);
        if x < base {
          assert x !in e;
        } else if x < base + ChunkBits {
          assert x !in l;
        } else {
          assert x !in l && x !in e;
        }
      }
      IncreasingConcat(l, e, base);
    }
  }

  /** Elements below the last word are the front's; those in it are its bits. */
  lemma HasLastWord(words: seq<nat>, x: nat)
    requires |words| > 0
    ensures var m := |words| - 1;
      && (x < ChunkBits * m ==> (Has(Bitset(words), x) <==> Has(Bitset(words[..m]), x)))
      && (ChunkBits * m <= x < ChunkBits * m + ChunkBits ==> (Has(Bitset(words), x) <==> Bit(words[m], x - ChunkBits * m)))
  {
    var m := |words| - 1;
    if x < ChunkBits * m {
      assert x / ChunkBits < m;
    } else if x < ChunkBits * m + ChunkBits {
      assert x / ChunkBits == m && x % ChunkBits == x - ChunkBits * m;
    }
  }

  /** Two increasing runs, all of the first below `base` and all of the second at or above it. */
  lemma IncreasingConcat(l: seq<nat>, e: seq<nat>, base: nat)
    requires StrictlyIncreasing(l) && StrictlyIncreasing(e)
    requires forall x | x in l :: x < base
    requires forall x | x in e :: base <= x
    ensures StrictlyIncreasing(l + e)
  {
    forall i, j | 0 <= i < j < |l + e|
      ensures (l + e)[i] < (l + e)[j]
    {
      if i < |l| && j >= |l| {
        assert (l + e)[i] in l;
        assert (l + e)[j] in e;
      }
    }
  }

  /**
   `size`: for each word, `n &= n - 1` until zero, counting the steps.
   The count is the length of the element list.
   */
  method Size(bs: Bitset) returns (total: nat)
    requires Valid(bs)
    ensures total == |ElementList(bs.words)|
  {
    total := 0;
    var i := 0;
    while i < |bs.words|
      invariant 0 <= i <= |bs.words|
      invariant total == SumPop(bs.words[..i])
    {
      var n := bs.words[i];
      while n != 0
        invariant total + Pop(n) == SumPop(bs.words[..i]) + Pop(bs.words[i])
        decreases n
      {
        ClearLowestBit(n);
        n := BitOp(And, n, n - 1);
        total := total + 1;
      }
      assert bs.words[..i + 1][..i] == bs.words[..i];
      i := i + 1;
    }
    assert bs.words[..i] == bs.words;
    ElementListFacts(bs.words);
  }

  /** `get_element_list` lists exactly the members, in strictly ascending order. */
  lemma ElementListIsMembers(bs: Bitset)
    requires Valid(bs)
    ensures forall x: nat :: x in ElementList(bs.words) <==> x in Members(bs)
    ensures StrictlyIncreasing(ElementList(bs.words))
  {
    ElementListFacts(bs.words);
  }

  /** Hence `size` is the number of members. */
  lemma SizeIsCardinality(bs: Bitset)
    requires Valid(bs)
    ensures |ElementList(bs.words)| == |Members(bs)|
  {
    ElementListFacts(bs.words);
    var s := ElementList(bs.words);
    assert Members(bs) == Elements(s);
    DistinctCard(s);
  }

  ghost function Elements(s: seq<nat>): set<nat>
  {
    set x | x in s
  }

  lemma {:induction false} DistinctCard(s: seq<nat>)
    requires StrictlyIncreasing(s)
    ensures |Elements(s)| == |s|
  {
    if |s| > 0 {
      var t := s[1..];
      assert StrictlyIncreasing(t) by {
        forall i, j | 0 <= i < j < |t| ensures t[i] < t[j] {
          assert t[i] == s[i + 1] && t[j] == s[j + 1];
        }
      }
      DistinctCard(t);
      var st := Elements(t);
      assert Elements(s) == {s[0]} + st by {
        assert s == [s[0]] + t;
      }
      assert s[0] !in st by {
        forall k | 0 <= k < |t| ensures t[k] != s[0] {
          assert t[k] == s[k + 1];
        }
      }
      assert |{s[0]} + st| == |st| + 1;
    }
  }

  /** The unit test's scenario: inserting 2, 3, 3, 5, 7 and 11 gives five members. */
  lemma InsertedFiveHasSizeFive(xs: seq<nat>)
    requires xs == [2, 3, 3, 5, 7, 11]
    ensures var b := InsertAll(New(), xs);
      b.Success? && Members(b.value) == {2, 3, 5, 7, 11} && |ElementList(b.value.words)| == 5
  {
    InsertAllMembers(New(), xs);
    var b := InsertAll(New(), xs).value;
    FiveDistinct(xs);
    SizeIsCardinality(b);
  }

  /** The scenario's indices, with the repeated 3, form a five-element set. */
  lemma FiveDistinct(xs: seq<nat>)
    requires xs == [2, 3, 3, 5, 7, 11]
    ensures Elements(xs) == {2, 3, 5, 7, 11} && |Elements(xs)| == 5
  {
    var ys: seq<nat> := [2, 3, 5, 7, 11];
    assert Elements(xs) == Elements(ys);
    assert StrictlyIncreasing(ys);
    DistinctCard(ys);
  }

  /** Inserting the indices of `xs` one after another, the last one first. */
  function InsertAll(bs: Bitset, xs: seq<nat>): (r: Result<Bitset, Fault>)
    requires Valid(bs)
    ensures r.Success? ==> Valid(r.value)
  {
    if |xs| == 0 then Success(bs)
    else
      match InsertAll(bs, xs[1..])
      case Failure(e) => Failure(e)
      case Success(b) => Insert(b, xs[0])
  }

  lemma {:induction false} InsertAllMembers(bs: Bitset, xs: seq<nat>)
    requires Valid(bs) && forall i :: 0 <= i < |xs| ==> xs[i] < Capacity
    ensures InsertAll(bs, xs).Success?
    ensures Members(InsertAll(bs, xs).value) == Members(bs) + Elements(xs)
  {
    if |xs| > 0 {
      InsertAllMembers(bs, xs[1..]);
      assert Elements(xs) == {xs[0]} + Elements(xs[1..]);
    }
  }
}

=== FILE: calculator.dfy ===
/**
 The arithmetic calculator of evaluators/arithmetic/calculator.c: the
 `expr`, `term` and `factor` hooks over the parse tree of

   expr   := term | expr ('+' | '-') term
   term   := factor | term ('*' | '/') factor
   factor := NUMBER | '(' expr ')' | factor '^' NUMBER

 computed in C `int`. The parse tree is the datatype below; a `NUMBER`
 leaf keeps its token text.
 */
module Calculator {
  import opened Wrappers
  import CText

  /** The padding the calculator puts around its argument (`add_pre_post_buffer(argv[1], 10)`). */
  const Padding: nat := 10

  datatype Expr = Term(t: Term) | Plus(left: Expr, right: Term) | Minus(left: Expr, right: Term)
  datatype Term = Factor(f: Factor) | Times(left: Term, right: Factor) | Divide(left: Term, right: Factor)
  datatype Factor = Num(token: string) | Power(base: Factor, exponent: string) | Paren(inner: Expr)

  /**
   `NUM_to_int`: the token is copied into `char buf[20]` and terminated,
   so a token of 20 or more characters writes past the buffer; otherwise
   it is `atoi` of the token.
   */
  function NumToInt(token: string): (r: Result<int, Fault>)
    ensures |token| >= 20 ==> r == Failure(OutOfBounds)
    ensures |token| < 20 ==> r == CText.Atoi(token)
  {
    if |token| >= 20 then Failure(OutOfBounds) else CText.Atoi(token)
  }

  /** `base` to the power `p`; 1 for `p <= 0`. */
  function Pow(base: int, p: int): int
    decreases if p < 0 then 0 else p
  {
    if p <= 0 then 1 else base * Pow(base, p - 1)
  }

  /** The loop `for (times = 0; times < pow; ++times) ret *= base`, each product checked. */
  function RepeatMul(ret: int, base: int, times: int, pow: int): (r: Result<int, Fault>)
    ensures r.Failure? ==> r.error == Undefined && times < pow
    decreases if times < pow then pow - times else 0
  {
    if times >= pow then Success(ret)
    else
      var ret' :- CText.Checked(ret * base);
      RepeatMul(ret', base, times + 1, pow)
  }

  /**
   The loop multiplies `ret` by `base` once per remaining step: when it
   completes, the result is `ret * base^(pow - times)`, which is `ret`
   when `pow <= times`.
   */
  lemma {:induction false} RepeatMulMeaning(ret: int, base: int, times: int, pow: int)
    requires RepeatMul(ret, base, times, pow).Success?
    ensures RepeatMul(ret, base, times, pow).value == ret * Pow(base, pow - times)
    decreases if times < pow then pow - times else 0
  {
    if times < pow {
      RepeatMulMeaning(ret * base, base, times + 1, pow);
      assert Pow(base, pow - times) == base * Pow(base, pow - times - 1);
      assert (ret * base) * Pow(base, pow - (times + 1)) == ret * (base * Pow(base, pow - times - 1));
    }
  }

  /** `apli_function(expr)`: one child passes through; otherwise `+` for `PLUS` and `-` for `MINUS`. */
  function EvalExpr(e: Expr): (r: Result<int, Fault>)
    ensures r.Failure? ==> r.error == Undefined || r.error == OutOfBounds
  {
    match e
    case Term(t) => EvalTerm(t)
    case Plus(l, r) =>
      var a :- EvalExpr(l);
      var b :- EvalTerm(r);
      CText.Checked(a + b)
    case Minus(l, r) =>
      var a :- EvalExpr(l);
      var b :- EvalTerm(r);
      CText.Checked(a - b)
  }

  /** `apli_function(term)`: `*` for `STAR`, C's truncating `/` otherwise; a zero divisor is undefined. */
  function EvalTerm(t: Term): (r: Result<int, Fault>)
    ensures r.Failure? ==> r.error == Undefined || r.error == OutOfBounds
  {
    match t
    case Factor(f) => EvalFactor(f)
    case Times(l, r) =>
      var a :- EvalTerm(l);
      var b :- EvalFactor(r);
      CText.Checked(a * b)
    case Divide(l, r) =>
      var a :- EvalTerm(l);
      var b :- EvalFactor(r);
      if b == 0 then Failure(Undefined) else CText.Checked(CText.TruncDiv(a, b))
  }

  /** `apli_function(factor)`: a number, a power by repeated multiplication, or a parenthesised `expr`. */
  function EvalFactor(f: Factor): (r: Result<int, Fault>)
    ensures r.Failure? ==> r.error == Undefined || r.error == OutOfBounds
  {
    match f
    case Num(tok) => NumToInt(tok)
    case Power(b, tok) =>
      var base :- EvalFactor(b);
      var pow :- NumToInt(tok);
      RepeatMul(1, base, 0, pow)
    case Paren(inner) => EvalExpr(inner)
  }

  /** The value the expression denotes in unbounded integers; `None` for a division by zero. */
  function IdealExpr(e: Expr): Option<int>
  {
    match e
    case Term(t) => IdealTerm(t)
    case Plus(l, r) =>
      if IdealExpr(l).None? || IdealTerm(r).None? then None else Some(IdealExpr(l).value + IdealTerm(r).value)
    case Minus(l, r) =>
      if IdealExpr(l).None? || IdealTerm(r).None? then None else Some(IdealExpr(l).value - IdealTerm(r).value)
  }

  function IdealTerm(t: Term): Option<int>
  {
    match t
    case Factor(f) => IdealFactor(f)
    case Times(l, r) =>
      if IdealTerm(l).None? || IdealFactor(r).None? then None else Some(IdealTerm(l).value * IdealFactor(r).value)
    case Divide(l, r) =>
      if IdealTerm(l).None? || IdealFactor(r).None? || IdealFactor(r).value == 0 then None
      else Some(CText.TruncDiv(IdealTerm(l).value, IdealFactor(r).value))
  }

  function IdealFactor(f: Factor): Option<int>
  {
    match f
    case Num(tok) => if NumToInt(tok).Success? then Some(NumToInt(tok).value) else None
    case Power(b, tok) =>
      if IdealFactor(b).None? || NumToInt(tok).Failure? then None
      else Some(Pow(IdealFactor(b).value, NumToInt(tok).value))
    case Paren(inner) => IdealExpr(inner)
  }

  /**
   Whatever the calculator prints is the true value of the expression:
   when no `int` step overflows and no divisor is zero, the hooks compute
   exactly the integer the tree denotes (with `^` as a power that is 1
   for exponents up to 0, and `/` rounding toward zero).
   */
  lemma {:induction false} EvalExprSound(e: Expr)
    requires EvalExpr(e).Success?
    ensures IdealExpr(e) == Some(EvalExpr(e).value)
  {
    match e
    case Term(t) => EvalTermSound(t);
    case Plus(l, r) => EvalExprSound(l); EvalTermSound(r);
    case Minus(l, r) => EvalExprSound(l); EvalTermSound(r);
  }

  lemma {:induction false} EvalTermSound(t: Term)
    requires EvalTerm(t).Success?
    ensures IdealTerm(t) == Some(EvalTerm(t).value)
  {
    match t
    case Factor(f) => EvalFactorSound(f);
    case Times(l, r) => EvalTermSound(l); EvalFactorSound(r);
    case Divide(l, r) => EvalTermSound(l); EvalFactorSound(r);
  }

  lemma {:induction false} EvalFactorSound(f: Factor)
    requires EvalFactor(f).Success?
    ensures IdealFactor(f) == Some(EvalFactor(f).value)
  {
    match f
    case Num(_) =>
    case Power(b, tok) =>
      EvalFactorSound(b);
      var base := EvalFactor(b).value;
      var pow := NumToInt(tok).value;
      RepeatMulMeaning(1, base, 0, pow);
    case Paren(inner) => EvalExprSound(inner);
  }

  /** Every value the calculator produces fits an `int`. */
  lemma {:induction false} EvalInRange(e: Expr)
    requires EvalExpr(e).Success?
    ensures CText.InInt(EvalExpr(e).value)
  {
    match e
    case Term(t) => TermInRange(t);
    case Plus(_, _) =>
    case Minus(_, _) =>
  }

  lemma {:induction false} TermInRange(t: Term)
    requires EvalTerm(t).Success?
    ensures CText.InInt(EvalTerm(t).value)
  {
    match t
    case Factor(f) => FactorInRange(f);
    case Times(_, _) =>
    case Divide(_, _) =>
  }

  lemma {:induction false} FactorInRange(f: Factor)
    requires EvalFactor(f).Success?
    ensures CText.InInt(EvalFactor(f).value)
  {
    match f
    case Num(_) =>
    case Power(b, tok) => RepeatMulInRange(1, EvalFactor(b).value, 0, NumToInt(tok).value);
    case Paren(inner) => EvalInRange(inner);
  }

  lemma {:induction false} RepeatMulInRange(ret: int, base: int, times: int, pow: int)
    requires CText.InInt(ret) && RepeatMul(ret, base, times, pow).Success?
    ensures CText.InInt(RepeatMul(ret, base, times, pow).value)
    decreases if times < pow then pow - times else 0
  {
    if times < pow {
      RepeatMulInRange(ret * base, base, times + 1, pow);
    }
  }

  /**
   A zero divisor is never silently accepted: the quotient is undefined,
   and the expression has no value in the integers either.
   */
  lemma ZeroDivisorUndefined(l: Term, r: Factor)
    requires EvalTerm(l).Success? && EvalFactor(r) == Success(0)
    ensures EvalTerm(Divide(l, r)) == Failure(Undefined)
    ensures IdealTerm(Divide(l, r)) == None
  {
    EvalFactorSound(r);
  }
}

=== FILE: classic_regex.dfy ===
/**
 The older regex front end, src/lexer/regex.c: `_regex_from`,
 `_regex_compile`, `_regex_run`, the chunked binary search for the
 left-most match, and the two find-all loops.

 Parsing is Thompson's construction with the `Classic` front (module
 Thompson), which wraps an unrooted pattern in any-character loops; the
 DFA is the subset construction of module Nfa, locked by `dfa_to_fdfa`.
 Every question the search asks is one `call` of that DFA on a slice of
 the input.
 */
module ClassicRegex {
  import opened Wrappers
  import Thompson
  import Nfa
  import MapDfa
  import HashMap
  import GreedyRegex

  type Table = MapDfa.Fdfa<set<nat>, Byte>

  /** A regex: its pattern and, once compiled, the locked DFA. */
  datatype Regex = Regex(raw: string, compiled: Option<Table>)

  type Match = GreedyRegex.Match

  /** `SEARCH_CHUNK_SIZE` and `TOKEN_CHUNK_SIZE`. */
  const SearchChunk: nat := 1000
  const TokenChunk: nat := 15

  /** The alphabet `_regex_compile` fills: every byte value. */
  const Alphabet: seq<Byte> := seq(256, i requires 0 <= i < 256 => i)

  /** The bytes the DFA reads for a string. */
  function Codes(s: string): (w: seq<Byte>)
    ensures |w| == |s| && forall k :: 0 <= k < |s| ==> w[k] == Thompson.Code(s[k])
  {
    seq(|s|, k requires 0 <= k < |s| => Thompson.Code(s[k]))
  }

  /** One `call` of the DFA on a string answers 1. */
  ghost predicate Accepted(t: Table, w: string)
  {
    MapDfa.Accepts(t.dfa, Codes(w))
  }

  /* ---------- compiling and running ---------- */

  /** `_regex_from`: a copy of the pattern, not yet compiled. */
  function From(str: string): (r: Regex)
    ensures r.raw == str && r.compiled.None?
  {
    Regex(str, None)
  }

  /**
   `_regex_compile`: the NFA from the classic parse, with its end state
   accepting, turned into a DFA over all 256 bytes and locked. `nfa_to_dfa`
   fails when state 0 never received an edge, which is the case for the
   empty pattern; how it fails is `Nfa.BeginMissFault`.
   */
  method Compile(re: Regex) returns (r: Result<Regex, Fault>)
    ensures var b := GreedyRegex.Build(re.raw, Thompson.Classic);
      && (r.Success? <==> b.Success? && 0 in b.value.states)
      && (b.Success? && r.Failure? ==> r.error == Nfa.BeginMissFault(b.value))
      && (r.Success? ==> r.value.raw == re.raw && r.value.compiled.Some? && r.value.compiled.value.dfa.locked)
      && (r.Success? ==> forall w :: MapDfa.Accepts(r.value.compiled.value.dfa, w) <==> Nfa.Accepts(Nfa.ExpandAll(b.value, Alphabet), w))
  {
    var n :- GreedyRegex.Build(re.raw, Thompson.Classic);
    var d :- Nfa.ToDfa(n, Alphabet);
    var locked := MapDfa.ToFdfa(d);
    r := Success(Regex(re.raw, Some(locked.1)));
  }

  /**
   The empty pattern parses to no edits at all, so no state is recorded,
   state 0 is missing, and compiling dereferences NULL in the lookup of the
   begin state's ε-reachable set.
   */
  lemma EmptyPatternDerefsNull()
    ensures GreedyRegex.Build("", Thompson.Classic).Success?
    ensures GreedyRegex.Build("", Thompson.Classic).value.states == {}
    ensures 0 !in GreedyRegex.Build("", Thompson.Classic).value.states
    ensures Nfa.BeginMissFault(GreedyRegex.Build("", Thompson.Classic).value) == NullDeref
  {
    Thompson.EmptyParse(Thompson.Classic, None, 0);
    assert GreedyRegex.Apply(Nfa.New(0), []) == Success(Nfa.New(0));
  }

  /** `_regex_run`: asserts the regex is compiled, then returns the DFA's verdict on the whole string. */
  method Run(re: Regex, s: string) returns (r: Result<bool, Fault>)
    ensures r.Failure? <==> re.compiled.None?
    ensures r.Failure? ==> r.error == AssertFailed
    ensures r.Success? ==> (r.value <==> Accepted(re.compiled.value, s))
  {
    if re.compiled.None? {
      return Failure(AssertFailed);
    }
    var flag := MapDfa.Call(re.compiled.value, Codes(s));
    r := Success(flag == 1);
  }

  /* ---------- interval arithmetic ---------- */

  /** A positive factor can be cancelled from a strict inequality. */
  lemma MulCancel(k: int, a: int, b: int)
    requires k > 0 && k * a < k * b
    ensures a < b
  {
    assert k * (b - a) > 0;
  }

  lemma DivUnique(n: int, k: int, q: int, m: int)
    requires k > 0 && 0 <= m < k && n == k * q + m
    ensures n / k == q
  {
    var q' := n / k;
    assert k * q' <= n < k * q' + k;
    assert k * q <= n < k * q + k;
    MulCancel(k, q', q + 1);
    MulCancel(k, q, q' + 1);
  }

  lemma DivAddMultiple(a: nat, x: nat, k: nat)
    requires k > 0
    ensures (k * a + x) / k == a + x / k
  {
    assert k * a + x == k * (a + x / k) + x % k;
    DivUnique(k * a + x, k, a + x / k, x % k);
  }

  lemma DivMonotone(x: nat, y: nat, k: nat)
    requires k > 0 && x <= y
    ensures x / k <= y / k
  {
    assert k * (x / k) <= x <= y < k * (y / k + 1);
    MulCancel(k, x / k, y / k + 1);
  }

  /** Adding at least `k` to the numerator raises the quotient. */
  lemma DivGap(x: nat, y: nat, k: nat)
    requires k > 0 && x + k <= y
    ensures x / k < y / k
  {
    DivAddMultiple(1, x, k);
    DivMonotone(x + k, y, k);
  }

  lemma DivBelow(x: nat, d: nat, k: nat)
    requires k > 0 && x < k * d
    ensures x / k < d
  {
    assert k * (x / k) <= x;
    MulCancel(k, x / k, d);
  }

  lemma MulMonotone(a: nat, b: nat, c: nat)
    requires a <= b
    ensures a * c <= b * c
  {
    assert b * c == a * c + (b - a) * c;
  }

  /**
   The `i`-th cut point `_regex_get_mids` computes, `0 <= i < k - 1`: the
   weighted mean of `lo` and `hi`, which is `lo` plus `i + 1` k-ths of
   the width, rounded down.
   */
  function Mid(k: nat, lo: nat, hi: nat, i: nat): (v: nat)
    requires i + 1 < k && lo <= hi
    ensures v == lo + (i + 1) * (hi - lo) / k
  {
    MidNumerator(k, lo, hi - lo, i + 1);
    DivAddMultiple(lo, (i + 1) * (hi - lo), k);
    ((k - i - 1) * lo + (i + 1) * hi) / k
  }

  /** The weighted sum `_regex_get_mids` divides is `k` copies of `lo` plus `j` of the width `d`. */
  lemma MidNumerator(k: nat, lo: nat, d: nat, j: nat)
    requires j <= k
    ensures (k - j) * lo + j * (lo + d) == k * lo + j * d
  {
    assert j * (lo + d) == j * lo + j * d;
    assert (k - j) * lo + j * lo == k * lo;
  }

  lemma MidBounds(k: nat, lo: nat, hi: nat, i: nat)
    requires i + 1 < k && lo <= hi
    ensures lo <= Mid(k, lo, hi, i) <= hi
    ensures k <= hi - lo ==> lo < Mid(k, lo, hi, i) < hi
  {
    ShiftedShare(k, lo, hi, i + 1);
  }

  /** `ShareBounds` moved up by `lo`: the share of the width `hi - lo` lands between `lo` and `hi`. */
  lemma ShiftedShare(k: nat, lo: nat, hi: nat, j: nat)
    requires 0 < j < k && lo <= hi
    ensures lo <= lo + j * (hi - lo) / k <= hi
    ensures k <= hi - lo ==> lo < lo + j * (hi - lo) / k < hi
  {
    ShareBounds(k, hi - lo, j);
  }

  /** `j` k-ths of `d`, rounded down, is at most `d`; strictly inside `(0, d)` once `d` is at least `k`. */
  lemma ShareBounds(k: nat, d: nat, j: nat)
    requires 0 < j < k
    ensures j * d / k <= d
    ensures k <= d ==> 0 < j * d / k < d
  {
    var x := j * d;
    if d > 0 {
      MulMonotone(j, k - 1, d);
      assert k * d == (k - 1) * d + d;
      DivBelow(x, d, k);
    }
    if k <= d {
      MulMonotone(1, j, d);
      DivAddMultiple(1, 0, k);
      DivMonotone(k, x, k);
    }
  }

  lemma MidOrder(k: nat, lo: nat, hi: nat, i: nat, j: nat)
    requires i < j && j + 1 < k && lo <= hi
    ensures Mid(k, lo, hi, i) <= Mid(k, lo, hi, j)
    ensures k <= hi - lo ==> Mid(k, lo, hi, i) < Mid(k, lo, hi, j)
  {
    var d := hi - lo;
    MulMonotone(i + 1, j + 1, d);
    DivMonotone((i + 1) * d, (j + 1) * d, k);
    if k <= d {
      MulMonotone(1, j - i, d);
      assert (j + 1) * d == (i + 1) * d + (j - i) * d;
      DivGap((i + 1) * d, (j + 1) * d, k);
    }
  }

  /**
   `_regex_get_mids(k, lo, hi)`: `k - 1` cut points evenly spaced over
   `[lo, hi]`, in order. When there are at most as many parts as
   positions they are strictly inside the interval and strictly
   increasing.
   */
  function GetMids(k: nat, lo: nat, hi: nat): (r: seq<nat>)
    requires k >= 1 && lo <= hi
    ensures |r| == k - 1
    ensures forall i :: 0 <= i < |r| ==> r[i] == lo + (i + 1) * (hi - lo) / k
    ensures forall i :: 0 <= i < |r| ==> lo <= r[i] <= hi
    ensures forall i, j :: 0 <= i < j < |r| ==> r[i] <= r[j]
    ensures k <= hi - lo ==> forall i :: 0 <= i < |r| ==> lo < r[i] < hi
    ensures k <= hi - lo ==> forall i, j :: 0 <= i < j < |r| ==> r[i] < r[j]
  {
    var r := seq(k - 1, i requires 0 <= i < k - 1 => Mid(k, lo, hi, i));
    assert forall i :: 0 <= i < |r| ==> lo <= r[i] <= hi && (k <= hi - lo ==> lo < r[i] < hi) by {
      forall i | 0 <= i < |r| ensures lo <= r[i] <= hi && (k <= hi - lo ==> lo < r[i] < hi) {
        MidBounds(k, lo, hi, i);
      }
    }
    assert forall i, j :: 0 <= i < j < |r| ==> r[i] <= r[j] && (k <= hi - lo ==> r[i] < r[j]) by {
      forall i, j | 0 <= i < j < |r| ensures r[i] <= r[j] && (k <= hi - lo ==> r[i] < r[j]) {
        MidOrder(k, lo, hi, i, j);
      }
    }
    r
  }

  /** `max(2, width / chunk)`: how many parts the search cuts the interval into. */
  function Parts(width: nat, chunk: nat): (k: nat)
    requires chunk >= 1
    ensures k >= 2 && (width >= 2 ==> k <= width)
    ensures k > 2 ==> k * chunk <= width < (k + 1) * chunk
  {
    var q := width / chunk;
    assert chunk * q <= width;
    MulMonotone(1, chunk, q);
    if q < 2 then 2 else q
  }

  /* ---------- the left-most match ---------- */

  /** Longer prefixes of an accepted slice are accepted: what the any-character loops give an unrooted pattern. */
  ghost predicate Extends(t: Table, s: string)
  {
    forall i, j, j' :: 0 <= i <= j <= j' <= |s| && Accepted(t, s[i..j]) ==> Accepted(t, s[i..j'])
  }

  lemma ExtendsAt(t: Table, s: string, i: nat, j: nat, j': nat)
    requires Extends(t, s) && i <= j <= j' <= |s|
    ensures Accepted(t, s[i..j]) ==> Accepted(t, s[i..j'])
  {
  }

  /** The first `j` in `[j0, last]` whose prefix `s[start..j]` is accepted. */
  ghost function FirstAccepted(t: Table, s: string, start: nat, j0: nat, last: nat): (r: Option<nat>)
    requires start <= j0 && last <= |s|
    ensures r.Some? ==> j0 <= r.value <= last && Accepted(t, s[start..r.value])
    ensures r.Some? ==> forall j :: j0 <= j < r.value ==> !Accepted(t, s[start..j])
    ensures r.None? ==> forall j :: j0 <= j <= last ==> !Accepted(t, s[start..j])
    decreases last + 1 - j0
  {
    if j0 > last then None
    else if Accepted(t, s[start..j0]) then Some(j0)
    else FirstAccepted(t, s, start, j0 + 1, last)
  }

  /** The last `i` in `[lo, i0]` whose slice `s[i..e]` is accepted, `lo` when there is none. */
  ghost function LastAccepted(t: Table, s: string, lo: nat, i0: nat, e: nat): (r: nat)
    requires lo <= i0 <= e <= |s|
    ensures lo <= r <= i0
    ensures (exists i :: lo <= i <= i0 && Accepted(t, s[i..e])) ==> Accepted(t, s[r..e])
    ensures forall i :: r < i <= i0 ==> !Accepted(t, s[i..e])
    decreases i0 - lo
  {
    if Accepted(t, s[i0..e]) || i0 == lo then i0
    else LastAccepted(t, s, lo, i0 - 1, e)
  }

  /**
   The left-most match as a reference: its end is the shortest accepted
   prefix from `start` that ends before `end`, and its begin the last
   position from which the rest up to that end is accepted.
   */
  ghost function Leftmost(t: Table, s: string, start: nat, end: nat): (r: Option<Match>)
    requires start < end <= |s| + 1
    ensures r.Some? ==> start <= r.value.begin && r.value.length >= 1 && GreedyRegex.End(r.value) < end
  {
    match FirstAccepted(t, s, start, start + 1, end - 1)
    case None => None
    case Some(e) =>
      var lb := LastAccepted(t, s, start, e - 1, e);
      Some(GreedyRegex.Match(lb, e - lb))
  }

  /**
   What the right-bound search keeps: the prefix up to `left` is rejected
   (or empty), the prefix up to `right` accepted (or `right` is the end).
   */
  ghost predicate Bracket(t: Table, s: string, start: nat, end: nat, left: nat, right: nat)
  {
    && start <= left < right <= end <= |s| + 1
    && (left == start || !Accepted(t, s[start..left]))
    && (right == end || Accepted(t, s[start..right]))
  }

  /**
   One round of the outer loop: cut `(left, right)` into `Parts` pieces
   and test the prefixes up to each cut point front to back; a rejected
   one moves `left` up, the first accepted one moves `right` down and ends
   the round. The bracket is kept and strictly narrows.
   */
  method Narrow(t: Table, s: string, start: nat, end: nat, left: nat, right: nat, chunk: nat) returns (l: nat, r: nat)
    requires chunk >= 1 && 1 < right - left && Bracket(t, s, start, end, left, right)
    ensures Bracket(t, s, start, end, l, r)
    ensures left <= l < r <= right && r - l < right - left
  {
    var k := Parts(right - left, chunk);
    var mids := GetMids(k, left, right);
    l, r := left, right;
    var i := 0;
    while i < |mids|
      invariant 0 <= i <= |mids|
      invariant Bracket(t, s, start, end, l, r)
      invariant left <= l < r <= right
      invariant i == 0 ==> l == left && r == right
      invariant i > 0 ==> l == mids[i - 1] && r == right
      decreases |mids| - i
    {
      var mid := mids[i];
      var result := MapDfa.Call(t, Codes(s[start..mid]));
      if result == 0 {
        l := mid;
      } else {
        r := mid;
      }
      if result == 1 {
        break;
      }
      i := i + 1;
    }
  }

  /**
   The left-bound scan: from `e - 1` down, the first position whose slice
   up to `e` is accepted. The slice from `start` is, so the scan never
   passes `start`.
   */
  method LastStart(t: Table, s: string, start: nat, e: nat) returns (lb: nat)
    requires start < e <= |s| && Accepted(t, s[start..e])
    ensures start <= lb < e && Accepted(t, s[lb..e])
    ensures forall i :: lb < i < e ==> !Accepted(t, s[i..e])
    ensures lb == LastAccepted(t, s, start, e - 1, e)
  {
    lb := e - 1;
    while true
      invariant start <= lb < e
      invariant forall i :: lb < i < e ==> !Accepted(t, s[i..e])
      decreases lb
    {
      var result := MapDfa.Call(t, Codes(s[lb..e]));
      if result == 1 {
        break;
      }
      if lb == start {
        assert false;
      }
      lb := lb - 1;
    }
  }

  /**
   `_regex_find_left_most_match_binary_search` on `[start, end)`: narrow
   `(left, right)` round by round until `right == left + 1`, the first
   accepted prefix end; `right` still at `end` means no match. Then the
   match begins at the last position whose slice up to `right` is
   accepted.

   Whatever the automaton, the match found ends where a rejected (or
   empty) prefix turns into an accepted one, and begins at the last
   accepted start; when longer prefixes of accepted slices stay accepted,
   that is the reference `Leftmost`.
   */
  method LeftmostMatch(t: Table, s: string, start: nat, end: nat, chunk: nat) returns (r: Option<Match>)
    requires start < end <= |s| + 1 && chunk >= 1
    ensures r.Some? ==> var m := r.value; var e := GreedyRegex.End(m);
      && start <= m.begin && m.length >= 1 && e < end
      && Accepted(t, s[start..e]) && (e - 1 == start || !Accepted(t, s[start..e - 1]))
      && Accepted(t, s[m.begin..e]) && (forall i :: m.begin < i < e ==> !Accepted(t, s[i..e]))
    ensures r.None? ==> end - 1 == start || !Accepted(t, s[start..end - 1])
    ensures Extends(t, s) ==> r == Leftmost(t, s, start, end)
  {
    var rb := RightBound(t, s, start, end, chunk);
    if rb == end - 1 {
      NoMatch(t, s, start, end);
      return None;
    }
    var lb := LastStart(t, s, start, rb + 1);
    FoundLeftmost(t, s, start, end, rb, lb);
    r := Some(GreedyRegex.Match(lb, rb - lb + 1));
  }

  /** The match `LeftmostMatch` builds from the right bound and the backward scan has the promised bounds. */
  lemma FoundLeftmost(t: Table, s: string, start: nat, end: nat, rb: nat, lb: nat)
    requires start < end <= |s| + 1 && Bracket(t, s, start, end, rb, rb + 1) && rb != end - 1
    requires start <= lb < rb + 1
    requires lb == LastAccepted(t, s, start, rb, rb + 1)
    ensures GreedyRegex.End(GreedyRegex.Match(lb, rb - lb + 1)) == rb + 1 < end
    ensures Accepted(t, s[start..rb + 1]) && (rb == start || !Accepted(t, s[start..rb]))
    ensures Extends(t, s) ==> Some(GreedyRegex.Match(lb, rb - lb + 1)) == Leftmost(t, s, start, end)
  {
    var m := GreedyRegex.Match(lb, rb - lb + 1);
    assert GreedyRegex.End(m) == rb + 1;
    LinearIsLeftmost(t, s, start, end, rb + 1, lb);
  }

  /** The bounds the binary search and the backward scan find are those of the reference, when acceptance extends. */
  lemma LinearIsLeftmost(t: Table, s: string, start: nat, end: nat, e: nat, lb: nat)
    requires start < e < end <= |s| + 1 && start <= lb < e
    requires Accepted(t, s[start..e]) && (e - 1 == start || !Accepted(t, s[start..e - 1]))
    requires lb == LastAccepted(t, s, start, e - 1, e)
    ensures Extends(t, s) ==> Leftmost(t, s, start, end) == Some(GreedyRegex.Match(lb, e - lb))
  {
    FirstMatchEnd(t, s, start, end, e);
  }

  /**
   The right-bound search shared by both binary searches: narrow
   `(left, right)` round by round until `right == left + 1`. The result
   `left` is `end - 1` when no prefix was accepted.
   */
  method RightBound(t: Table, s: string, start: nat, end: nat, chunk: nat) returns (rb: nat)
    requires start < end <= |s| + 1 && chunk >= 1
    ensures Bracket(t, s, start, end, rb, rb + 1)
  {
    var left, right := start, end;
    while 1 < right - left
      invariant Bracket(t, s, start, end, left, right)
      decreases right - left
    {
      left, right := Narrow(t, s, start, end, left, right, chunk);
    }
    rb := left;
  }

  /**
   What the left-bound search of the full binary search keeps: the slice
   from `left` to `e` is accepted, the one from `right` rejected (or
   `right` is `e`).
   */
  ghost predicate LeftBracket(t: Table, s: string, start: nat, e: nat, left: nat, right: nat)
  {
    && start <= left < right <= e <= |s|
    && Accepted(t, s[left..e])
    && (right == e || !Accepted(t, s[right..e]))
  }

  /**
   One round of the left-bound loop: test the slices from each cut point
   to `e`, back to front; a rejected one moves `right` down, the first
   accepted one moves `left` up and ends the round.
   */
  method NarrowLeft(t: Table, s: string, start: nat, e: nat, left: nat, right: nat) returns (l: nat, r: nat)
    requires 1 < right - left && LeftBracket(t, s, start, e, left, right)
    ensures LeftBracket(t, s, start, e, l, r)
    ensures left <= l < r <= right && r - l < right - left
  {
    var k := Parts(right - left, TokenChunk);
    var mids := GetMids(k, left, right);
    l, r := left, right;
    var i := |mids|;
    while i > 0
      invariant 0 <= i <= |mids|
      invariant LeftBracket(t, s, start, e, l, r)
      invariant left <= l < r <= right
      invariant i == |mids| ==> l == left && r == right
      invariant i < |mids| ==> l == left && r == mids[i]
      decreases i
    {
      var mid := mids[i - 1];
      var result := MapDfa.Call(t, Codes(s[mid..e]));
      if result != 0 {
        l := mid;
      } else {
        r := mid;
      }
      if result == 1 {
        break;
      }
      i := i - 1;
    }
  }

  /** Shorter slices ending at the same place stay accepted when they start earlier. */
  ghost predicate ExtendsLeft(t: Table, s: string)
  {
    forall i, i', j :: 0 <= i' <= i <= j <= |s| && Accepted(t, s[i..j]) ==> Accepted(t, s[i'..j])
  }

  lemma ExtendsLeftAt(t: Table, s: string, i': nat, i: nat, j: nat)
    requires ExtendsLeft(t, s) && i' <= i <= j <= |s|
    ensures Accepted(t, s[i..j]) ==> Accepted(t, s[i'..j])
  {
  }

  /**
   `_regex_find_left_most_match_full_binary_search`: the right bound as
   before (with `SEARCH_CHUNK_SIZE`), then the left bound by the same
   narrowing over start positions (with `TOKEN_CHUNK_SIZE`). The match
   begins where an accepted slice turns into a rejected one; when
   acceptance also extends to earlier starts, that is the last accepted
   start, so it agrees with the linear scan of `LeftmostMatch`.
   */
  method LeftmostMatchFull(t: Table, s: string, start: nat, end: nat) returns (r: Option<Match>)
    requires start < end <= |s| + 1
    ensures r.Some? ==> var m := r.value; var e := GreedyRegex.End(m);
      && start <= m.begin && m.length >= 1 && e < end
      && Accepted(t, s[start..e]) && (e - 1 == start || !Accepted(t, s[start..e - 1]))
      && Accepted(t, s[m.begin..e]) && (m.begin + 1 == e || !Accepted(t, s[m.begin + 1..e]))
    ensures r.None? ==> end - 1 == start || !Accepted(t, s[start..end - 1])
    ensures Extends(t, s) && ExtendsLeft(t, s) ==> r == Leftmost(t, s, start, end)
  {
    var rb := RightBound(t, s, start, end, SearchChunk);
    if rb == end - 1 {
      NoMatch(t, s, start, end);
      return None;
    }
    var e := rb + 1;
    var left := LeftBound(t, s, start, e);
    r := Some(GreedyRegex.Match(left, e - left));
    assert r.value.begin == left && GreedyRegex.End(r.value) == e;
    FullIsLeftmost(t, s, start, end, e, left);
  }

  /** The bounds the full binary search finds are those of the reference, when acceptance extends both ways. */
  lemma FullIsLeftmost(t: Table, s: string, start: nat, end: nat, e: nat, left: nat)
    requires start < e < end <= |s| + 1 && start <= left < e
    requires Accepted(t, s[start..e]) && (e - 1 == start || !Accepted(t, s[start..e - 1]))
    requires Accepted(t, s[left..e]) && (left + 1 == e || !Accepted(t, s[left + 1..e]))
    ensures Extends(t, s) && ExtendsLeft(t, s) ==> Leftmost(t, s, start, end) == Some(GreedyRegex.Match(left, e - left))
  {
    FirstMatchEnd(t, s, start, end, e);
    LastStartIs(t, s, start, e, left);
  }

  /**
   The left-bound loop of the full binary search: narrow `(left, right)`
   over start positions until they are adjacent; `left` is then an
   accepted start whose successor is rejected.
   */
  method LeftBound(t: Table, s: string, start: nat, e: nat) returns (left: nat)
    requires start < e <= |s| && Accepted(t, s[start..e])
    ensures start <= left < e && Accepted(t, s[left..e])
    ensures left + 1 == e || !Accepted(t, s[left + 1..e])
  {
    var right: nat := e;
    left := start;
    while 1 < right - left
      invariant LeftBracket(t, s, start, e, left, right)
      decreases right - left
    {
      left, right := NarrowLeft(t, s, start, e, left, right);
    }
  }

  /** An accepted start followed by a rejected one is the last, when acceptance extends to earlier starts. */
  lemma LastStartIs(t: Table, s: string, start: nat, e: nat, lb: nat)
    requires start <= lb < e <= |s| && Accepted(t, s[lb..e])
    requires lb + 1 == e || !Accepted(t, s[lb + 1..e])
    ensures ExtendsLeft(t, s) ==> LastAccepted(t, s, start, e - 1, e) == lb
  {
    if ExtendsLeft(t, s) {
      forall i | lb < i < e ensures !Accepted(t, s[i..e]) {
        ExtendsLeftAt(t, s, lb + 1, i, e);
      }
    }
  }

  /** A rejected last prefix means no prefix is accepted, when acceptance extends. */
  lemma NoMatch(t: Table, s: string, start: nat, end: nat)
    requires start < end <= |s| + 1
    requires end - 1 == start || !Accepted(t, s[start..end - 1])
    ensures Extends(t, s) ==> Leftmost(t, s, start, end).None?
  {
    if Extends(t, s) && end - 1 > start {
      forall j | start + 1 <= j <= end - 1 ensures !Accepted(t, s[start..j]) {
        ExtendsAt(t, s, start, j, end - 1);
      }
    }
  }

  /** An accepted prefix after a rejected one is the first, when acceptance extends. */
  lemma FirstMatchEnd(t: Table, s: string, start: nat, end: nat, e: nat)
    requires start < e < end <= |s| + 1 && Accepted(t, s[start..e])
    requires e - 1 == start || !Accepted(t, s[start..e - 1])
    ensures Extends(t, s) ==> FirstAccepted(t, s, start, start + 1, end - 1) == Some(e)
  {
    if Extends(t, s) {
      forall j | start + 1 <= j < e ensures !Accepted(t, s[start..j]) {
        ExtendsAt(t, s, start, j, e - 1);
      }
    }
  }

  /* ---------- finding all matches ---------- */

  /** Matches of length at least one inside the string, with strictly increasing begins. */
  predicate Spaced(s: string, ms: seq<Match>)
  {
    && (forall k :: 0 <= k < |ms| ==> ms[k].length >= 1 && GreedyRegex.End(ms[k]) <= |s|)
    && (forall k, l :: 0 <= k < l < |ms| ==> ms[k].begin < ms[l].begin)
  }

  /**
   Every match as a reference: the left-most match from `start`, then
   again from one past its begin, until none is left.
   */
  ghost function AllFrom(t: Table, s: string, start: nat): (r: seq<Match>)
    requires start <= |s|
    decreases |s| - start
  {
    match Leftmost(t, s, start, |s| + 1)
    case None => []
    case Some(m) => [m] + AllFrom(t, s, m.begin + 1)
  }

  /** The matches still to come after the search has found `next`. */
  ghost function Rest(t: Table, s: string, next: Option<Match>): seq<Match>
  {
    match next
    case None => []
    case Some(m) => if m.begin < |s| then [m] + AllFrom(t, s, m.begin + 1) else [m]
  }

  lemma SpacedAppend(s: string, ms: seq<Match>, m: Match)
    requires Spaced(s, ms) && m.length >= 1 && GreedyRegex.End(m) <= |s|
    requires |ms| > 0 ==> ms[|ms| - 1].begin < m.begin
    ensures Spaced(s, ms + [m])
  {
  }

  /**
   One search after the match `m`, from one past its begin; `ms` is the
   list found before `m`. The next match begins later, and the reference
   continues with it.
   */
  method Advance(t: Table, s: string, ms: seq<Match>, m: Match, chunk: nat) returns (next: Option<Match>)
    requires m.length >= 1 && GreedyRegex.End(m) <= |s| && chunk >= 1
    ensures next.Some? ==> next.value.length >= 1 && GreedyRegex.End(next.value) <= |s|
    ensures next.Some? ==> m.begin < next.value.begin && GreedyRegex.End(next.value) > m.begin + 1
    ensures Extends(t, s) ==> ms + Rest(t, s, Some(m)) == (ms + [m]) + Rest(t, s, next)
  {
    next := LeftmostMatch(t, s, m.begin + 1, |s| + 1, chunk);
    RestNext(t, s, ms, m, next);
  }

  lemma RestNext(t: Table, s: string, ms: seq<Match>, m: Match, next: Option<Match>)
    requires m.begin < |s|
    requires Extends(t, s) ==> next == Leftmost(t, s, m.begin + 1, |s| + 1)
    ensures Extends(t, s) ==> ms + Rest(t, s, Some(m)) == (ms + [m]) + Rest(t, s, next)
  {
    if Extends(t, s) {
      var b := m.begin + 1;
      AllFromRest(t, s, b);
      RestSome(t, s, m, Rest(t, s, next));
      ConcatAssoc(ms, [m], Rest(t, s, next));
    }
  }

  /** After a match that begins inside the subject, the rest is that match and the matches from one past its begin. */
  lemma RestSome(t: Table, s: string, m: Match, tail: seq<Match>)
    requires m.begin < |s| && AllFrom(t, s, m.begin + 1) == tail
    ensures Rest(t, s, Some(m)) == [m] + tail
  {
  }

  lemma ConcatAssoc<T>(a: seq<T>, b: seq<T>, c: seq<T>)
    ensures a + (b + c) == (a + b) + c
  {
  }

  /** Before the loop the reference is what the first search and its continuation give. */
  lemma RestFirst(t: Table, s: string, next: Option<Match>)
    requires Extends(t, s) ==> next == Leftmost(t, s, 0, |s| + 1)
    ensures Extends(t, s) ==> AllFrom(t, s, 0) == [] + Rest(t, s, next)
  {
    if Extends(t, s) {
      AllFromRest(t, s, 0);
      assert [] + Rest(t, s, next) == Rest(t, s, next);
    }
  }

  /** The reference from `b` is the left-most match from `b` and what follows it. */
  lemma AllFromRest(t: Table, s: string, b: nat)
    requires b <= |s|
    ensures AllFrom(t, s, b) == Rest(t, s, Leftmost(t, s, b, |s| + 1))
  {
  }

  /**
   `_regex_find_all_regex_matches`: asserts the regex is compiled, then
   searches `[0, len + 1)` and, after each match, again from one past its
   begin, appending the matches in the order found; it stops when no
   match is left or after a match of length zero. The binary search
   never returns one of length zero, so the list is `Spaced`; matches may
   overlap, since the next search starts inside the last match. When
   acceptance extends to longer prefixes, the list is the reference
   `AllFrom`.
   */
  method FindAll(re: Regex, s: string) returns (r: Result<seq<Match>, Fault>)
    ensures r.Failure? <==> re.compiled.None?
    ensures r.Failure? ==> r.error == AssertFailed
    ensures r.Success? ==> Spaced(s, r.value)
    ensures r.Success? && Extends(re.compiled.value, s) ==> r.value == AllFrom(re.compiled.value, s, 0)
  {
    if re.compiled.None? {
      return Failure(AssertFailed);
    }
    var t := re.compiled.value;
    var size := |s| + 1;
    var next := LeftmostMatch(t, s, 0, size, SearchChunk);
    var ms: seq<Match> := [];
    RestFirst(t, s, next);
    while next.Some?
      invariant Spaced(s, ms)
      invariant next.Some? ==> next.value.length >= 1 && GreedyRegex.End(next.value) <= |s|
      invariant next.Some? && |ms| > 0 ==> ms[|ms| - 1].begin < next.value.begin
      invariant Extends(t, s) ==> AllFrom(t, s, 0) == ms + Rest(t, s, next)
      decreases if next.Some? then |s| + 1 - next.value.begin else 0
    {
      var m := next.value;
      SpacedAppend(s, ms, m);
      var before := ms;
      ms := ms + [m];
      if m.length == 0 {
        break;
      }
      next := Advance(t, s, before, m, SearchChunk);
    }
    r := Success(ms);
  }

  /**
   The chunk size the adaptive search predicts from the gaps seen so far:
   the estimate `sum / (n - 2)` of the mean gap once more than two gaps
   are known, capped at `SEARCH_CHUNK_SIZE`. Every gap is at least one,
   so the prediction is never zero.
   */
  function Predicted(num: nat, sum: nat): (c: nat)
    ensures c <= SearchChunk
    ensures num <= 2 ==> c == SearchChunk
    ensures sum >= num ==> c >= 1
  {
    if 2 < num && sum / (num - 2) < SearchChunk then
      assert sum >= num ==> sum / (num - 2) >= 1 by {
        if sum >= num {
          DivAddMultiple(1, 0, num - 2);
          DivMonotone(num - 2, sum, num - 2);
        }
      }
      sum / (num - 2)
    else SearchChunk
  }

  /**
   `_regex_find_all_regex_matches_exponential_pdf`: the same loop, with
   each search after the first using the `Predicted` chunk size; the
   count and the sum of the gaps grow by each match found. The chunk size
   only changes how the intervals are cut, so when acceptance extends to
   longer prefixes the list is again the reference `AllFrom`.
   */
  method FindAllAdaptive(re: Regex, s: string) returns (r: Result<seq<Match>, Fault>)
    ensures r.Failure? <==> re.compiled.None?
    ensures r.Failure? ==> r.error == AssertFailed
    ensures r.Success? ==> Spaced(s, r.value)
    ensures r.Success? && Extends(re.compiled.value, s) ==> r.value == AllFrom(re.compiled.value, s, 0)
  {
    if re.compiled.None? {
      return Failure(AssertFailed);
    }
    var t := re.compiled.value;
    var size := |s| + 1;
    var next := LeftmostMatch(t, s, 0, size, SearchChunk);
    var ms: seq<Match> := [];
    RestFirst(t, s, next);
    var num, sum := 0, 0;
    while next.Some?
      invariant Spaced(s, ms)
      invariant next.Some? ==> next.value.length >= 1 && GreedyRegex.End(next.value) <= |s|
      invariant next.Some? && |ms| > 0 ==> ms[|ms| - 1].begin < next.value.begin
      invariant Extends(t, s) ==> AllFrom(t, s, 0) == ms + Rest(t, s, next)
      invariant next.Some? ==> sum >= num
      decreases if next.Some? then |s| + 1 - next.value.begin else 0
    {
      var m := next.value;
      SpacedAppend(s, ms, m);
      var before := ms;
      ms := ms + [m];
      if m.length == 0 {
        break;
      }
      next, num, sum := AdvanceAdaptive(t, s, before, m, num, sum);
    }
    r := Success(ms);
  }

  /**
   One step of the adaptive loop: the search from one past the begin of
   `m` with the `Predicted` chunk size, then one more gap counted and its
   length, from one past the begin of `m` to the end of the new match,
   added to the sum.
   */
  method AdvanceAdaptive(t: Table, s: string, ms: seq<Match>, m: Match, num: nat, sum: nat)
    returns (next: Option<Match>, num': nat, sum': nat)
    requires m.length >= 1 && GreedyRegex.End(m) <= |s| && sum >= num
    ensures next.Some? ==> next.value.length >= 1 && GreedyRegex.End(next.value) <= |s|
    ensures next.Some? ==> m.begin < next.value.begin
    ensures Extends(t, s) ==> ms + Rest(t, s, Some(m)) == (ms + [m]) + Rest(t, s, next)
    ensures num' == num + 1
    ensures next.Some? ==> sum' > sum && sum' >= num'
  {
    var prevEnd := m.begin + 1;
    var predicted := Predicted(num, sum);
    next := Advance(t, s, ms, m, predicted);
    num' := num + 1;
    sum' := sum;
    if next.Some? {
      sum' := sum + (GreedyRegex.End(next.value) - prevEnd);
    }
  }
}

=== FILE: ctext.dfy ===
/**
 The C-level helpers the two evaluators share: the padded input buffer
 built by `add_pre_post_buffer`, `atoi` on a token, and arithmetic on the
 32-bit `int` the evaluators compute with.

 `int` overflow and division by zero are undefined in C; here they are the
 `Undefined` fault, so every arithmetic step either yields a value in the
 `int` range or stops.
 */
module CText {
  import opened Wrappers

  const IntMin: int := -0x8000_0000
  const IntMax: int := 0x7fff_ffff

  predicate InInt(n: int)
  {
    IntMin <= n <= IntMax
  }

  /** A result that must fit an `int`; anything else is undefined. */
  function Checked(n: int): (r: Result<int, Fault>)
    ensures r.Success? <==> InInt(n)
    ensures r.Success? ==> r.value == n
    ensures r.Failure? ==> r.error == Undefined
  {
    if InInt(n) then Success(n) else Failure(Undefined)
  }

  function Abs(n: int): nat
  {
    if n < 0 then -n else n
  }

  /** C's `/` on `int`: the quotient rounded toward zero. */
  function TruncDiv(a: int, b: int): int
    requires b != 0
  {
    var q := Abs(a) / Abs(b);
    if (a < 0) != (b < 0) then -q else q
  }

  /**
   C's quotient with the remainder `a - b * q`: smaller in size than the
   divisor and of the sign of the dividend, and the quotient never larger
   in size than the dividend.
   */
  lemma TruncDivMeaning(a: int, b: int)
    requires b != 0
    ensures var q := TruncDiv(a, b); var rem := a - b * q;
      && Abs(rem) < Abs(b)
      && (rem == 0 || (rem < 0 <==> a < 0))
      && Abs(q) <= Abs(a)
  {
    var x, y := Abs(a), Abs(b);
    var q0, r0 := x / y, x % y;
    DivModBasics(x, y);
    var nq0: int := -(q0 as int);
    var q := TruncDiv(a, b);
    if (a < 0) != (b < 0) {
      assert q == nq0;
      NegMul(b, q0);
    } else {
      assert q == q0;
    }
    SignedProduct(a, b, q0, r0);
  }

  lemma DivModBasics(x: nat, y: nat)
    requires y > 0
    ensures x == y * (x / y) + x % y && 0 <= x % y < y && x / y <= x
  {
    if x / y > x {
      MulAtLeast(y, x / y);
      assert false;
    }
  }

  lemma NegMul(b: int, q: int)
    ensures b * -q == -(b * q)
  {
  }

  /** The four sign cases of `a = b * q + rem` for the magnitudes `Abs(a) = Abs(b) * q0 + r0`. */
  lemma SignedProduct(a: int, b: int, q0: nat, r0: nat)
    requires b != 0 && Abs(a) == Abs(b) * q0 + r0 && r0 < Abs(b)
    ensures var q := TruncDiv(a, b); a - b * q == (if a < 0 then -(r0 as int) else r0)
  {
    var q := TruncDiv(a, b);
    var y: int, z: int := Abs(b), q0;
    assert q0 == Abs(a) / Abs(b) by {
      DivUnique(Abs(a), Abs(b), q0, r0);
    }
    if a >= 0 && b > 0 {
      assert b * q == Abs(b) * q0;
    } else if a >= 0 {
      assert b * q == (-y) * (-z);
    } else if b > 0 {
      assert b * q == y * (-z);
    } else {
      assert b * q == (-y) * z;
    }
  }

  lemma DivUnique(x: nat, y: nat, q: nat, r: nat)
    requires y > 0 && x == y * q + r && r < y
    ensures q == x / y && r == x % y
  {
    DivModBasics(x, y);
    var q', r' := x / y, x % y;
    if q != q' {
      var lo, hi := if q < q' then q else q', if q < q' then q' else q;
      var d := hi - lo;
      assert y * hi == y * lo + y * d;
      MulAtLeast(d, y);
      assert false;
    }
  }

  lemma MulAtLeast(x: nat, y: nat)
    requires x >= 1
    ensures x * y >= y
  {
  }

  /** `isspace` in the C locale. */
  predicate IsSpace(c: char)
  {
    c == ' ' || c == '\t' || c == '\n' || c == '\r' || c == 11 as char || c == 12 as char
  }

  predicate IsDigit(c: char)
  {
    '0' <= c <= '9'
  }

  predicate AllDigits(d: string)
  {
    forall k :: 0 <= k < |d| ==> IsDigit(d[k])
  }

  /** The index of the first character from `i` on that is not white space. */
  function SkipSpaces(s: string, i: nat): (j: nat)
    requires i <= |s|
    ensures i <= j <= |s|
    ensures forall k :: i <= k < j ==> IsSpace(s[k])
    ensures j < |s| ==> !IsSpace(s[j])
    decreases |s| - i
  {
    if i < |s| && IsSpace(s[i]) then SkipSpaces(s, i + 1) else i
  }

  /** The index just past the run of digits that starts at `i`. */
  function DigitsEnd(s: string, i: nat): (j: nat)
    requires i <= |s|
    ensures i <= j <= |s|
    ensures AllDigits(s[i..j])
    ensures j < |s| ==> !IsDigit(s[j])
    decreases |s| - i
  {
    if i < |s| && IsDigit(s[i]) then
      var j := DigitsEnd(s, i + 1);
      assert s[i..j] == [s[i]] + s[i + 1..j];
      j
    else i
  }

  /** The number a string of decimal digits denotes, most significant first. */
  function DigitsValue(d: string): nat
    requires AllDigits(d)
  {
    if |d| == 0 then 0
    else 10 * DigitsValue(d[..|d| - 1]) + (d[|d| - 1] as int - '0' as int)
  }

  /**
   `atoi`: leading white space, an optional sign, then the longest run of
   digits (none gives 0). A value outside `int` is undefined behaviour.
   */
  function Atoi(s: string): Result<int, Fault>
  {
    var i := SkipSpaces(s, 0);
    var negative := i < |s| && s[i] == '-';
    var start := if i < |s| && (s[i] == '-' || s[i] == '+') then i + 1 else i;
    var v: int := DigitsValue(s[start..DigitsEnd(s, start)]);
    Checked(if negative then -v else v)
  }

  /** The decimal rendering of `n`, with no leading zeros. */
  function Decimal(n: nat): (d: string)
    ensures |d| >= 1 && AllDigits(d)
    ensures |d| > 1 ==> d[0] != '0'
  {
    var last := (('0' as int) + n % 10) as char;
    if n < 10 then [last] else Decimal(n / 10) + [last]
  }

  lemma {:induction false} DecimalValue(n: nat)
    ensures DigitsValue(Decimal(n)) == n
  {
    if n >= 10 {
      var d := Decimal(n);
      assert d[..|d| - 1] == Decimal(n / 10);
      DecimalValue(n / 10);
    }
  }

  lemma DigitsEndAll(s: string, i: nat)
    requires i <= |s| && AllDigits(s[i..])
    ensures DigitsEnd(s, i) == |s|
    decreases |s| - i
  {
    if i < |s| {
      assert s[i..][0] == s[i];
      assert s[i + 1..] == s[i..][1..];
      DigitsEndAll(s, i + 1);
    }
  }

  /**
   `atoi` reads back the decimal rendering of every value `int` can hold,
   with or without a minus sign.
   */
  lemma AtoiDecimal(n: nat)
    ensures n <= IntMax ==> Atoi(Decimal(n)) == Success(n)
    ensures n <= -IntMin ==> Atoi("-" + Decimal(n)) == Success(-(n as int))
  {
    var d := Decimal(n);
    DecimalValue(n);
    assert SkipSpaces(d, 0) == 0;
    DigitsEndAll(d, 0);
    assert d[0..|d|] == d;
    var m := "-" + d;
    assert SkipSpaces(m, 0) == 0;
    assert m[1..] == d;
    DigitsEndAll(m, 1);
    assert m[1..|m|] == d;
  }

  function Spaces(k: nat): (r: string)
    ensures |r| == k && forall i :: 0 <= i < k ==> r[i] == ' '
  {
    seq(k, _ => ' ')
  }

  /**
   `add_pre_post_buffer(s, k)`: `k` spaces, then `s`, then `k` spaces (the
   terminating NUL is not part of the model's string).
   */
  method AddPrePostBuffer(s: string, k: nat) returns (r: string)
    ensures |r| == |s| + 2 * k
    ensures forall i :: 0 <= i < k ==> r[i] == ' '
    ensures r[k..k + |s|] == s
    ensures forall i :: k + |s| <= i < |r| ==> r[i] == ' '
  {
    r := [];
    var i := 0;
    while i < k
      invariant i <= k && |r| == i
      invariant forall j :: 0 <= j < i ==> r[j] == ' '
    {
      r := r + [' '];
      i := i + 1;
    }
    while i < k + |s|
      invariant k <= i <= k + |s| && |r| == i
      invariant forall j :: 0 <= j < k ==> r[j] == ' '
      invariant forall j :: k <= j < i ==> r[j] == s[j - k]
    {
      r := r + [s[i - k]];
      i := i + 1;
    }
    assert r[k..k + |s|] == s;
    while i < 2 * k + |s|
      invariant k + |s| <= i <= 2 * k + |s| && |r| == i
      invariant forall j :: 0 <= j < k ==> r[j] == ' '
      invariant r[k..k + |s|] == s
      invariant forall j :: k + |s| <= j < i ==> r[j] == ' '
    {
      r := r + [' '];
      i := i + 1;
    }
  }

  /** The padded buffer is exactly `Spaces(k) + s + Spaces(k)`, and the padding comes off again. */
  lemma PaddingRoundTrip(s: string, k: nat, r: string)
    requires |r| == |s| + 2 * k
    requires forall i :: 0 <= i < k ==> r[i] == ' '
    requires r[k..k + |s|] == s
    requires forall i :: k + |s| <= i < |r| ==> r[i] == ' '
    ensures r == Spaces(k) + s + Spaces(k)
    ensures r[k..|r| - k] == s
  {
    var p := Spaces(k) + s + Spaces(k);
    assert |p| == |r|;
    forall i | 0 <= i < |r|
      ensures r[i] == p[i]
    {
      if k <= i < k + |s| {
        assert r[i] == r[k..k + |s|][i - k];
      }
    }
  }
}

=== FILE: dfa.dfy ===
/**
 The map-backed mutable DFA of src/lexer/dfa.h.

 `transition_map` is a map.h hash map from (state, symbol) to state and
 `accept_states` a map from state to an accept flag; both are modelled by
 their abstract contents. The hash-map module proves that its operations
 implement exactly these map updates with the corrected list removal; the
 bucket counters as written, which an erase can leave stale, are modelled
 only there (the `Counted` members). Every mutator first asserts that
 the DFA is not locked; `dfa_to_fdfa` sets the lock and wraps the DFA in a
 closure whose `call` runs it.
 */
module MapDfa {
  import opened Wrappers

  datatype Dfa<S(==), T(==)> = Dfa(trans: map<(S, T), S>, begin: S, accept: set<S>, locked: bool)

  /** The closure `dfa_to_fdfa` returns: it refers to the (now locked) DFA. */
  datatype Fdfa<S(==), T(==)> = Fdfa(dfa: Dfa<S, T>)

  /** `dfa_new`: no transitions, no accept states, unlocked. */
  function New<S(==), T(==)>(begin: S): (d: Dfa<S, T>)
    ensures d.trans == map[] && d.accept == {} && d.begin == begin && !d.locked
  {
    Dfa(map[], begin, {}, false)
  }

  /** The state reached from `s` by reading `w`, if every step has a transition. */
  ghost function Delta<S, T>(trans: map<(S, T), S>, s: S, w: seq<T>): Option<S>
    decreases |w|
  {
    if |w| == 0 then Some(s)
    else if (s, w[0]) in trans then Delta(trans, trans[(s, w[0])], w[1..])
    else None
  }

  /** The language of the DFA: the words that lead from `begin` to an accept state. */
  ghost predicate Accepts<S, T>(d: Dfa<S, T>, w: seq<T>)
  {
    var q := Delta(d.trans, d.begin, w);
    q.Some? && q.value in d.accept
  }

  /**
   `dfa_run`: one transition per symbol; 0 as soon as a (state, symbol) pair
   has none, otherwise whether the final state accepts.
   */
  method Run<S(==), T(==)>(d: Dfa<S, T>, w: seq<T>) returns (r: nat)
    ensures r == 1 <==> Accepts(d, w)
    ensures r == 0 <==> !Accepts(d, w)
  {
    var current := d.begin;
    var i := 0;
    while i < |w|
      invariant 0 <= i <= |w|
      invariant Delta(d.trans, d.begin, w) == Delta(d.trans, current, w[i..])
    {
      assert w[i..][1..] == w[i + 1..];
      if (current, w[i]) in d.trans {
        current := d.trans[(current, w[i])];
      } else {
        return 0;
      }
      i := i + 1;
    }
    r := if current in d.accept then 1 else 0;
  }

  /** `dfa_add_transition`: asserts unlocked, then sets (from, t) -> to, replacing any earlier target. */
  function AddTransition<S(==), T(==)>(d: Dfa<S, T>, from: S, t: T, to: S): (r: Result<Dfa<S, T>, Fault>)
    ensures d.locked <==> r == Failure(AssertFailed)
    ensures r.Success? ==>
      && (from, t) in r.value.trans && r.value.trans[(from, t)] == to
      && r.value.trans.Keys == d.trans.Keys + {(from, t)}
      && (forall k | k in d.trans && k != (from, t) :: r.value.trans[k] == d.trans[k])
      && r.value.begin == d.begin && r.value.accept == d.accept && !r.value.locked
  {
    if d.locked then Failure(AssertFailed)
    else Success(d.(trans := d.trans[(from, t) := to]))
  }

  /** `dfa_remove_transition`: asserts unlocked, erases the pair and returns whether it existed. */
  function RemoveTransition<S(==), T(==)>(d: Dfa<S, T>, s: S, t: T): (r: Result<(Dfa<S, T>, nat), Fault>)
    ensures d.locked <==> r == Failure(AssertFailed)
    ensures r.Success? ==>
      && (r.value.1 == 1 <==> (s, t) in d.trans)
      && (r.value.1 == 0 <==> (s, t) !in d.trans)
      && r.value.0.trans.Keys == d.trans.Keys - {(s, t)}
      && (forall k | k in r.value.0.trans :: r.value.0.trans[k] == d.trans[k])
      && r.value.0.begin == d.begin && r.value.0.accept == d.accept && !r.value.0.locked
  {
    if d.locked then Failure(AssertFailed)
    else Success((d.(trans := d.trans - {(s, t)}), if (s, t) in d.trans then 1 else 0))
  }

  /** `dfa_add_accept_state`: asserts unlocked, then marks `s` accepting. */
  function AddAcceptState<S(==), T(==)>(d: Dfa<S, T>, s: S): (r: Result<Dfa<S, T>, Fault>)
    ensures d.locked <==> r == Failure(AssertFailed)
    ensures r.Success? ==>
      && r.value.accept == d.accept + {s} && r.value.trans == d.trans
      && r.value.begin == d.begin && !r.value.locked
  {
    if d.locked then Failure(AssertFailed)
    else Success(d.(accept := d.accept + {s}))
  }

  /** `dfa_remove_accept_state`: asserts unlocked, unmarks `s` and returns whether it was accepting. */
  function RemoveAcceptState<S(==), T(==)>(d: Dfa<S, T>, s: S): (r: Result<(Dfa<S, T>, nat), Fault>)
    ensures d.locked <==> r == Failure(AssertFailed)
    ensures r.Success? ==>
      && (r.value.1 == 1 <==> s in d.accept)
      && (r.value.1 == 0 <==> s !in d.accept)
      && r.value.0.accept == d.accept - {s} && r.value.0.trans == d.trans
      && r.value.0.begin == d.begin && !r.value.0.locked
  {
    if d.locked then Failure(AssertFailed)
    else Success((d.(accept := d.accept - {s}), if s in d.accept then 1 else 0))
  }

  /** `dfa_to_fdfa`: locks the DFA and returns a closure over it. */
  function ToFdfa<S(==), T(==)>(d: Dfa<S, T>): (r: (Dfa<S, T>, Fdfa<S, T>))
    ensures r.0.locked && r.1.dfa == r.0
    ensures r.0.trans == d.trans && r.0.begin == d.begin && r.0.accept == d.accept
  {
    var locked := d.(locked := true);
    (locked, Fdfa(locked))
  }

  /** `fdfa call`: runs the wrapped DFA. */
  method Call<S(==), T(==)>(f: Fdfa<S, T>, w: seq<T>) returns (r: nat)
    ensures r == 1 <==> Accepts(f.dfa, w)
    ensures r == 0 <==> !Accepts(f.dfa, w)
  {
    r := Run(f.dfa, w);
  }

  /* ---------- properties ---------- */

  /** Locking does not change the language, so the closure answers as the DFA did. */
  lemma FdfaAcceptsSameLanguage<S, T>(d: Dfa<S, T>, w: seq<T>)
    ensures Accepts(ToFdfa(d).1.dfa, w) <==> Accepts(d, w)
  {
  }

  /** After `dfa_to_fdfa` every mutator fails its assertion. */
  lemma LockedRejectsMutation<S, T>(d: Dfa<S, T>, from: S, t: T, to: S)
    ensures var l := ToFdfa(d).0;
      && AddTransition(l, from, t, to) == Failure(AssertFailed)
      && RemoveTransition(l, from, t) == Failure(AssertFailed)
      && AddAcceptState(l, from) == Failure(AssertFailed)
      && RemoveAcceptState(l, from) == Failure(AssertFailed)
  {
  }

  /** The empty word is accepted exactly when the begin state accepts. */
  lemma AcceptsEmpty<S, T>(d: Dfa<S, T>)
    ensures Accepts(d, []) <==> d.begin in d.accept
  {
  }

  /** Reading `u + v` is reading `u`, then `v` from where `u` ended. */
  lemma {:induction false} DeltaAppend<S, T>(trans: map<(S, T), S>, s: S, u: seq<T>, v: seq<T>)
    ensures Delta(trans, s, u + v) ==
      (var q := Delta(trans, s, u); if q.Some? then Delta(trans, q.value, v) else None)
    decreases |u|
  {
    if |u| == 0 {
      assert u + v == v;
    } else {
      assert (u + v)[0] == u[0];
      assert (u + v)[1..] == u[1..] + v;
      if (s, u[0]) in trans {
        DeltaAppend(trans, trans[(s, u[0])], u[1..], v);
      }
    }
  }

  /** Removing a transition never adds words to the language. */
  lemma {:induction false} RemoveTransitionShrinks<S, T>(trans: map<(S, T), S>, key: (S, T), s: S, w: seq<T>)
    ensures var q := Delta(trans - {key}, s, w); q.Some? ==> q == Delta(trans, s, w)
    decreases |w|
  {
    if |w| > 0 && (s, w[0]) in trans - {key} {
      RemoveTransitionShrinks(trans, key, trans[(s, w[0])], w[1..]);
    }
  }

  /** Adding a transition for a pair that had none never removes words from the language. */
  lemma {:induction false} AddTransitionGrows<S, T>(trans: map<(S, T), S>, key: (S, T), to: S, s: S, w: seq<T>)
    requires key !in trans
    ensures var q := Delta(trans, s, w); q.Some? ==> Delta(trans[key := to], s, w) == q
    decreases |w|
  {
    if |w| > 0 && (s, w[0]) in trans {
      AddTransitionGrows(trans, key, to, trans[(s, w[0])], w[1..]);
    }
  }

  /** The number DFA of the unit test accepts "-0" and rejects "-". */
  lemma NumberDfaExample()
    ensures var d := Dfa(map[(0, '-') := 0, (0, '0') := 2, (0, '1') := 1, (1, '0') := 1], 0, {1, 2}, false);
      Accepts(d, "-0") && !Accepts(d, "-") && Accepts(d, "10") && !Accepts(d, "01")
  {
    var d := Dfa(map[(0, '-') := 0, (0, '0') := 2, (0, '1') := 1, (1, '0') := 1], 0, {1, 2}, false);
    assert Delta(d.trans, 0, "-0") == Delta(d.trans, 0, "0");
    assert Delta(d.trans, 0, "10") == Delta(d.trans, 1, "0");
    assert Delta(d.trans, 0, "01") == Delta(d.trans, 2, "1");
  }
}

=== FILE: flat_dfa.dfy ===
/**
 The flat byte-table DFA of src/lexer/flat_dfa.c.

 The table has `state_size << 7` signed `char` cells; the cell for
 (state, c) is at `(state << 7) + (255 & c)`. A cell is 0xFF (-1) when the
 transition is missing and `(target << 1) | accept` otherwise: the accept
 flag lives on the edge, not on the state. States are 0-based and 0 is the
 begin state. Since a cell is a signed `char` and the stride is 7 bits,
 targets below 64 and input bytes below 128 are what the table encodes
 faithfully; the operations require exactly that.
 */
module FlatDfa {
  import opened Wrappers
  import MapDfa

  const Stride: nat := 128           // 1 << _flat_dfa_offset_constant
  const OffsetConstant: nat := 7     // _flat_dfa_offset_constant, the serialised header
  const Missing: int := -1           // '\xff' read as a signed char
  const NoMatch: nat := SizeMax                  // ~0UL

  datatype Flat = Flat(stateSize: nat, table: seq<int>)

  /** A table of the right length whose cells are signed chars. */
  ghost predicate Valid(d: Flat)
  {
    |d.table| == d.stateSize * Stride && forall i :: 0 <= i < |d.table| ==> -128 <= d.table[i] < 128
  }

  predicate CellOk(x: int)
  {
    x == Missing || 0 <= x < 128
  }

  /** Every cell is missing or a non-negative `(target << 1) | accept`. */
  ghost predicate Cells(d: Flat)
  {
    Valid(d) && forall i :: 0 <= i < |d.table| ==> CellOk(d.table[i])
  }

  /** ... and every target is a state of the table, which has the begin state. */
  ghost predicate WellFormed(d: Flat)
  {
    && Cells(d) && d.stateSize >= 1
    && forall i :: 0 <= i < |d.table| ==> d.table[i] == Missing || d.table[i] / 2 < d.stateSize
  }

  /** `_flat_dfa_offset_into_transition`. */
  function Index(s: nat, c: Byte): (i: nat)
    requires c < Stride
    ensures i / Stride == s && i % Stride == c
  {
    s * Stride + c
  }

  lemma IndexInRange(d: Flat, s: nat, c: Byte)
    requires Valid(d) && s < d.stateSize && c < Stride
    ensures Index(s, c) < |d.table|
  {
  }

  datatype Edge = Edge(target: nat, accept: bool)

  /** The edge a cell encodes. */
  function Lookup(d: Flat, s: nat, c: Byte): Option<Edge>
    requires Valid(d) && s < d.stateSize && c < Stride
  {
    IndexInRange(d, s, c);
    Decode(d.table[Index(s, c)])
  }

  function Decode(x: int): Option<Edge>
  {
    if x == Missing || x < 0 then None else Some(Edge(x / 2, x % 2 == 1))
  }

  /** `_flat_dfa_new`: every cell 0xFF. */
  function New(n: nat): (d: Flat)
    ensures Cells(d) && d.stateSize == n
    ensures n >= 1 ==> WellFormed(d)
    ensures forall s: nat, c: Byte | s < n && c < Stride :: Lookup(d, s, c) == None
  {
    Flat(n, seq(n * Stride, i => Missing))
  }

  /** `add_transition`: writes `to << 1`, so the new edge is non-accepting. */
  function AddTransition(d: Flat, from: nat, c: Byte, to: nat): (r: Flat)
    requires Valid(d) && from < d.stateSize && c < Stride && to < 64
    ensures Valid(r) && r.stateSize == d.stateSize
    ensures Lookup(r, from, c) == Some(Edge(to, false))
    ensures forall s: nat, c': Byte | s < d.stateSize && c' < Stride && (s, c') != (from, c) ::
      Lookup(r, s, c') == Lookup(d, s, c')
    ensures Cells(d) ==> Cells(r)
    ensures WellFormed(d) && to < d.stateSize ==> WellFormed(r)
  {
    IndexInRange(d, from, c);
    Flat(d.stateSize, d.table[Index(from, c) := 2 * to])
  }

  /**
   * `remove_transition`: marks the cell missing and returns the old cell,
   * widened to `size_t`, plus one. A missing cell (`-1`) gives 0; an edge to
   * `t` gives `2 * t + 1`, plus one more when the edge is accepting.
   */
  function RemoveTransition(d: Flat, s: nat, c: Byte): (res: (Flat, nat))
    requires Cells(d) && s < d.stateSize && c < Stride
    ensures Cells(res.0) && res.0.stateSize == d.stateSize
    ensures res.1 == 0 <==> Lookup(d, s, c).None?
    ensures Lookup(d, s, c).Some? ==>
      res.1 == 2 * Lookup(d, s, c).value.target + (if Lookup(d, s, c).value.accept then 1 else 0) + 1
    ensures 0 <= res.1 <= 128
    ensures Lookup(res.0, s, c) == None
    ensures forall s': nat, c': Byte | s' < d.stateSize && c' < Stride && (s', c') != (s, c) ::
      Lookup(res.0, s', c') == Lookup(d, s', c')
    ensures WellFormed(d) ==> WellFormed(res.0)
  {
    IndexInRange(d, s, c);
    var old_cell := d.table[Index(s, c)];
    (Flat(d.stateSize, d.table[Index(s, c) := Missing]), old_cell + 1)
  }

  /** One cell of `add_accepting_state` (`|= 1`) or `remove_accepting_state` (`&= ~1`). */
  function MarkCell(x: int, s: nat, accept: bool): int
  {
    if x + 1 != 0 && x >= 0 && x / 2 == s then (if accept then x - x % 2 + 1 else x - x % 2)
    else x
  }

  /** Sets (or clears) the accept flag on every edge into `s`. */
  function MarkState(d: Flat, s: nat, accept: bool): (r: Flat)
    requires Cells(d)
    ensures Cells(r) && r.stateSize == d.stateSize
    ensures WellFormed(d) ==> WellFormed(r)
    ensures forall s': nat, c: Byte | s' < d.stateSize && c < Stride ::
      Lookup(r, s', c) == match Lookup(d, s', c)
        case None => None
        case Some(e) => Some(if e.target == s then Edge(s, accept) else e)
  {
    var r := Flat(d.stateSize, seq(|d.table|, i requires 0 <= i < |d.table| => MarkCell(d.table[i], s, accept)));
    assert forall i :: 0 <= i < |d.table| ==> CellOk(r.table[i]) && (r.table[i] == Missing || r.table[i] / 2 == d.table[i] / 2) by {
      forall i | 0 <= i < |d.table|
        ensures CellOk(r.table[i]) && (r.table[i] == Missing || r.table[i] / 2 == d.table[i] / 2)
      {
        MarkDecode(d.table[i], s, accept);
      }
    }
    assert forall s': nat, c: Byte | s' < d.stateSize && c < Stride ::
      Lookup(r, s', c) == match Lookup(d, s', c)
        case None => None
        case Some(e) => Some(if e.target == s then Edge(s, accept) else e)
    by {
      forall s': nat, c: Byte | s' < d.stateSize && c < Stride
        ensures Lookup(r, s', c) == match Lookup(d, s', c)
          case None => None
          case Some(e) => Some(if e.target == s then Edge(s, accept) else e)
      {
        IndexInRange(d, s', c);
        MarkDecode(d.table[Index(s', c)], s, accept);
      }
    }
    r
  }

  /** Marking a cell keeps it a cell and its target, and sets the flag exactly on edges into `s`. */
  lemma MarkDecode(x: int, s: nat, accept: bool)
    requires CellOk(x)
    ensures var y := MarkCell(x, s, accept);
      && CellOk(y) && (y == Missing || y / 2 == x / 2)
      && Decode(y) == match Decode(x)
        case None => None
        case Some(e) => Some(if e.target == s then Edge(s, accept) else e)
  {
  }

  /** `add_accepting_state`. */
  function AddAcceptingState(d: Flat, s: nat): (r: Flat)
    requires Cells(d)
    ensures Cells(r) && r.stateSize == d.stateSize
    ensures WellFormed(d) ==> WellFormed(r)
    ensures forall s': nat, c: Byte | s' < d.stateSize && c < Stride ::
      && (Lookup(r, s', c).Some? <==> Lookup(d, s', c).Some?)
      && (Lookup(r, s', c).Some? ==>
            && Lookup(r, s', c).value.target == Lookup(d, s', c).value.target
            && (Lookup(r, s', c).value.accept <==> Lookup(d, s', c).value.accept || Lookup(d, s', c).value.target == s))
  {
    MarkState(d, s, true)
  }

  /** `remove_accepting_state`: always returns 1. */
  function RemoveAcceptingState(d: Flat, s: nat): (res: (Flat, nat))
    requires Cells(d)
    ensures Cells(res.0) && res.0.stateSize == d.stateSize && res.1 == 1
    ensures WellFormed(d) ==> WellFormed(res.0)
    ensures forall s': nat, c: Byte | s' < d.stateSize && c < Stride ::
      && (Lookup(res.0, s', c).Some? <==> Lookup(d, s', c).Some?)
      && (Lookup(res.0, s', c).Some? ==>
            && Lookup(res.0, s', c).value.target == Lookup(d, s', c).value.target
            && (Lookup(res.0, s', c).value.accept <==> Lookup(d, s', c).value.accept && Lookup(d, s', c).value.target != s))
  {
    (MarkState(d, s, false), 1)
  }

  /* ---------- running ---------- */

  ghost predicate Ascii(w: seq<Byte>)
  {
    forall i :: 0 <= i < |w| ==> w[i] < Stride
  }

  /**
   The edge that reading `w` from state `s` ends on, where `acc` is the flag
   of the edge that led to `s`; None when a transition is missing.
   */
  ghost function Reach(d: Flat, s: nat, acc: bool, w: seq<Byte>): Option<Edge>
    requires WellFormed(d) && s < d.stateSize && Ascii(w)
    decreases |w|
  {
    if |w| == 0 then Some(Edge(s, acc))
    else match Lookup(d, s, w[0])
      case None => None
      case Some(e) =>
        IndexInRange(d, s, w[0]);
        Reach(d, e.target, e.accept, w[1..])
  }

  /** The words `run` accepts: every step present and the last edge accepting. */
  ghost predicate Accepts(d: Flat, w: seq<Byte>)
    requires WellFormed(d) && Ascii(w)
  {
    var e := Reach(d, 0, false, w);
    e.Some? && e.value.accept
  }

  /** `run`: 0 on a missing cell, otherwise the accept bit of the last edge taken. */
  method Run(d: Flat, w: seq<Byte>) returns (r: nat)
    requires WellFormed(d) && Ascii(w)
    ensures r == 1 <==> Accepts(d, w)
    ensures r == 0 <==> !Accepts(d, w)
  {
    var current: int := 0;
    var i := 0;
    while i < |w|
      invariant 0 <= i <= |w|
      invariant 0 <= current < 128 && current / 2 < d.stateSize
      invariant Reach(d, 0, false, w) == Reach(d, current / 2, current % 2 == 1, w[i..])
    {
      assert w[i..][1..] == w[i + 1..];
      IndexInRange(d, current / 2, w[i]);
      var cell := d.table[Index(current / 2, w[i])];
      if cell + 1 == 0 {
        return 0;
      }
      current := cell;
      i := i + 1;
    }
    r := current % 2;
  }

  /** The empty word is always rejected, whatever the begin state. */
  lemma EmptyIsRejected(d: Flat)
    requires WellFormed(d)
    ensures !Accepts(d, [])
  {
  }

  /* ---------- greedy scan ---------- */

  /**
   `current_state` after the greedy scan has read `k` bytes of `w`: a
   missing cell sends it back to the begin state instead of stopping.
   */
  ghost function Cur(d: Flat, w: seq<Byte>, k: nat): (c: int)
    requires WellFormed(d) && Ascii(w) && k <= |w|
    ensures 0 <= c < 128 && c / 2 < d.stateSize
  {
    if k == 0 then 0
    else
      var prev := Cur(d, w, k - 1);
      IndexInRange(d, prev / 2, w[k - 1]);
      var cell := d.table[Index(prev / 2, w[k - 1])];
      if cell + 1 != 0 then cell else 0
  }

  ghost predicate AcceptAt(d: Flat, w: seq<Byte>, p: nat)
    requires WellFormed(d) && Ascii(w) && p <= |w|
  {
    Cur(d, w, p) % 2 == 1
  }

  ghost predicate AtBegin(d: Flat, w: seq<Byte>, i: nat)
    requires WellFormed(d) && Ascii(w) && i <= |w|
  {
    Cur(d, w, i) / 2 == 0
  }

  /**
   What the greedy scan returns: NoMatch when no prefix position is
   accepting; otherwise an accepting position such that the scan had not
   yet come back to the begin state after the first accepting position,
   and every later accepting position lies beyond such a return.
   */
  ghost predicate GreedyBound(d: Flat, w: seq<Byte>, bound: nat)
    requires WellFormed(d) && Ascii(w)
  {
    if bound == NoMatch then
      forall p :: 1 <= p <= |w| ==> !AcceptAt(d, w, p)
    else
      && 1 <= bound <= |w| && AcceptAt(d, w, bound)
      && (forall p, i :: 1 <= p <= i < bound && AcceptAt(d, w, p) ==> !AtBegin(d, w, i))
      && (forall p :: bound < p <= |w| && AcceptAt(d, w, p) ==>
            exists i :: bound <= i < p && AtBegin(d, w, i))
  }

  /** `run_greedy_iter`: the greedy scan over the whole iterator. */
  method RunGreedyIterator(d: Flat, w: seq<Byte>) returns (bound: nat)
    requires WellFormed(d) && Ascii(w) && |w| < NoMatch
    ensures GreedyBound(d, w, bound)
  {
    var current: int := 0;
    var offset := 0;
    bound := NoMatch;
    while offset < |w|
      invariant 0 <= offset <= |w|
      invariant current == Cur(d, w, offset)
      invariant bound == NoMatch <==> forall p :: 1 <= p <= offset ==> !AcceptAt(d, w, p)
      invariant bound != NoMatch ==> 1 <= bound <= offset && AcceptAt(d, w, bound)
      invariant bound != NoMatch ==> forall p :: bound < p <= offset ==> !AcceptAt(d, w, p)
      invariant forall p, i :: 1 <= p <= i < offset && AcceptAt(d, w, p) ==> !AtBegin(d, w, i)
    {
      var realState := current / 2;
      IndexInRange(d, realState, w[offset]);
      var cell := d.table[Index(realState, w[offset])];
      if cell + 1 != 0 {
        current := cell;
      } else {
        current := 0;
      }
      offset := offset + 1;
      assert AcceptAt(d, w, offset) <==> current % 2 == 1;
      if realState == 0 && bound != NoMatch {
        assert AtBegin(d, w, offset - 1);
        forall p | bound < p <= |w| && AcceptAt(d, w, p)
          ensures exists i :: bound <= i < p && AtBegin(d, w, i)
        {
          assert bound <= offset - 1 < p;
        }
        return;
      } else if current % 2 == 1 {
        bound := offset;
      }
    }
  }

  /** `run_greedy`: the same scan over `ptr[0 ..= ptr_sz]`, which includes the terminator. */
  method RunGreedy(d: Flat, text: seq<Byte>, size: nat) returns (bound: nat)
    requires WellFormed(d) && size < |text| && Ascii(text[..size + 1]) && size + 1 < NoMatch
    ensures GreedyBound(d, text[..size + 1], bound)
  {
    bound := RunGreedyIterator(d, text[..size + 1]);
  }

  /** The greedy contract determines the bound. */
  lemma GreedyBoundUnique(d: Flat, w: seq<Byte>, b1: nat, b2: nat)
    requires WellFormed(d) && Ascii(w)
    requires GreedyBound(d, w, b1) && GreedyBound(d, w, b2)
    ensures b1 == b2
  {
  }

  /* ---------- serialisation ---------- */

  function Pow256(k: nat): (p: nat)
    ensures p >= 1
  {
    if k == 0 then 1 else 256 * Pow256(k - 1)
  }

  /** A little-endian `k`-byte word. */
  function Le(x: nat, k: nat): (bs: seq<Byte>)
    ensures |bs| == k
  {
    if k == 0 then [] else [x % 256] + Le(x / 256, k - 1)
  }

  function FromLe(bs: seq<Byte>): nat
  {
    if |bs| == 0 then 0 else bs[0] + 256 * FromLe(bs[1..])
  }

  lemma {:induction false} LeRoundTrip(x: nat, k: nat)
    requires x < Pow256(k)
    ensures FromLe(Le(x, k)) == x
  {
    if k > 0 {
      LeRoundTrip(x / 256, k - 1);
      assert Le(x, k)[1..] == Le(x / 256, k - 1);
    }
  }

  /** A signed char as the byte it is stored as, and back. */
  function ToByte(x: int): Byte
  {
    x % 256
  }

  function Signed(b: Byte): int
  {
    if b >= 128 then b - 256 else b
  }

  /** `serialize`: the header `[7, state_size]` as 8-byte words, then the cells. */
  function Serialize(d: Flat): (bs: seq<Byte>)
    requires Valid(d) && d.stateSize < Pow256(8)
    ensures |bs| == 16 + d.stateSize * Stride
  {
    Le(OffsetConstant, 8) + Le(d.stateSize, 8) + seq(|d.table|, i requires 0 <= i < |d.table| => ToByte(d.table[i]))
  }

  /** The buffer holds the header and the cells its header announces. */
  ghost predicate Readable(bs: seq<Byte>)
  {
    |bs| >= 16 && |bs| >= 16 + FromLe(bs[8..16]) * Stride
  }

  /** `deserialize`: asserts the header's 7, then reads `state_size << 7` cells. */
  function Deserialize(bs: seq<Byte>): (r: Result<Flat, Fault>)
    requires Readable(bs)
    ensures r.Failure? <==> FromLe(bs[..8]) != OffsetConstant
    ensures r.Success? ==> Valid(r.value) && r.value.stateSize == FromLe(bs[8..16])
  {
    if FromLe(bs[..8]) != OffsetConstant then Failure(AssertFailed)
    else
      var n := FromLe(bs[8..16]);
      Success(Flat(n, seq(n * Stride, i requires 0 <= i < n * Stride => Signed(bs[16 + i]))))
  }

  /** Deserialising a serialised table gives back the same state count and cells. */
  lemma SerializeRoundTrip(d: Flat)
    requires Valid(d) && d.stateSize < Pow256(8)
    ensures Readable(Serialize(d)) && Deserialize(Serialize(d)) == Success(d)
  {
    var bs := Serialize(d);
    assert bs[..8] == Le(OffsetConstant, 8);
    assert bs[8..16] == Le(d.stateSize, 8);
    assert Pow256(8) == 0x1_0000_0000_0000_0000;
    LeRoundTrip(OffsetConstant, 8);
    LeRoundTrip(d.stateSize, 8);
    var r := Deserialize(bs);
    assert r.value.table == d.table;
  }

  /* ---------- from a map DFA ---------- */

  /** `map_get_list` / `set_get_list` hand over the contents in an order the model leaves open. */
  ghost predicate ListsMap(es: seq<((nat, Byte), nat)>, m: map<(nat, Byte), nat>)
  {
    && (forall i :: 0 <= i < |es| ==> es[i].0 in m && m[es[i].0] == es[i].1)
    && (forall k | k in m :: exists i :: 0 <= i < |es| && es[i].0 == k)
  }

  ghost predicate ListsSet(xs: seq<nat>, s: set<nat>)
  {
    forall x :: x in xs <==> x in s
  }

  /** The DFA fits the table encoding: states below 64, symbols below 128. */
  ghost predicate Encodable(m: MapDfa.Dfa<nat, Byte>)
  {
    forall k | k in m.trans :: k.0 < 64 && k.1 < Stride && m.trans[k] < 64
  }

  /** The largest state named by a listed transition, at least `acc`. */
  function MaxState(es: seq<((nat, Byte), nat)>, acc: nat): (mx: nat)
    ensures mx >= acc
    ensures forall i :: 0 <= i < |es| ==> es[i].0.0 <= mx && es[i].1 <= mx
    ensures mx == acc || exists i :: 0 <= i < |es| && (mx == es[i].0.0 || mx == es[i].1)
  {
    if |es| == 0 then acc
    else
      var a1 := if acc < es[0].0.0 then es[0].0.0 else acc;
      var a2 := if a1 < es[0].1 then es[0].1 else a1;
      var r := MaxState(es[1..], a2);
      assert forall i :: 1 <= i < |es| ==> es[i] == es[1..][i - 1];
      r
  }

  /** The transitions added in listing order. */
  function AddAll(d: Flat, es: seq<((nat, Byte), nat)>): (r: Flat)
    requires WellFormed(d)
    requires forall i :: 0 <= i < |es| ==> es[i].0.0 < d.stateSize && es[i].0.1 < Stride && es[i].1 < 64 && es[i].1 < d.stateSize
    ensures WellFormed(r) && r.stateSize == d.stateSize
  {
    if |es| == 0 then d
    else
      var last := es[|es| - 1];
      AddTransition(AddAll(d, es[..|es| - 1]), last.0.0, last.0.1, last.1)
  }

  /** The accept states added in listing order. */
  function AcceptAll(d: Flat, xs: seq<nat>): (r: Flat)
    requires WellFormed(d)
    ensures WellFormed(r) && r.stateSize == d.stateSize
  {
    if |xs| == 0 then d else AddAcceptingState(AcceptAll(d, xs[..|xs| - 1]), xs[|xs| - 1])
  }

  /**
   `from_compressed_dfa`: asserts begin state 0, sizes the table to the
   largest state plus one, adds every transition and then every accept state.
   */
  function FromCompressed(m: MapDfa.Dfa<nat, Byte>, es: seq<((nat, Byte), nat)>, accepts: seq<nat>): (r: Result<Flat, Fault>)
    requires ListsMap(es, m.trans) && ListsSet(accepts, m.accept) && Encodable(m)
    ensures r.Failure? <==> m.begin != 0
    ensures r.Success? ==>
      && WellFormed(r.value)
      && (forall k | k in m.trans :: k.0 < r.value.stateSize && m.trans[k] < r.value.stateSize)
    ensures r.Success? ==> forall s: nat, c: Byte | s < r.value.stateSize && c < Stride ::
      Lookup(r.value, s, c) == if (s, c) in m.trans then Some(Edge(m.trans[(s, c)], m.trans[(s, c)] in m.accept)) else None
  {
    if m.begin != 0 then Failure(AssertFailed)
    else
      var mx := MaxState(es, 0);
      ListedFit(m, es);
      CompressedLookup(m, es, accepts, mx);
      Success(AcceptAll(AddAll(New(mx + 1), es), accepts))
  }

  /** Every listed transition fits the table encoding. */
  lemma ListedFit(m: MapDfa.Dfa<nat, Byte>, es: seq<((nat, Byte), nat)>)
    requires ListsMap(es, m.trans) && Encodable(m)
    ensures forall i :: 0 <= i < |es| ==> es[i].0.0 < 64 && es[i].0.1 < Stride && es[i].1 < 64
  {
    forall i | 0 <= i < |es|
      ensures es[i].0.0 < 64 && es[i].0.1 < Stride && es[i].1 < 64
    {
      assert es[i].0 in m.trans;
    }
  }

  /** The table built from the listed transitions and accept states looks up exactly as the map DFA steps. */
  lemma CompressedLookup(m: MapDfa.Dfa<nat, Byte>, es: seq<((nat, Byte), nat)>, accepts: seq<nat>, mx: nat)
    requires ListsMap(es, m.trans) && ListsSet(accepts, m.accept) && Encodable(m) && mx == MaxState(es, 0)
    requires forall i :: 0 <= i < |es| ==> es[i].0.0 < 64 && es[i].0.1 < Stride && es[i].1 < 64
    ensures var r := AcceptAll(AddAll(New(mx + 1), es), accepts);
      && r.stateSize == mx + 1
      && (forall k | k in m.trans :: k.0 < r.stateSize && m.trans[k] < r.stateSize)
      && (forall s: nat, c: Byte | s < r.stateSize && c < Stride ::
        Lookup(r, s, c) == if (s, c) in m.trans then Some(Edge(m.trans[(s, c)], m.trans[(s, c)] in m.accept)) else None)
  {
    var base := New(mx + 1);
    forall k | k in m.trans ensures k.0 <= mx && m.trans[k] <= mx {
      var i :| 0 <= i < |es| && es[i].0 == k;
    }
    var withEdges := AddAll(base, es);
    AddAllLookup(base, es, m.trans);
    var r := AcceptAll(withEdges, accepts);
    AcceptAllLookup(withEdges, accepts);
    forall s: nat, c: Byte | s < r.stateSize && c < Stride
      ensures Lookup(r, s, c) == if (s, c) in m.trans then Some(Edge(m.trans[(s, c)], m.trans[(s, c)] in m.accept)) else None
    {
      PointLookup(m, es, accepts, Lookup(withEdges, s, c), Lookup(r, s, c), s, c);
    }
  }

  /** One cell of `CompressedLookup`: the edge listed for `(s, c)`, marked accepting when its target is listed. */
  lemma PointLookup(m: MapDfa.Dfa<nat, Byte>, es: seq<((nat, Byte), nat)>, accepts: seq<nat>, mid: Option<Edge>, last: Option<Edge>, s: nat, c: Byte)
    requires ListsMap(es, m.trans) && ListsSet(accepts, m.accept)
    requires mid == if Listed(es, (s, c)) then Some(Edge(m.trans[(s, c)], false)) else None
    requires last == (match mid case None => None case Some(e) => Some(Edge(e.target, e.accept || e.target in accepts)))
    ensures last == if (s, c) in m.trans then Some(Edge(m.trans[(s, c)], m.trans[(s, c)] in m.accept)) else None
  {
    if (s, c) in m.trans {
      var i :| 0 <= i < |es| && es[i].0 == (s, c);
    }
  }

  /** Some listed transition leaves from `k`. */
  ghost predicate Listed(es: seq<((nat, Byte), nat)>, k: (nat, Byte))
  {
    exists i :: 0 <= i < |es| && es[i].0 == k
  }

  lemma ListedSnoc(es: seq<((nat, Byte), nat)>, k: (nat, Byte))
    requires |es| > 0
    ensures Listed(es, k) <==> Listed(es[..|es| - 1], k) || es[|es| - 1].0 == k
  {
    var front := es[..|es| - 1];
    if Listed(es, k) {
      var i :| 0 <= i < |es| && es[i].0 == k;
      if i < |front| {
        assert front[i].0 == k;
      }
    }
    if Listed(front, k) {
      var i :| 0 <= i < |front| && front[i].0 == k;
      assert es[i].0 == k;
    }
  }

  lemma {:induction false} AddAllLookup(d: Flat, es: seq<((nat, Byte), nat)>, m: map<(nat, Byte), nat>)
    requires WellFormed(d) && forall s: nat, c: Byte | s < d.stateSize && c < Stride :: Lookup(d, s, c) == None
    requires forall i :: 0 <= i < |es| ==> es[i].0.0 < d.stateSize && es[i].0.1 < Stride && es[i].1 < 64 && es[i].1 < d.stateSize
    requires forall i :: 0 <= i < |es| ==> es[i].0 in m && m[es[i].0] == es[i].1
    ensures forall s: nat, c: Byte | s < d.stateSize && c < Stride ::
      Lookup(AddAll(d, es), s, c) == if Listed(es, (s, c)) then Some(Edge(m[(s, c)], false)) else None
  {
    if |es| > 0 {
      var front, last := es[..|es| - 1], es[|es| - 1];
      AddAllLookup(d, front, m);
      var prev := AddAll(d, front);
      assert AddAll(d, es) == AddTransition(prev, last.0.0, last.0.1, last.1);
      forall s: nat, c: Byte | s < d.stateSize && c < Stride
        ensures Lookup(AddAll(d, es), s, c) == if Listed(es, (s, c)) then Some(Edge(m[(s, c)], false)) else None
      {
        ListedSnoc(es, (s, c));
      }
    }
  }

  lemma {:induction false} AcceptAllLookup(d: Flat, xs: seq<nat>)
    requires WellFormed(d)
    ensures forall s: nat, c: Byte | s < d.stateSize && c < Stride ::
      Lookup(AcceptAll(d, xs), s, c) == match Lookup(d, s, c)
        case None => None
        case Some(e) => Some(Edge(e.target, e.accept || e.target in xs))
  {
    if |xs| > 0 {
      AcceptAllLookup(d, xs[..|xs| - 1]);
      forall x ensures x in xs <==> x in xs[..|xs| - 1] || x == xs[|xs| - 1] {
        if x in xs {
          var i :| 0 <= i < |xs| && xs[i] == x;
          if i < |xs| - 1 {
            assert xs[..|xs| - 1][i] == x;
          }
        }
      }
    }
  }

  /**
   On non-empty words the flat table accepts exactly what the map DFA it
   was built from accepts; the empty word it always rejects.
   */
  lemma FromCompressedLanguage(m: MapDfa.Dfa<nat, Byte>, es: seq<((nat, Byte), nat)>, accepts: seq<nat>, w: seq<Byte>)
    requires ListsMap(es, m.trans) && ListsSet(accepts, m.accept) && Encodable(m) && m.begin == 0
    requires Ascii(w)
    ensures var f := FromCompressed(m, es, accepts).value;
      Accepts(f, w) <==> |w| > 0 && MapDfa.Accepts(m, w)
  {
    var f := FromCompressed(m, es, accepts).value;
    if |w| > 0 {
      ReachAgrees(m, f, 0, false, w);
    }
  }

  lemma {:induction false} ReachAgrees(m: MapDfa.Dfa<nat, Byte>, f: Flat, s: nat, acc: bool, w: seq<Byte>)
    requires WellFormed(f) && s < f.stateSize && Ascii(w) && |w| > 0
    requires forall k | k in m.trans :: k.0 < f.stateSize && m.trans[k] < f.stateSize
    requires forall s: nat, c: Byte | s < f.stateSize && c < Stride :: Lookup(f, s, c) == if (s, c) in m.trans then Some(Edge(m.trans[(s, c)], m.trans[(s, c)] in m.accept)) else None
    ensures var e := Reach(f, s, acc, w); var q := MapDfa.Delta(m.trans, s, w);
      (e.Some? && e.value.accept) <==> (q.Some? && q.value in m.accept)
    decreases |w|
  {
    if (s, w[0]) in m.trans && |w| > 1 {
      ReachAgrees(m, f, m.trans[(s, w[0])], m.trans[(s, w[0])] in m.accept, w[1..]);
    }
  }
}

=== FILE: grammar.dfy ===
/**
 The grammar helpers of src/parser/parser.h: terminals, EBNF rules, the
 rule list, and the minimum look-ahead that tells rules apart.

 A terminal's one-bit `isNonTerminal` field is a flag; its name is the
 `name_length` bytes at `name`.
 */
module Grammar {
  import opened Wrappers
  import Vec

  datatype Terminal = Terminal(nonTerminal: bool, name: string)

  /** One rule: its left-hand terminal and its right-hand side. */
  datatype Rule = Rule(lhs: Terminal, rhs: Vec.Vector<Terminal>)

  datatype Rules = Rules(rules: Vec.Vector<Rule>)

  function Min(a: nat, b: nat): (m: nat)
    ensures m <= a && m <= b && (m == a || m == b)
  {
    if a < b then a else b
  }

  /** The names agree on every index from `i` below the shorter length. */
  function AgreeFrom(x: string, y: string, i: nat): (r: bool)
    requires i <= Min(|x|, |y|)
    ensures r <==> forall k :: i <= k < Min(|x|, |y|) ==> x[k] == y[k]
    decreases Min(|x|, |y|) - i
  {
    if i == Min(|x|, |y|) then true
    else x[i] == y[i] && AgreeFrom(x, y, i + 1)
  }

  /**
   `_terminal_equals`: the flags agree, the bytes agree up to the shorter
   name, and the lengths agree; that is, the terminals are equal.
   */
  function TerminalEquals(a: Terminal, b: Terminal): (r: bool)
    ensures r <==> a == b
  {
    if a.nonTerminal != b.nonTerminal then false
    else if !AgreeFrom(a.name, b.name, 0) then false
    else
      assert |a.name| == |b.name| ==> a.name == b.name;
      |a.name| == |b.name|
  }

  /** The first index below `n` from `i` on where the two sides differ, `n` when none does. */
  function FirstDifference(x: seq<Terminal>, y: seq<Terminal>, i: nat, n: nat): (d: nat)
    requires i <= n <= Min(|x|, |y|)
    ensures i <= d <= n
    ensures forall k :: i <= k < d ==> x[k] == y[k]
    ensures d < n ==> x[d] != y[d]
    decreases n - i
  {
    if i == n then n
    else if !TerminalEquals(x[i], y[i]) then i
    else FirstDifference(x, y, i + 1, n)
  }

  /**
   `_ebnf_rule_index_of_left_most_difference`: 0 when the left-hand
   sides differ; otherwise the first index where the right-hand sides
   differ; when one side is a prefix of the other, the shorter length, and
   for identical sides `SIZE_MAX`.
   */
  function LeftmostDifference(r1: Rule, r2: Rule): (d: nat)
    ensures d == SizeMax || d <= Min(|r1.rhs.items|, |r2.rhs.items|)
  {
    var x, y := r1.rhs.items, r2.rhs.items;
    if !TerminalEquals(r1.lhs, r2.lhs) then 0
    else
      var n := Min(|x|, |y|);
      var i := FirstDifference(x, y, 0, n);
      if i < n then i
      else if |x| == |y| then
        assert x == y;
        SizeMax
      else n
  }

  /**
   What the left-most difference means: 0 for different left-hand sides;
   otherwise the right-hand sides agree below it and differ at it, or one
   is a proper prefix of the other and it is the shorter length; it is
   `SIZE_MAX` exactly for identical rules (when no right-hand side is that
   long).
   */
  lemma LeftmostDifferenceMeaning(r1: Rule, r2: Rule)
    ensures r1.lhs != r2.lhs ==> LeftmostDifference(r1, r2) == 0
    ensures var x, y, d := r1.rhs.items, r2.rhs.items, LeftmostDifference(r1, r2);
      r1.lhs == r2.lhs && d != SizeMax ==>
        && d <= Min(|x|, |y|) && x[..d] == y[..d]
        && (d < |x| && d < |y| ==> x[d] != y[d])
        && (d == Min(|x|, |y|) ==> |x| != |y|)
    ensures var x, y := r1.rhs.items, r2.rhs.items;
      Min(|x|, |y|) < SizeMax ==> (LeftmostDifference(r1, r2) == SizeMax <==> r1.lhs == r2.lhs && x == y)
  {
  }

  /** The left-most difference does not depend on the order of the two rules. */
  lemma LeftmostDifferenceSymmetric(r1: Rule, r2: Rule)
    ensures LeftmostDifference(r1, r2) == LeftmostDifference(r2, r1)
  {
    var x, y := r1.rhs.items, r2.rhs.items;
    if r1.lhs == r2.lhs {
      FirstDifferenceSymmetric(x, y, 0, Min(|x|, |y|));
    }
  }

  lemma {:induction false} FirstDifferenceSymmetric(x: seq<Terminal>, y: seq<Terminal>, i: nat, n: nat)
    requires i <= n <= Min(|x|, |y|)
    ensures FirstDifference(x, y, i, n) == FirstDifference(y, x, i, n)
    decreases n - i
  {
    if i < n && x[i] == y[i] {
      FirstDifferenceSymmetric(x, y, i + 1, n);
    }
  }

  /** `_terminal_equals` is an equivalence: reflexive and symmetric. */
  lemma TerminalEqualsEquivalence(a: Terminal, b: Terminal)
    ensures TerminalEquals(a, a)
    ensures TerminalEquals(a, b) == TerminalEquals(b, a)
  {
  }

  /** `_ebnf_rules_add_rule`: the rule goes at the end; earlier rules keep their places. */
  function AddRule(g: Rules, rule: Rule): (g': Rules)
    ensures |g'.rules.items| == |g.rules.items| + 1
    ensures g'.rules.items[|g.rules.items|] == rule
    ensures forall k :: 0 <= k < |g.rules.items| ==> g'.rules.items[k] == g.rules.items[k]
    ensures Vec.Valid(g.rules) ==> Vec.Valid(g'.rules)
  {
    Rules(Vec.PushBack(g.rules, rule))
  }

  /** `m` is at most the left-most difference of every pair whose first rule is below `i`. */
  ghost predicate BoundsPairsBefore(rs: seq<Rule>, m: nat, i: nat)
  {
    forall p, q :: 0 <= p < i && p < q < |rs| ==> m <= LeftmostDifference(rs[p], rs[q])
  }

  /** `m` is `SIZE_MAX` or the left-most difference of some pair. */
  ghost predicate Attained(rs: seq<Rule>, m: nat)
  {
    m == SizeMax || exists p, q :: 0 <= p < q < |rs| && m == LeftmostDifference(rs[p], rs[q])
  }

  /** The inner loop: lowers `m0` to the least left-most difference between rule `i` and every later rule. */
  method MinAgainstLater(rs: seq<Rule>, i: nat, m0: nat) returns (m: nat)
    requires i < |rs|
    ensures m <= m0
    ensures forall q :: i < q < |rs| ==> m <= LeftmostDifference(rs[i], rs[q])
    ensures m == m0 || exists q :: i < q < |rs| && m == LeftmostDifference(rs[i], rs[q])
  {
    m := m0;
    var j := i + 1;
    while j < |rs|
      invariant i + 1 <= j <= |rs|
      invariant m <= m0
      invariant forall q :: i < q < j ==> m <= LeftmostDifference(rs[i], rs[q])
      invariant m == m0 || exists q :: i < q < j && m == LeftmostDifference(rs[i], rs[q])
    {
      m := Min(m, LeftmostDifference(rs[i], rs[j]));
      j := j + 1;
    }
  }

  /** One pass of the outer loop keeps both loop facts, now for the pairs whose first rule is at most `i`. */
  lemma OuterStep(rs: seq<Rule>, i: nat, m0: nat, m: nat)
    requires i < |rs|
    requires Attained(rs, m0) && BoundsPairsBefore(rs, m0, i)
    requires m <= m0
    requires forall q :: i < q < |rs| ==> m <= LeftmostDifference(rs[i], rs[q])
    requires m == m0 || exists q :: i < q < |rs| && m == LeftmostDifference(rs[i], rs[q])
    ensures Attained(rs, m) && BoundsPairsBefore(rs, m, i + 1)
  {
    OuterBounds(rs, i, m0, m);
    OuterAttained(rs, i, m0, m);
  }

  lemma OuterBounds(rs: seq<Rule>, i: nat, m0: nat, m: nat)
    requires i < |rs| && BoundsPairsBefore(rs, m0, i) && m <= m0
    requires forall q :: i < q < |rs| ==> m <= LeftmostDifference(rs[i], rs[q])
    ensures BoundsPairsBefore(rs, m, i + 1)
  {
    forall p, q | 0 <= p < i + 1 && p < q < |rs|
      ensures m <= LeftmostDifference(rs[p], rs[q])
    {
      if p < i {
        assert m0 <= LeftmostDifference(rs[p], rs[q]);
      }
    }
  }

  lemma OuterAttained(rs: seq<Rule>, i: nat, m0: nat, m: nat)
    requires i < |rs| && Attained(rs, m0)
    requires m == m0 || exists q :: i < q < |rs| && m == LeftmostDifference(rs[i], rs[q])
    ensures Attained(rs, m)
  {
    if m != m0 {
      var q :| i < q < |rs| && m == LeftmostDifference(rs[i], rs[q]);
      assert 0 <= i < q < |rs|;
    }
  }

  /**
   `_ebnf_rules_find_minimum_lookahead`: the least left-most difference
   over all pairs of rules `i < j`, starting from `SIZE_MAX`; with fewer
   than two rules it stays `SIZE_MAX`.
   */
  method FindMinimumLookahead(g: Rules) returns (m: nat)
    ensures m <= SizeMax
    ensures forall i, j :: 0 <= i < j < |g.rules.items| ==> m <= LeftmostDifference(g.rules.items[i], g.rules.items[j])
    ensures m == SizeMax || exists i, j :: 0 <= i < j < |g.rules.items| && m == LeftmostDifference(g.rules.items[i], g.rules.items[j])
    ensures |g.rules.items| < 2 ==> m == SizeMax
  {
    var rs := g.rules.items;
    m := SizeMax;
    var i := 0;
    while i < |rs|
      invariant 0 <= i <= |rs|
      invariant m <= SizeMax && Attained(rs, m)
      invariant BoundsPairsBefore(rs, m, i)
      invariant |rs| < 2 ==> m == SizeMax
    {
      var m' := MinAgainstLater(rs, i, m);
      OuterStep(rs, i, m, m');
      m, i := m', i + 1;
    }
  }
}

=== FILE: greedy_regex.dfy ===
/**
 The newer regex front end, src/lexer/greedy_regex.h: `_regex_from`,
 `_regex_compile` up to its two ε-NFAs, `_regex_run` and
 `_regex_find_all_regex_matches`.

 The compiled automata are run through `dfa_run_greedy`, which is not
 part of this model; the run and the match search take its two results
 as parameters (`Longest`): the length of the longest accepted prefix of
 the input, or nothing.
 */
module GreedyRegex {
  import opened Wrappers
  import RegexTokens
  import Thompson
  import Nfa
  import Bitset

  /** The two automata `_regex_compile` builds: one for the pattern read forwards, one for it read backwards. */
  datatype Automata = Automata(forward: Nfa.Nfa, backward: Nfa.Nfa)

  /** A regex: its pattern, the `^`/`$` root flags, and the automata once compiled. */
  datatype Regex = Regex(raw: string, left: bool, right: bool, compiled: Option<Automata>)

  /** One match: `[begin, begin + length)`. */
  datatype Match = Match(begin: nat, length: nat)

  function End(m: Match): nat
  {
    m.begin + m.length
  }

  /** `dfa_run_greedy` on one compiled automaton. */
  type Longest = string -> Option<nat>

  /** A greedy scan never reports more than its input. */
  ghost predicate Bounded(scan: Longest)
  {
    forall s :: scan(s).Some? ==> scan(s).value <= |s|
  }

  /**
   `_regex_from`: the pattern with its root flags, `^` first and `$` last.
   An empty pattern reads the byte before its buffer.
   */
  function From(str: string): (r: Result<Regex, Fault>)
    ensures r.Success? <==> |str| > 0
    ensures r.Failure? ==> r.error == OutOfBounds
    ensures r.Success? ==> r.value.raw == str && r.value.compiled.None?
    ensures r.Success? ==> (r.value.left <==> str[0] == '^') && (r.value.right <==> str[|str| - 1] == '$')
  {
    if |str| == 0 then Failure(OutOfBounds)
    else Success(Regex(str, str[0] == '^', str[|str| - 1] == '$', None))
  }

  /* ---------- building the NFA ---------- */

  /** `_regex_add_all_alphabet_transitions_between` from the alphabet byte `i` on. */
  function AddEvery(n: Nfa.Nfa, s: nat, t: nat, i: nat): (r: Result<Nfa.Nfa, Fault>)
    requires i <= 256
    ensures r.Failure? <==> i < 256 && (s >= Bitset.Capacity || t >= Bitset.Capacity)
    ensures r.Success? ==> forall x: nat, l: Nfa.Label, y: nat ::
      Nfa.HasEdge(r.value, x, l, y) <==> Nfa.HasEdge(n, x, l, y) || (x == s && y == t && l.Sym? && l.c >= i)
    ensures r.Success? ==> r.value.eps == n.eps && r.value.accept == n.accept && r.value.begin == n.begin
    ensures r.Success? && Nfa.Valid(n) ==> Nfa.Valid(r.value)
    decreases 256 - i
  {
    if i == 256 then Success(n)
    else
      var m :- Nfa.AddTransition(n, s, i, t);
      AddEvery(m, s, t, i + 1)
  }

  /** Both endpoints of an edit fit the NFA's bitsets. */
  predicate Fits(op: Thompson.Op)
  {
    op.from < Bitset.Capacity && op.to < Bitset.Capacity
  }

  /**
   One construction edit on the NFA. Removing an edge whose target does
   not fit reads past the bitset when the `(from, c)` key exists.
   */
  function Step(n: Nfa.Nfa, op: Thompson.Op): (r: Result<Nfa.Nfa, Fault>)
    ensures Fits(op) ==> r.Success?
    ensures r.Success? && !op.Del? ==> Fits(op)
    ensures r.Success? ==> r.value.accept == n.accept && r.value.begin == n.begin
    ensures r.Success? && Nfa.Valid(n) ==> Nfa.Valid(r.value)
  {
    match op
    case Eps(s, t) => Nfa.AddEpsilonTransition(n, s, t)
    case Add(s, c, t) => Nfa.AddTransition(n, s, c, t)
    case AddAll(s, t) => AddEvery(n, s, t, 0)
    case Del(s, c, t) => DelStep(n, s, c, t)
  }

  /** A successful edit writes exactly the edge it touches and leaves every other edge as it was. */
  lemma StepEdges(n: Nfa.Nfa, op: Thompson.Op)
    requires Step(n, op).Success?
    ensures var r := Step(n, op).value;
      && (forall x: nat, c: Byte, y: nat ::
        Nfa.HasEdge(r, x, Nfa.Sym(c), y) <==>
          if Thompson.Touches(op, x, c, y) then !op.Del? else Nfa.HasEdge(n, x, Nfa.Sym(c), y))
      && (forall x: nat, y: nat :: Nfa.HasEdge(r, x, Nfa.All, y) <==> Nfa.HasEdge(n, x, Nfa.All, y))
      && (forall x: nat, y: nat :: Nfa.HasEps(r, x, y) <==> Nfa.HasEps(n, x, y) || op == Thompson.Eps(x, y))
  {
    match op
    case Eps(s, t) =>
    case Add(s, c, t) =>
    case AddAll(s, t) =>
    case Del(s, c, t) =>
  }

  /** The removal edit: a target past the bitset is only harmless when the `(from, c)` key is absent. */
  function DelStep(n: Nfa.Nfa, s: nat, c: Byte, t: nat): (r: Result<Nfa.Nfa, Fault>)
    ensures t < Bitset.Capacity ==> r.Success?
    ensures r.Success? ==> forall x: nat, d: Byte, y: nat ::
      Nfa.HasEdge(r.value, x, Nfa.Sym(d), y) <==> (x, d, y) != (s, c, t) && Nfa.HasEdge(n, x, Nfa.Sym(d), y)
    ensures r.Success? ==> forall x: nat, y: nat :: Nfa.HasEdge(r.value, x, Nfa.All, y) <==> Nfa.HasEdge(n, x, Nfa.All, y)
    ensures r.Success? ==> forall x: nat, y: nat :: Nfa.HasEps(r.value, x, y) <==> Nfa.HasEps(n, x, y)
    ensures r.Success? ==> r.value.accept == n.accept && r.value.begin == n.begin
    ensures r.Success? && Nfa.Valid(n) ==> Nfa.Valid(r.value)
  {
    if t < Bitset.Capacity then Success(Nfa.RemoveTransition(n, s, c, t).0)
    else if s in n.trans && Nfa.Sym(c) in n.trans[s] then Failure(OutOfBounds)
    else
      assert forall x: nat, d: Byte, y: nat :: Nfa.HasEdge(n, x, Nfa.Sym(d), y) ==> (x, d, y) != (s, c, t);
      Success(n)
  }

  /** The construction edits applied in order. */
  function Apply(n: Nfa.Nfa, ops: seq<Thompson.Op>): (r: Result<Nfa.Nfa, Fault>)
    ensures (forall k :: 0 <= k < |ops| ==> Fits(ops[k])) ==> r.Success?
    ensures r.Success? ==> forall k :: 0 <= k < |ops| && !ops[k].Del? ==> Fits(ops[k])
    ensures r.Success? ==> r.value.accept == n.accept && r.value.begin == n.begin
    ensures r.Success? && Nfa.Valid(n) ==> Nfa.Valid(r.value)
  {
    if |ops| == 0 then Success(n)
    else
      var init := ops[..|ops| - 1];
      FitsSplit(ops);
      var m :- Apply(n, init);
      Step(m, ops[|ops| - 1])
  }

  /** Every edit fits when the earlier ones and the last one do; likewise for the adding edits. */
  lemma FitsSplit(ops: seq<Thompson.Op>)
    requires |ops| > 0
    ensures var init, last := ops[..|ops| - 1], ops[|ops| - 1];
      && ((forall k :: 0 <= k < |ops| ==> Fits(ops[k])) <==> (forall k :: 0 <= k < |init| ==> Fits(init[k])) && Fits(last))
      && ((forall k :: 0 <= k < |ops| && !ops[k].Del? ==> Fits(ops[k])) <==>
          (forall k :: 0 <= k < |init| && !init[k].Del? ==> Fits(init[k])) && (!last.Del? ==> Fits(last)))
  {
    var init := ops[..|ops| - 1];
    assert forall k :: 0 <= k < |init| ==> init[k] == ops[k];
  }

  /**
   After the edits, a byte edge is present exactly when the last edit
   writing it added it, or, when none wrote it, when it was there before;
   an ε-edge is present when it was there or some edit added it.
   */
  lemma {:induction false} ApplyEdges(n: Nfa.Nfa, ops: seq<Thompson.Op>)
    requires Apply(n, ops).Success?
    ensures forall x: nat, c: Byte, y: nat :: Nfa.HasEdge(Apply(n, ops).value, x, Nfa.Sym(c), y) <==>
      Thompson.Labelled(ops, x, c, y) || (!Thompson.Written(ops, x, c, y) && Nfa.HasEdge(n, x, Nfa.Sym(c), y))
    ensures forall x: nat, y: nat :: Nfa.HasEdge(Apply(n, ops).value, x, Nfa.All, y) <==> Nfa.HasEdge(n, x, Nfa.All, y)
    ensures forall x: nat, y: nat :: Nfa.HasEps(Apply(n, ops).value, x, y) <==> Nfa.HasEps(n, x, y) || Thompson.Eps(x, y) in ops
  {
    if |ops| > 0 {
      var init, last := ops[..|ops| - 1], ops[|ops| - 1];
      var m := Apply(n, init).value;
      ApplyEdges(n, init);
      assert ops == init + [last];
      assert Apply(n, ops) == Step(m, last);
      StepEdges(m, last);
      forall x: nat, c: Byte, y: nat
        ensures Nfa.HasEdge(Apply(n, ops).value, x, Nfa.Sym(c), y) <==>
          Thompson.Labelled(ops, x, c, y) || (!Thompson.Written(ops, x, c, y) && Nfa.HasEdge(n, x, Nfa.Sym(c), y))
      {
        Thompson.WrittenJoin(init, [last], x, c, y);
        Thompson.WrittenOne(last, x, c, y);
      }
      forall x: nat, y: nat
        ensures Nfa.HasEps(Apply(n, ops).value, x, y) <==> Nfa.HasEps(n, x, y) || Thompson.Eps(x, y) in ops
      {
        assert Thompson.Eps(x, y) in ops <==> Thompson.Eps(x, y) in init || last == Thompson.Eps(x, y);
      }
    }
  }

  /**
   One parse of the pattern from state 0 with the given front end, applied
   to a fresh NFA, with its end state accepting.
   */
  function Build(raw: string, fr: Thompson.Front): (r: Result<Nfa.Nfa, Fault>)
    ensures r.Success? ==> Nfa.Valid(r.value)
  {
    var f :- Thompson.Parse(fr, raw, None, 0);
    var n :- Apply(Nfa.New(0), f.ops);
    Nfa.AddAcceptState(n, f.end)
  }

  /**
   The NFA `Build` returns has exactly the edges the construction leaves,
   begins at state 0, and accepts exactly the construction's end.
   */
  lemma BuildEdges(raw: string, fr: Thompson.Front)
    requires Build(raw, fr).Success?
    ensures var f, n := Thompson.Parse(fr, raw, None, 0).value, Build(raw, fr).value;
      && n.begin == 0 && n.accept == {f.end}
      && (forall x: nat, c: Byte, y: nat :: Nfa.HasEdge(n, x, Nfa.Sym(c), y) <==> Thompson.Labelled(f.ops, x, c, y))
      && (forall x: nat, y: nat :: !Nfa.HasEdge(n, x, Nfa.All, y))
      && (forall x: nat, y: nat :: Nfa.HasEps(n, x, y) <==> Thompson.Eps(x, y) in f.ops)
  {
    var f := Thompson.Parse(fr, raw, None, 0).value;
    assert Build(raw, fr) == Nfa.AddAcceptState(Apply(Nfa.New(0), f.ops).value, f.end);
    FreshEdges(f.ops, f.end);
  }

  /** Applying `ops` to a fresh NFA and marking `end` accepting leaves exactly the edges `ops` write. */
  lemma FreshEdges(ops: seq<Thompson.Op>, end: nat)
    requires Apply(Nfa.New(0), ops).Success?
    requires Nfa.AddAcceptState(Apply(Nfa.New(0), ops).value, end).Success?
    ensures var b := Nfa.AddAcceptState(Apply(Nfa.New(0), ops).value, end).value;
      && b.begin == 0 && b.accept == {end}
      && (forall x: nat, c: Byte, y: nat :: Nfa.HasEdge(b, x, Nfa.Sym(c), y) <==> Thompson.Labelled(ops, x, c, y))
      && (forall x: nat, y: nat :: !Nfa.HasEdge(b, x, Nfa.All, y))
      && (forall x: nat, y: nat :: Nfa.HasEps(b, x, y) <==> Thompson.Eps(x, y) in ops)
  {
    var n0 := Nfa.New(0);
    var b := Nfa.AddAcceptState(Apply(n0, ops).value, end).value;
    ApplyEdges(n0, ops);
    forall x: nat, c: Byte, y: nat
      ensures Nfa.HasEdge(b, x, Nfa.Sym(c), y) <==> Thompson.Labelled(ops, x, c, y)
    {
      if Thompson.Labelled(ops, x, c, y) {
        LabelledWritten(ops, x, c, y);
      }
      assert !Nfa.HasEdge(n0, x, Nfa.Sym(c), y);
    }
    forall x: nat, y: nat
      ensures !Nfa.HasEdge(b, x, Nfa.All, y) && (Nfa.HasEps(b, x, y) <==> Thompson.Eps(x, y) in ops)
    {
      assert !Nfa.HasEdge(n0, x, Nfa.All, y) && !Nfa.HasEps(n0, x, y);
    }
  }

  lemma {:induction false} LabelledWritten(ops: seq<Thompson.Op>, x: nat, c: Byte, y: nat)
    requires Thompson.Labelled(ops, x, c, y)
    ensures Thompson.Written(ops, x, c, y)
  {
    var n := |ops| - 1;
    if !Thompson.Touches(ops[n], x, c, y) {
      LabelledWritten(ops[..n], x, c, y);
      Thompson.WrittenJoin(ops[..n], [ops[n]], x, c, y);
      assert ops == ops[..n] + [ops[n]];
    } else {
      assert Thompson.Touches(ops[n], x, c, y);
    }
  }

  /** The two front ends `_regex_compile` parses the pattern with. */
  const Forward := Thompson.Greedy(RegexTokens.Forward)
  const Backward := Thompson.Greedy(RegexTokens.Backward)

  /**
   `_regex_compile` up to its NFAs: the forward parse, then the backward
   one, each with its end state accepting. The conversion to DFAs and
   their compression are not part of this model.
   */

  function Compile(re: Regex): (r: Result<Regex, Fault>)
    ensures var fw, bw := Build(re.raw, Forward), Build(re.raw, Backward);
      && (r.Success? <==> fw.Success? && bw.Success?)
      && (r.Success? ==> r.value == re.(compiled := Some(Automata(fw.value, bw.value))))
  {
    var fwd :- Build(re.raw, Forward);
    var bwd :- Build(re.raw, Backward);
    Success(re.(compiled := Some(Automata(fwd, bwd))))
  }

  /* ---------- running ---------- */

  function Reverse(s: string): (r: string)
    ensures |r| == |s| && forall k :: 0 <= k < |s| ==> r[k] == s[|s| - 1 - k]
  {
    if |s| == 0 then [] else Reverse(s[1..]) + [s[0]]
  }

  /** The tail of the reversed string is the reversed prefix. */
  lemma {:induction false} ReversedTail(s: string, m: nat)
    requires m <= |s|
    ensures Reverse(s)[|s| - m..] == Reverse(s[..m])
  {
    var a, b := Reverse(s)[|s| - m..], Reverse(s[..m]);
    forall k | 0 <= k < m
      ensures a[k] == b[k]
    {
      assert a[k] == Reverse(s)[|s| - m + k] == s[m - 1 - k];
    }
  }

  /**
   `_regex_run`: the forward scan finds the right end `rb` of a match;
   the backward scan of the reversed prefix up to `rb` finds its length,
   hence its left end. The verdict checks the left end against `^` and
   the right end against `$`.
   */
  function Run(re: Regex, s: string, fwd: Longest, bwd: Longest): (r: Result<bool, Fault>)
    requires Bounded(fwd) && Bounded(bwd)
    ensures re.compiled.None? ==> r == Failure(AssertFailed)
    ensures re.compiled.Some? && fwd(s).None? ==> r == Success(false)
    ensures re.compiled.Some? && fwd(s).Some? ==>
      var rb := fwd(s).value;
      && (r.Failure? <==> bwd(Reverse(s[..rb])).None?)
      && (r == Success(true) <==>
          && bwd(Reverse(s[..rb])).Some?
          && (re.left ==> bwd(Reverse(s[..rb])).value == rb)
          && (re.right ==> rb == |s|))
  {
    if re.compiled.None? then Failure(AssertFailed)
    else
      var rev := Reverse(s);
      match fwd(s)
      case None => Success(false)
      case Some(rb) =>
        ReversedTail(s, rb);
        match bwd(rev[|s| - rb..])
        case None => Failure(AssertFailed)
        case Some(rr) =>
          var lb := rb - rr;
          Success((!re.left || lb == 0) && (!re.right || rb == |s|))
  }

  /** Without root flags, a compiled regex accepts exactly when some match is found. */
  lemma UnrootedRun(re: Regex, s: string, fwd: Longest, bwd: Longest)
    requires Bounded(fwd) && Bounded(bwd) && re.compiled.Some? && !re.left && !re.right
    requires fwd(s).Some? ==> bwd(Reverse(s[..fwd(s).value])).Some?
    ensures Run(re, s, fwd, bwd) == Success(fwd(s).Some?)
  {
  }

  /* ---------- finding all matches ---------- */

  /**
   The search loop of `_regex_find_all_regex_matches` as written, from
   `offset`: it stops at the end of the input or when the forward scan
   finds nothing, and otherwise records `[left, right)` and restarts at
   `right`. A match of length zero leaves the offset where it was, so the
   loop repeats forever; and the backward scan reads the whole prefix up
   to `right`, so a match can begin before the previous one ended.
   */
  function MatchesAsWritten(s: string, rev: string, offset: nat, fwd: Longest, bwd: Longest): (r: Result<seq<Match>, Fault>)
    requires Bounded(fwd) && Bounded(bwd) && rev == Reverse(s) && offset <= |s|
    ensures r.Failure? ==> r.error == AssertFailed || r.error == Diverges
    decreases |s| - offset
  {
    if offset >= |s| then Success([])
    else match fwd(s[offset..])
      case None => Success([])
      case Some(m) =>
        var rb := offset + m;
        match bwd(rev[|s| - rb..])
        case None => Failure(AssertFailed)
        case Some(rr) =>
          var lb := rb - rr;
          if m == 0 then Failure(Diverges)
          else
            var rest :- MatchesAsWritten(s, rev, rb, fwd, bwd);
            Success([Match(lb, rb - lb)] + rest)
  }

  /**
   The right ends the search as written records lie past the offset and
   strictly increase; it is the left ends that can fall back.
   */
  lemma {:induction false} WrittenEndsIncrease(s: string, rev: string, offset: nat, fwd: Longest, bwd: Longest)
    requires Bounded(fwd) && Bounded(bwd) && rev == Reverse(s) && offset <= |s|
    requires MatchesAsWritten(s, rev, offset, fwd, bwd).Success?
    ensures var ms := MatchesAsWritten(s, rev, offset, fwd, bwd).value;
      && (forall k :: 0 <= k < |ms| ==> offset < End(ms[k]) <= |s|)
      && (forall k, l :: 0 <= k < l < |ms| ==> End(ms[k]) < End(ms[l]))
    decreases |s| - offset
  {
    if offset < |s| && fwd(s[offset..]).Some? {
      var m := fwd(s[offset..]).value;
      var rb := offset + m;
      var rr := bwd(rev[|s| - rb..]).value;
      var rest := MatchesAsWritten(s, rev, rb, fwd, bwd).value;
      assert MatchesAsWritten(s, rev, offset, fwd, bwd).value == [Match(rb - rr, rr)] + rest;
      WrittenEndsIncrease(s, rev, rb, fwd, bwd);
      EndsCons(s, offset, Match(rb - rr, rr), rest);
    }
  }

  lemma EndsCons(s: string, offset: nat, m: Match, rest: seq<Match>)
    requires offset < End(m) <= |s|
    requires forall k :: 0 <= k < |rest| ==> End(m) < End(rest[k]) <= |s|
    requires forall k, l :: 0 <= k < l < |rest| ==> End(rest[k]) < End(rest[l])
    ensures var ms := [m] + rest;
      && (forall k :: 0 <= k < |ms| ==> offset < End(ms[k]) <= |s|)
      && (forall k, l :: 0 <= k < l < |ms| ==> End(ms[k]) < End(ms[l]))
  {
    var ms := [m] + rest;
    forall k, l | 0 <= k < l < |ms|
      ensures End(ms[k]) < End(ms[l])
    {
      assert ms[l] == rest[l - 1];
      if k > 0 {
        assert ms[k] == rest[k - 1];
      }
    }
    forall k | 0 <= k < |ms|
      ensures offset < End(ms[k]) <= |s|
    {
      if k > 0 {
        assert ms[k] == rest[k - 1];
      }
    }
  }

  /** A longest-prefix scan for `bb|b` (and its reverse) over a string of `b`s. */
  function TwoOrOne(s: string): (r: Option<nat>)
    ensures r.Some? ==> r.value <= |s|
  {
    if |s| == 0 then None else Some(if |s| >= 2 then 2 else 1)
  }

  /** The pattern `bb|b` on `bbb`: the longest scans give `[0, 2)` and then `[1, 3)`, which overlap. */
  lemma OverlappingMatches()
    ensures MatchesAsWritten("bbb", Reverse("bbb"), 0, TwoOrOne, TwoOrOne) == Success([Match(0, 2), Match(1, 2)])
  {
    var s := "bbb";
    ReverseThree(s);
    var rev := Reverse(s);
    assert Bounded(TwoOrOne);
    assert s[2..] == "b" && rev[|s| - 3..] == "bbb";
    OverlapTail(s, rev);
    assert s[0..] == "bbb" && rev[|s| - 2..] == "bb";
    OverlapHead(s, rev);
  }

  /** The first round on `bbb`: the scans give `[0, 2)`, and the search goes on from 2. */
  lemma OverlapHead(s: string, rev: string)
    requires |s| == 3 && rev == Reverse(s) && Bounded(TwoOrOne)
    requires TwoOrOne(s[0..]) == Some(2) && TwoOrOne(rev[|s| - 2..]) == Some(2)
    requires MatchesAsWritten(s, rev, 2, TwoOrOne, TwoOrOne) == Success([Match(1, 2)])
    ensures MatchesAsWritten(s, rev, 0, TwoOrOne, TwoOrOne) == Success([Match(0, 2), Match(1, 2)])
  {
    var rest, all := [Match(1, 2)], [Match(0, 2), Match(1, 2)];
    assert all == [Match(0 + 2 - 2, 2)] + rest;
    WrittenStep(s, rev, 0, TwoOrOne, TwoOrOne, 2, 2, rest, all);
  }

  lemma ReverseThree(s: string)
    requires s == "bbb"
    ensures Reverse(s) == "bbb"
  {
    assert Reverse(s)[0] == 'b' && Reverse(s)[1] == 'b' && Reverse(s)[2] == 'b';
  }

  /** The second round on `bbb`, from offset 2: the backward scan reaches back to 1. */
  lemma OverlapTail(s: string, rev: string)
    requires |s| == 3 && rev == Reverse(s) && Bounded(TwoOrOne)
    requires TwoOrOne(s[2..]) == Some(1) && TwoOrOne(rev[|s| - 3..]) == Some(2)
    ensures MatchesAsWritten(s, rev, 2, TwoOrOne, TwoOrOne) == Success([Match(1, 2)])
  {
    WrittenDone(s, rev, TwoOrOne, TwoOrOne);
    WrittenStep(s, rev, 2, TwoOrOne, TwoOrOne, 1, 2, [], [Match(1, 2)]);
  }

  lemma WrittenDone(s: string, rev: string, fwd: Longest, bwd: Longest)
    requires Bounded(fwd) && Bounded(bwd) && rev == Reverse(s)
    ensures MatchesAsWritten(s, rev, |s|, fwd, bwd) == Success([])
  {
  }

  /** One round of the search as written: a non-empty match is recorded before the rest of the search. */
  lemma WrittenStep(s: string, rev: string, offset: nat, fwd: Longest, bwd: Longest, m: nat, rr: nat, rest: seq<Match>, all: seq<Match>)
    requires Bounded(fwd) && Bounded(bwd) && rev == Reverse(s) && offset < |s|
    requires fwd(s[offset..]) == Some(m) && m > 0 && bwd(rev[|s| - (offset + m)..]) == Some(rr)
    requires MatchesAsWritten(s, rev, offset + m, fwd, bwd) == Success(rest)
    requires all == [Match(offset + m - rr, rr)] + rest
    ensures MatchesAsWritten(s, rev, offset, fwd, bwd) == Success(all)
  {
    var rb := offset + m;
    assert rb - (rb - rr) == rr;
  }

  /** The pattern `a*` on `b`: the forward scan accepts the empty prefix and the loop never advances. */
  lemma EmptyMatchLoops()
    ensures var fwd: Longest := s => Some(0);
      MatchesAsWritten("b", Reverse("b"), 0, fwd, fwd) == Failure(Diverges)
  {
  }

  /**
   The search loop as intended: a match that would begin before the
   previous one ended is cut at the offset, and a match of length zero
   is recorded and ends the search, as the older front end does.
   */
  function Matches(s: string, rev: string, offset: nat, fwd: Longest, bwd: Longest): (r: Result<seq<Match>, Fault>)
    requires Bounded(fwd) && Bounded(bwd) && rev == Reverse(s) && offset <= |s|
    ensures r.Failure? ==> r.error == AssertFailed
    decreases |s| - offset
  {
    if offset >= |s| then Success([])
    else match fwd(s[offset..])
      case None => Success([])
      case Some(m) =>
        var rb := offset + m;
        match bwd(rev[|s| - rb..])
        case None => Failure(AssertFailed)
        case Some(rr) =>
          var lb := if rb - rr < offset then offset else rb - rr;
          if m == 0 then Success([Match(lb, rb - lb)])
          else
            var rest :- Matches(s, rev, rb, fwd, bwd);
            Success([Match(lb, rb - lb)] + rest)
  }

  /**
   The recorded matches lie in the input from the offset on, in order,
   and none begins before the previous one ends.
   */
  lemma {:induction false} MatchesOrdered(s: string, offset: nat, fwd: Longest, bwd: Longest)
    requires Bounded(fwd) && Bounded(bwd) && offset <= |s|
    requires Matches(s, Reverse(s), offset, fwd, bwd).Success?
    ensures var ms := Matches(s, Reverse(s), offset, fwd, bwd).value;
      && (forall k :: 0 <= k < |ms| ==> offset <= ms[k].begin && End(ms[k]) <= |s|)
      && (forall k, l :: 0 <= k < l < |ms| ==> End(ms[k]) <= ms[l].begin)
    decreases |s| - offset
  {
    if offset < |s| && fwd(s[offset..]).Some? && fwd(s[offset..]).value > 0 {
      var rb := offset + fwd(s[offset..]).value;
      var ms := Matches(s, Reverse(s), offset, fwd, bwd).value;
      var rest := Matches(s, Reverse(s), rb, fwd, bwd).value;
      MatchesUnfold(s, offset, fwd, bwd);
      MatchesOrdered(s, rb, fwd, bwd);
      OrderedCons(s, offset, rb, ms[0], rest);
    } else {
      MatchesShort(s, offset, fwd, bwd);
    }
  }

  lemma OrderedCons(s: string, offset: nat, rb: nat, m: Match, rest: seq<Match>)
    requires offset <= m.begin && End(m) == rb <= |s|
    requires forall k :: 0 <= k < |rest| ==> rb <= rest[k].begin && End(rest[k]) <= |s|
    requires forall k, l :: 0 <= k < l < |rest| ==> End(rest[k]) <= rest[l].begin
    ensures var ms := [m] + rest;
      && (forall k :: 0 <= k < |ms| ==> offset <= ms[k].begin && End(ms[k]) <= |s|)
      && (forall k, l :: 0 <= k < l < |ms| ==> End(ms[k]) <= ms[l].begin)
  {
    var ms := [m] + rest;
    forall k, l | 0 <= k < l < |ms|
      ensures End(ms[k]) <= ms[l].begin
    {
      assert ms[l] == rest[l - 1];
      if k > 0 {
        assert ms[k] == rest[k - 1];
      }
    }
    forall k | 0 <= k < |ms|
      ensures offset <= ms[k].begin && End(ms[k]) <= |s|
    {
      if k > 0 {
        assert ms[k] == rest[k - 1];
      }
    }
  }

  /** The first search: nothing when the input is used up or the scan fails, else a match ending where the scan ends. */
  lemma MatchesFirst(s: string, offset: nat, fwd: Longest, bwd: Longest)
    requires Bounded(fwd) && Bounded(bwd) && offset <= |s|
    requires Matches(s, Reverse(s), offset, fwd, bwd).Success?
    ensures var ms := Matches(s, Reverse(s), offset, fwd, bwd).value;
      && (|ms| == 0 <==> offset >= |s| || fwd(s[offset..]).None?)
      && (|ms| > 0 ==> End(ms[0]) == offset + fwd(s[offset..]).value)
  {
  }

  /**
   Each later search restarts where the previous match ended: the next
   match ends where the forward scan from there ends.
   */
  lemma {:induction false} MatchesChain(s: string, offset: nat, fwd: Longest, bwd: Longest)
    requires Bounded(fwd) && Bounded(bwd) && offset <= |s|
    requires Matches(s, Reverse(s), offset, fwd, bwd).Success?
    ensures Chained(s, Matches(s, Reverse(s), offset, fwd, bwd).value, fwd)
    decreases |s| - offset
  {
    var rev := Reverse(s);
    if offset < |s| && fwd(s[offset..]).Some? && fwd(s[offset..]).value > 0 {
      var rb := offset + fwd(s[offset..]).value;
      var ms := Matches(s, rev, offset, fwd, bwd).value;
      var rest := Matches(s, rev, rb, fwd, bwd).value;
      assert ms == [ms[0]] + rest && End(ms[0]) == rb by {
        MatchesUnfold(s, offset, fwd, bwd);
      }
      assert Chained(s, rest, fwd) by {
        MatchesChain(s, rb, fwd, bwd);
      }
      assert |rest| > 0 ==> fwd(s[rb..]).Some? && End(rest[0]) == rb + fwd(s[rb..]).value by {
        MatchesFirst(s, rb, fwd, bwd);
      }
      ChainedCons(s, ms[0], rest, fwd);
    } else {
      MatchesShort(s, offset, fwd, bwd);
    }
  }

  /**
   A search whose first scan fails records nothing; one whose first scan
   finds the empty match records it, at the offset, and stops.
   */
  lemma MatchesShort(s: string, offset: nat, fwd: Longest, bwd: Longest)
    requires Bounded(fwd) && Bounded(bwd) && offset <= |s|
    requires !(offset < |s| && fwd(s[offset..]).Some? && fwd(s[offset..]).value > 0)
    requires Matches(s, Reverse(s), offset, fwd, bwd).Success?
    ensures var ms := Matches(s, Reverse(s), offset, fwd, bwd).value;
      ms == [] || (offset < |s| && fwd(s[offset..]) == Some(0) && ms == [Match(offset, 0)])
  {
    var rev := Reverse(s);
    if offset < |s| && fwd(s[offset..]).Some? {
      EmptyMatch(s, rev, offset, fwd, bwd);
    } else {
      assert Matches(s, rev, offset, fwd, bwd) == Success([]);
    }
  }

  /** A first scan that finds the empty match leaves just that match, at the offset. */
  lemma EmptyMatch(s: string, rev: string, offset: nat, fwd: Longest, bwd: Longest)
    requires Bounded(fwd) && Bounded(bwd) && rev == Reverse(s) && offset < |s| && fwd(s[offset..]) == Some(0)
    requires Matches(s, rev, offset, fwd, bwd).Success?
    ensures Matches(s, rev, offset, fwd, bwd).value == [Match(offset, 0)]
  {
    match bwd(rev[|s| - offset..])
    case Some(rr) =>
      assert (if offset - rr < offset then offset else offset - rr) == offset;
  }

  /** A search that finds a non-empty match records it and goes on from its right end. */
  lemma MatchesUnfold(s: string, offset: nat, fwd: Longest, bwd: Longest)
    requires Bounded(fwd) && Bounded(bwd) && offset < |s| && fwd(s[offset..]).Some? && fwd(s[offset..]).value > 0
    requires Matches(s, Reverse(s), offset, fwd, bwd).Success?
    ensures var rb := offset + fwd(s[offset..]).value;
      && rb <= |s|
      && Matches(s, Reverse(s), rb, fwd, bwd).Success?
      && |Matches(s, Reverse(s), offset, fwd, bwd).value| > 0
      && End(Matches(s, Reverse(s), offset, fwd, bwd).value[0]) == rb
      && offset <= Matches(s, Reverse(s), offset, fwd, bwd).value[0].begin
      && Matches(s, Reverse(s), offset, fwd, bwd).value == [Matches(s, Reverse(s), offset, fwd, bwd).value[0]] + Matches(s, Reverse(s), rb, fwd, bwd).value
  {
  }

  /** Each match after the first ends where the forward scan from the previous one's end ends. */
  ghost predicate Chained(s: string, ms: seq<Match>, fwd: Longest)
  {
    forall k :: 0 <= k < |ms| - 1 ==> End(ms[k]) <= |s| && fwd(s[End(ms[k])..]).Some? && End(ms[k + 1]) == End(ms[k]) + fwd(s[End(ms[k])..]).value
  }

  lemma ChainedCons(s: string, m: Match, rest: seq<Match>, fwd: Longest)
    requires Chained(s, rest, fwd) && End(m) <= |s|
    requires |rest| > 0 ==> fwd(s[End(m)..]).Some? && End(rest[0]) == End(m) + fwd(s[End(m)..]).value
    ensures Chained(s, [m] + rest, fwd)
  {
    var ms := [m] + rest;
    forall k | 0 <= k < |ms| - 1
      ensures End(ms[k]) <= |s| && fwd(s[End(ms[k])..]).Some? && End(ms[k + 1]) == End(ms[k]) + fwd(s[End(ms[k])..]).value
    {
      if k > 0 {
        assert ms[k] == rest[k - 1] && ms[k + 1] == rest[k];
      }
    }
  }

  /** The search ends at the input's end, at a scan that finds nothing, or right after an empty match. */
  lemma {:induction false} MatchesStop(s: string, offset: nat, fwd: Longest, bwd: Longest)
    requires Bounded(fwd) && Bounded(bwd) && offset <= |s|
    requires Matches(s, Reverse(s), offset, fwd, bwd).Success?
    ensures var ms := Matches(s, Reverse(s), offset, fwd, bwd).value;
      |ms| > 0 ==> Stopped(s, End(ms[|ms| - 1]), fwd)
    decreases |s| - offset
  {
    var rev := Reverse(s);
    if offset < |s| && fwd(s[offset..]).Some? && fwd(s[offset..]).value > 0 {
      var rb := offset + fwd(s[offset..]).value;
      var ms := Matches(s, rev, offset, fwd, bwd).value;
      var rest := Matches(s, rev, rb, fwd, bwd).value;
      MatchesUnfold(s, offset, fwd, bwd);
      MatchesStop(s, rb, fwd, bwd);
      MatchesFirst(s, rb, fwd, bwd);
      if |rest| > 0 {
        assert ms[|ms| - 1] == rest[|rest| - 1];
      } else {
        assert ms[|ms| - 1] == ms[0];
      }
    } else {
      MatchesShort(s, offset, fwd, bwd);
    }
  }

  /** The search cannot go on from `e`: the input is used up, or the scan from there finds nothing or only the empty match. */
  ghost predicate Stopped(s: string, e: nat, fwd: Longest)
  {
    e >= |s| || fwd(s[e..]).None? || fwd(s[e..]) == Some(0)
  }

  /**
   `_regex_find_all_regex_matches` as written: the search loop as written
   from the start of the input, after the compiled-state assertion.
   */
  function FindAllAsWritten(re: Regex, s: string, fwd: Longest, bwd: Longest): (r: Result<seq<Match>, Fault>)
    requires Bounded(fwd) && Bounded(bwd)
    ensures re.compiled.None? ==> r == Failure(AssertFailed)
    ensures r.Failure? ==> r.error == AssertFailed || r.error == Diverges
    ensures r.Success? ==> forall k :: 0 <= k < |r.value| ==> 0 < End(r.value[k]) <= |s|
    ensures r.Success? ==> forall k, l :: 0 <= k < l < |r.value| ==> End(r.value[k]) < End(r.value[l])
  {
    if re.compiled.None? then Failure(AssertFailed)
    else
      var r := MatchesAsWritten(s, Reverse(s), 0, fwd, bwd);
      if r.Success? then WrittenEndsIncrease(s, Reverse(s), 0, fwd, bwd); r else r
  }

  /** Matches that begin at or after `offset` and do not overlap one another. */
  ghost predicate Disjoint(ms: seq<Match>, offset: nat)
  {
    && (forall k :: 0 <= k < |ms| ==> offset <= ms[k].begin)
    && (forall k, l :: 0 <= k < l < |ms| ==> End(ms[k]) <= ms[l].begin)
  }

  /**
   Where the search as written succeeds and its matches do not overlap,
   the corrected search finds the same matches: the two differ only in
   the cases the corrections address.
   */
  lemma {:induction false} AgreeWhenDisjoint(s: string, offset: nat, fwd: Longest, bwd: Longest)
    requires Bounded(fwd) && Bounded(bwd) && offset <= |s|
    requires MatchesAsWritten(s, Reverse(s), offset, fwd, bwd).Success?
    requires Disjoint(MatchesAsWritten(s, Reverse(s), offset, fwd, bwd).value, offset)
    ensures Matches(s, Reverse(s), offset, fwd, bwd) == MatchesAsWritten(s, Reverse(s), offset, fwd, bwd)
    decreases |s| - offset
  {
    var rev := Reverse(s);
    if offset < |s| && fwd(s[offset..]).Some? {
      var m := fwd(s[offset..]).value;
      var rb := offset + m;
      var rr := bwd(rev[|s| - rb..]).value;
      var ms := MatchesAsWritten(s, rev, offset, fwd, bwd).value;
      var rest := MatchesAsWritten(s, rev, rb, fwd, bwd).value;
      assert m > 0 && ms == [Match(rb - rr, rr)] + rest;
      DisjointTail(ms, offset, rb);
      AgreeWhenDisjoint(s, rb, fwd, bwd);
      assert ms[0].begin == rb - rr && offset <= rb - rr;
      MatchesStep(s, rev, offset, fwd, bwd, m, rr, rest);
    }
  }

  /** One round of the corrected loop whose backward scan stays at or after the offset. */
  lemma MatchesStep(s: string, rev: string, offset: nat, fwd: Longest, bwd: Longest, m: nat, rr: nat, rest: seq<Match>)
    requires Bounded(fwd) && Bounded(bwd) && rev == Reverse(s) && offset < |s|
    requires fwd(s[offset..]) == Some(m) && m > 0 && bwd(rev[|s| - (offset + m)..]) == Some(rr)
    requires offset <= offset + m - rr
    requires Matches(s, rev, offset + m, fwd, bwd) == Success(rest)
    ensures Matches(s, rev, offset, fwd, bwd) == Success([Match(offset + m - rr, rr)] + rest)
  {
    var rb := offset + m;
    assert rb - (rb - rr) == rr;
  }

  /** Past the first of a run of disjoint matches, the rest are disjoint from its end on. */
  lemma DisjointTail(ms: seq<Match>, offset: nat, rb: nat)
    requires |ms| > 0 && Disjoint(ms, offset) && End(ms[0]) == rb
    ensures Disjoint(ms[1..], rb)
  {
    forall k | 0 <= k < |ms| - 1 ensures rb <= ms[1..][k].begin {
      assert ms[1..][k] == ms[k + 1];
    }
    forall k, l | 0 <= k < l < |ms| - 1 ensures End(ms[1..][k]) <= ms[1..][l].begin {
      assert ms[1..][k] == ms[k + 1] && ms[1..][l] == ms[l + 1];
    }
  }

  /**
   For a compiled regex whose search as written succeeds, the corrected
   search gives the same matches exactly when those matches do not overlap.
   */
  lemma FindAllAgrees(re: Regex, s: string, fwd: Longest, bwd: Longest)
    requires Bounded(fwd) && Bounded(bwd) && re.compiled.Some?
    requires FindAllAsWritten(re, s, fwd, bwd).Success?
    ensures FindAll(re, s, fwd, bwd) == FindAllAsWritten(re, s, fwd, bwd)
      <==> Disjoint(FindAllAsWritten(re, s, fwd, bwd).value, 0)
  {
    var ms := FindAllAsWritten(re, s, fwd, bwd).value;
    if Disjoint(ms, 0) {
      AgreeWhenDisjoint(s, 0, fwd, bwd);
    }
    if FindAll(re, s, fwd, bwd) == FindAllAsWritten(re, s, fwd, bwd) {
      MatchesOrdered(s, 0, fwd, bwd);
    }
  }

  /**
   `_regex_find_all_regex_matches` as intended: the corrected search loop
   from the start of the input, after the compiled-state assertion.
   */
  function FindAll(re: Regex, s: string, fwd: Longest, bwd: Longest): (r: Result<seq<Match>, Fault>)
    requires Bounded(fwd) && Bounded(bwd)
    ensures re.compiled.None? ==> r == Failure(AssertFailed)
    ensures r.Success? ==> forall k :: 0 <= k < |r.value| ==> End(r.value[k]) <= |s|
    ensures r.Success? ==> forall k, l :: 0 <= k < l < |r.value| ==> End(r.value[k]) <= r.value[l].begin
  {
    if re.compiled.None? then Failure(AssertFailed)
    else
      var r := Matches(s, Reverse(s), 0, fwd, bwd);
      if r.Success? then MatchesOrdered(s, 0, fwd, bwd); r else r
  }
}

=== FILE: harness.dfy ===
/**
 The pure parts of the integration harness (test/integration/test_lisp.py
 and test/integration/benchmark.py): the test tree built from a directory
 walk, the order and indentation in which the runner visits it, the
 number of timed repetitions, the sample of durations and the verdict.

 Python strings are `string`; a dictionary node of the tree keeps its
 sub-directories in insertion order as a sequence of named children, and
 its reserved `__LEAF__` entry as an optional list of file paths. The
 directory walk, the clock and the processes are parameters.
 */
module Harness {
  import opened Wrappers

  /** The Python exceptions the pure parts can raise. */
  datatype PyError = AssertionError | KeyError

  const LeafName: string := "__LEAF__"

  /**
   The pieces of the directory the harness walks, `./test/integration/resources`;
   by `KeyPathBelow` its key path is `["resources"]`.
   */
  const RootPieces: seq<string> := [".", "test", "integration", "resources"]

  /** The lowest repetition count, `MIN_TESTS`. */
  const MinTests: nat := 5

  /** `TEST_FILE_TIME_LIMIT` of test_lisp.py and of benchmark.py, in seconds. */
  const LispTimeLimit: nat := 6
  const BenchmarkTimeLimit: nat := 5

  // ---------------------------------------------------------------------
  // Paths: Python's `str.split("/")` and its inverse `"/".join`
  // ---------------------------------------------------------------------

  /** `s.split("/")`: the pieces between the slashes, at least one, none holding a slash. */
  function Split(s: string): (r: seq<string>)
    ensures |r| >= 1
    ensures forall k :: 0 <= k < |r| ==> '/' !in r[k]
    decreases |s|
  {
    if |s| == 0 then [""]
    else
      var rest := Split(s[1..]);
      if s[0] == '/' then [""] + rest
      else [[s[0]] + rest[0]] + rest[1..]
  }

  /** `"/".join(ps)`. */
  function Join(ps: seq<string>): string
    requires |ps| >= 1
    decreases |ps|
  {
    if |ps| == 1 then ps[0] else ps[0] + "/" + Join(ps[1..])
  }

  predicate NoSlash(ps: seq<string>)
  {
    forall k :: 0 <= k < |ps| ==> '/' !in ps[k]
  }

  /** Joining the pieces gives the string back. */
  lemma {:induction false} JoinSplit(s: string)
    ensures Join(Split(s)) == s
    decreases |s|
  {
    if |s| > 0 {
      var rest := Split(s[1..]);
      JoinSplit(s[1..]);
      if s[0] == '/' {
        assert ([""] + rest)[1..] == rest;
      } else if |rest| > 1 {
        var r := [[s[0]] + rest[0]] + rest[1..];
        assert r[1..] == rest[1..];
        assert s == [s[0]] + s[1..];
      } else {
        assert s == [s[0]] + s[1..];
      }
    }
  }

  lemma {:induction false} SplitNoSlash(a: string)
    requires '/' !in a
    ensures Split(a) == [a]
    decreases |a|
  {
    if |a| > 0 {
      assert '/' !in a[1..];
      SplitNoSlash(a[1..]);
      assert a == [a[0]] + a[1..];
    }
  }

  lemma {:induction false} SplitCons(a: string, b: string)
    requires '/' !in a
    ensures Split(a + "/" + b) == [a] + Split(b)
    decreases |a|
  {
    var s := a + "/" + b;
    if |a| == 0 {
      assert s == "/" + b && s[1..] == b;
    } else {
      assert s[1..] == a[1..] + "/" + b;
      assert '/' !in a[1..];
      SplitCons(a[1..], b);
      assert [s[0]] + a[1..] == a;
    }
  }

  /** Splitting a join of slash-free pieces gives the pieces back. */
  lemma {:induction false} SplitJoin(ps: seq<string>)
    requires |ps| >= 1 && NoSlash(ps)
    ensures Split(Join(ps)) == ps
    decreases |ps|
  {
    if |ps| == 1 {
      SplitNoSlash(ps[0]);
    } else {
      assert '/' !in ps[0];
      SplitJoin(ps[1..]);
      SplitCons(ps[0], Join(ps[1..]));
      assert [ps[0]] + ps[1..] == ps;
    }
  }

  lemma {:induction false} JoinAppend(xs: seq<string>, ys: seq<string>)
    requires |xs| >= 1 && |ys| >= 1
    ensures Join(xs + ys) == Join(xs) + "/" + Join(ys)
    decreases |xs|
  {
    if |xs| == 1 {
      assert (xs + ys)[1..] == ys;
    } else {
      assert (xs + ys)[1..] == xs[1..] + ys;
      JoinAppend(xs[1..], ys);
    }
  }

  /** The last `/`-piece: `path.split("/")[-1]`, the label a test is printed under. */
  function Label(path: string): string
  {
    var ps := Split(path);
    ps[|ps| - 1]
  }

  /** A file path the tree stores, `dirpath + "/" + filename`, is labelled with the file's own name. */
  lemma LabelOfFile(dirpath: string, filename: string)
    requires '/' !in filename
    ensures Label(dirpath + "/" + filename) == filename
  {
    var ps := Split(dirpath) + [filename];
    JoinSplit(dirpath);
    JoinAppend(Split(dirpath), [filename]);
    SplitJoin(ps);
  }

  /** `dirpath.split("/")[3:]`: the key path of a walked directory (empty when there are fewer pieces). */
  function KeyPath(dirpath: string): (r: seq<string>)
    ensures NoSlash(r)
  {
    var ps := Split(dirpath);
    if |ps| <= 3 then [] else ps[3..]
  }

  /**
   A directory whose path has four pieces has its last piece as key path,
   and a directory below it that piece followed by its own pieces.
   */
  lemma KeyPathBelow(top: seq<string>, ps: seq<string>)
    requires |top| == 4 && NoSlash(top) && NoSlash(ps)
    ensures KeyPath(Join(top)) == [top[3]]
    ensures |ps| >= 1 ==> KeyPath(Join(top) + "/" + Join(ps)) == [top[3]] + ps
  {
    KeyPathTop(top);
    if |ps| >= 1 {
      KeyPathAppend(top, ps);
      DropThree(top, ps);
    }
  }

  lemma KeyPathTop(top: seq<string>)
    requires |top| == 4 && NoSlash(top)
    ensures KeyPath(Join(top)) == [top[3]]
  {
    KeyPathOfJoin(top);
    assert top[3..] == [top[3]];
  }

  lemma DropThree(top: seq<string>, ps: seq<string>)
    requires |top| == 4
    ensures (top + ps)[3..] == [top[3]] + ps
  {
  }

  lemma KeyPathAppend(xs: seq<string>, ys: seq<string>)
    requires |xs| >= 4 && |ys| >= 1 && NoSlash(xs) && NoSlash(ys)
    ensures KeyPath(Join(xs) + "/" + Join(ys)) == (xs + ys)[3..]
  {
    JoinAppend(xs, ys);
    NoSlashAppend(xs, ys);
    KeyPathOfJoin(xs + ys);
  }

  lemma KeyPathOfJoin(ps: seq<string>)
    requires |ps| >= 4 && NoSlash(ps)
    ensures KeyPath(Join(ps)) == ps[3..]
  {
    SplitJoin(ps);
  }

  lemma NoSlashAppend(xs: seq<string>, ys: seq<string>)
    requires NoSlash(xs) && NoSlash(ys)
    ensures NoSlash(xs + ys)
  {
    forall k | 0 <= k < |xs + ys| ensures '/' !in (xs + ys)[k] {
      if k < |xs| { assert (xs + ys)[k] == xs[k]; } else { assert (xs + ys)[k] == ys[k - |xs|]; }
    }
  }

  // ---------------------------------------------------------------------
  // The test tree
  // ---------------------------------------------------------------------

  /** A dictionary node: named sub-directories in insertion order, and the optional `__LEAF__` list. */
  datatype Tree = Node(children: seq<Child>, leaf: Option<seq<string>>)
  datatype Child = Child(name: string, tree: Tree)

  const EmptyNode: Tree := Node([], None)

  /** The position of the child called `name`, or `|cs|` when there is none (`name in tree_ptr`). */
  function Find(cs: seq<Child>, name: string): (k: nat)
    ensures k <= |cs|
    ensures k < |cs| ==> cs[k].name == name
    ensures forall j :: 0 <= j < k ==> cs[j].name != name
  {
    if |cs| == 0 then 0
    else if cs[0].name == name then 0
    else 1 + Find(cs[1..], name)
  }

  /** `Find` is the first position carrying the name. */
  lemma FindFirst(cs: seq<Child>, name: string, k: nat)
    requires k <= |cs|
    requires k < |cs| ==> cs[k].name == name
    requires forall j :: 0 <= j < k ==> cs[j].name != name
    ensures Find(cs, name) == k
  {
  }

  function Names(cs: seq<Child>): (r: seq<string>)
    ensures |r| == |cs| && forall k :: 0 <= k < |cs| ==> r[k] == cs[k].name
  {
    seq(|cs|, k requires 0 <= k < |cs| => cs[k].name)
  }

  /** What a Python dictionary guarantees, and the reserved name kept out of the directories. */
  ghost predicate Valid(t: Tree)
    decreases t
  {
    && (forall i, j :: 0 <= i < j < |t.children| ==> t.children[i].name != t.children[j].name)
    && (forall i :: 0 <= i < |t.children| ==> t.children[i].name != LeafName)
    && (forall i :: 0 <= i < |t.children| ==> Valid(t.children[i].tree))
  }

  /**
   One walked directory: follow the key path from the top, reusing the
   nodes that exist and creating the ones that do not, then set the
   node's `__LEAF__` list. A piece equal to the reserved name fails the
   assertion.
   */
  function Insert(t: Tree, path: seq<string>, files: seq<string>): (r: Result<Tree, PyError>)
    ensures r.Failure? <==> LeafName in path
    ensures r.Failure? ==> r.error == AssertionError
    decreases |path|
  {
    if |path| == 0 then Success(t.(leaf := Some(files)))
    else if path[0] == LeafName then Failure(AssertionError)
    else
      var k := Find(t.children, path[0]);
      var sub := if k < |t.children| then t.children[k].tree else EmptyNode;
      var sub' :- Insert(sub, path[1..], files);
      var cs := if k < |t.children| then t.children[k := Child(path[0], sub')] else t.children + [Child(path[0], sub')];
      assert LeafName !in path by {
        assert path == [path[0]] + path[1..];
      }
      Success(t.(children := cs))
  }

  /** The `__LEAF__` list of the node at the key path `q`, if there is that node and it has one. */
  function LeafAt(t: Tree, q: seq<string>): Option<seq<string>>
    decreases |q|
  {
    if |q| == 0 then t.leaf
    else
      var k := Find(t.children, q[0]);
      if k == |t.children| then None else LeafAt(t.children[k].tree, q[1..])
  }

  lemma {:induction false} EmptyLeafAt(q: seq<string>)
    ensures LeafAt(EmptyNode, q) == None
  {
  }

  /**
   Inserting a directory sets the file list at its key path and changes
   the file list at no other key path, whether nodes were created on the
   way or not.
   */
  lemma {:induction false} InsertLeafAt(t: Tree, p: seq<string>, fs: seq<string>, q: seq<string>)
    requires Insert(t, p, fs).Success?
    ensures LeafAt(Insert(t, p, fs).value, q) == if q == p then Some(fs) else LeafAt(t, q)
    decreases |p|
  {
    if |p| > 0 && |q| > 0 {
      if q[0] == p[0] {
        var sub := ChildAt(t, p[0]);
        InsertLeafAt(sub, p[1..], fs, q[1..]);
        LeafAtSame(t, p, fs, q);
      } else {
        LeafAtOther(t, p, fs, q);
      }
    }
  }

  /** The node below `t` called `name`, an empty one when there is none. */
  function ChildAt(t: Tree, name: string): Tree
  {
    var k := Find(t.children, name);
    if k < |t.children| then t.children[k].tree else EmptyNode
  }

  /** The children after an insertion along `p`: the first piece's node replaced or appended. */
  lemma InsertChildren(t: Tree, p: seq<string>, fs: seq<string>)
    requires |p| > 0 && Insert(t, p, fs).Success?
    ensures var cs, k := t.children, Find(t.children, p[0]);
      var c := Child(p[0], Insert(ChildAt(t, p[0]), p[1..], fs).value);
      Insert(t, p, fs).value.children == if k < |cs| then cs[k := c] else cs + [c]
  {
  }

  /** Along the inserted piece, the file lists are those of the insertion into that child. */
  lemma LeafAtSame(t: Tree, p: seq<string>, fs: seq<string>, q: seq<string>)
    requires |p| > 0 && |q| > 0 && q[0] == p[0] && Insert(t, p, fs).Success?
    requires var sub := ChildAt(t, p[0]); LeafAt(Insert(sub, p[1..], fs).value, q[1..]) == if q[1..] == p[1..] then Some(fs) else LeafAt(sub, q[1..])
    ensures LeafAt(Insert(t, p, fs).value, q) == if q == p then Some(fs) else LeafAt(t, q)
  {
    var cs := t.children;
    var k := Find(cs, p[0]);
    var t', sub := Insert(t, p, fs).value, ChildAt(t, p[0]);
    var sub' := Insert(sub, p[1..], fs).value;
    InsertChildren(t, p, fs);
    assert k < |t'.children| && t'.children[k] == Child(p[0], sub');
    FindFirst(t'.children, p[0], k);
    assert LeafAt(t', q) == LeafAt(sub', q[1..]);
    if k == |cs| {
      EmptyLeafAt(q[1..]);
    }
    assert LeafAt(t, q) == LeafAt(sub, q[1..]);
    SameTail(p, q);
  }

  lemma SameTail(p: seq<string>, q: seq<string>)
    requires |p| > 0 && |q| > 0 && q[0] == p[0]
    ensures (q[1..] == p[1..]) == (q == p)
  {
    assert q == [q[0]] + q[1..] && p == [p[0]] + p[1..];
  }

  /** Away from the inserted piece, nothing changes. */
  lemma LeafAtOther(t: Tree, p: seq<string>, fs: seq<string>, q: seq<string>)
    requires |p| > 0 && |q| > 0 && q[0] != p[0] && Insert(t, p, fs).Success?
    ensures LeafAt(Insert(t, p, fs).value, q) == LeafAt(t, q)
  {
    var cs := t.children;
    var cs' := Insert(t, p, fs).value.children;
    InsertChildren(t, p, fs);
    var j := Find(cs, q[0]);
    if j < |cs| {
      FindFirst(cs', q[0], j);
    } else {
      FindFirst(cs', q[0], |cs'|);
    }
  }

  /** Insertion keeps the dictionary guarantees. */
  lemma {:induction false} InsertValid(t: Tree, p: seq<string>, fs: seq<string>)
    requires Valid(t) && Insert(t, p, fs).Success?
    ensures Valid(Insert(t, p, fs).value)
    decreases |p|
  {
    if |p| > 0 {
      var cs := t.children;
      var k := Find(cs, p[0]);
      var sub := if k < |cs| then cs[k].tree else EmptyNode;
      InsertValid(sub, p[1..], fs);
    }
  }

  /**
   Sub-directories stay in insertion order: the names at a node are the
   old names, or the old names with the new one at the end.
   */
  lemma InsertKeepsOrder(t: Tree, p: seq<string>, fs: seq<string>)
    requires Insert(t, p, fs).Success?
    ensures var ns, ns' := Names(t.children), Names(Insert(t, p, fs).value.children);
      || ns' == ns
      || (|p| > 0 && p[0] !in ns && ns' == ns + [p[0]])
  {
    if |p| > 0 {
      var cs := t.children;
      var k := Find(cs, p[0]);
      var ns, ns' := Names(cs), Names(Insert(t, p, fs).value.children);
      if k < |cs| {
        assert ns' == ns;
      } else {
        assert ns' == ns + [p[0]];
      }
    }
  }

  datatype WalkEntry = WalkEntry(dirpath: string, filenames: seq<string>)

  /** The `__LEAF__` list of one walked directory: `dirpath + "/" + f` for each file, in walk order. */
  function LeafPaths(e: WalkEntry): (r: seq<string>)
    ensures |r| == |e.filenames|
    ensures forall i :: 0 <= i < |r| ==> r[i] == e.dirpath + "/" + e.filenames[i]
  {
    seq(|e.filenames|, i requires 0 <= i < |e.filenames| => e.dirpath + "/" + e.filenames[i])
  }

  /** The tree built from the walk, one directory after the other. */
  function Build(walk: seq<WalkEntry>): (r: Result<Tree, PyError>)
    ensures r.Failure? ==> r.error == AssertionError
    decreases |walk|
  {
    if |walk| == 0 then Success(EmptyNode)
    else
      var t :- Build(walk[..|walk| - 1]);
      var e := walk[|walk| - 1];
      Insert(t, KeyPath(e.dirpath), LeafPaths(e))
  }

  /** The file list the last walked directory with key path `q` set, if any. */
  function LastLeaf(walk: seq<WalkEntry>, q: seq<string>): Option<seq<string>>
    decreases |walk|
  {
    if |walk| == 0 then None
    else if KeyPath(walk[|walk| - 1].dirpath) == q then Some(LeafPaths(walk[|walk| - 1]))
    else LastLeaf(walk[..|walk| - 1], q)
  }

  /** The built tree fails exactly when some walked directory has the reserved name in its key path. */
  lemma {:induction false} BuildFails(walk: seq<WalkEntry>)
    ensures Build(walk).Failure? <==> exists i :: 0 <= i < |walk| && LeafName in KeyPath(walk[i].dirpath)
    decreases |walk|
  {
    if |walk| > 0 {
      var front := walk[..|walk| - 1];
      var e := walk[|walk| - 1];
      BuildFails(front);
      Reserved(walk);
    }
  }

  /** Some walked directory has the reserved name in its key path. */
  predicate ReservedIn(walk: seq<WalkEntry>)
  {
    exists i :: 0 <= i < |walk| && LeafName in KeyPath(walk[i].dirpath)
  }

  /** Some directory of the walk is reserved exactly when one before the last is, or the last is. */
  lemma Reserved(walk: seq<WalkEntry>)
    requires |walk| > 0
    ensures ReservedIn(walk) <==> ReservedIn(walk[..|walk| - 1]) || LeafName in KeyPath(walk[|walk| - 1].dirpath)
  {
    var front := walk[..|walk| - 1];
    assert forall i :: 0 <= i < |front| ==> front[i] == walk[i];
  }

  /**
   The built tree fails exactly when some walked directory has the
   reserved name in its key path; otherwise it is a valid dictionary tree
   whose node at each key path holds the files of the last directory
   walked with that key path.
   */
  lemma {:induction false} BuildMeaning(walk: seq<WalkEntry>, q: seq<string>)
    ensures Build(walk).Failure? <==> exists i :: 0 <= i < |walk| && LeafName in KeyPath(walk[i].dirpath)
    ensures Build(walk).Success? ==> Valid(Build(walk).value) && LeafAt(Build(walk).value, q) == LastLeaf(walk, q)
    decreases |walk|
  {
    BuildFails(walk);
    if |walk| == 0 {
      EmptyLeafAt(q);
    } else {
      var front := walk[..|walk| - 1];
      var e := walk[|walk| - 1];
      BuildMeaning(front, q);
      if Build(front).Success? {
        var t := Build(front).value;
        if Insert(t, KeyPath(e.dirpath), LeafPaths(e)).Success? {
          InsertValid(t, KeyPath(e.dirpath), LeafPaths(e));
          InsertLeafAt(t, KeyPath(e.dirpath), LeafPaths(e), q);
        }
      }
    }
  }

  // ---------------------------------------------------------------------
  // The runner: what is reported, in which order, at which indentation
  // ---------------------------------------------------------------------

  /** A reported test file, or a sub-directory heading, with its indentation in units of `INDENT_STR`. */
  datatype Line = FileLine(indent: nat, path: string) | DirLine(indent: nat, name: string)

  /** One line per file, in order, at indentation `n`. */
  function FileLines(files: seq<string>, n: nat): (r: seq<Line>)
    ensures |r| == |files| && forall i :: 0 <= i < |files| ==> r[i] == FileLine(n, files[i])
  {
    seq(|files|, i requires 0 <= i < |files| => FileLine(n, files[i]))
  }

  /**
   `recursive_test_runner(t, d)`: the node's files at indentation `d + 1`
   first, then each sub-directory in insertion order, its heading at
   `d + 1` followed by its own report at `d + 1`. A node without a
   `__LEAF__` entry raises `KeyError`.
   */
  function Report(t: Tree, d: nat): (r: Result<seq<Line>, PyError>)
    ensures r.Failure? ==> r.error == KeyError
    ensures r.Success? ==> forall l | l in r.value :: l.indent > d
    decreases t, 1, 0
  {
    if t.leaf.None? then Failure(KeyError)
    else
      var files := t.leaf.value;
      var rest :- ReportFrom(t, 0, d);
      Success(FileLines(files, d + 1) + rest)
  }

  /** The sub-directories of `t` from position `i` on. */
  function ReportFrom(t: Tree, i: nat, d: nat): (r: Result<seq<Line>, PyError>)
    requires i <= |t.children|
    ensures r.Failure? ==> r.error == KeyError
    ensures r.Success? ==> forall l | l in r.value :: l.indent > d
    decreases t, 0, |t.children| - i
  {
    if i == |t.children| then Success([])
    else
      var c := t.children[i];
      var sub :- Report(c.tree, d + 1);
      var rest :- ReportFrom(t, i + 1, d);
      Success([DirLine(d + 1, c.name)] + sub + rest)
  }

  /** `start_test_runner`: the `resources` heading, then the report of that node. */
  function RunAll(tests: Tree): (r: Result<seq<Line>, PyError>)
    ensures r.Failure? ==> r.error == KeyError
    ensures r.Success? ==> |r.value| > 0 && r.value[0] == DirLine(0, "resources")
    ensures r.Success? ==> forall l | l in r.value[1..] :: l.indent > 0
  {
    var k := Find(tests.children, "resources");
    if k == |tests.children| then Failure(KeyError)
    else
      var ls :- Report(tests.children[k].tree, 0);
      Success([DirLine(0, "resources")] + ls)
  }

  /** The node at key path `q` lists the file path `f`. */
  ghost predicate HasFile(t: Tree, q: seq<string>, f: string)
  {
    LeafAt(t, q).Some? && f in LeafAt(t, q).value
  }

  /** The report of child `k` sits inside the report of the children from any `i <= k` on. */
  lemma {:induction false} ReportFromHasChild(t: Tree, i: nat, d: nat, k: nat)
    requires i <= k < |t.children| && ReportFrom(t, i, d).Success?
    ensures Report(t.children[k].tree, d + 1).Success?
    ensures forall l :: l in Report(t.children[k].tree, d + 1).value ==> l in ReportFrom(t, i, d).value
    decreases k - i
  {
    if i < k {
      ReportFromHasChild(t, i + 1, d, k);
    }
  }

  /**
   Indentation equals depth: every file of the node at key path `q` is
   reported, at indentation `d + |q| + 1`.
   */
  lemma {:induction false} FileReportedAtDepth(t: Tree, d: nat, q: seq<string>, f: string)
    requires Report(t, d).Success?
    requires HasFile(t, q, f)
    ensures FileLine(d + |q| + 1, f) in Report(t, d).value
    decreases |q|
  {
    var files := t.leaf.value;
    var fileLines := FileLines(files, d + 1);
    var rest := ReportFrom(t, 0, d).value;
    assert Report(t, d).value == fileLines + rest;
    if |q| == 0 {
      var i :| 0 <= i < |files| && files[i] == f;
      assert fileLines[i] == FileLine(d + 1, f);
    } else {
      var k := Find(t.children, q[0]);
      ReportFromHasChild(t, 0, d, k);
      FileReportedAtDepth(t.children[k].tree, d + 1, q[1..], f);
    }
  }

  /** A line from the children's report comes from the report of one child. */
  lemma {:induction false} ReportFromLine(t: Tree, i: nat, d: nat, l: Line)
    requires i <= |t.children| && ReportFrom(t, i, d).Success? && l in ReportFrom(t, i, d).value
    ensures exists k :: (i <= k < |t.children| && Report(t.children[k].tree, d + 1).Success? &&
      (l == DirLine(d + 1, t.children[k].name) || l in Report(t.children[k].tree, d + 1).value))
    decreases |t.children| - i
  {
    var c := t.children[i];
    var sub := Report(c.tree, d + 1).value;
    var rest := ReportFrom(t, i + 1, d).value;
    assert ReportFrom(t, i, d).value == [DirLine(d + 1, c.name)] + sub + rest;
    if l !in [DirLine(d + 1, c.name)] + sub {
      ReportFromLine(t, i + 1, d, l);
    }
  }

  /**
   Conversely, every reported file belongs to the node at some key path
   `q` and is indented by `d + |q| + 1`.
   */
  lemma {:induction false} ReportedFileHasDepth(t: Tree, d: nat, n: nat, f: string)
    requires Valid(t) && Report(t, d).Success? && FileLine(n, f) in Report(t, d).value
    ensures exists q :: HasFile(t, q, f) && n == d + |q| + 1
    decreases t
  {
    var files := t.leaf.value;
    var fileLines := FileLines(files, d + 1);
    var rest := ReportFrom(t, 0, d).value;
    assert Report(t, d).value == fileLines + rest;
    if FileLine(n, f) in fileLines {
      var i :| 0 <= i < |fileLines| && fileLines[i] == FileLine(n, f);
      assert LeafAt(t, []) == t.leaf && f == files[i];
      assert HasFile(t, [], f);
    } else {
      ReportFromLine(t, 0, d, FileLine(n, f));
      var k :| 0 <= k < |t.children| && Report(t.children[k].tree, d + 1).Success? &&
        FileLine(n, f) in Report(t.children[k].tree, d + 1).value;
      var c := t.children[k];
      ReportedFileHasDepth(c.tree, d + 1, n, f);
      var q' :| HasFile(c.tree, q', f) && n == d + 1 + |q'| + 1;
      FindFirst(t.children, c.name, k);
      LeafAtChild(t, c.name, q');
      assert HasFile(t, [c.name] + q', f);
    }
  }

  /** Every test file under `resources` is reported by the runner, indented by its depth below it. */
  lemma RunAllReportsEveryFile(tests: Tree, q: seq<string>, f: string)
    requires RunAll(tests).Success?
    requires HasFile(tests, ["resources"] + q, f)
    ensures FileLine(|q| + 1, f) in RunAll(tests).value
  {
    var c := tests.children[Find(tests.children, "resources")].tree;
    LeafAtChild(tests, "resources", q);
    FileReportedAtDepth(c, 0, q, f);
  }

  /** The node at `[name] + q` is the node at `q` below the child called `name`. */
  lemma LeafAtChild(t: Tree, name: string, q: seq<string>)
    ensures LeafAt(t, [name] + q) ==
      if Find(t.children, name) < |t.children| then LeafAt(t.children[Find(t.children, name)].tree, q) else None
  {
    var p := [name] + q;
    assert p[0] == name && p[1..] == q;
  }

  // ---------------------------------------------------------------------
  // Repetitions, samples and the verdict
  // ---------------------------------------------------------------------

  /** Python's `int(x)`: rounds toward zero. */
  function Trunc(x: real): (n: int)
    ensures x >= 0.0 ==> n as real <= x < n as real + 1.0
    ensures x < 0.0 ==> n as real - 1.0 < x <= n as real
  {
    if x >= 0.0 then x.Floor else -((-x).Floor)
  }

  function Max(a: int, b: int): (m: int)
    ensures m >= a && m >= b && (m == a || m == b)
  {
    if a < b then b else a
  }

  /**
   `max(int(limit / first_test_time - 1), MIN_TESTS)`: the number of timed
   runs after the calibration run that took `t0` seconds.
   */
  function NumTests(limit: nat, t0: real): (n: int)
    requires t0 > 0.0
    ensures n >= MinTests
  {
    Max(Trunc(limit as real / t0 - 1.0), MinTests)
  }

  /**
   Above the minimum, the count fills the time limit: the calibration run
   and the sample fit in it, and one more run would not.
   */
  lemma NumTestsFillsLimit(limit: nat, t0: real)
    requires t0 > 0.0
    ensures var n := NumTests(limit, t0);
      n > MinTests ==> (n + 1) as real * t0 <= limit as real < (n + 2) as real * t0
  {
    var n := NumTests(limit, t0);
    var x := limit as real / t0;
    if n > MinTests {
      assert n == Trunc(x - 1.0);
      assert x - 1.0 >= 0.0;
      assert n as real <= x - 1.0 < n as real + 1.0;
      assert (n + 1) as real == n as real + 1.0 && (n + 2) as real == n as real + 2.0;
      assert (n + 1) as real <= x < (n + 2) as real;
      DivMul(limit as real, t0);
      ScaledBetween((n + 1) as real, x, (n + 2) as real, t0, limit as real);
    }
  }

  /** Scaling `lo <= x < hi` by a positive `t` keeps the order around `x * t`. */
  lemma ScaledBetween(lo: real, x: real, hi: real, t: real, l: real)
    requires lo <= x < hi && t > 0.0 && x * t == l
    ensures lo * t <= l < hi * t
  {
    MulRealLe(lo, x, t);
    MulRealLt(x, hi, t);
  }

  lemma DivMul(a: real, b: real)
    requires b > 0.0
    ensures a / b * b == a
  {
  }

  lemma MulRealLe(a: real, b: real, c: real)
    requires a <= b && c > 0.0
    ensures a * c <= b * c
  {
  }

  lemma MulRealLt(a: real, b: real, c: real)
    requires a < b && c > 0.0
    ensures a * c < b * c
  {
  }

  /** A slower calibration run never asks for more repetitions. */
  lemma NumTestsMonotone(limit: nat, t0: real, t1: real)
    requires 0.0 < t0 <= t1
    ensures NumTests(limit, t1) <= NumTests(limit, t0)
  {
    var x0, x1 := limit as real / t0, limit as real / t1;
    DivMul(limit as real, t0);
    DivMul(limit as real, t1);
    if x1 > x0 {
      MulRealLt(x0, x1, t0);
      MulRealLe(t0, t1, x1);
      assert false;
    }
    FloorMonotone(x1 - 1.0, x0 - 1.0);
  }

  lemma FloorMonotone(a: real, b: real)
    requires a <= b
    ensures Trunc(a) <= Trunc(b) || Trunc(a) <= MinTests
  {
  }

  /**
   `run_test_sample(command, n)`: `n` timed runs, the `i`-th run's
   duration (`duration(i)`, the clock being outside the model) at
   position `i`.
   */
  method RunSample(n: nat, duration: nat -> real) returns (r: seq<real>)
    ensures |r| == n
    ensures forall i :: 0 <= i < n ==> r[i] == duration(i)
  {
    r := [];
    var i := 0;
    while i < n
      invariant i <= n && |r| == i
      invariant forall j :: 0 <= j < i ==> r[j] == duration(j)
    {
      r := r + [duration(i)];
      i := i + 1;
    }
  }

  /** The command benchmark.py times: `"./a.out " + test_path`; the path is what follows the prefix. */
  function BenchCommand(path: string): (c: string)
    ensures |c| == 8 + |path|
    ensures c[..8] == "./a.out " && c[8..] == path
  {
    "./a.out " + path
  }

  datatype Outcome = Outcome(title: string, pass: bool)

  /**
   The verdict of test_lisp.py on one file: it passes exactly when the
   reference interpreter and this one print the same standard output
   (standard error and exit codes do not count); it is labelled with the
   last piece of its path.
   */
  function Verdict(path: string, expected: string, actual: string): (o: Outcome)
    ensures o.pass <==> expected == actual
    ensures o.title == Label(path)
  {
    Outcome(Label(path), expected == actual)
  }

  /** A test file of the tree, `dirpath + "/" + filename`, is reported under its file name. */
  lemma VerdictTitle(dirpath: string, filename: string, expected: string, actual: string)
    requires '/' !in filename
    ensures Verdict(dirpath + "/" + filename, expected, actual).title == filename
  {
    LabelOfFile(dirpath, filename);
  }
}

=== FILE: hashmap.dfy ===
/**
 The chained hash map of src/util/map.h.

 The bucket vector is a sequence of buckets; a NULL bucket and an empty
 list behave the same for every operation and are both the empty
 sequence. Each bucket is a list of `(hash, key, value)` matches. A key
 lives in bucket `hash & (buckets - 1)`, which for the power-of-two bucket
 counts the map keeps is `hash % buckets`. The hash function is a
 parameter: the map stores a function pointer (`map->hash`).

 `Table` reads every bucket's size off its contents, which is what the
 code does while each list counter is right, i.e. with the corrected
 `DList.NodeRemove`. `Counted`, at the end, keeps the counters as the
 code does: it agrees with `Table` while they are right
 (`EraseCountedAgrees`, `CheckResizeCountedAgrees`,
 `InsertCountedAgrees`), and it faults once an interior erase has left
 one stale (`StaleCounterCrashesErase`, `StaleCounterCrashesResize`).
 */
module HashMap {
  import opened Wrappers
  import Vec
  import DList

  /** Exit code of `map_at` on a missing key. */
  const InvKey: int := 1

  datatype Entry<K, V> = Entry(hash: nat, key: K, val: V)

  datatype Table<K, V> = Table(buckets: seq<seq<Entry<K, V>>>, size: nat)

  /* ---------- one bucket ---------- */

  /** The iterator walk of `at`/`count`: the value of the first match with equal hash and key. */
  function FindVal<K(==, !new), V>(b: seq<Entry<K, V>>, h: nat, k: K): Option<V>
  {
    if |b| == 0 then None
    else if b[0].hash == h && b[0].key == k then Some(b[0].val)
    else FindVal(b[1..], h, k)
  }

  /** The iterator walk of `erase`: unlink the first match. */
  function RemoveKey<K(==, !new), V>(b: seq<Entry<K, V>>, h: nat, k: K): seq<Entry<K, V>>
  {
    if |b| == 0 then []
    else if b[0].hash == h && b[0].key == k then b[1..]
    else [b[0]] + RemoveKey(b[1..], h, k)
  }

  /** The entries whose hash falls in slot `j` of a table with `n` buckets. */
  function Filter<K, V>(b: seq<Entry<K, V>>, n: nat, j: nat): seq<Entry<K, V>>
    requires n > 0
  {
    if |b| == 0 then []
    else if b[0].hash % n == j then [b[0]] + Filter(b[1..], n, j)
    else Filter(b[1..], n, j)
  }

  /** No key occurs twice in a bucket. */
  ghost predicate Unique<K, V>(b: seq<Entry<K, V>>)
  {
    |b| == 0 || ((forall e | e in b[1..] :: e.key != b[0].key) && Unique(b[1..]))
  }

  ghost predicate BucketOk<K, V>(b: seq<Entry<K, V>>, hash: K -> nat, n: nat, i: nat)
    requires n > 0
  {
    && Unique(b)
    && forall e | e in b :: e.hash == hash(e.key) && e.hash % n == i
  }

  function TotalSize<K, V>(bs: seq<seq<Entry<K, V>>>): nat
  {
    if |bs| == 0 then 0 else TotalSize(bs[..|bs| - 1]) + |bs[|bs| - 1]|
  }

  /**
   The representation invariant: a power-of-two number of buckets, every
   match in the bucket its hash selects, keys unique, and `size` equal to
   the number of matches.
   */
  ghost predicate Valid<K, V>(m: Table<K, V>, hash: K -> nat)
  {
    && |m.buckets| > 0
    && Vec.IsPow2(|m.buckets|)
    && (forall i :: 0 <= i < |m.buckets| ==> BucketOk(m.buckets[i], hash, |m.buckets|, i))
    && m.size == TotalSize(m.buckets)
  }

  /** The key's value as the hashed search finds it. */
  function Lookup<K(==, !new), V>(m: Table<K, V>, hash: K -> nat, k: K): Option<V>
    requires |m.buckets| > 0
  {
    FindVal(m.buckets[hash(k) % |m.buckets|], hash(k), k)
  }

  /** The pair (k, v) is stored somewhere in the table, whatever its bucket. */
  ghost predicate Stored<K, V>(m: Table<K, V>, k: K, v: V)
  {
    exists i, e :: 0 <= i < |m.buckets| && e in m.buckets[i] && e.key == k && e.val == v
  }

  ghost predicate KeyStored<K, V>(m: Table<K, V>, k: K)
  {
    exists i, e :: 0 <= i < |m.buckets| && e in m.buckets[i] && e.key == k
  }

  /* ---------- operations ---------- */

  /** `new_map`: one NULL bucket and size 0. */
  function New<K, V>(): (m: Table<K, V>)
    ensures |m.buckets| == 1 && m.size == 0
  {
    Table([[]], 0)
  }

  /** `count`: 1 exactly when the hashed search finds an equal key. */
  function Count<K(==, !new), V>(m: Table<K, V>, hash: K -> nat, k: K): (r: nat)
    requires |m.buckets| > 0
    ensures r <= 1
    ensures r == 1 <==> Lookup(m, hash, k).Some?
  {
    var b := m.buckets[hash(k) % |m.buckets|];
    if |b| == 0 then 0
    else if FindVal(b, hash(k), k).Some? then 1 else 0
  }

  /**
   `at`: the value of the key's match. An absent key ends in `exit(INVKEY)`
   when its bucket has matches to walk; a NULL or empty bucket gives the
   iterator walk a NULL first node, which it dereferences.
   */
  function At<K(==, !new), V>(m: Table<K, V>, hash: K -> nat, k: K): (r: Result<V, Fault>)
    requires |m.buckets| > 0
    ensures r.Failure? <==> Count(m, hash, k) == 0
    ensures r.Success? ==> Lookup(m, hash, k) == Some(r.value)
    ensures r.Failure? ==> r.error == if |m.buckets[hash(k) % |m.buckets|]| == 0 then NullDeref else Exit(InvKey)
  {
    var b := m.buckets[hash(k) % |m.buckets|];
    if |b| == 0 then Failure(NullDeref)
    else match FindVal(b, hash(k), k)
      case Some(v) => Success(v)
      case None => Failure(Exit(InvKey))
  }

  function Size<K, V>(m: Table<K, V>): (n: nat)
    ensures n == m.size
  {
    m.size
  }

  /**
   `erase`: unlink the key's match and decrement the size, returning 1;
   return 0 when the key is absent.
   */
  function Erase<K(==, !new), V>(m: Table<K, V>, hash: K -> nat, k: K): (res: (Table<K, V>, nat))
    requires |m.buckets| > 0
    ensures |res.0.buckets| == |m.buckets|
    ensures Valid(m, hash) ==> Valid(res.0, hash)
    ensures Valid(m, hash) ==> res.1 == Count(m, hash, k)
    ensures Valid(m, hash) ==> res.0.size + res.1 == m.size
    ensures Valid(m, hash) ==> Lookup(res.0, hash, k) == None
    ensures Valid(m, hash) ==> forall k' :: k' != k ==> Lookup(res.0, hash, k') == Lookup(m, hash, k')
  {
    var i := hash(k) % |m.buckets|;
    var b := m.buckets[i];
    if |b| == 0 || FindVal(b, hash(k), k).None? then (m, 0)
    else
      EraseStep(m, hash, k);
      (Table(m.buckets[i := RemoveKey(b, hash(k), k)], DList.Dec(m.size)), 1)
  }

  /**
   `allocate_into_bucket`: a non-NULL bucket first has the key erased, then
   the match is appended to the bucket its hash selects.
   */
  function Allocate<K(==, !new), V>(m: Table<K, V>, hash: K -> nat, k: K, v: V): (m': Table<K, V>)
    requires |m.buckets| > 0
    ensures |m'.buckets| == |m.buckets|
    ensures Valid(m, hash) ==> m'.size + Count(m, hash, k) == m.size
    ensures Valid(m, hash) ==> Lookup(m', hash, k) == Some(v)
    ensures Valid(m, hash) ==> forall k' :: k' != k ==> Lookup(m', hash, k') == Lookup(m, hash, k')
    ensures Valid(m, hash) ==> Valid(Table(m'.buckets, m'.size + 1), hash)
  {
    var i := hash(k) % |m.buckets|;
    var m1 := if |m.buckets[i]| == 0 then m else Erase(m, hash, k).0;
    AllocateStep(m1, hash, k, v);
    Table(m1.buckets[i := m1.buckets[i] + [Entry(hash(k), k, v)]], m1.size)
  }

  /** Old bucket `i` of `n` splits into new buckets `i` and `i + n`, each keeping its order. */
  function Rehash<K, V>(bs: seq<seq<Entry<K, V>>>): (bs': seq<seq<Entry<K, V>>>)
    requires |bs| > 0
    ensures |bs'| == 2 * |bs|
  {
    var n := |bs|;
    seq(n, j requires 0 <= j < n => Filter(bs[j], 2 * n, j))
      + seq(n, j requires 0 <= j < n => Filter(bs[j], 2 * n, j + n))
  }

  /**
   `check_resize`: once `size >= 0.8 * buckets` the bucket vector doubles
   and every match moves to the bucket of its hash. For a power-of-two
   bucket count `0.8 * buckets` is never a whole number, so the double
   comparison is `5 * size < 4 * buckets` exactly.
   */
  function CheckResize<K(==, !new), V>(m: Table<K, V>, hash: K -> nat): (m': Table<K, V>)
    requires |m.buckets| > 0
    ensures m'.size == m.size
    ensures |m'.buckets| == if 5 * m.size < 4 * |m.buckets| then |m.buckets| else 2 * |m.buckets|
    ensures Valid(m, hash) ==> Valid(m', hash)
    ensures Valid(m, hash) ==> forall k :: Lookup(m', hash, k) == Lookup(m, hash, k)
  {
    if 5 * m.size < 4 * |m.buckets| then m
    else
      RehashPreserves(m, hash);
      Table(Rehash(m.buckets), m.size)
  }

  /** `insert`: allocate, count the new match, then resize if the load is reached. */
  function Insert<K(==, !new), V>(m: Table<K, V>, hash: K -> nat, k: K, v: V): (m': Table<K, V>)
    requires |m.buckets| > 0
    ensures |m'.buckets| > 0
    ensures Valid(m, hash) ==> Valid(m', hash)
    ensures Valid(m, hash) ==> Lookup(m', hash, k) == Some(v)
    ensures Valid(m, hash) ==> forall k' :: k' != k ==> Lookup(m', hash, k') == Lookup(m, hash, k')
    ensures Valid(m, hash) ==> m'.size == m.size + 1 - Count(m, hash, k)
    ensures |m'.buckets| == |m.buckets| || |m'.buckets| == 2 * |m.buckets|
  {
    var m1 := Allocate(m, hash, k, v);
    CheckResize(Table(m1.buckets, m1.size + 1), hash)
  }

  /* ---------- properties ---------- */

  lemma NewIsEmpty<K(!new), V>(hash: K -> nat)
    ensures Valid(New<K, V>(), hash)
    ensures forall k :: Lookup(New<K, V>(), hash, k) == None
  {
    assert TotalSize<K, V>([[]]) == TotalSize<K, V>([]) + 0;
  }

  /** The hashed search finds exactly what is stored anywhere in the table. */
  lemma LookupFindsStored<K(!new), V>(m: Table<K, V>, hash: K -> nat, k: K, v: V)
    requires Valid(m, hash)
    ensures Lookup(m, hash, k) == Some(v) <==> Stored(m, k, v)
  {
    var i := hash(k) % |m.buckets|;
    if Lookup(m, hash, k) == Some(v) {
      var e := FindValSound(m.buckets[i], hash(k), k);
      assert e in m.buckets[i] && e.key == k && e.val == v;
    }
    if Stored(m, k, v) {
      var j, e :| 0 <= j < |m.buckets| && e in m.buckets[j] && e.key == k && e.val == v;
      assert j == i;
      FindValUnique(m.buckets[i], e);
    }
  }

  /** The same, for keys alone: the search succeeds exactly when some bucket holds the key. */
  lemma LookupFindsKey<K(!new), V>(m: Table<K, V>, hash: K -> nat, k: K)
    requires Valid(m, hash)
    ensures Lookup(m, hash, k).Some? <==> KeyStored(m, k)
  {
    if Lookup(m, hash, k).Some? {
      LookupFindsStored(m, hash, k, Lookup(m, hash, k).value);
    }
    if KeyStored(m, k) {
      var i, e :| 0 <= i < |m.buckets| && e in m.buckets[i] && e.key == k;
      assert Stored(m, k, e.val);
      LookupFindsStored(m, hash, k, e.val);
    }
  }

  /**
   After `insert(k, v)`, `at(k)` is v; another key keeps its value, and a
   key that was absent stays absent (only the kind of stop may change, as
   its bucket may no longer be empty).
   */
  lemma AtAfterInsert<K(!new), V>(m: Table<K, V>, hash: K -> nat, k: K, k': K, v: V)
    requires Valid(m, hash)
    ensures At(Insert(m, hash, k, v), hash, k) == Success(v)
    ensures k' != k && At(m, hash, k').Success? ==> At(Insert(m, hash, k, v), hash, k') == At(m, hash, k')
    ensures k' != k && At(m, hash, k').Failure? ==> At(Insert(m, hash, k, v), hash, k').Failure?
  {
    var m' := Insert(m, hash, k, v);
    assert Lookup(m', hash, k) == Some(v);
    assert Count(m', hash, k) == 1;
    if k' != k {
      assert Lookup(m', hash, k') == Lookup(m, hash, k');
      if At(m, hash, k').Success? {
        assert Count(m, hash, k') == 1;
        assert Count(m', hash, k') == 1;
      } else {
        assert Count(m, hash, k') == 0;
        assert Count(m', hash, k') == 0;
      }
    }
  }

  /** Re-inserting a present key overwrites its value and keeps the size. */
  lemma ReinsertKeepsSize<K(!new), V>(m: Table<K, V>, hash: K -> nat, k: K, v: V, w: V)
    requires Valid(m, hash)
    ensures Insert(Insert(m, hash, k, v), hash, k, w).size == Insert(m, hash, k, v).size
    ensures At(Insert(Insert(m, hash, k, v), hash, k, w), hash, k) == Success(w)
  {
  }

  /** A second `erase` of the same key returns 0. */
  lemma EraseTwice<K(!new), V>(m: Table<K, V>, hash: K -> nat, k: K)
    requires Valid(m, hash)
    ensures Erase(Erase(m, hash, k).0, hash, k).1 == 0
  {
  }

  /* ---------- helper lemmas ---------- */

  lemma EraseStep<K(!new), V>(m: Table<K, V>, hash: K -> nat, k: K)
    requires |m.buckets| > 0
    requires FindVal(m.buckets[hash(k) % |m.buckets|], hash(k), k).Some?
    ensures
      var i := hash(k) % |m.buckets|;
      var m' := Table(m.buckets[i := RemoveKey(m.buckets[i], hash(k), k)], DList.Dec(m.size));
      Valid(m, hash) ==>
        && Valid(m', hash)
        && m'.size + 1 == m.size
        && Lookup(m', hash, k) == None
        && forall k' :: k' != k ==> Lookup(m', hash, k') == Lookup(m, hash, k')
  {
    var i := hash(k) % |m.buckets|;
    var b := m.buckets[i];
    var b' := RemoveKey(b, hash(k), k);
    var m' := Table(m.buckets[i := b'], DList.Dec(m.size));
    if Valid(m, hash) {
      RemoveKeyKeepsBucket(b, hash, |m.buckets|, i, k);
      RemoveKeyFinds(b, hash, |m.buckets|, i, k);
      RemoveKeySubset(b, hash(k), k);
      TotalSizeUpdate(m.buckets, i, b');
      assert Valid(m', hash);
    }
  }

  lemma AllocateStep<K(!new), V>(m1: Table<K, V>, hash: K -> nat, k: K, v: V)
    requires |m1.buckets| > 0
    ensures
      var i := hash(k) % |m1.buckets|;
      var m' := Table(m1.buckets[i := m1.buckets[i] + [Entry(hash(k), k, v)]], m1.size);
      Valid(m1, hash) && Lookup(m1, hash, k) == None ==>
        && Valid(Table(m'.buckets, m'.size + 1), hash)
        && Lookup(m', hash, k) == Some(v)
        && forall k' :: k' != k ==> Lookup(m', hash, k') == Lookup(m1, hash, k')
  {
    var i := hash(k) % |m1.buckets|;
    var b := m1.buckets[i] + [Entry(hash(k), k, v)];
    if Valid(m1, hash) && Lookup(m1, hash, k) == None {
      AppendKeepsBucket(m1.buckets[i], hash, |m1.buckets|, i, Entry(hash(k), k, v));
      AppendFinds(m1.buckets[i], hash, Entry(hash(k), k, v));
      TotalSizeUpdate(m1.buckets, i, b);
    }
  }

  lemma FindValSound<K(!new), V>(b: seq<Entry<K, V>>, h: nat, k: K) returns (e: Entry<K, V>)
    requires FindVal(b, h, k).Some?
    ensures e in b && e.key == k && e.hash == h && Some(e.val) == FindVal(b, h, k)
  {
    if b[0].hash == h && b[0].key == k {
      e := b[0];
    } else {
      e := FindValSound(b[1..], h, k);
    }
  }

  lemma FindValAbsent<K(!new), V>(b: seq<Entry<K, V>>, h: nat, k: K)
    requires forall e | e in b :: e.key != k
    ensures FindVal(b, h, k) == None
  {
    if |b| > 0 {
      assert b[0] in b;
      FindValAbsent(b[1..], h, k);
    }
  }

  lemma FindValUnique<K(!new), V>(b: seq<Entry<K, V>>, e: Entry<K, V>)
    requires Unique(b) && e in b
    ensures FindVal(b, e.hash, e.key) == Some(e.val)
  {
    if b[0] != e {
      assert e in b[1..];
      FindValUnique(b[1..], e);
    } else {
    }
  }

  lemma RemoveKeySubset<K(!new), V>(b: seq<Entry<K, V>>, h: nat, k: K)
    ensures forall e | e in RemoveKey(b, h, k) :: e in b
    ensures Unique(b) ==> Unique(RemoveKey(b, h, k))
    ensures FindVal(b, h, k).Some? ==> |RemoveKey(b, h, k)| + 1 == |b|
  {
    if |b| > 0 && !(b[0].hash == h && b[0].key == k) {
      RemoveKeySubset(b[1..], h, k);
      assert RemoveKey(b, h, k)[1..] == RemoveKey(b[1..], h, k);
    }
  }

  lemma RemoveKeyKeepsBucket<K(!new), V>(b: seq<Entry<K, V>>, hash: K -> nat, n: nat, i: nat, k: K)
    requires n > 0 && BucketOk(b, hash, n, i)
    ensures BucketOk(RemoveKey(b, hash(k), k), hash, n, i)
  {
    RemoveKeySubset(b, hash(k), k);
  }

  /** Unlinking the key's match hides that key and no other. */
  lemma RemoveKeyFinds<K(!new), V>(b: seq<Entry<K, V>>, hash: K -> nat, n: nat, i: nat, k: K)
    requires n > 0 && BucketOk(b, hash, n, i)
    ensures FindVal(RemoveKey(b, hash(k), k), hash(k), k) == None
    ensures forall k' :: k' != k ==> FindVal(RemoveKey(b, hash(k), k), hash(k'), k') == FindVal(b, hash(k'), k')
  {
    if |b| > 0 {
      if b[0].hash == hash(k) && b[0].key == k {
        FindValAbsent(b[1..], hash(k), k);
      } else {
        assert BucketOk(b[1..], hash, n, i);
        RemoveKeyFinds(b[1..], hash, n, i, k);
      }
    }
  }

  lemma AppendKeepsBucket<K(!new), V>(b: seq<Entry<K, V>>, hash: K -> nat, n: nat, i: nat, e: Entry<K, V>)
    requires n > 0 && BucketOk(b, hash, n, i)
    requires e.hash == hash(e.key) && e.hash % n == i
    requires FindVal(b, e.hash, e.key) == None
    ensures BucketOk(b + [e], hash, n, i)
  {
    if |b| > 0 {
      assert BucketOk(b[1..], hash, n, i);
      AppendKeepsBucket(b[1..], hash, n, i, e);
      assert (b + [e])[1..] == b[1..] + [e];
    }
  }

  lemma AppendFinds<K(!new), V>(b: seq<Entry<K, V>>, hash: K -> nat, e: Entry<K, V>)
    requires FindVal(b, e.hash, e.key) == None
    ensures FindVal(b + [e], e.hash, e.key) == Some(e.val)
    ensures forall k' :: k' != e.key ==> FindVal(b + [e], hash(k'), k') == FindVal(b, hash(k'), k')
  {
    if |b| > 0 {
      assert (b + [e])[1..] == b[1..] + [e];
      AppendFinds(b[1..], hash, e);
    }
  }

  lemma TotalSizeUpdate<K(!new), V>(bs: seq<seq<Entry<K, V>>>, i: nat, b: seq<Entry<K, V>>)
    requires i < |bs|
    ensures TotalSize(bs[i := b]) + |bs[i]| == TotalSize(bs) + |b|
  {
    var last := |bs| - 1;
    if i < last {
      assert bs[i := b][..last] == bs[..last][i := b];
      TotalSizeUpdate(bs[..last], i, b);
    } else {
      assert bs[i := b][..last] == bs[..last];
    }
  }

  lemma TotalSizeConcat<K(!new), V>(a: seq<seq<Entry<K, V>>>, b: seq<seq<Entry<K, V>>>)
    ensures TotalSize(a + b) == TotalSize(a) + TotalSize(b)
  {
    if |b| > 0 {
      assert (a + b)[..|a + b| - 1] == a + b[..|b| - 1];
      TotalSizeConcat(a, b[..|b| - 1]);
    } else {
      assert a + b == a;
    }
  }

  /** Euclidean division has one quotient and remainder. */
  lemma ModUnique(h: int, n: int, q: int, r: int)
    requires n > 0 && 0 <= r < n && h == q * n + r
    ensures h % n == r
  {
    var q' := h / n;
    var r' := h % n;
    assert h == q' * n + r';
    assert (q - q') * n == r' - r;
    if q > q' {
      MulAtLeast(q - q', n);
    } else if q < q' {
      MulAtLeast(q' - q, n);
    }
  }

  lemma MulAtLeast(d: int, n: int)
    requires d >= 1 && n > 0
    ensures d * n >= n
  {
    if d > 1 {
      MulAtLeast(d - 1, n);
      assert d * n == (d - 1) * n + n;
    }
  }

  /** `(h % 2n) % n == h % n`: doubling the table sends slot i to slot i or i + n. */
  lemma ModDouble(h: nat, n: nat)
    requires n > 0
    ensures (h % (2 * n)) % n == h % n
    ensures h % (2 * n) == h % n || h % (2 * n) == h % n + n
  {
    var q := h / (2 * n);
    var r := h % (2 * n);
    assert h == q * (2 * n) + r;
    assert q * (2 * n) == (2 * q) * n;
    if r < n {
      ModUnique(h, n, 2 * q, r);
      ModUnique(r, n, 0, r);
    } else {
      assert h == (2 * q + 1) * n + (r - n);
      ModUnique(h, n, 2 * q + 1, r - n);
      ModUnique(r, n, 1, r - n);
    }
  }

  lemma FilterFacts<K(!new), V>(b: seq<Entry<K, V>>, n2: nat, j: nat)
    requires n2 > 0
    ensures forall e | e in Filter(b, n2, j) :: e in b && e.hash % n2 == j
    ensures Unique(b) ==> Unique(Filter(b, n2, j))
  {
    if |b| > 0 {
      FilterFacts(b[1..], n2, j);
    }
  }

  /** Filtering to the slot of `h` keeps every match the search for `h` could find. */
  lemma FilterFinds<K(!new), V>(b: seq<Entry<K, V>>, n2: nat, h: nat, k: K)
    requires n2 > 0
    ensures FindVal(Filter(b, n2, h % n2), h, k) == FindVal(b, h, k)
  {
    if |b| > 0 {
      FilterFinds(b[1..], n2, h, k);
    }
  }

  /** Splitting a bucket whose hashes share slot i of n loses no match. */
  lemma FilterSplitSize<K(!new), V>(b: seq<Entry<K, V>>, n: nat, i: nat)
    requires n > 0 && i < n
    requires forall e | e in b :: e.hash % n == i
    ensures |Filter(b, 2 * n, i)| + |Filter(b, 2 * n, i + n)| == |b|
  {
    if |b| > 0 {
      ModDouble(b[0].hash, n);
      FilterSplitSize(b[1..], n, i);
    }
  }

  lemma {:induction false} RehashSize<K(!new), V>(bs: seq<seq<Entry<K, V>>>, hash: K -> nat, n: nat, k: nat)
    requires n > 0 && |bs| == n && k <= n
    requires forall i :: 0 <= i < n ==> forall e | e in bs[i] :: e.hash % n == i
    ensures TotalSize(seq(k, j requires 0 <= j < k => Filter(bs[j], 2 * n, j)))
          + TotalSize(seq(k, j requires 0 <= j < k => Filter(bs[j], 2 * n, j + n)))
         == TotalSize(bs[..k])
  {
    if k > 0 {
      RehashSize(bs, hash, n, k - 1);
      var lo := seq(k, j requires 0 <= j < k => Filter(bs[j], 2 * n, j));
      var hi := seq(k, j requires 0 <= j < k => Filter(bs[j], 2 * n, j + n));
      assert lo[..k - 1] == seq(k - 1, j requires 0 <= j < k - 1 => Filter(bs[j], 2 * n, j));
      assert hi[..k - 1] == seq(k - 1, j requires 0 <= j < k - 1 => Filter(bs[j], 2 * n, j + n));
      assert bs[..k][..k - 1] == bs[..k - 1];
      FilterSplitSize(bs[k - 1], n, k - 1);
    }
  }

  lemma RehashPreserves<K(!new), V>(m: Table<K, V>, hash: K -> nat)
    requires |m.buckets| > 0
    ensures Valid(m, hash) ==> Valid(Table(Rehash(m.buckets), m.size), hash)
    ensures Valid(m, hash) ==> forall k :: Lookup(Table(Rehash(m.buckets), m.size), hash, k) == Lookup(m, hash, k)
  {
    if Valid(m, hash) {
      RehashValid(m, hash);
    }
  }

  lemma RehashValid<K(!new), V>(m: Table<K, V>, hash: K -> nat)
    requires Valid(m, hash)
    ensures Valid(Table(Rehash(m.buckets), m.size), hash)
    ensures forall k :: Lookup(Table(Rehash(m.buckets), m.size), hash, k) == Lookup(m, hash, k)
  {
    RehashBucketsOk(m, hash);
    RehashTotal(m, hash);
    forall k
      ensures Lookup(Table(Rehash(m.buckets), m.size), hash, k) == Lookup(m, hash, k)
    {
      RehashLookup(m, hash, k);
    }
  }

  lemma RehashBucketsOk<K(!new), V>(m: Table<K, V>, hash: K -> nat)
    requires Valid(m, hash)
    ensures forall i :: 0 <= i < 2 * |m.buckets| ==> BucketOk(Rehash(m.buckets)[i], hash, 2 * |m.buckets|, i)
  {
    var n := |m.buckets|;
    var bs := m.buckets;
    var bs' := Rehash(bs);
    forall i | 0 <= i < 2 * n
      ensures BucketOk(bs'[i], hash, 2 * n, i)
    {
      var src := if i < n then i else i - n;
      assert bs'[i] == Filter(bs[src], 2 * n, i);
      FilterFacts(bs[src], 2 * n, i);
      assert BucketOk(bs[src], hash, n, src);
    }
  }

  lemma RehashTotal<K(!new), V>(m: Table<K, V>, hash: K -> nat)
    requires Valid(m, hash)
    ensures TotalSize(Rehash(m.buckets)) == TotalSize(m.buckets)
    ensures Vec.IsPow2(|Rehash(m.buckets)|)
  {
    var n := |m.buckets|;
    var bs := m.buckets;
    var lo := seq(n, j requires 0 <= j < n => Filter(bs[j], 2 * n, j));
    var hi := seq(n, j requires 0 <= j < n => Filter(bs[j], 2 * n, j + n));
    assert Rehash(bs) == lo + hi;
    forall i | 0 <= i < n
      ensures forall e: Entry<K, V> | e in bs[i] :: e.hash % n == i
    {
      assert BucketOk(bs[i], hash, n, i);
    }
    RehashSize(bs, hash, n, n);
    assert bs[..n] == bs;
    TotalSizeConcat(lo, hi);
    assert (2 * n) / 2 == n;
  }

  lemma RehashLookup<K(!new), V>(m: Table<K, V>, hash: K -> nat, k: K)
    requires Valid(m, hash)
    ensures Lookup(Table(Rehash(m.buckets), m.size), hash, k) == Lookup(m, hash, k)
  {
    var n := |m.buckets|;
    var bs := m.buckets;
    var h := hash(k);
    ModDouble(h, n);
    var src := h % n;
    assert Rehash(bs)[h % (2 * n)] == Filter(bs[src], 2 * n, h % (2 * n));
    FilterFinds(bs[src], 2 * n, h, k);
  }

  /* ---------- the stop for a missing key ---------- */

  /**
   `at` on a missing key stops in one of two ways: `exit(INVKEY)` when some
   stored key shares its bucket, a NULL dereference when none does.
   */
  lemma AtMissFault<K(!new), V>(m: Table<K, V>, hash: K -> nat, k: K)
    requires Valid(m, hash) && Lookup(m, hash, k).None?
    ensures At(m, hash, k) == Failure(
      if exists k' :: Lookup(m, hash, k').Some? && hash(k') % |m.buckets| == hash(k) % |m.buckets|
      then Exit(InvKey) else NullDeref)
  {
    var n := |m.buckets|;
    var i := hash(k) % n;
    if |m.buckets[i]| > 0 {
      var e := m.buckets[i][0];
      assert KeyStored(m, e.key);
      LookupFindsKey(m, hash, e.key);
      assert Lookup(m, hash, e.key).Some? && hash(e.key) % n == i;
    } else {
      forall k' | hash(k') % n == i
        ensures Lookup(m, hash, k').None?
      {
      }
    }
  }

  /** The bucket count of a new map after `k` inserts of keys not yet present. */
  function BucketsAfter(k: nat): (b: nat)
    ensures b > 0 && Vec.IsPow2(b)
    ensures 5 * k < 4 * b
  {
    if k == 0 then 1
    else
      var b := BucketsAfter(k - 1);
      if 5 * k < 4 * b then b else 2 * b
  }

  /** `insert` of each pair in turn. */
  function InsertAll<K(==, !new), V>(m: Table<K, V>, hash: K -> nat, es: seq<(K, V)>): (m': Table<K, V>)
    requires |m.buckets| > 0
    ensures |m'.buckets| > 0
    decreases |es|
  {
    if |es| == 0 then m else InsertAll(Insert(m, hash, es[0].0, es[0].1), hash, es[1..])
  }

  /** The keys of a list of pairs. */
  function KeysOf<K, V>(es: seq<(K, V)>): set<K>
  {
    set i | 0 <= i < |es| :: es[i].0
  }

  /** No key appears twice in a list of pairs. */
  ghost predicate DistinctKeys<K, V>(es: seq<(K, V)>)
  {
    forall i, j :: 0 <= i < j < |es| ==> es[i].0 != es[j].0
  }

  /** Inserting an absent key grows the size by one and resizes by the 0.8 ratio of the grown size. */
  lemma InsertFresh<K(!new), V>(m: Table<K, V>, hash: K -> nat, k: K, v: V)
    requires Valid(m, hash) && Lookup(m, hash, k).None?
    ensures Insert(m, hash, k, v).size == m.size + 1
    ensures |Insert(m, hash, k, v).buckets| ==
      if 5 * (m.size + 1) < 4 * |m.buckets| then |m.buckets| else 2 * |m.buckets|
  {
    var m1 := Allocate(m, hash, k, v);
    assert m1.size == m.size;
  }

  /**
   Inserting keys that are distinct and absent keeps the map well formed,
   adds exactly those keys, and leaves the bucket count that the size alone
   determines.
   */
  lemma {:induction false} InsertAllFresh<K(!new), V>(m: Table<K, V>, hash: K -> nat, es: seq<(K, V)>)
    requires Valid(m, hash) && |m.buckets| == BucketsAfter(m.size)
    requires DistinctKeys(es) && forall i :: 0 <= i < |es| ==> Lookup(m, hash, es[i].0).None?
    ensures Valid(InsertAll(m, hash, es), hash)
    ensures InsertAll(m, hash, es).size == m.size + |es|
    ensures |InsertAll(m, hash, es).buckets| == BucketsAfter(InsertAll(m, hash, es).size)
    ensures forall k :: Lookup(InsertAll(m, hash, es), hash, k).Some? <==> Lookup(m, hash, k).Some? || k in KeysOf(es)
    decreases |es|
  {
    if |es| > 0 {
      var m1 := Insert(m, hash, es[0].0, es[0].1);
      InsertFresh(m, hash, es[0].0, es[0].1);
      assert |m1.buckets| == BucketsAfter(m1.size) by {
        assert m1.size == m.size + 1;
      }
      forall i | 0 <= i < |es[1..]|
        ensures Lookup(m1, hash, es[1..][i].0).None?
      {
        assert es[1..][i].0 == es[i + 1].0 != es[0].0;
      }
      InsertAllFresh(m1, hash, es[1..]);
      assert InsertAll(m, hash, es) == InsertAll(m1, hash, es[1..]);
      KeysOfCons(es);
    }
  }

  lemma KeysOfCons<K, V>(es: seq<(K, V)>)
    requires |es| > 0
    ensures KeysOf(es) == {es[0].0} + KeysOf(es[1..])
  {
    forall k | k in KeysOf(es) ensures k in {es[0].0} + KeysOf(es[1..]) {
      var i :| 0 <= i < |es| && es[i].0 == k;
      if i > 0 { assert es[1..][i - 1].0 == k; }
    }
    forall k | k in KeysOf(es[1..]) ensures k in KeysOf(es) {
      var i :| 0 <= i < |es[1..]| && es[1..][i].0 == k;
      assert es[i + 1].0 == k;
    }
  }

  /** A list of distinct keys has as many keys as pairs. */
  lemma {:induction false} DistinctKeysCount<K, V>(es: seq<(K, V)>)
    requires DistinctKeys(es)
    ensures |KeysOf(es)| == |es|
    decreases |es|
  {
    if |es| > 0 {
      var tail := es[1..];
      assert DistinctKeys(tail) by {
        forall i, j | 0 <= i < j < |tail| ensures tail[i].0 != tail[j].0 {
          assert tail[i] == es[i + 1] && tail[j] == es[j + 1];
        }
      }
      DistinctKeysCount(tail);
      KeysOfCons(es);
      assert es[0].0 !in KeysOf(tail) by {
        forall i | 0 <= i < |tail| ensures tail[i].0 != es[0].0 {
          assert tail[i] == es[i + 1];
        }
      }
    }
  }

  /**
   A map filled from scratch by inserting distinct keys, then asked for a
   key it lacks: the stop is `exit(INVKEY)` exactly when some inserted key
   falls in the same bucket of the `BucketsAfter` buckets.
   */
  lemma FilledMissFault<K(!new), V>(hash: K -> nat, es: seq<(K, V)>, k: K)
    requires DistinctKeys(es) && k !in KeysOf(es)
    ensures var b := BucketsAfter(|KeysOf(es)|);
      At(InsertAll(New(), hash, es), hash, k) == Failure(
        if exists k' | k' in KeysOf(es) :: hash(k') % b == hash(k) % b then Exit(InvKey) else NullDeref)
  {
    var m0: Table<K, V> := New();
    assert Valid(m0, hash) by { assert Vec.IsPow2(1); assert m0.buckets[0] == []; }
    InsertAllFresh(m0, hash, es);
    DistinctKeysCount(es);
    var m := InsertAll(m0, hash, es);
    AtMissFault(m, hash, k);
  }

  /* ---------- the list counters, as written ---------- */

  /**
   The table with each bucket's list counter kept beside its nodes.
   `iter_remove` is list `node_remove`, which unlinks an interior match
   without decrementing the counter (`DList.NodeRemoveAsWritten`); `erase`
   and `count` test that counter before they walk the nodes, and
   `check_resize` pops as many matches as it says. A NULL bucket is
   `DList.New()`: no operation tells the two apart.
   */
  datatype Counted<K, V> = Counted(lists: seq<DList.List<Entry<K, V>>>, size: nat)

  /** The nodes of every bucket, forgetting the counters. */
  function Items<K, V>(c: Counted<K, V>): (m: Table<K, V>)
    ensures |m.buckets| == |c.lists| && m.size == c.size
    ensures forall i :: 0 <= i < |c.lists| ==> m.buckets[i] == c.lists[i].items
  {
    Table(seq(|c.lists|, i requires 0 <= i < |c.lists| => c.lists[i].items), c.size)
  }

  /** Every bucket's counter equals its number of nodes. */
  ghost predicate CountersRight<K, V>(c: Counted<K, V>)
  {
    forall i :: 0 <= i < |c.lists| ==> DList.Valid(c.lists[i])
  }

  /** The position of the match the iterator walk of `erase` stops at. */
  function FirstMatch<K(==, !new), V>(b: seq<Entry<K, V>>, h: nat, k: K): (r: Option<nat>)
    ensures r.None? <==> FindVal(b, h, k).None?
    ensures r.Some? ==> r.value < |b| && b[r.value].hash == h && b[r.value].key == k
  {
    if |b| == 0 then None
    else if b[0].hash == h && b[0].key == k then Some(0)
    else match FirstMatch(b[1..], h, k)
      case None => None
      case Some(j) => Some(j + 1)
  }

  /** Unlinking the node `FirstMatch` finds is `RemoveKey`. */
  lemma FirstMatchRemoves<K(!new), V>(b: seq<Entry<K, V>>, h: nat, k: K)
    requires FirstMatch(b, h, k).Some?
    ensures var j := FirstMatch(b, h, k).value; b[..j] + b[j + 1..] == RemoveKey(b, h, k)
  {
    if !(b[0].hash == h && b[0].key == k) {
      var j := FirstMatch(b[1..], h, k).value;
      FirstMatchRemoves(b[1..], h, k);
      assert b[..j + 1] + b[j + 2..] == [b[0]] + (b[1..][..j] + b[1..][j + 1..]);
    }
  }

  /** The key's first match is the first or the last node, which `node_remove` pops. */
  predicate AtEnd<K(==, !new), V>(b: seq<Entry<K, V>>, h: nat, k: K)
  {
    match FirstMatch(b, h, k)
    case None => true
    case Some(j) => j == 0 || j == |b| - 1
  }

  /**
   `erase` as written: a zero counter returns 0 at once; otherwise the walk
   starts at `_first`, a NULL dereference when the counter outlived the
   nodes, and the match found is unlinked by `node_remove`.
   */
  function EraseCounted<K(==, !new), V>(c: Counted<K, V>, hash: K -> nat, k: K): (r: Result<(Counted<K, V>, nat), Fault>)
    requires |c.lists| > 0
    ensures r.Success? ==> |r.value.0.lists| == |c.lists| && r.value.1 <= 1
    ensures r.Success? && r.value.1 == 0 ==> r.value.0 == c
    ensures r.Failure? ==> r.error == NullDeref
  {
    var i := hash(k) % |c.lists|;
    var b := c.lists[i];
    if b.size == 0 then Success((c, 0))
    else if |b.items| == 0 then Failure(NullDeref)
    else match FirstMatch(b.items, hash(k), k)
      case None => Success((c, 0))
      case Some(j) =>
        var b' :- DList.NodeRemoveAsWritten(b, j);
        Success((Counted(c.lists[i := b'], DList.Dec(c.size)), 1))
  }

  /** `count` as written: the same counter test and walk as `erase`. */
  function CountCounted<K(==, !new), V>(c: Counted<K, V>, hash: K -> nat, k: K): (r: Result<nat, Fault>)
    requires |c.lists| > 0
    ensures CountersRight(c) ==> r == Success(Count(Items(c), hash, k))
    ensures r.Failure? ==> r.error == NullDeref
  {
    var b := c.lists[hash(k) % |c.lists|];
    if b.size == 0 then Success(0)
    else if |b.items| == 0 then Failure(NullDeref)
    else if FindVal(b.items, hash(k), k).Some? then Success(1) else Success(0)
  }

  /**
   `allocate_into_bucket` as written: erase the key, then `push_back` the
   match. `check_resize` passes the stored hash, which is the key's hash
   for every stored match.
   */
  function AllocateCounted<K(==, !new), V>(c: Counted<K, V>, hash: K -> nat, k: K, v: V): (r: Result<Counted<K, V>, Fault>)
    requires |c.lists| > 0
    ensures r.Success? ==> |r.value.lists| == |c.lists|
  {
    var i := hash(k) % |c.lists|;
    var erased :- EraseCounted(c, hash, k);
    var c1 := erased.0;
    Success(Counted(c1.lists[i := DList.PushBack(c1.lists[i], Entry(hash(k), k, v))], c1.size))
  }

  /** One pass of the inner loop of `check_resize`: read `list_get_first`, `list_pop_front` it and allocate it again. */
  function MoveOne<K(==, !new), V>(c: Counted<K, V>, hash: K -> nat, i: nat): (r: Result<Counted<K, V>, Fault>)
    requires i < |c.lists|
    ensures r.Success? ==> |r.value.lists| == |c.lists|
  {
    var e :- DList.GetFirst(c.lists[i]);
    var b :- DList.PopFront(c.lists[i]);
    AllocateCounted(Counted(c.lists[i := b], c.size), hash, e.key, e.val)
  }

  /** One old bucket of `check_resize`: as many passes as its counter says. */
  function MoveCounted<K(==, !new), V>(c: Counted<K, V>, hash: K -> nat, i: nat, count: nat): (r: Result<Counted<K, V>, Fault>)
    requires i < |c.lists|
    ensures r.Success? ==> |r.value.lists| == |c.lists|
    decreases count
  {
    if count == 0 then Success(c)
    else
      var c1 :- MoveOne(c, hash, i);
      MoveCounted(c1, hash, i, count - 1)
  }

  /** The outer loop of `check_resize` over the old buckets `i .. n - 1`. */
  function ResizeFrom<K(==, !new), V>(c: Counted<K, V>, hash: K -> nat, i: nat, n: nat): (r: Result<Counted<K, V>, Fault>)
    requires n <= |c.lists|
    ensures r.Success? ==> |r.value.lists| == |c.lists|
    decreases n - i
  {
    if i >= n then Success(c)
    else
      var c1 :- MoveCounted(c, hash, i, c.lists[i].size);
      ResizeFrom(c1, hash, i + 1, n)
  }

  /** `check_resize` as written: new NULL buckets, then every old bucket moved by its counter. */
  function CheckResizeCounted<K(==, !new), V>(c: Counted<K, V>, hash: K -> nat): (r: Result<Counted<K, V>, Fault>)
    requires |c.lists| > 0
    ensures r.Success? ==>
      |r.value.lists| == if 5 * c.size < 4 * |c.lists| then |c.lists| else 2 * |c.lists|
  {
    var n := |c.lists|;
    if 5 * c.size < 4 * n then Success(c)
    else ResizeFrom(Counted(c.lists + seq(n, _ => DList.New()), c.size), hash, 0, n)
  }

  /** `insert` as written. */
  function InsertCounted<K(==, !new), V>(c: Counted<K, V>, hash: K -> nat, k: K, v: V): (r: Result<Counted<K, V>, Fault>)
    requires |c.lists| > 0
    ensures r.Success? ==> |r.value.lists| > 0
  {
    var c1 :- AllocateCounted(c, hash, k, v);
    CheckResizeCounted(Counted(c1.lists, c1.size + 1), hash)
  }

  /**
   While every counter is right, `erase` as written removes what the
   corrected `Erase` removes, and the counters stay right exactly when the
   match removed was the first or the last node of its bucket.
   */
  lemma EraseCountedAgrees<K(!new), V>(c: Counted<K, V>, hash: K -> nat, k: K)
    requires |c.lists| > 0 && CountersRight(c)
    ensures EraseCounted(c, hash, k).Success?
    ensures Items(EraseCounted(c, hash, k).value.0) == Erase(Items(c), hash, k).0
    ensures EraseCounted(c, hash, k).value.1 == Erase(Items(c), hash, k).1
    ensures CountersRight(EraseCounted(c, hash, k).value.0) <==> AtEnd(c.lists[hash(k) % |c.lists|].items, hash(k), k)
  {
    var i := hash(k) % |c.lists|;
    var b := c.lists[i];
    assert DList.Valid(b);
    match FirstMatch(b.items, hash(k), k)
    case None =>
    case Some(j) =>
      FirstMatchRemoves(b.items, hash(k), k);
      var b' := DList.NodeRemoveAsWritten(b, j).value;
      var c' := Counted(c.lists[i := b'], DList.Dec(c.size));
      assert Items(c').buckets == Items(c).buckets[i := RemoveKey(b.items, hash(k), k)];
      if !AtEnd(b.items, hash(k), k) {
        assert !DList.Valid(c'.lists[i]);
      }
  }

  /**
   As written, a second `erase` of the same key returns 0 and changes
   nothing, also when the first one left a stale counter: an interior
   removal leaves at least two nodes to walk.
   */
  lemma EraseTwiceCounted<K(!new), V>(c: Counted<K, V>, hash: K -> nat, k: K)
    requires Valid(Items(c), hash) && CountersRight(c)
    ensures EraseCounted(c, hash, k).Success?
    ensures var c1 := EraseCounted(c, hash, k).value.0;
      EraseCounted(c1, hash, k) == Success((c1, 0))
  {
    EraseCountedAgrees(c, hash, k);
    var i := hash(k) % |c.lists|;
    var r := EraseCounted(c, hash, k).value;
    if r.1 == 1 {
      var b := c.lists[i];
      assert BucketOk(Items(c).buckets[i], hash, |c.lists|, i);
      RemoveKeyFinds(b.items, hash, |c.lists|, i, k);
      FirstMatchRemoves(b.items, hash(k), k);
      assert r.0.lists[i].items == RemoveKey(b.items, hash(k), k);
      assert r.0.lists[i].size == 0 ==> |r.0.lists[i].items| == 0;
    }
  }

  /** Keys of a bucket without duplicate keys are pairwise distinct. */
  lemma UniqueDistinct<K, V>(b: seq<Entry<K, V>>, x: nat, y: nat)
    requires Unique(b) && x < y < |b|
    ensures b[x].key != b[y].key
  {
    if x == 0 {
      assert b[y] in b[1..];
    } else {
      UniqueDistinct(b[1..], x - 1, y - 1);
    }
  }

  /** In `p + r` without duplicate keys, no other match shares the key of `r[0]`. */
  lemma UniqueSplit<K, V>(p: seq<Entry<K, V>>, r: seq<Entry<K, V>>)
    requires Unique(p + r) && |r| > 0
    ensures forall x | x in p :: x.key != r[0].key
    ensures forall x | x in r[1..] :: x.key != r[0].key
  {
    assert (p + r)[|p|] == r[0];
    forall x | x in p
      ensures x.key != r[0].key
    {
      var a :| 0 <= a < |p| && p[a] == x;
      assert (p + r)[a] == x;
      UniqueDistinct(p + r, a, |p|);
    }
    forall x | x in r[1..]
      ensures x.key != r[0].key
    {
      var a :| 0 <= a < |r| - 1 && r[1..][a] == x;
      assert (p + r)[|p| + 1 + a] == x;
      UniqueDistinct(p + r, |p|, |p| + 1 + a);
    }
  }

  lemma FilterAppend<K, V>(b: seq<Entry<K, V>>, e: Entry<K, V>, n2: nat, j: nat)
    requires n2 > 0
    ensures Filter(b + [e], n2, j) == Filter(b, n2, j) + (if e.hash % n2 == j then [e] else [])
  {
    if |b| > 0 {
      assert (b + [e])[1..] == b[1..] + [e];
      FilterAppend(b[1..], e, n2, j);
    } else {
      assert b + [e] == [e];
    }
  }

  /** Allocating a key its bucket does not hold skips the erase and appends the match. */
  lemma AllocateFresh<K(!new), V>(c: Counted<K, V>, hash: K -> nat, k: K, v: V)
    requires |c.lists| > 0 && DList.Valid(c.lists[hash(k) % |c.lists|])
    requires forall x | x in c.lists[hash(k) % |c.lists|].items :: x.key != k
    ensures var i := hash(k) % |c.lists|;
      AllocateCounted(c, hash, k, v) == Success(Counted(c.lists[i := DList.PushBack(c.lists[i], Entry(hash(k), k, v))], c.size))
  {
    FindValAbsent(c.lists[hash(k) % |c.lists|].items, hash(k), k);
  }

  /** One pass of the inner loop of `check_resize`, under the hypotheses of `MoveCountedAgrees`. */
  lemma MoveStep<K(!new), V>(c: Counted<K, V>, hash: K -> nat, n: nat, i: nat,
                            p: seq<Entry<K, V>>, r: seq<Entry<K, V>>) returns (c1: Counted<K, V>)
    requires 0 < n && i < n && |c.lists| == 2 * n && |r| > 0
    requires Unique(p + r)
    requires forall e | e in p + r :: e.hash == hash(e.key) && e.hash % n == i
    requires DList.Valid(c.lists[i]) && c.lists[i].items == r + Filter(p, 2 * n, i)
    requires DList.Valid(c.lists[i + n]) && c.lists[i + n].items == Filter(p, 2 * n, i + n)
    ensures MoveOne(c, hash, i) == Success(c1)
    ensures |c1.lists| == |c.lists| && c1.size == c.size
    ensures DList.Valid(c1.lists[i]) && c1.lists[i].items == r[1..] + Filter(p + [r[0]], 2 * n, i)
    ensures DList.Valid(c1.lists[i + n]) && c1.lists[i + n].items == Filter(p + [r[0]], 2 * n, i + n)
    ensures forall j :: 0 <= j < |c.lists| && j != i && j != i + n ==> c1.lists[j] == c.lists[j]
  {
    var e := r[0];
    assert e in p + r;
    var b := c.lists[i];
    assert DList.GetFirst(b) == Success(e);
    var b' := DList.PopFront(b).value;
    assert DList.PopFront(b) == Success(b');
    assert b'.items == r[1..] + Filter(p, 2 * n, i);
    var c0 := Counted(c.lists[i := b'], c.size);
    var t := Retarget(c0, hash, n, i, p, r);
    AllocateFresh(c0, hash, e.key, e.val);
    c1 := Counted(c0.lists[t := DList.PushBack(c0.lists[t], Entry(hash(e.key), e.key, e.val))], c0.size);
    assert MoveOne(c, hash, i) == AllocateCounted(c0, hash, e.key, e.val);
    assert Entry(hash(e.key), e.key, e.val) == e;
    FilterAppend(p, e, 2 * n, i);
    FilterAppend(p, e, 2 * n, i + n);
    if t == i {
      assert c1.lists[i].items == (r[1..] + Filter(p, 2 * n, i)) + [e];
      assert Filter(p + [e], 2 * n, i) == Filter(p, 2 * n, i) + [e];
    } else {
      assert c1.lists[i] == b';
      assert c1.lists[i + n].items == Filter(p, 2 * n, i + n) + [e];
    }
  }

  /** The slot a moved match goes to is `i` or `i + n`, and no match already there has its key. */
  lemma Retarget<K(!new), V>(c0: Counted<K, V>, hash: K -> nat, n: nat, i: nat,
                            p: seq<Entry<K, V>>, r: seq<Entry<K, V>>) returns (t: nat)
    requires 0 < n && i < n && |c0.lists| == 2 * n && |r| > 0
    requires Unique(p + r)
    requires forall e | e in p + r :: e.hash == hash(e.key) && e.hash % n == i
    requires DList.Valid(c0.lists[i]) && c0.lists[i].items == r[1..] + Filter(p, 2 * n, i)
    requires DList.Valid(c0.lists[i + n]) && c0.lists[i + n].items == Filter(p, 2 * n, i + n)
    ensures t == hash(r[0].key) % |c0.lists| && t == r[0].hash % (2 * n)
    ensures t == i || t == i + n
    ensures DList.Valid(c0.lists[t])
    ensures forall x | x in c0.lists[t].items :: x.key != r[0].key
  {
    var e := r[0];
    assert e in p + r;
    ModDouble(e.hash, n);
    t := hash(e.key) % (2 * n);
    UniqueSplit(p, r);
    FilterFacts(p, 2 * n, i);
    FilterFacts(p, 2 * n, i + n);
  }

  /**
   With right counters, moving old bucket `i` after its matches `p` have
   been moved leaves the rest `r` to move, and ends with the bucket split
   into slots `i` and `i + n` of the doubled table, in order.
   */
  lemma {:induction false} MoveCountedAgrees<K(!new), V>(c: Counted<K, V>, hash: K -> nat, n: nat, i: nat,
                                                        p: seq<Entry<K, V>>, r: seq<Entry<K, V>>)
    requires 0 < n && i < n && |c.lists| == 2 * n
    requires Unique(p + r)
    requires forall e | e in p + r :: e.hash == hash(e.key) && e.hash % n == i
    requires DList.Valid(c.lists[i]) && c.lists[i].items == r + Filter(p, 2 * n, i)
    requires DList.Valid(c.lists[i + n]) && c.lists[i + n].items == Filter(p, 2 * n, i + n)
    ensures MoveCounted(c, hash, i, |r|).Success?
    ensures var c' := MoveCounted(c, hash, i, |r|).value;
      && |c'.lists| == |c.lists| && c'.size == c.size
      && DList.Valid(c'.lists[i]) && c'.lists[i].items == Filter(p + r, 2 * n, i)
      && DList.Valid(c'.lists[i + n]) && c'.lists[i + n].items == Filter(p + r, 2 * n, i + n)
      && forall j :: 0 <= j < |c.lists| && j != i && j != i + n ==> c'.lists[j] == c.lists[j]
    decreases |r|
  {
    if |r| == 0 {
      assert p + r == p;
    } else {
      var c1 := MoveStep(c, hash, n, i, p, r);
      assert (p + [r[0]]) + r[1..] == p + r;
      MoveCountedAgrees(c1, hash, n, i, p + [r[0]], r[1..]);
    }
  }

  /** Old bucket `j` of `bs` has been split into slots `j` and `j + |bs|` of `c`. */
  ghost predicate Moved<K, V>(c: Counted<K, V>, bs: seq<seq<Entry<K, V>>>, j: nat)
    requires j < |bs| && |c.lists| == 2 * |bs|
  {
    && DList.Valid(c.lists[j]) && c.lists[j].items == Filter(bs[j], 2 * |bs|, j)
    && DList.Valid(c.lists[j + |bs|]) && c.lists[j + |bs|].items == Filter(bs[j], 2 * |bs|, j + |bs|)
  }

  /** Old bucket `j` of `bs` is still in slot `j` of `c`, with a right counter, and slot `j + |bs|` is NULL. */
  ghost predicate Unmoved<K, V>(c: Counted<K, V>, bs: seq<seq<Entry<K, V>>>, j: nat)
    requires j < |bs| && |c.lists| == 2 * |bs|
  {
    c.lists[j] == DList.List(|bs[j]|, bs[j]) && c.lists[j + |bs|] == DList.New()
  }

  /** With right counters, the outer loop of `check_resize` from bucket `i` on ends in `Rehash`. */
  lemma {:induction false} ResizeFromAgrees<K(!new), V>(c: Counted<K, V>, hash: K -> nat, bs: seq<seq<Entry<K, V>>>, i: nat)
    requires 0 < |bs| && i <= |bs| && |c.lists| == 2 * |bs|
    requires forall j :: 0 <= j < |bs| ==> BucketOk(bs[j], hash, |bs|, j)
    requires forall j :: 0 <= j < i ==> Moved(c, bs, j)
    requires forall j :: i <= j < |bs| ==> Unmoved(c, bs, j)
    ensures ResizeFrom(c, hash, i, |bs|).Success?
    ensures var c' := ResizeFrom(c, hash, i, |bs|).value;
      c'.size == c.size && CountersRight(c') && Items(c').buckets == Rehash(bs)
    decreases |bs| - i
  {
    if i == |bs| {
      ResizeDone(c, bs);
    } else {
      var c1 := ResizeStep(c, hash, bs, i);
      ResizeFromAgrees(c1, hash, bs, i + 1);
    }
  }

  /** Once every old bucket has moved, the counters are right and the buckets are `Rehash`'s. */
  lemma ResizeDone<K, V>(c: Counted<K, V>, bs: seq<seq<Entry<K, V>>>)
    requires 0 < |bs| && |c.lists| == 2 * |bs|
    requires forall j :: 0 <= j < |bs| ==> Moved(c, bs, j)
    ensures CountersRight(c) && Items(c).buckets == Rehash(bs)
  {
    var n := |bs|;
    forall j | 0 <= j < 2 * n
      ensures DList.Valid(c.lists[j]) && Items(c).buckets[j] == Rehash(bs)[j]
    {
      if j < n {
        assert Moved(c, bs, j);
      } else {
        assert Moved(c, bs, j - n);
      }
    }
  }

  /** Moving old bucket `i` keeps the buckets before it moved and those after it in place. */
  lemma ResizeStep<K(!new), V>(c: Counted<K, V>, hash: K -> nat, bs: seq<seq<Entry<K, V>>>, i: nat) returns (c1: Counted<K, V>)
    requires 0 < |bs| && i < |bs| && |c.lists| == 2 * |bs|
    requires BucketOk(bs[i], hash, |bs|, i)
    requires forall j :: 0 <= j < i ==> Moved(c, bs, j)
    requires forall j :: i <= j < |bs| ==> Unmoved(c, bs, j)
    ensures |c1.lists| == |c.lists| && c1.size == c.size
    ensures ResizeFrom(c, hash, i, |bs|) == ResizeFrom(c1, hash, i + 1, |bs|)
    ensures forall j :: 0 <= j < i + 1 ==> Moved(c1, bs, j)
    ensures forall j :: i + 1 <= j < |bs| ==> Unmoved(c1, bs, j)
  {
    var n := |bs|;
    assert Unmoved(c, bs, i);
    assert [] + bs[i] == bs[i];
    assert c.lists[i].items == bs[i] + Filter([], 2 * n, i);
    MoveCountedAgrees(c, hash, n, i, [], bs[i]);
    c1 := MoveCounted(c, hash, i, |bs[i]|).value;
    forall j | 0 <= j < i + 1
      ensures Moved(c1, bs, j)
    {
      if j < i {
        assert Moved(c, bs, j);
      }
    }
    forall j | i + 1 <= j < n
      ensures Unmoved(c1, bs, j)
    {
      assert Unmoved(c, bs, j);
    }
  }

  /** While every counter is right, `check_resize` as written is the corrected `CheckResize`. */
  lemma CheckResizeCountedAgrees<K(!new), V>(c: Counted<K, V>, hash: K -> nat)
    requires Valid(Items(c), hash) && CountersRight(c)
    ensures CheckResizeCounted(c, hash).Success?
    ensures CountersRight(CheckResizeCounted(c, hash).value)
    ensures Items(CheckResizeCounted(c, hash).value) == CheckResize(Items(c), hash)
  {
    var n := |c.lists|;
    if 5 * c.size >= 4 * n {
      var bs := Items(c).buckets;
      var c0 := Counted(c.lists + seq(n, _ => DList.New()), c.size);
      forall j | 0 <= j < n
        ensures Unmoved(c0, bs, j)
      {
        assert DList.Valid(c.lists[j]);
      }
      ResizeFromAgrees(c0, hash, bs, 0);
    }
  }

  /** Inserting a new key as written agrees with the corrected `Insert` while the counters are right. */
  lemma InsertCountedAgrees<K(!new), V>(c: Counted<K, V>, hash: K -> nat, k: K, v: V)
    requires Valid(Items(c), hash) && CountersRight(c) && Lookup(Items(c), hash, k) == None
    ensures InsertCounted(c, hash, k, v).Success?
    ensures CountersRight(InsertCounted(c, hash, k, v).value)
    ensures Items(InsertCounted(c, hash, k, v).value) == Insert(Items(c), hash, k, v)
  {
    var c1 := AllocateAgrees(c, hash, k, v);
    var c2 := Counted(c1.lists, c1.size + 1);
    InsertCountedUnfold(c, hash, k, v, c1);
    var m1 := Allocate(Items(c), hash, k, v);
    assert Items(c2) == Table(m1.buckets, m1.size + 1);
    CheckResizeCountedAgrees(c2, hash);
  }

  lemma InsertCountedUnfold<K(!new), V>(c: Counted<K, V>, hash: K -> nat, k: K, v: V, c1: Counted<K, V>)
    requires |c.lists| > 0 && AllocateCounted(c, hash, k, v) == Success(c1)
    ensures InsertCounted(c, hash, k, v) == CheckResizeCounted(Counted(c1.lists, c1.size + 1), hash)
    ensures var m1 := Allocate(Items(c), hash, k, v);
      Insert(Items(c), hash, k, v) == CheckResize(Table(m1.buckets, m1.size + 1), hash)
  {
  }

  /** Allocating a new key as written appends it, as the corrected `Allocate` does, and keeps the counters right. */
  lemma AllocateAgrees<K(!new), V>(c: Counted<K, V>, hash: K -> nat, k: K, v: V) returns (c1: Counted<K, V>)
    requires Valid(Items(c), hash) && CountersRight(c) && Lookup(Items(c), hash, k) == None
    ensures AllocateCounted(c, hash, k, v) == Success(c1)
    ensures CountersRight(c1) && Items(c1) == Allocate(Items(c), hash, k, v)
  {
    var i := hash(k) % |c.lists|;
    assert DList.Valid(c.lists[i]);
    assert forall x | x in c.lists[i].items :: x.key != k by {
      forall x | x in c.lists[i].items
        ensures x.key != k
      {
        assert x in Items(c).buckets[i];
        if x.key == k {
          assert BucketOk(Items(c).buckets[i], hash, |c.lists|, i);
          FindValUnique(Items(c).buckets[i], x);
        }
      }
    }
    AllocateFresh(c, hash, k, v);
    c1 := Counted(c.lists[i := DList.PushBack(c.lists[i], Entry(hash(k), k, v))], c.size);
    assert Items(c1) == Allocate(Items(c), hash, k, v);
  }

  /**
   A bucket holding three matches `[a, x, z]` with right counters. Erasing
   `x` unlinks an interior node and leaves the counter at 3; erasing `a`
   pops it to 2 over the one node `z`; erasing `z` pops that node with the
   counter still positive, and `pop_front` writes through the NULL next
   node. The corrected `Erase` removes all three.
   */
  lemma StaleCounterCrashesErase<K(!new), V>(c: Counted<K, V>, hash: K -> nat, a: Entry<K, V>, x: Entry<K, V>, z: Entry<K, V>)
    requires |c.lists| > 0 && c.size >= 3
    requires a.hash == hash(a.key) && x.hash == hash(x.key) && z.hash == hash(z.key)
    requires x.hash % |c.lists| == a.hash % |c.lists| && z.hash % |c.lists| == a.hash % |c.lists|
    requires a.key != x.key && x.key != z.key && a.key != z.key
    requires c.lists[a.hash % |c.lists|] == DList.List(3, [a, x, z])
    ensures var i := a.hash % |c.lists|;
      EraseCounted(c, hash, x.key) == Success((Counted(c.lists[i := DList.List(3, [a, z])], c.size - 1), 1))
    ensures var i := a.hash % |c.lists|;
      EraseCounted(Counted(c.lists[i := DList.List(3, [a, z])], c.size - 1), hash, a.key)
        == Success((Counted(c.lists[i := DList.List(2, [z])], c.size - 2), 1))
    ensures var i := a.hash % |c.lists|;
      EraseCounted(Counted(c.lists[i := DList.List(2, [z])], c.size - 2), hash, z.key) == Failure(NullDeref)
  {
    var i := a.hash % |c.lists|;
    var b := [a, x, z];
    assert FirstMatch(b, x.hash, x.key) == Some(1);
    assert b[..1] + b[2..] == [a, z];
    assert DList.NodeRemoveAsWritten(DList.List(3, b), 1) == Success(DList.List(3, [a, z]));
    assert FirstMatch([a, z], a.hash, a.key) == Some(0);
    assert [a, z][1..] == [z];
    assert DList.NodeRemoveAsWritten(DList.List(3, [a, z]), 0) == Success(DList.List(2, [z]));
    var c1 := Counted(c.lists[i := DList.List(3, [a, z])], c.size - 1);
    assert c1.lists[i := DList.List(2, [z])] == c.lists[i := DList.List(2, [z])];
    assert FirstMatch([z], z.hash, z.key) == Some(0);
    assert DList.NodeRemoveAsWritten(DList.List(2, [z]), 0) == Failure(NullDeref);
  }

  /** The corrected `Erase` removes the same three matches one after the other and empties the bucket. */
  lemma ErasesThreeCorrected<K(!new), V>(m: Table<K, V>, hash: K -> nat, a: Entry<K, V>, x: Entry<K, V>, z: Entry<K, V>)
    requires |m.buckets| > 0
    requires a.hash == hash(a.key) && x.hash == hash(x.key) && z.hash == hash(z.key)
    requires x.hash % |m.buckets| == a.hash % |m.buckets| && z.hash % |m.buckets| == a.hash % |m.buckets|
    requires a.key != x.key && x.key != z.key && a.key != z.key
    requires m.buckets[a.hash % |m.buckets|] == [a, x, z]
    ensures Erase(m, hash, x.key).1 == 1
    ensures Erase(Erase(m, hash, x.key).0, hash, a.key).1 == 1
    ensures Erase(Erase(Erase(m, hash, x.key).0, hash, a.key).0, hash, z.key).1 == 1
    ensures Erase(Erase(Erase(m, hash, x.key).0, hash, a.key).0, hash, z.key).0.buckets[a.hash % |m.buckets|] == []
  {
    var i := a.hash % |m.buckets|;
    var m1 := Erase(m, hash, x.key).0;
    assert [a, x, z][1..] == [x, z] && [x, z][1..] == [z];
    assert FindVal([a, x, z], x.hash, x.key) == Some(x.val);
    assert RemoveKey([a, x, z], x.hash, x.key) == [a, z];
    assert m1.buckets[i] == [a, z];
    assert [a, z][1..] == [z];
    assert RemoveKey([a, z], a.hash, a.key) == [z];
    var m2 := Erase(m1, hash, a.key).0;
    assert m2.buckets[i] == [z];
  }

  /**
   A bucket whose counter says 3 over the two nodes `[a, z]`, the state
   `StaleCounterCrashesErase` leaves after its first erase. Once the load
   reaches the ratio, `check_resize` takes bucket 0 first: `a` moves to
   the new half, and popping `z` with the counter still positive writes
   through the NULL next node.
   */
  lemma StaleCounterCrashesResize<K(!new), V>(c: Counted<K, V>, hash: K -> nat, a: Entry<K, V>, z: Entry<K, V>)
    requires |c.lists| > 0 && 5 * c.size >= 4 * |c.lists|
    requires c.lists[0] == DList.List(3, [a, z])
    requires hash(a.key) % (2 * |c.lists|) == |c.lists|
    ensures CheckResizeCounted(c, hash) == Failure(NullDeref)
  {
    var n := |c.lists|;
    var c0 := Counted(c.lists + seq(n, _ => DList.New()), c.size);
    assert c0.lists[0] == DList.List(3, [a, z]) && c0.lists[n] == DList.New();
    assert DList.PopFront(DList.List(3, [a, z])) == Success(DList.List(2, [z]));
    var c0' := Counted(c0.lists[0 := DList.List(2, [z])], c.size);
    assert EraseCounted(c0', hash, a.key) == Success((c0', 0));
    var c1 := Counted(c0'.lists[n := DList.PushBack(DList.New(), Entry(hash(a.key), a.key, a.val))], c.size);
    assert MoveOne(c0, hash, 0) == Success(c1);
    assert c1.lists[0] == DList.List(2, [z]);
    assert MoveOne(c1, hash, 0) == Failure(NullDeref);
    assert MoveCounted(c0, hash, 0, 3) == Failure(NullDeref);
  }

  /**
   The default hash of a `size_t` key: its bytes shifted back into place,
   which is the key itself.
   */
  function Id(k: nat): nat
  {
    k
  }

  /**
   With the identity hash and four buckets, 4, 0 and 12 share bucket 0.
   Erasing 0 leaves `[4, 12]` under the counter 3 (`c1`). Two more inserts
   into other buckets bring the size to 4 (`c2`), the load ratio is
   reached, and 4 moves to bucket 4 of 8.
   */
  lemma StaleCounterExample(c: Counted<nat, nat>, c2: Counted<nat, nat>)
    requires |c.lists| == 4 && c.size == 3
    requires c.lists[0] == DList.List(3, [Entry(4, 4, 0), Entry(0, 0, 0), Entry(12, 12, 0)])
    requires |c2.lists| == 4 && c2.size == 4
    requires c2.lists[0] == DList.List(3, [Entry(4, 4, 0), Entry(12, 12, 0)])
    ensures EraseCounted(c, Id, 0) == Success((Counted(c.lists[0 := DList.List(3, [Entry(4, 4, 0), Entry(12, 12, 0)])], 2), 1))
    ensures CheckResizeCounted(c2, Id) == Failure(NullDeref)
  {
    var hash: nat -> nat := Id;
    assert hash(0) == 0 && hash(4) == 4 && hash(12) == 12;
    assert 4 % 4 == 0 && 12 % 4 == 0 && 4 % 8 == 4;
    StaleCounterCrashesErase(c, hash, Entry(4, 4, 0), Entry(0, 0, 0), Entry(12, 12, 0));
    StaleCounterCrashesResize(c2, hash, Entry(4, 4, 0), Entry(12, 12, 0));
  }

  lemma TotalSizeZero<K, V>(bs: seq<seq<Entry<K, V>>>)
    requires forall j :: 0 <= j < |bs| ==> |bs[j]| == 0
    ensures TotalSize(bs) == 0
  {
    if |bs| > 0 {
      TotalSizeZero(bs[..|bs| - 1]);
    }
  }
}

=== FILE: hashset.dfy ===
/**
 The chained hash set of src/util/set.h.

 Its buckets, allocation, erase, count and resize follow the same code
 path as the hash map, with `(hash, value)` matches; it is modelled as a
 hash map whose payload is the unit value, so those operations and their
 proofs are the map's.
 */
module HashSet {
  import opened Wrappers
  import HashMap

  type Set<T> = HashMap.Table<T, ()>

  ghost predicate Valid<T>(s: Set<T>, hash: T -> nat)
  {
    HashMap.Valid(s, hash)
  }

  /** The hashed membership test behind `count`. */
  predicate Member<T(==, !new)>(s: Set<T>, hash: T -> nat, v: T)
    requires |s.buckets| > 0
  {
    HashMap.Lookup(s, hash, v).Some?
  }

  /** `new`: one NULL bucket, no members. */
  function New<T>(): (s: Set<T>)
    ensures |s.buckets| == 1 && s.size == 0
  {
    HashMap.New()
  }

  function Count<T(==, !new)>(s: Set<T>, hash: T -> nat, v: T): (r: nat)
    requires |s.buckets| > 0
    ensures r == 1 <==> Member(s, hash, v)
    ensures r == 0 <==> !Member(s, hash, v)
  {
    HashMap.Count(s, hash, v)
  }

  /** `insert`: the value becomes a member; a duplicate leaves the size unchanged. */
  function Insert<T(==, !new)>(s: Set<T>, hash: T -> nat, v: T): (s': Set<T>)
    requires |s.buckets| > 0
    ensures |s'.buckets| > 0
    ensures Valid(s, hash) ==> Valid(s', hash) && Count(s', hash, v) == 1
    ensures Valid(s, hash) ==> forall w :: w != v ==> (Member(s', hash, w) <==> Member(s, hash, w))
    ensures Valid(s, hash) ==> s'.size == if Member(s, hash, v) then s.size else s.size + 1
  {
    HashMap.Insert(s, hash, v, ())
  }

  /** `erase`: returns 1 exactly when the value was a member, which it no longer is. */
  function Erase<T(==, !new)>(s: Set<T>, hash: T -> nat, v: T): (res: (Set<T>, nat))
    requires |s.buckets| > 0
    ensures |res.0.buckets| == |s.buckets|
    ensures Valid(s, hash) ==> Valid(res.0, hash)
    ensures Valid(s, hash) ==> (res.1 == 1 <==> Member(s, hash, v)) && (res.1 == 0 <==> !Member(s, hash, v))
    ensures Valid(s, hash) ==> !Member(res.0, hash, v) && res.0.size + res.1 == s.size
    ensures Valid(s, hash) ==> forall w :: w != v ==> (Member(res.0, hash, w) <==> Member(s, hash, w))
  {
    HashMap.Erase(s, hash, v)
  }

  function Size<T>(s: Set<T>): nat
  {
    s.size
  }

  /** Every value stored in `s2`'s buckets is a member of `s1`. */
  ghost predicate StoredIn<T(!new)>(s2: Set<T>, s1: Set<T>, hash1: T -> nat)
    requires |s1.buckets| > 0
  {
    forall i, e :: 0 <= i < |s2.buckets| && e in s2.buckets[i] ==> Member(s1, hash1, e.key)
  }

  /**
   `contains_all`: walks `set2`'s buckets in order and stops at the first
   value that `set1` does not count.
   */
  method ContainsAll<T(==, !new)>(s1: Set<T>, hash1: T -> nat, s2: Set<T>) returns (r: bool)
    requires |s1.buckets| > 0
    ensures r <==> StoredIn(s2, s1, hash1)
  {
    var ind := 0;
    while ind < |s2.buckets|
      invariant 0 <= ind <= |s2.buckets|
      invariant forall i, e :: 0 <= i < ind && e in s2.buckets[i] ==> Member(s1, hash1, e.key)
    {
      var bucket := s2.buckets[ind];
      var j := 0;
      while j < |bucket|
        invariant 0 <= j <= |bucket|
        invariant forall t :: 0 <= t < j ==> Member(s1, hash1, bucket[t].key)
      {
        if Count(s1, hash1, bucket[j].key) == 0 {
          assert bucket[j] in s2.buckets[ind];
          return false;
        }
        j := j + 1;
      }
      ind := ind + 1;
    }
    return true;
  }

  /** `equals`: each set contains all values of the other. */
  method Equals<T(==, !new)>(s1: Set<T>, hash1: T -> nat, s2: Set<T>, hash2: T -> nat) returns (r: bool)
    requires |s1.buckets| > 0 && |s2.buckets| > 0
    ensures r <==> StoredIn(s2, s1, hash1) && StoredIn(s1, s2, hash2)
  {
    r := ContainsAll(s1, hash1, s2);
    if r {
      r := ContainsAll(s2, hash2, s1);
    }
  }

  /** Under one hash function, `equals` holds exactly when the two sets have the same members. */
  lemma EqualsMeansSameMembers<T(!new)>(s1: Set<T>, s2: Set<T>, hash: T -> nat)
    requires Valid(s1, hash) && Valid(s2, hash)
    ensures StoredIn(s2, s1, hash) && StoredIn(s1, s2, hash)
        <==> forall v :: Member(s1, hash, v) <==> Member(s2, hash, v)
  {
    if StoredIn(s2, s1, hash) && StoredIn(s1, s2, hash) {
      forall v
        ensures Member(s1, hash, v) ==> Member(s2, hash, v)
        ensures Member(s2, hash, v) ==> Member(s1, hash, v)
      {
        MemberIsStored(s1, s2, hash, v);
        MemberIsStored(s2, s1, hash, v);
      }
    }
    if forall v :: Member(s1, hash, v) <==> Member(s2, hash, v) {
      StoredMembers(s2, s1, hash);
      StoredMembers(s1, s2, hash);
    }
  }

  lemma MemberIsStored<T(!new)>(s: Set<T>, t: Set<T>, hash: T -> nat, v: T)
    requires Valid(s, hash) && |t.buckets| > 0 && StoredIn(s, t, hash)
    ensures Member(s, hash, v) ==> Member(t, hash, v)
  {
    if Member(s, hash, v) {
      HashMap.LookupFindsKey(s, hash, v);
      var i, e :| 0 <= i < |s.buckets| && e in s.buckets[i] && e.key == v;
    }
  }

  lemma StoredMembers<T(!new)>(s: Set<T>, t: Set<T>, hash: T -> nat)
    requires Valid(s, hash) && |t.buckets| > 0
    requires forall v :: Member(s, hash, v) ==> Member(t, hash, v)
    ensures StoredIn(s, t, hash)
  {
    forall i, e | 0 <= i < |s.buckets| && e in s.buckets[i]
      ensures Member(t, hash, e.key)
    {
      HashMap.LookupFindsKey(s, hash, e.key);
    }
  }

  lemma NewIsEmpty<T(!new)>(hash: T -> nat)
    ensures Valid(New<T>(), hash)
    ensures forall v :: !Member(New<T>(), hash, v)
  {
    HashMap.NewIsEmpty<T, ()>(hash);
  }
}

=== FILE: lisp.dfy ===
/**
 The Lisp evaluator of evaluators/lisp/lisp.c: return values, the
 environment (a stack of frames searched innermost first), the key
 functions of its frames, and the built-ins of `lisp_call` that do not
 need function values (arithmetic, comparisons, `if`, `and`, `or`,
 `progn`).

 Parse trees are replaced by s-expressions: an atom is the text of an
 `ATOMIC_SYMBOL` token, a list is the `s_expressions` under `(` ... `)`,
 flattened. A frame is modelled by the key-to-value map it stands for
 (the hash map itself is modelled in the HashMap module); its keys are the
 byte contents of the segments, since `seg_eq` compares contents.
 */
module Lisp {
  import opened Wrappers
  import CText

  /** `return_value` without `FUNCTION`, which only `defun` and `lambda` create. */
  datatype Value = Number(n: int) | Identifier(name: string) | Str(text: string)

  type Frame = map<string, Value>

  /** `environment`: the frame vector, the innermost frame last. */
  datatype Env = Env(frames: seq<Frame>)

  // ---------------------------------------------------------------------
  // Segment keys

  /** `seg_eq`: the lengths agree, then every byte does. */
  method SegEq(a: string, b: string) returns (r: bool)
    ensures r <==> a == b
  {
    if |a| != |b| {
      return false;
    }
    var i := 0;
    while i < |a|
      invariant i <= |a|
      invariant a[..i] == b[..i]
    {
      if a[i] != b[i] {
        return false;
      }
      assert a[..i + 1] == a[..i] + [a[i]];
      assert b[..i + 1] == b[..i] + [b[i]];
      i := i + 1;
    }
    assert a == a[..|a|] && b == b[..|b|];
    return true;
  }

  /** `255UL & c`: the low byte of a character. */
  function ByteOf(c: char): bv8
  {
    ((c as int) % 256) as bv8
  }

  /**
   A `size_t` hash as its eight byte lanes, least significant first:
   `hash ^= b << (8 * offset)` with `offset < 8` and `b < 256` xors `b`
   into lane `offset` and leaves the others alone.
   */
  type Lanes = h: seq<bv8> | |h| == 8 witness [0, 0, 0, 0, 0, 0, 0, 0]

  const ZeroHash: Lanes := [0, 0, 0, 0, 0, 0, 0, 0]

  /** The xor of the bytes among the first `i` whose position is `j` modulo 8. */
  function LaneXor(s: string, i: nat, j: nat): bv8
    requires i <= |s| && j < 8
  {
    if i == 0 then 0
    else LaneXor(s, i - 1, j) ^ (if (i - 1) % 8 == j then ByteOf(s[i - 1]) else 0)
  }

  /**
   `seg_hash`: the loop with its `offset` counter running modulo
   `sizeof(size_t)`. Lane `j` of the hash is the xor of the characters at
   positions `j`, `j + 8`, `j + 16`, ...: the hash depends on the bytes
   alone, so equal segments hash equally.
   */
  method SegHash(s: string) returns (h: Lanes)
    ensures forall j :: 0 <= j < 8 ==> h[j] == LaneXor(s, |s|, j)
  {
    h := ZeroHash;
    var offset := 0;
    var i := 0;
    while i < |s|
      invariant i <= |s| && offset == i % 8
      invariant forall j :: 0 <= j < 8 ==> h[j] == LaneXor(s, i, j)
    {
      var h' := h[offset := h[offset] ^ ByteOf(s[i])];
      forall j | 0 <= j < 8
        ensures h'[j] == LaneXor(s, i + 1, j)
      {
        LaneStep(s, i, j);
      }
      ModStep(i);
      h, offset, i := h', (offset + 1) % 8, i + 1;
    }
  }

  /** One more byte changes only the lane of its position, by xoring it in. */
  lemma LaneStep(s: string, i: nat, j: nat)
    requires i < |s| && j < 8
    ensures LaneXor(s, i + 1, j) == if i % 8 == j then LaneXor(s, i, j) ^ ByteOf(s[i]) else LaneXor(s, i, j)
  {
    var x := LaneXor(s, i, j);
    if i % 8 != j {
      assert x ^ 0 == x;
    }
  }

  lemma ModStep(i: nat)
    ensures (i % 8 + 1) % 8 == (i + 1) % 8
  {
  }

  // ---------------------------------------------------------------------
  // The environment

  /** The bindings in sight: every frame over the ones below it. */
  function Visible(frames: seq<Frame>): map<string, Value>
  {
    if |frames| == 0 then map[]
    else Visible(frames[..|frames| - 1]) + frames[|frames| - 1]
  }

  /** No frame above `i` binds `id`. */
  predicate Innermost(frames: seq<Frame>, id: string, i: nat)
  {
    forall j :: i < j < |frames| ==> id !in frames[j]
  }

  /** The value `resolve_identifier` returns: the innermost binding, or the name itself as an `IDENTIFIER`. */
  function Resolve(env: Env, id: string): Value
  {
    var v := Visible(env.frames);
    if id in v then v[id] else Identifier(id)
  }

  /** A name is bound somewhere exactly when it is in sight, and the innermost frame binding it decides its value. */
  lemma {:induction false} VisibleInnermost(frames: seq<Frame>, id: string, i: nat)
    requires i < |frames| && id in frames[i]
    requires forall j :: i < j < |frames| ==> id !in frames[j]
    ensures id in Visible(frames) && Visible(frames)[id] == frames[i][id]
    decreases |frames|
  {
    if i < |frames| - 1 {
      VisibleInnermost(frames[..|frames| - 1], id, i);
    }
  }

  lemma {:induction false} VisibleUnbound(frames: seq<Frame>, id: string)
    requires forall j :: 0 <= j < |frames| ==> id !in frames[j]
    ensures id !in Visible(frames)
    decreases |frames|
  {
    if |frames| > 0 {
      VisibleUnbound(frames[..|frames| - 1], id);
    }
  }

  /**
   `_resolve_identifier`: the loop from the top frame down (`i` counts down
   from `size - 1` until it wraps past 0); the first frame that has the
   name supplies the value, and an unbound name comes back as an
   `IDENTIFIER` carrying it.
   */
  method ResolveIdentifier(env: Env, id: string) returns (r: Value)
    ensures forall i :: 0 <= i < |env.frames| && id in env.frames[i] && Innermost(env.frames, id, i) ==> r == env.frames[i][id]
    ensures (forall i :: 0 <= i < |env.frames| ==> id !in env.frames[i]) ==> r == Identifier(id)
    ensures r == Resolve(env, id)
  {
    var fs := env.frames;
    var i := |fs|;
    while i > 0
      invariant 0 <= i <= |fs|
      invariant forall j :: i <= j < |fs| ==> id !in fs[j]
    {
      if id in fs[i - 1] {
        VisibleInnermost(fs, id, i - 1);
        return fs[i - 1][id];
      }
      i := i - 1;
    }
    VisibleUnbound(fs, id);
    return Identifier(id);
  }

  /** `_push_frame`: a new empty frame on top. */
  function PushFrame(env: Env): (env': Env)
    ensures |env'.frames| == |env.frames| + 1 && env'.frames[|env.frames|] == map[]
    ensures env'.frames[..|env.frames|] == env.frames
  {
    Env(env.frames + [map[]])
  }

  /** `_pop_frame`: asserts a frame is there, then drops the top one. */
  function PopFrame(env: Env): (r: Result<Env, Fault>)
    ensures r.Failure? <==> |env.frames| == 0
    ensures r.Failure? ==> r.error == AssertFailed
    ensures r.Success? ==> r.value.frames + [env.frames[|env.frames| - 1]] == env.frames
  {
    if |env.frames| == 0 then Failure(AssertFailed)
    else Success(Env(env.frames[..|env.frames| - 1]))
  }

  /**
   `_extend_env`: binding an `IDENTIFIER` value asserts unless the build
   sets `NO_ID_BINDING_WARN` (`idBindingWarn` false); otherwise the name is
   bound in the top frame, over any binding it had there. With no frame,
   the read of the top frame is out of bounds.
   */
  function ExtendEnv(env: Env, id: string, v: Value, idBindingWarn: bool): (r: Result<Env, Fault>)
    ensures r.Failure? <==> (idBindingWarn && v.Identifier?) || |env.frames| == 0
    ensures r.Failure? && idBindingWarn && v.Identifier? ==> r.error == AssertFailed
    ensures r.Success? ==> var n := |env.frames|;
      && |r.value.frames| == n
      && r.value.frames[..n - 1] == env.frames[..n - 1]
      && r.value.frames[n - 1] == env.frames[n - 1][id := v]
  {
    if idBindingWarn && v.Identifier? then Failure(AssertFailed)
    else if |env.frames| == 0 then Failure(OutOfBounds)
    else
      var n := |env.frames|;
      Success(Env(env.frames[..n - 1] + [env.frames[n - 1][id := v]]))
  }

  lemma VisibleSplit(frames: seq<Frame>)
    requires |frames| > 0
    ensures Visible(frames) == Visible(frames[..|frames| - 1]) + frames[|frames| - 1]
  {
  }

  /** After binding, the name resolves to the new value and every other name resolves as before. */
  lemma ExtendThenResolve(env: Env, id: string, v: Value, idBindingWarn: bool, other: string)
    requires ExtendEnv(env, id, v, idBindingWarn).Success?
    ensures Resolve(ExtendEnv(env, id, v, idBindingWarn).value, id) == v
    ensures other != id ==> Resolve(ExtendEnv(env, id, v, idBindingWarn).value, other) == Resolve(env, other)
  {
    var fs := env.frames;
    var n := |fs|;
    var fs' := ExtendEnv(env, id, v, idBindingWarn).value.frames;
    assert fs'[..n - 1] == fs[..n - 1];
    VisibleSplit(fs);
    VisibleSplit(fs');
  }

  /** A pushed frame hides nothing, and popping it gives back the environment. */
  lemma PushPop(env: Env)
    ensures Visible(PushFrame(env).frames) == Visible(env.frames)
    ensures PopFrame(PushFrame(env)) == Success(env)
  {
    var fs := PushFrame(env).frames;
    assert fs[..|fs| - 1] == env.frames;
    VisibleSplit(fs);
  }

  /** Binds each pair in turn, stopping at the first failure. */
  function ExtendAll(env: Env, bindings: seq<(string, Value)>, idBindingWarn: bool): Result<Env, Fault>
    decreases |bindings|
  {
    if |bindings| == 0 then Success(env)
    else
      var env' :- ExtendEnv(env, bindings[0].0, bindings[0].1, idBindingWarn);
      ExtendAll(env', bindings[1..], idBindingWarn)
  }

  lemma {:induction false} ExtendAllKeepsBelow(env: Env, bindings: seq<(string, Value)>, idBindingWarn: bool)
    requires |env.frames| > 0
    requires ExtendAll(env, bindings, idBindingWarn).Success?
    ensures var fs := ExtendAll(env, bindings, idBindingWarn).value.frames;
      |fs| == |env.frames| && fs[..|fs| - 1] == env.frames[..|env.frames| - 1]
    decreases |bindings|
  {
    if |bindings| > 0 {
      var env' := ExtendEnv(env, bindings[0].0, bindings[0].1, idBindingWarn).value;
      ExtendAllKeepsBelow(env', bindings[1..], idBindingWarn);
    }
  }

  /**
   The frame discipline of `let` and function calls: push a frame, bind
   any names in it, pop it, and the environment is what it was.
   */
  lemma PushBindPop(env: Env, bindings: seq<(string, Value)>, idBindingWarn: bool)
    requires ExtendAll(PushFrame(env), bindings, idBindingWarn).Success?
    ensures PopFrame(ExtendAll(PushFrame(env), bindings, idBindingWarn).value) == Success(env)
  {
    var pushed := PushFrame(env);
    ExtendAllKeepsBelow(pushed, bindings, idBindingWarn);
    assert pushed.frames[..|pushed.frames| - 1] == env.frames;
  }

  // ---------------------------------------------------------------------
  // Value-level built-ins

  /** `return_value_is_truthy`: a `NUMBER` by its value (an `int` is non-zero exactly when its `size_t` image is), anything else true. */
  predicate Truthy(v: Value)
  {
    !v.Number? || v.n != 0
  }

  datatype Relation = Eq | Lt | Gt | Le | Ge

  /** The comparison built-ins: `NUMBER` 1 when both operands are numbers in the relation, `NUMBER` 0 otherwise. */
  function Compare(rel: Relation, a: Value, b: Value): (r: Value)
    ensures r == Number(0) || r == Number(1)
    ensures !a.Number? || !b.Number? ==> r == Number(0)
  {
    var holds := a.Number? && b.Number? &&
      match rel
      case Eq => a.n == b.n
      case Lt => a.n < b.n
      case Gt => a.n > b.n
      case Le => a.n <= b.n
      case Ge => a.n >= b.n;
    Number(if holds then 1 else 0)
  }

  /**
   How the comparisons relate: `=` is symmetric, `<`/`>` and `<=`/`>=`
   are mirror images, on two numbers `<=` is the negation of `>` and `>=`
   of `<`, and `<=` is `<` or `=`; with a non-number both a relation and
   its negation give 0.
   */
  lemma CompareLaws(a: Value, b: Value)
    ensures Compare(Eq, a, b) == Compare(Eq, b, a)
    ensures Compare(Lt, a, b) == Compare(Gt, b, a) && Compare(Le, a, b) == Compare(Ge, b, a)
    ensures a.Number? && b.Number? ==>
      && (Compare(Le, a, b) == Number(1) <==> Compare(Gt, a, b) == Number(0))
      && (Compare(Ge, a, b) == Number(1) <==> Compare(Lt, a, b) == Number(0))
      && (Compare(Le, a, b) == Number(1) <==> Compare(Lt, a, b) == Number(1) || Compare(Eq, a, b) == Number(1))
    ensures !a.Number? ==> Compare(Le, a, b) == Compare(Gt, a, b) == Number(0)
  {
  }

  datatype ArithOp = Add | Sub | Mul | Div

  /** One step of the arithmetic loop: the argument must be a `NUMBER`; the `int` operation must be defined. */
  function Step(op: ArithOp, acc: int, v: Value): (r: Result<int, Fault>)
    ensures !v.Number? ==> r == Failure(AssertFailed)
    ensures r.Success? ==> CText.InInt(r.value)
    ensures v.Number? && op == Add ==> r == CText.Checked(acc + v.n)
    ensures v.Number? && op == Sub ==> r == CText.Checked(acc - v.n)
    ensures v.Number? && op == Mul ==> r == CText.Checked(acc * v.n)
    ensures v.Number? && op == Div && v.n == 0 ==> r == Failure(Undefined)
  {
    if !v.Number? then Failure(AssertFailed)
    else match op
      case Add => CText.Checked(acc + v.n)
      case Sub => CText.Checked(acc - v.n)
      case Mul => CText.Checked(acc * v.n)
      case Div => if v.n == 0 then Failure(Undefined) else CText.Checked(CText.TruncDiv(acc, v.n))
  }

  /** `LOOP_OVER_REST_SEXPRS` on already evaluated arguments: a left fold, stopping at the first failure. */
  function Fold(op: ArithOp, acc: int, vs: seq<Value>): Result<int, Fault>
    decreases |vs|
  {
    if |vs| == 0 then Success(acc)
    else
      var acc' :- Step(op, acc, vs[0]);
      Fold(op, acc', vs[1..])
  }

  predicate AllNumbers(vs: seq<Value>)
  {
    forall k :: 0 <= k < |vs| ==> vs[k].Number?
  }

  function Sum(vs: seq<Value>): int
    requires AllNumbers(vs)
  {
    if |vs| == 0 then 0 else vs[0].n + Sum(vs[1..])
  }

  function Product(vs: seq<Value>): int
    requires AllNumbers(vs)
  {
    if |vs| == 0 then 1 else vs[0].n * Product(vs[1..])
  }

  /**
   What the fold computes when it succeeds: every argument was a number;
   `+` adds them all to the start, `-` takes them all from it, `*`
   multiplies it by all of them, and `/` never makes it larger in size.
   */
  lemma FoldMeaning(op: ArithOp, acc: int, vs: seq<Value>)
    requires Fold(op, acc, vs).Success?
    ensures AllNumbers(vs)
    ensures op == Add ==> Fold(op, acc, vs).value == acc + Sum(vs)
    ensures op == Sub ==> Fold(op, acc, vs).value == acc - Sum(vs)
    ensures op == Mul ==> Fold(op, acc, vs).value == acc * Product(vs)
    ensures op == Div ==> CText.Abs(Fold(op, acc, vs).value) <= CText.Abs(acc)
  {
    FoldNumbers(op, acc, vs);
    match op
    case Add => FoldSum(op, acc, vs);
    case Sub => FoldSum(op, acc, vs);
    case Mul => FoldProduct(acc, vs);
    case Div => FoldShrinks(acc, vs);
  }

  lemma {:induction false} FoldNumbers(op: ArithOp, acc: int, vs: seq<Value>)
    requires Fold(op, acc, vs).Success?
    ensures AllNumbers(vs)
    decreases |vs|
  {
    if |vs| > 0 {
      FoldNumbers(op, Step(op, acc, vs[0]).value, vs[1..]);
    }
  }

  lemma {:induction false} FoldSum(op: ArithOp, acc: int, vs: seq<Value>)
    requires (op == Add || op == Sub) && Fold(op, acc, vs).Success?
    ensures AllNumbers(vs)
    ensures Fold(op, acc, vs).value == if op == Add then acc + Sum(vs) else acc - Sum(vs)
    decreases |vs|
  {
    if |vs| > 0 {
      FoldSum(op, Step(op, acc, vs[0]).value, vs[1..]);
    }
  }

  lemma {:induction false} FoldProduct(acc: int, vs: seq<Value>)
    requires Fold(Mul, acc, vs).Success?
    ensures AllNumbers(vs)
    ensures Fold(Mul, acc, vs).value == acc * Product(vs)
    decreases |vs|
  {
    if |vs| > 0 {
      var acc' := Step(Mul, acc, vs[0]).value;
      FoldProduct(acc', vs[1..]);
      MulAssoc(acc, vs[0].n, Product(vs[1..]));
    }
  }

  lemma MulAssoc(a: int, b: int, c: int)
    ensures a * (b * c) == (a * b) * c
  {
  }

  lemma {:induction false} FoldShrinks(acc: int, vs: seq<Value>)
    requires Fold(Div, acc, vs).Success?
    ensures CText.Abs(Fold(Div, acc, vs).value) <= CText.Abs(acc)
    decreases |vs|
  {
    if |vs| > 0 {
      FoldShrinks(Step(Div, acc, vs[0]).value, vs[1..]);
      CText.TruncDivMeaning(acc, vs[0].n);
    }
  }

  /** A fold fails at a non-number unless an earlier step already failed; with numbers in range and no division it succeeds. */
  lemma {:induction false} FoldNonNumber(op: ArithOp, acc: int, vs: seq<Value>, k: nat)
    requires k < |vs| && !vs[k].Number?
    ensures Fold(op, acc, vs).Failure?
    decreases |vs|
  {
    if |vs| > 0 && Step(op, acc, vs[0]).Success? {
      FoldNonNumber(op, Step(op, acc, vs[0]).value, vs[1..], k - 1);
    }
  }

  /** `and` on evaluated arguments: 0 at the first `NUMBER` 0, else 1. */
  function AndValues(vs: seq<Value>): (r: Value)
    ensures r == Number(0) <==> Number(0) in vs
    ensures r == Number(0) || r == Number(1)
  {
    if |vs| == 0 then Number(1)
    else if vs[0] == Number(0) then Number(0)
    else AndValues(vs[1..])
  }

  /** `or` on evaluated arguments: 1 at the first value that is not `NUMBER` 0, else 0. */
  function OrValues(vs: seq<Value>): (r: Value)
    ensures r == Number(1) <==> exists k :: 0 <= k < |vs| && Truthy(vs[k])
    ensures r == Number(0) || r == Number(1)
  {
    if |vs| == 0 then Number(0)
    else if Truthy(vs[0]) then Number(1)
    else
      var r := OrValues(vs[1..]);
      assert (exists k :: 0 <= k < |vs| && Truthy(vs[k])) <==> (exists k :: 0 <= k < |vs[1..]| && Truthy(vs[1..][k])) by {
        if exists k :: 0 <= k < |vs| && Truthy(vs[k]) {
          var k :| 0 <= k < |vs| && Truthy(vs[k]);
          assert k > 0 && vs[1..][k - 1] == vs[k];
        }
      }
      r
  }

  /**
   `and` and `or` are De Morgan duals over truthiness: `and` is 1 exactly
   when every argument is truthy, `or` is 0 exactly when none is.
   */
  lemma AndOrDuals(vs: seq<Value>)
    ensures AndValues(vs) == Number(1) <==> forall k :: 0 <= k < |vs| ==> Truthy(vs[k])
    ensures OrValues(vs) == Number(0) <==> forall k :: 0 <= k < |vs| ==> !Truthy(vs[k])
  {
  }

  // ---------------------------------------------------------------------
  // Evaluation

  /** The text of an `ATOMIC_SYMBOL` token; the lexer never produces an empty one. */
  type Token = s: string | |s| > 0 witness "0"

  /** An s-expression: an atom, a list, or a dotted pair (which neither evaluator implements). */
  datatype Expr = Atom(token: Token) | List(items: seq<Expr>) | Dotted(car: Expr, cdr: Expr)

  /**
   Which evaluator: `Current` is evaluators/lisp/lisp.c; `Early` is the
   older test/lisp.c, whose atoms never go through the environment and
   which has no strings, `and`, `or` or `progn`.
   */
  datatype Dialect = Current | Early

  /**
   The built-ins that rest on the parse tree and on function values
   (`let`, `defun`, `lambda`, `funcall`) or on output (`write`,
   `write-string`, `write-line`): given the environment, the name and the
   argument expressions, what they return.
   */
  type Extern = (Env, string, seq<Expr>) -> Result<Value, Fault>

  predicate IsExternal(name: string)
  {
    name in {"let", "defun", "lambda", "funcall", "write", "write-string", "write-line"}
  }

  function RelationOf(name: string): Option<Relation>
  {
    if name == "=" then Some(Eq)
    else if name == "<" then Some(Lt)
    else if name == ">" then Some(Gt)
    else if name == "<=" then Some(Le)
    else if name == ">=" then Some(Ge)
    else None
  }

  /**
   `atomic_symbol`: a token starting with a digit is `atoi` of it; in
   lisp.c a token quoted at both ends is a `STRING` of what is between
   (a lone `"` would make the length wrap), and any other token is looked
   up; test/lisp.c returns any other token as an `IDENTIFIER`.
   */
  function EvalAtom(d: Dialect, env: Env, tok: Token): (r: Result<Value, Fault>)
    ensures CText.IsDigit(tok[0]) ==> (r.Success? <==> CText.Atoi(tok).Success?) && (r.Success? ==> r.value == Number(CText.Atoi(tok).value))
    ensures !CText.IsDigit(tok[0]) && d == Early ==> r == Success(Identifier(tok))
    ensures !CText.IsDigit(tok[0]) && d == Current && tok[0] != '"' ==> r == Success(Resolve(env, tok))
  {
    if CText.IsDigit(tok[0]) then
      var n :- CText.Atoi(tok);
      Success(Number(n))
    else if d == Current && tok[0] == '"' && tok[|tok| - 1] == '"' then
      if |tok| < 2 then Failure(OutOfBounds) else Success(Str(tok[1..|tok| - 1]))
    else if d == Current then Success(Resolve(env, tok))
    else Success(Identifier(tok))
  }

  /** `apli_function(list)` and friends: evaluate the head, then call it on the rest. */
  function Eval(d: Dialect, env: Env, ext: Extern, e: Expr): (r: Result<Value, Fault>)
    ensures d == Early && r.Success? ==> r.value.Number? || r.value.Identifier?
    decreases e, 3
  {
    match e
    case Atom(tok) => EvalAtom(d, env, tok)
    case Dotted(_, _) => Failure(AssertFailed)
    case List(items) =>
      if |items| == 0 then Failure(AssertFailed)
      else
        var head :- Eval(d, env, ext, items[0]);
        Call(d, env, ext, head, e)
  }

  /**
   `lisp_call`: lisp.c first resolves an `IDENTIFIER` head once more; a
   number is not callable (lisp.c exits with 1, test/lisp.c asserts), nor
   is a string.
   */
  function Call(d: Dialect, env: Env, ext: Extern, head: Value, e: Expr): (r: Result<Value, Fault>)
    requires e.List? && |e.items| >= 1
    ensures head.Number? || head.Str? ==> r.Failure?
    ensures d == Early && r.Success? ==> r.value.Number? || r.value.Identifier?
    decreases e, 2
  {
    var callee := if d == Current && head.Identifier? then Resolve(env, head.name) else head;
    match callee
    case Number(_) => if d == Current then Failure(Exit(1)) else Failure(AssertFailed)
    case Str(_) => Failure(Exit(1))
    case Identifier(name) => Builtin(d, env, ext, name, e)
  }

  /**
   The built-in `name` on the arguments `e.items[1..]`. Reading an
   argument that is not there is out of bounds; an unknown name exits
   with 1; test/lisp.c's `let` branch returns no value at all.
   */
  function Builtin(d: Dialect, env: Env, ext: Extern, name: string, e: Expr): (r: Result<Value, Fault>)
    requires e.List? && |e.items| >= 1
    ensures (name == "+" || name == "*" || name == "-" || name == "/" || RelationOf(name).Some?) && r.Success? ==> r.value.Number?
    ensures d == Current && (name == "and" || name == "or") && r.Success? ==> r.value == Number(0) || r.value == Number(1)
    ensures d == Early && r.Success? ==> r.value.Number? || r.value.Identifier?
    decreases e, 1
  {
    var items := e.items;
    if name == "+" then ArithLoop(d, env, ext, e, 1, Add, 0)
    else if name == "*" then ArithLoop(d, env, ext, e, 1, Mul, 1)
    else if name == "-" || name == "/" then
      if |items| < 2 then Failure(OutOfBounds)
      else
        var first :- Eval(d, env, ext, items[1]);
        if !first.Number? then Failure(AssertFailed)
        else ArithLoop(d, env, ext, e, 2, if name == "-" then Sub else Div, first.n)
    else if RelationOf(name).Some? then
      if |items| < 2 then Failure(OutOfBounds)
      else
        var a :- Eval(d, env, ext, items[1]);
        if |items| < 3 then Failure(OutOfBounds)
        else
          var b :- Eval(d, env, ext, items[2]);
          Success(Compare(RelationOf(name).value, a, b))
    else if name == "if" then
      if |items| < 2 then Failure(OutOfBounds)
      else
        var c :- Eval(d, env, ext, items[1]);
        if Truthy(c) then
          if |items| < 3 then Failure(OutOfBounds) else Eval(d, env, ext, items[2])
        else if |items| < 4 then Failure(OutOfBounds)
        else Eval(d, env, ext, items[3])
    else if d == Early then
      if name == "let" then Failure(Undefined) else Failure(Exit(1))
    else if name == "and" then AndLoop(d, env, ext, e, 1)
    else if name == "or" then OrLoop(d, env, ext, e, 1)
    else if name == "progn" then
      if |items| == 1 then Success(Number(1)) else PrognLoop(d, env, ext, e, 1)
    else if name == "terpri" then Success(Number(1))
    else if IsExternal(name) then ext(env, name, items[1..])
    else Failure(Exit(1))
  }

  /** `LOOP_OVER_REST_SEXPRS` over `e.items[k..]`: evaluate, check, step, one argument at a time. */
  function ArithLoop(d: Dialect, env: Env, ext: Extern, e: Expr, k: nat, op: ArithOp, acc: int): (r: Result<Value, Fault>)
    requires e.List? && 1 <= k <= |e.items|
    ensures r.Success? ==> r.value.Number?
    decreases e, 0, |e.items| - k
  {
    if k == |e.items| then Success(Number(acc))
    else
      var v :- Eval(d, env, ext, e.items[k]);
      var acc' :- Step(op, acc, v);
      ArithLoop(d, env, ext, e, k + 1, op, acc')
  }

  /**
   The `and` loop: stops at the first `NUMBER` 0 without evaluating the
   rest. With no arguments it yields `Number(1)`, the corrected tag; the
   code as written is AndAsWritten.
   */
  function AndLoop(d: Dialect, env: Env, ext: Extern, e: Expr, k: nat): (r: Result<Value, Fault>)
    requires e.List? && 1 <= k <= |e.items|
    ensures r.Success? ==> r.value == Number(0) || r.value == Number(1)
    decreases e, 0, |e.items| - k
  {
    if k == |e.items| then Success(Number(1))
    else
      var v :- Eval(d, env, ext, e.items[k]);
      if v == Number(0) then Success(Number(0)) else AndLoop(d, env, ext, e, k + 1)
  }

  /**
   The `or` loop: stops at the first truthy value without evaluating the
   rest. With no arguments it yields `Number(0)`, the corrected tag; the
   code as written is OrAsWritten.
   */
  function OrLoop(d: Dialect, env: Env, ext: Extern, e: Expr, k: nat): (r: Result<Value, Fault>)
    requires e.List? && 1 <= k <= |e.items|
    ensures r.Success? ==> r.value == Number(0) || r.value == Number(1)
    decreases e, 0, |e.items| - k
  {
    if k == |e.items| then Success(Number(0))
    else
      var v :- Eval(d, env, ext, e.items[k]);
      if Truthy(v) then Success(Number(1)) else OrLoop(d, env, ext, e, k + 1)
  }

  /** `progn`: the `s_expressions` evaluate in order and give the last value. */
  function PrognLoop(d: Dialect, env: Env, ext: Extern, e: Expr, k: nat): (r: Result<Value, Fault>)
    requires e.List? && 1 <= k < |e.items|
    ensures r.Success? ==> r == Eval(d, env, ext, e.items[|e.items| - 1])
    decreases e, 0, |e.items| - k
  {
    var v :- Eval(d, env, ext, e.items[k]);
    if k + 1 == |e.items| then Success(v) else PrognLoop(d, env, ext, e, k + 1)
  }

  /** The arguments from `k` on, evaluated left to right, stopping at the first failure. */
  function EvalAll(d: Dialect, env: Env, ext: Extern, e: Expr, k: nat): (r: Result<seq<Value>, Fault>)
    requires e.List? && k <= |e.items|
    ensures r.Success? ==> |r.value| == |e.items| - k
    ensures r.Success? ==> forall j :: 0 <= j < |r.value| ==> Eval(d, env, ext, e.items[k + j]) == Success(r.value[j])
    decreases |e.items| - k
  {
    if k == |e.items| then Success([])
    else
      var v :- Eval(d, env, ext, e.items[k]);
      var vs :- EvalAll(d, env, ext, e, k + 1);
      Success([v] + vs)
  }

  function AsNumber(r: Result<int, Fault>): Result<Value, Fault>
  {
    match r
    case Success(n) => Success(Number(n))
    case Failure(f) => Failure(f)
  }

  /** When every argument evaluates, the arithmetic loop is the fold of its values. */
  lemma {:induction false} ArithLoopFolds(d: Dialect, env: Env, ext: Extern, e: Expr, k: nat, op: ArithOp, acc: int)
    requires e.List? && 1 <= k <= |e.items|
    requires EvalAll(d, env, ext, e, k).Success?
    ensures ArithLoop(d, env, ext, e, k, op, acc) == AsNumber(Fold(op, acc, EvalAll(d, env, ext, e, k).value))
    decreases |e.items| - k
  {
    if k < |e.items| {
      var v := Eval(d, env, ext, e.items[k]).value;
      var vs := EvalAll(d, env, ext, e, k).value;
      assert vs[0] == v && vs[1..] == EvalAll(d, env, ext, e, k + 1).value;
      if Step(op, acc, v).Success? {
        ArithLoopFolds(d, env, ext, e, k + 1, op, Step(op, acc, v).value);
      }
    }
  }

  /** When every argument evaluates, `and` and `or` give `AndValues` and `OrValues` of the values. */
  lemma {:induction false} LogicLoopsAgree(d: Dialect, env: Env, ext: Extern, e: Expr, k: nat)
    requires e.List? && 1 <= k <= |e.items|
    requires EvalAll(d, env, ext, e, k).Success?
    ensures AndLoop(d, env, ext, e, k) == Success(AndValues(EvalAll(d, env, ext, e, k).value))
    ensures OrLoop(d, env, ext, e, k) == Success(OrValues(EvalAll(d, env, ext, e, k).value))
    decreases |e.items| - k
  {
    if k < |e.items| {
      var vs := EvalAll(d, env, ext, e, k).value;
      assert vs[1..] == EvalAll(d, env, ext, e, k + 1).value;
      LogicLoopsAgree(d, env, ext, e, k + 1);
    }
  }

  /**
   `and` short-circuits: once an argument evaluates to `NUMBER` 0 after
   arguments that all evaluate to something else, the result is 0,
   whatever the later arguments would do (even fail).
   */
  lemma {:induction false} AndShortCircuit(d: Dialect, env: Env, ext: Extern, e: Expr, k: nat, j: nat)
    requires e.List? && 1 <= k <= j < |e.items|
    requires forall i :: k <= i < j ==> Eval(d, env, ext, e.items[i]).Success? && Eval(d, env, ext, e.items[i]).value != Number(0)
    requires Eval(d, env, ext, e.items[j]) == Success(Number(0))
    ensures AndLoop(d, env, ext, e, k) == Success(Number(0))
    decreases j - k
  {
    if k < j {
      AndPasses(d, env, ext, e, k);
      AndShortCircuit(d, env, ext, e, k + 1, j);
    } else {
      AndStops(d, env, ext, e, k);
    }
  }

  lemma AndPasses(d: Dialect, env: Env, ext: Extern, e: Expr, k: nat)
    requires e.List? && 1 <= k < |e.items|
    requires Eval(d, env, ext, e.items[k]).Success? && Eval(d, env, ext, e.items[k]).value != Number(0)
    ensures AndLoop(d, env, ext, e, k) == AndLoop(d, env, ext, e, k + 1)
  {
  }

  lemma AndStops(d: Dialect, env: Env, ext: Extern, e: Expr, k: nat)
    requires e.List? && 1 <= k < |e.items|
    requires Eval(d, env, ext, e.items[k]) == Success(Number(0))
    ensures AndLoop(d, env, ext, e, k) == Success(Number(0))
  {
  }

  /** `or` short-circuits at the first truthy argument in the same way. */
  lemma {:induction false} OrShortCircuit(d: Dialect, env: Env, ext: Extern, e: Expr, k: nat, j: nat)
    requires e.List? && 1 <= k <= j < |e.items|
    requires forall i :: k <= i < j ==> Eval(d, env, ext, e.items[i]).Success? && !Truthy(Eval(d, env, ext, e.items[i]).value)
    requires Eval(d, env, ext, e.items[j]).Success? && Truthy(Eval(d, env, ext, e.items[j]).value)
    ensures OrLoop(d, env, ext, e, k) == Success(Number(1))
    decreases j - k
  {
    if k < j {
      OrPasses(d, env, ext, e, k);
      OrShortCircuit(d, env, ext, e, k + 1, j);
    } else {
      OrStops(d, env, ext, e, k);
    }
  }

  lemma OrPasses(d: Dialect, env: Env, ext: Extern, e: Expr, k: nat)
    requires e.List? && 1 <= k < |e.items|
    requires Eval(d, env, ext, e.items[k]).Success? && !Truthy(Eval(d, env, ext, e.items[k]).value)
    ensures OrLoop(d, env, ext, e, k) == OrLoop(d, env, ext, e, k + 1)
  {
  }

  lemma OrStops(d: Dialect, env: Env, ext: Extern, e: Expr, k: nat)
    requires e.List? && 1 <= k < |e.items|
    requires Eval(d, env, ext, e.items[k]).Success? && Truthy(Eval(d, env, ext, e.items[k]).value)
    ensures OrLoop(d, env, ext, e, k) == Success(Number(1))
  {
  }

  /**
   `if` evaluates its then-branch exactly when the condition is truthy and
   its else-branch otherwise; the branch not taken can be replaced by
   anything without changing the result.
   */
  lemma IfChooses(d: Dialect, env: Env, ext: Extern, items: seq<Expr>, other: Expr)
    requires |items| == 4 && Eval(d, env, ext, items[1]).Success?
    ensures var c := Eval(d, env, ext, items[1]).value;
      && (Truthy(c) ==> Builtin(d, env, ext, "if", List(items)) == Eval(d, env, ext, items[2])
                     == Builtin(d, env, ext, "if", List(items[3 := other])))
      && (!Truthy(c) ==> Builtin(d, env, ext, "if", List(items)) == Eval(d, env, ext, items[3])
                      == Builtin(d, env, ext, "if", List(items[2 := other])))
  {
    assert RelationOf("if").None?;
  }

  // ---------------------------------------------------------------------
  // `and` and `or` without arguments

  /** The `type` field of a C `return_value`. */
  datatype Tag = NumberTag | IdentifierTag | FunctionTag | StringTag

  /** A C `return_value` as laid out: a tag and the number in the union. */
  datatype Raw = Raw(tag: Tag, num: int)

  /**
   The `and` branch as written: `rv.type = NUMBER` sits inside the
   `1 < vector_size(children)` test, so with no arguments the tag is
   whatever the stack held (`stale`) while the number is set to 1.
   */
  function AndAsWritten(vs: seq<Value>, stale: Tag): (r: Raw)
    ensures |vs| > 0 ==> r == Raw(NumberTag, AndValues(vs).n)
    ensures |vs| == 0 ==> r == Raw(stale, 1)
  {
    if |vs| == 0 then Raw(stale, 1) else Raw(NumberTag, AndValues(vs).n)
  }

  /** The `or` branch as written, with the same unset tag and the number 0. */
  function OrAsWritten(vs: seq<Value>, stale: Tag): (r: Raw)
    ensures |vs| > 0 ==> r == Raw(NumberTag, OrValues(vs).n)
    ensures |vs| == 0 ==> r == Raw(stale, 0)
  {
    if |vs| == 0 then Raw(stale, 0) else Raw(NumberTag, OrValues(vs).n)
  }

  /** `(and)` and `(or)` as written can come back as something other than a number. */
  lemma EmptyLogicUntagged()
    ensures AndAsWritten([], IdentifierTag).tag != NumberTag
    ensures OrAsWritten([], FunctionTag).tag != NumberTag
  {
  }

  /**
   With the tag set on every path, as the model's `AndLoop` and `OrLoop`
   do, `(and)` is the number 1 and `(or)` the number 0, and both always
   give a number.
   */
  lemma EmptyLogicTagged(d: Dialect, env: Env, ext: Extern, head: Expr)
    ensures AndLoop(d, env, ext, List([head]), 1) == Success(Number(1))
    ensures OrLoop(d, env, ext, List([head]), 1) == Success(Number(0))
    ensures forall vs: seq<Value> :: AndValues(vs).Number? && OrValues(vs).Number?
  {
  }
}

=== FILE: lisp_old.dfy ===
/**
 The environment of the older evaluator, test/lisp.c. Its frames are
 hash maps keyed by string segments, and its `seg_hash` reads the bytes
 of the segment struct itself rather than the characters the segment
 points at: the eight bytes of the `str` pointer, then the eight bytes
 of `length`, then whatever lies past the struct.

 A segment is therefore modelled with its address. A frame is the list
 of map entries, each carrying the hash it was stored under. Lookup
 needs an equal hash and equal bytes, as in map.h. Which bucket an entry
 sits in does not change the answer, because equal hashes choose the
 same bucket.
 */
module LispOld {
  import opened Wrappers
  import Lisp

  /** `string_segment`: where the characters are and what they are. */
  datatype Segment = Segment(addr: nat, text: string)

  /** The padding test/lisp.c puts around its argument (`add_pre_post_buffer(argv[1], 10)`). */
  const Padding: nat := 10

  /** The eight little-endian bytes of a 64-bit word, as characters. */
  function WordBytes(w: nat): (r: string)
    ensures |r| == 8
  {
    seq(8, k requires 0 <= k < 8 => ((w / Pow256(k)) % 256) as char)
  }

  function Pow256(k: nat): (p: nat)
    ensures p >= 1
  {
    if k == 0 then 1 else 256 * Pow256(k - 1)
  }

  /** The content hash: lane `j` is the xor of the bytes at positions congruent to `j` modulo 8. */
  function LanesOf(s: string): Lisp.Lanes
  {
    seq(8, j requires 0 <= j < 8 => Lisp.LaneXor(s, |s|, j))
  }

  /**
   test/lisp.c's `seg_hash`: it hashes `length` bytes starting at `&seg.str`.
   Up to 16 bytes this reads the pointer and then the length field.
   Beyond 16 it reads outside the struct.
   */
  function AddressHash(seg: Segment): (r: Result<Lisp.Lanes, Fault>)
    ensures r.Failure? <==> |seg.text| > 16
  {
    if |seg.text| > 16 then Failure(OutOfBounds)
    else Success(LanesOf((WordBytes(seg.addr) + WordBytes(|seg.text|))[..|seg.text|]))
  }

  /** Which hash a frame is built with: the one test/lisp.c installs, or one over the characters as in lisp.c. */
  datatype HashFn = ByAddress | ByContent

  function KeyHash(f: HashFn, seg: Segment): Result<Lisp.Lanes, Fault>
  {
    match f
    case ByAddress => AddressHash(seg)
    case ByContent => Success(LanesOf(seg.text))
  }

  datatype Entry = Entry(key: Segment, hash: Lisp.Lanes, value: Lisp.Value)

  type Frame = seq<Entry>

  /** The map's match test: equal stored hash, then `seg_eq` on the bytes. */
  predicate Matches(e: Entry, h: Lisp.Lanes, seg: Segment)
  {
    e.hash == h && e.key.text == seg.text
  }

  /** `map_count`: whether some entry matches. */
  function Count(f: HashFn, frame: Frame, seg: Segment): (r: Result<bool, Fault>)
    ensures r.Failure? <==> KeyHash(f, seg).Failure?
    ensures r.Success? ==> (KeyHash(f, seg).Success? &&
      (r.value <==> exists k :: 0 <= k < |frame| && Matches(frame[k], KeyHash(f, seg).value, seg)))
  {
    var h :- KeyHash(f, seg);
    Success(exists k :: 0 <= k < |frame| && Matches(frame[k], h, seg))
  }

  /** The value of the first matching entry. */
  function Find(frame: Frame, h: Lisp.Lanes, seg: Segment): (r: Option<Lisp.Value>)
    ensures r.Some? <==> exists k :: 0 <= k < |frame| && Matches(frame[k], h, seg)
  {
    if |frame| == 0 then None
    else if Matches(frame[0], h, seg) then Some(frame[0].value)
    else
      var r := Find(frame[1..], h, seg);
      assert (exists k :: 0 <= k < |frame| && Matches(frame[k], h, seg)) ==> exists k :: 0 <= k < |frame[1..]| && Matches(frame[1..][k], h, seg) by {
        if exists k :: 0 <= k < |frame| && Matches(frame[k], h, seg) {
          var k :| 0 <= k < |frame| && Matches(frame[k], h, seg);
          assert k > 0 && frame[1..][k - 1] == frame[k];
        }
      }
      r
  }

  /** The entries that do not match. */
  function Without(frame: Frame, h: Lisp.Lanes, seg: Segment): (r: Frame)
    ensures forall k :: 0 <= k < |r| ==> !Matches(r[k], h, seg) && r[k] in frame
  {
    if |frame| == 0 then []
    else if Matches(frame[0], h, seg) then Without(frame[1..], h, seg)
    else [frame[0]] + Without(frame[1..], h, seg)
  }

  /** `map_insert`: any entry that matches is erased, then the new entry is stored under the key's hash. */
  function Insert(f: HashFn, frame: Frame, seg: Segment, v: Lisp.Value): (r: Result<Frame, Fault>)
    ensures r.Failure? <==> KeyHash(f, seg).Failure?
    ensures r.Success? ==> var h := KeyHash(f, seg).value;
      Find(r.value, h, seg) == Some(v) && |r.value| >= 1 && r.value[|r.value| - 1] == Entry(seg, h, v)
  {
    var h :- KeyHash(f, seg);
    var rest := Without(frame, h, seg);
    var r := rest + [Entry(seg, h, v)];
    assert Find(r, h, seg) == Some(v) by {
      FindAfterWithout(rest, h, seg, v);
    }
    Success(r)
  }

  lemma {:induction false} FindAfterWithout(rest: Frame, h: Lisp.Lanes, seg: Segment, v: Lisp.Value)
    requires forall k :: 0 <= k < |rest| ==> !Matches(rest[k], h, seg)
    ensures Find(rest + [Entry(seg, h, v)], h, seg) == Some(v)
    decreases |rest|
  {
    if |rest| > 0 {
      assert (rest + [Entry(seg, h, v)])[1..] == rest[1..] + [Entry(seg, h, v)];
      FindAfterWithout(rest[1..], h, seg, v);
    }
  }

  /**
   `_resolve_identifier` from frame `i - 1` down. The first frame with a
   match supplies the value. An unbound name fails the assert, where
   lisp.c would return the name.
   */
  function ResolveFrom(f: HashFn, frames: seq<Frame>, seg: Segment, i: nat): (r: Result<Lisp.Value, Fault>)
    requires i <= |frames|
    ensures KeyHash(f, seg).Success? && (forall j :: 0 <= j < i ==> Find(frames[j], KeyHash(f, seg).value, seg).None?)
      ==> r == Failure(AssertFailed)
    ensures r.Success? ==> (KeyHash(f, seg).Success? &&
      exists j :: 0 <= j < i && Find(frames[j], KeyHash(f, seg).value, seg) == Some(r.value) &&
        forall j' :: j < j' < i ==> Find(frames[j'], KeyHash(f, seg).value, seg).None?)
  {
    if i == 0 then Failure(AssertFailed)
    else
      var h :- KeyHash(f, seg);
      match Find(frames[i - 1], h, seg)
      case Some(v) => Success(v)
      case None =>
        var r := ResolveFrom(f, frames, seg, i - 1);
        ResolveStep(frames, seg, i, h, r);
        r
  }

  /** A frame without the name passes the search on to the frames below it. */
  lemma ResolveStep(frames: seq<Frame>, seg: Segment, i: nat, h: Lisp.Lanes, r: Result<Lisp.Value, Fault>)
    requires 0 < i <= |frames| && Find(frames[i - 1], h, seg).None?
    requires r.Success? ==> exists j :: (0 <= j < i - 1 && Find(frames[j], h, seg) == Some(r.value) && forall j' :: j < j' < i - 1 ==> Find(frames[j'], h, seg).None?)
    ensures r.Success? ==> exists j :: (0 <= j < i && Find(frames[j], h, seg) == Some(r.value) &&
      forall j' :: j < j' < i ==> Find(frames[j'], h, seg).None?)
  {
    if r.Success? {
      var j :| 0 <= j < i - 1 && Find(frames[j], h, seg) == Some(r.value) &&
        forall j' :: j < j' < i - 1 ==> Find(frames[j'], h, seg).None?;
      assert forall j' :: j < j' < i ==> Find(frames[j'], h, seg).None?;
    }
  }

  /** `_resolve_identifier` from the top frame down. */
  function Resolve(f: HashFn, frames: seq<Frame>, seg: Segment): (r: Result<Lisp.Value, Fault>)
    ensures KeyHash(f, seg).Success? && (forall j :: 0 <= j < |frames| ==> Find(frames[j], KeyHash(f, seg).value, seg).None?)
      ==> r == Failure(AssertFailed)
    ensures r.Success? ==> (KeyHash(f, seg).Success? &&
      exists j :: 0 <= j < |frames| && Find(frames[j], KeyHash(f, seg).value, seg) == Some(r.value) &&
        forall j' :: j < j' < |frames| ==> Find(frames[j'], KeyHash(f, seg).value, seg).None?)
  {
    ResolveFrom(f, frames, seg, |frames|)
  }

  /** `_push_frame`: a new empty frame on top. */
  function PushFrame(frames: seq<Frame>): (r: seq<Frame>)
    ensures |r| == |frames| + 1 && r[..|frames|] == frames && r[|frames|] == []
  {
    frames + [[]]
  }

  /**
   `_pop_frame` frees the top frame before it asserts that there is
   one. On an empty stack, the read of the top frame comes first and is
   out of bounds.
   */
  function PopFrame(frames: seq<Frame>): (r: Result<seq<Frame>, Fault>)
    ensures |frames| == 0 ==> r == Failure(OutOfBounds)
    ensures |frames| > 0 ==> r == Success(frames[..|frames| - 1])
  {
    if |frames| == 0 then Failure(OutOfBounds) else Success(frames[..|frames| - 1])
  }

  /** `_extend_env`: insert into the top frame. Unlike lisp.c, there is no check of the value's type. */
  function ExtendEnv(f: HashFn, frames: seq<Frame>, seg: Segment, v: Lisp.Value): (r: Result<seq<Frame>, Fault>)
    ensures |frames| == 0 ==> r == Failure(OutOfBounds)
    ensures r.Success? ==> |r.value| == |frames| && r.value[..|frames| - 1] == frames[..|frames| - 1]
  {
    if |frames| == 0 then Failure(OutOfBounds)
    else
      var top :- Insert(f, frames[|frames| - 1], seg, v);
      Success(frames[..|frames| - 1] + [top])
  }

  /** Popping a pushed frame gives back the stack. */
  lemma PushPop(frames: seq<Frame>)
    ensures PopFrame(PushFrame(frames)) == Success(frames)
  {
  }

  /** What a lookup in a one-binding frame stack finds, under either hash. */
  lemma BindThenResolve(f: HashFn, bound: Segment, asked: Segment, v: Lisp.Value)
    requires KeyHash(f, bound).Success? && KeyHash(f, asked).Success?
    ensures var fs := ExtendEnv(f, PushFrame([]), bound, v).value;
      Resolve(f, fs, asked) == if KeyHash(f, asked) == KeyHash(f, bound) && asked.text == bound.text
        then Success(v) else Failure(AssertFailed)
  {
    var fs := ExtendEnv(f, PushFrame([]), bound, v).value;
    var h := KeyHash(f, bound).value;
    assert Without([], h, bound) == [];
    assert [] + [Entry(bound, h, v)] == [Entry(bound, h, v)];
    assert Insert(f, [], bound, v) == Success([Entry(bound, h, v)]);
    assert PushFrame([]) == [[]];
    assert fs == [[Entry(bound, h, v)]];
    var h' := KeyHash(f, asked).value;
    if !(h' == h && asked.text == bound.text) {
      assert Find(fs[0], h', asked).None? by {
        assert fs[0][1..] == [];
      }
    }
  }

  /**
   The hash over the characters finds a binding from any segment with the
   same bytes, wherever those bytes are stored.
   */
  lemma ContentHashFinds(bound: Segment, asked: Segment, v: Lisp.Value)
    requires asked.text == bound.text
    ensures Resolve(ByContent, ExtendEnv(ByContent, PushFrame([]), bound, v).value, asked) == Success(v)
  {
    BindThenResolve(ByContent, bound, asked, v);
  }

  /**
   Under test/lisp.c's hash, a name bound through the token at one
   address is not found through the same name at another address: the
   lookup of `x` fails the assert.
   */
  lemma AddressHashMisses()
    ensures var bound, asked := Segment(0x1001, "x"), Segment(0x1002, "x");
      && bound.text == asked.text
      && Resolve(ByAddress, ExtendEnv(ByAddress, PushFrame([]), bound, Lisp.Number(5)).value, asked) == Failure(AssertFailed)
  {
    var bound, asked := Segment(0x1001, "x"), Segment(0x1002, "x");
    AddressesHashApart();
    BindThenResolve(ByAddress, bound, asked, Lisp.Number(5));
  }

  /** The two one-character segments of AddressHashMisses hash to different lanes. */
  lemma AddressesHashApart()
    ensures KeyHash(ByAddress, Segment(0x1001, "x")).Success? && KeyHash(ByAddress, Segment(0x1002, "x")).Success?
    ensures KeyHash(ByAddress, Segment(0x1001, "x")) != KeyHash(ByAddress, Segment(0x1002, "x"))
  {
    FirstLane(0x1001);
    FirstLane(0x1002);
    assert Lisp.ByteOf(1 as char) != Lisp.ByteOf(2 as char);
  }

  /** For a one-character segment the hash is the low byte of its address, in lane 0. */
  lemma FirstLane(addr: nat)
    ensures AddressHash(Segment(addr, "x")).value[0] == Lisp.ByteOf((addr % 256) as char)
  {
    var bytes := (WordBytes(addr) + WordBytes(1))[..1];
    assert bytes == [WordBytes(addr)[0]];
    assert WordBytes(addr)[0] == (addr % 256) as char;
    assert LanesOf(bytes)[0] == Lisp.LaneXor(bytes, 1, 0);
    assert Lisp.LaneXor(bytes, 1, 0) == Lisp.LaneXor(bytes, 0, 0) ^ Lisp.ByteOf(bytes[0]);
    assert Lisp.LaneXor(bytes, 0, 0) == 0;
    assert AddressHash(Segment(addr, "x")).value == LanesOf(bytes);
  }

  /**
   In the older evaluator, atoms are never looked up. Any atom that does
   not start with a digit is an `IDENTIFIER`, which is truthy. So
   `(if x 1 2)` takes the then-branch whatever `x` names.
   */
  lemma EarlyIdentifierConditionTruthy(env: Lisp.Env, ext: Lisp.Extern, x: Lisp.Token, a: Lisp.Expr, b: Lisp.Expr)
    requires !('0' <= x[0] <= '9')
    ensures Lisp.Builtin(Lisp.Early, env, ext, "if", Lisp.List([Lisp.Atom("if"), Lisp.Atom(x), a, b]))
      == Lisp.Eval(Lisp.Early, env, ext, a)
  {
    var items := [Lisp.Atom("if"), Lisp.Atom(x), a, b];
    assert Lisp.Eval(Lisp.Early, env, ext, items[1]) == Success(Lisp.Identifier(x));
    Lisp.IfChooses(Lisp.Early, env, ext, items, a);
  }
}

=== FILE: list.dfy ===
/**
 The doubly linked deque of src/util/list.h.

 A list is modelled by its `_size` counter together with the values of its
 nodes from `_first` to `_last`. The two are kept apart because the C code
 can let them disagree: unlinking an interior node does not decrement
 `_size`. The pointer fields `_first` and `_last` are NULL exactly when the
 node sequence is empty.
 */
module DList {
  import opened Wrappers

  /** `size_t` decrement: `_size -= 1` on a zero counter wraps to `SizeMax`. */
  function Dec(n: nat): (r: nat)
    ensures n > 0 ==> r + 1 == n
    ensures n == 0 ==> r == SizeMax
  {
    if n == 0 then SizeMax else n - 1
  }

  datatype List<T> = List(size: nat, items: seq<T>)

  /** The counter agrees with the number of linked nodes. */
  ghost predicate Valid<T>(l: List<T>)
  {
    l.size == |l.items|
  }

  /** Weaker invariant that every reachable list keeps: the counter never undercounts. */
  ghost predicate NoUndercount<T>(l: List<T>)
  {
    l.size >= |l.items|
  }

  function New<T>(): (l: List<T>)
    ensures Valid(l) && l.items == []
  {
    List(0, [])
  }

  /** `get_size` returns the counter, which is the node count on a valid list. */
  function GetSize<T>(l: List<T>): (n: nat)
    ensures Valid(l) ==> n == |l.items|
  {
    l.size
  }

  /** `get_first` reads `_first->_val`; on an empty list that is a NULL dereference. */
  function GetFirst<T>(l: List<T>): (r: Result<T, Fault>)
    ensures r.Failure? <==> |l.items| == 0
    ensures r.Success? ==> r.value == l.items[0]
  {
    if |l.items| == 0 then Failure(NullDeref) else Success(l.items[0])
  }

  /** `get_last` reads `_last->_val`. */
  function GetLast<T>(l: List<T>): (r: Result<T, Fault>)
    ensures r.Failure? <==> |l.items| == 0
    ensures r.Success? ==> r.value == l.items[|l.items| - 1]
  {
    if |l.items| == 0 then Failure(NullDeref) else Success(l.items[|l.items| - 1])
  }

  /**
   `push_front`: a zero counter makes the new node both `_first` and `_last`
   (dropping any nodes a wrong counter would hide); otherwise it is linked
   before `_first`.
   */
  function PushFront<T>(l: List<T>, v: T): (l': List<T>)
    ensures Valid(l) ==> Valid(l') && l'.items == [v] + l.items
    ensures NoUndercount(l) ==> NoUndercount(l')
    ensures |l'.items| > 0 && l'.items[0] == v && l'.size == l.size + 1
  {
    if l.size == 0 then List(1, [v]) else List(l.size + 1, [v] + l.items)
  }

  /** `push_back`, symmetric to `push_front`. */
  function PushBack<T>(l: List<T>, v: T): (l': List<T>)
    ensures Valid(l) ==> Valid(l') && l'.items == l.items + [v]
    ensures NoUndercount(l) ==> NoUndercount(l')
    ensures |l'.items| > 0 && l'.items[|l'.items| - 1] == v && l'.size == l.size + 1
  {
    if l.size == 0 then List(1, [v]) else List(l.size + 1, l.items + [v])
  }

  /**
   `pop_front`: frees `_first` and decrements the counter. A counter that
   reaches zero NULLs both ends; otherwise `_first` moves to the next node,
   whose `_prev` is written, a NULL dereference when there is no next node.
   */
  function PopFront<T>(l: List<T>): (r: Result<List<T>, Fault>)
    ensures |l.items| == 0 ==> r == Failure(NullDeref)
    ensures Valid(l) && |l.items| > 0 ==> r.Success? && Valid(r.value) && r.value.items == l.items[1..]
    ensures NoUndercount(l) && r.Success? ==> NoUndercount(r.value)
  {
    if |l.items| == 0 then Failure(NullDeref)
    else if Dec(l.size) == 0 then Success(List(0, []))
    else if |l.items| == 1 then Failure(NullDeref)
    else Success(List(Dec(l.size), l.items[1..]))
  }

  /** `pop_back`, symmetric to `pop_front`. */
  function PopBack<T>(l: List<T>): (r: Result<List<T>, Fault>)
    ensures |l.items| == 0 ==> r == Failure(NullDeref)
    ensures Valid(l) && |l.items| > 0 ==> r.Success? && Valid(r.value) && r.value.items == l.items[..|l.items| - 1]
    ensures NoUndercount(l) && r.Success? ==> NoUndercount(r.value)
  {
    if |l.items| == 0 then Failure(NullDeref)
    else if Dec(l.size) == 0 then Success(List(0, []))
    else if |l.items| == 1 then Failure(NullDeref)
    else Success(List(Dec(l.size), l.items[..|l.items| - 1]))
  }

  /**
   `node_remove` as written: the first node is popped from the front, the
   last from the back, and an interior node is unlinked without touching
   the counter.
   */
  function NodeRemoveAsWritten<T>(l: List<T>, i: nat): (r: Result<List<T>, Fault>)
    requires i < |l.items|
    ensures Valid(l) ==> r.Success? && r.value.items == l.items[..i] + l.items[i + 1..]
    ensures NoUndercount(l) && r.Success? ==> NoUndercount(r.value)
    ensures 0 < i < |l.items| - 1 ==> r == Success(List(l.size, l.items[..i] + l.items[i + 1..]))
  {
    if i == 0 then PopFront(l)
    else if i == |l.items| - 1 then PopBack(l)
    else Success(List(l.size, l.items[..i] + l.items[i + 1..]))
  }

  /** `node_remove` with the interior branch also decrementing the counter. */
  function NodeRemove<T>(l: List<T>, i: nat): (r: Result<List<T>, Fault>)
    requires i < |l.items|
    ensures Valid(l) ==> r.Success? && Valid(r.value) && r.value.items == l.items[..i] + l.items[i + 1..]
  {
    if i == 0 then PopFront(l)
    else if i == |l.items| - 1 then PopBack(l)
    else Success(List(Dec(l.size), l.items[..i] + l.items[i + 1..]))
  }

  /** Removing an interior node as written leaves the counter one too high. */
  lemma InteriorRemoveBreaksCount<T>(l: List<T>, i: nat)
    requires Valid(l) && 0 < i < |l.items| - 1
    ensures NodeRemoveAsWritten(l, i).Success?
    ensures !Valid(NodeRemoveAsWritten(l, i).value)
    ensures GetSize(NodeRemoveAsWritten(l, i).value) == |NodeRemoveAsWritten(l, i).value.items| + 1
  {
  }

  /**
   Concrete consequence: after removing the middle of [1, 2, 3], two
   `pop_front` calls that the counter allows end in a NULL dereference,
   while the corrected removal pops both remaining values.
   */
  lemma StaleCountCrashesPop()
    ensures NodeRemoveAsWritten(List(3, [1, 2, 3]), 1) == Success(List(3, [1, 3]))
    ensures PopFront(List(3, [1, 3])) == Success(List(2, [3]))
    ensures PopFront(List(2, [3])) == Failure(NullDeref)
    ensures NodeRemove(List(3, [1, 2, 3]), 1) == Success(List(2, [1, 3]))
    ensures PopFront(List(2, [1, 3])) == Success(List(1, [3]))
    ensures PopFront(List(1, [3])) == Success(List(0, []))
  {
    assert [1, 2, 3][..1] + [1, 2, 3][2..] == [1, 3];
    assert [1, 3][1..] == [3];
  }

  lemma PushPopFront<T>(l: List<T>, v: T)
    requires Valid(l)
    ensures PopFront(PushFront(l, v)) == Success(l)
    ensures GetFirst(PushFront(l, v)) == Success(v)
  {
    assert ([v] + l.items)[1..] == l.items;
  }

  lemma PushPopBack<T>(l: List<T>, v: T)
    requires Valid(l)
    ensures PopBack(PushBack(l, v)) == Success(l)
    ensures GetLast(PushBack(l, v)) == Success(v)
  {
    assert (l.items + [v])[..|l.items|] == l.items;
  }

  /** One operation of a push/pop script. */
  datatype Op<T> = PushFrontOp(v: T) | PushBackOp(v: T) | PopFrontOp | PopBackOp

  /** Reference deque (`std::list`): popping an empty deque is undefined, `None`. */
  function Mirror<T>(s: seq<T>, ops: seq<Op<T>>): Option<seq<T>>
    decreases |ops|
  {
    if |ops| == 0 then Some(s)
    else match ops[0]
      case PushFrontOp(v) => Mirror([v] + s, ops[1..])
      case PushBackOp(v) => Mirror(s + [v], ops[1..])
      case PopFrontOp => if |s| == 0 then None else Mirror(s[1..], ops[1..])
      case PopBackOp => if |s| == 0 then None else Mirror(s[..|s| - 1], ops[1..])
  }

  function Apply<T>(l: List<T>, ops: seq<Op<T>>): Result<List<T>, Fault>
    decreases |ops|
  {
    if |ops| == 0 then Success(l)
    else
      var next := match ops[0]
        case PushFrontOp(v) => Success(PushFront(l, v))
        case PushBackOp(v) => Success(PushBack(l, v))
        case PopFrontOp => PopFront(l)
        case PopBackOp => PopBack(l);
      if next.Failure? then next else Apply(next.value, ops[1..])
  }

  /**
   Any script the reference deque runs without popping an empty deque
   leaves the C list with the same front-to-back contents and a correct
   counter.
   */
  lemma {:induction false} ApplyMatchesMirror<T>(l: List<T>, ops: seq<Op<T>>, m: seq<T>)
    requires Valid(l) && Mirror(l.items, ops) == Some(m)
    ensures Apply(l, ops) == Success(List(|m|, m))
    decreases |ops|
  {
    if |ops| > 0 {
      match ops[0]
      case PushFrontOp(v) => ApplyMatchesMirror(PushFront(l, v), ops[1..], m);
      case PushBackOp(v) => ApplyMatchesMirror(PushBack(l, v), ops[1..], m);
      case PopFrontOp => ApplyMatchesMirror(PopFront(l).value, ops[1..], m);
      case PopBackOp => ApplyMatchesMirror(PopBack(l).value, ops[1..], m);
    }
  }
}

=== FILE: nfa.dfy ===
/**
 The ε-NFA and its powerset construction, src/lexer/nfa_optimized.h.

 States are `size_t` values kept in bitsets, so every state that enters a
 set is below the bitset capacity (128). Labelled edges live in a map
 state -> (label -> set of targets), where a label is a byte or the
 wildcard ALL; ε-edges live in a map state -> set of targets. A key, once
 created, stays in its map even when its set becomes empty, and that
 presence is observable, so the model keeps it.
 */
module Nfa {
  import opened Wrappers
  import Bitset
  import HashMap
  import MapDfa

  /** An edge label: one byte (`NONE` type) or every alphabet byte (`ALL`). */
  datatype Label = Sym(c: Byte) | All

  datatype Nfa = Nfa(
    trans: map<nat, map<Label, set<nat>>>,
    begin: nat,
    accept: set<nat>,
    states: set<nat>,             // all_states
    eps: map<nat, set<nat>>)      // epsilon_map

  /** The values a bitset can hold. */
  const Range: set<nat> := set x: nat | x < Bitset.Capacity

  ghost predicate Valid(n: Nfa)
  {
    && n.states <= Range && n.accept <= Range
    && (forall s | s in n.trans :: s in n.states && forall l | l in n.trans[s] :: n.trans[s][l] <= n.states)
    && (forall s | s in n.eps :: (s in n.states || s == n.begin) && n.eps[s] <= n.states)
  }

  predicate HasEdge(n: Nfa, s: nat, l: Label, t: nat)
  {
    s in n.trans && l in n.trans[s] && t in n.trans[s][l]
  }

  predicate HasEps(n: Nfa, s: nat, t: nat)
  {
    s in n.eps && t in n.eps[s]
  }

  /** `nfa_new`: the begin state gets an empty ε-set, but `all_states` stays empty. */
  function New(begin: nat): (n: Nfa)
    ensures Valid(n) && n.begin == begin && n.states == {} && n.accept == {}
    ensures forall s: nat, l: Label, t: nat :: !HasEdge(n, s, l, t)
    ensures n.eps == map[begin := {}]
  {
    Nfa(map[], begin, {}, {}, map[begin := {}])
  }

  /** Adds `from -l-> to` to the edge map, creating the inner map and set as needed. */
  function Link(n: Nfa, from: nat, l: Label, to: nat): (r: Nfa)
    requires from < Bitset.Capacity && to < Bitset.Capacity
    ensures forall s: nat, l': Label, t: nat :: HasEdge(r, s, l', t) <==> HasEdge(n, s, l', t) || (s, l', t) == (from, l, to)
    ensures r.states == n.states + {from, to}
    ensures r.eps == n.eps && r.accept == n.accept && r.begin == n.begin
    ensures r.trans.Keys == n.trans.Keys + {from}
    ensures forall s | s in r.trans :: r.trans[s].Keys == (if s in n.trans then n.trans[s].Keys else {}) + (if s == from then {l} else {})
    ensures Valid(n) ==> Valid(r)
  {
    var inner := if from in n.trans then n.trans[from] else map[];
    var targets := if l in inner then inner[l] else {};
    n.(trans := n.trans[from := inner[l := targets + {to}]], states := n.states + {from, to})
  }

  /** `add_transition`: both endpoints go into `all_states` (a bitset insert, which asserts). */
  function AddTransition(n: Nfa, from: nat, c: Byte, to: nat): (r: Result<Nfa, Fault>)
    ensures r.Failure? <==> from >= Bitset.Capacity || to >= Bitset.Capacity
    ensures r.Failure? ==> r.error == AssertFailed
    ensures r.Success? ==>
      && (forall s: nat, l: Label, t: nat :: HasEdge(r.value, s, l, t) <==> HasEdge(n, s, l, t) || (s, l, t) == (from, Sym(c), to))
      && r.value.states == n.states + {from, to} && r.value.eps == n.eps && r.value.accept == n.accept
      && (Valid(n) ==> Valid(r.value))
  {
    if from >= Bitset.Capacity || to >= Bitset.Capacity then Failure(AssertFailed)
    else Success(Link(n, from, Sym(c), to))
  }

  /** `add_alphabet_transition`: an ALL edge. */
  function AddAlphabetTransition(n: Nfa, from: nat, to: nat): (r: Result<Nfa, Fault>)
    ensures r.Failure? <==> from >= Bitset.Capacity || to >= Bitset.Capacity
    ensures r.Failure? ==> r.error == AssertFailed
    ensures r.Success? ==>
      && (forall s: nat, l: Label, t: nat :: HasEdge(r.value, s, l, t) <==> HasEdge(n, s, l, t) || (s, l, t) == (from, All, to))
      && r.value.states == n.states + {from, to} && r.value.eps == n.eps && r.value.accept == n.accept
      && (Valid(n) ==> Valid(r.value))
  {
    if from >= Bitset.Capacity || to >= Bitset.Capacity then Failure(AssertFailed)
    else Success(Link(n, from, All, to))
  }

  /** `add_epsilon_transition`: both endpoints get an ε-set, then `to` joins `from`'s. */
  function AddEpsilonTransition(n: Nfa, from: nat, to: nat): (r: Result<Nfa, Fault>)
    ensures r.Failure? <==> from >= Bitset.Capacity || to >= Bitset.Capacity
    ensures r.Failure? ==> r.error == AssertFailed
    ensures r.Success? ==>
      && (forall s: nat, t: nat :: HasEps(r.value, s, t) <==> HasEps(n, s, t) || (s, t) == (from, to))
      && r.value.eps.Keys == n.eps.Keys + {from, to}
      && r.value.states == n.states + {from, to} && r.value.trans == n.trans && r.value.accept == n.accept
      && (Valid(n) ==> Valid(r.value))
  {
    if from >= Bitset.Capacity || to >= Bitset.Capacity then Failure(AssertFailed)
    else
      var e1 := if from in n.eps then n.eps else n.eps[from := {}];
      var e2 := if to in e1 then e1 else e1[to := {}];
      Success(n.(eps := e2[from := e2[from] + {to}], states := n.states + {from, to}))
  }

  /** Erases `to` from the target set of `(from, l)` if that key exists; 1 when it was there. */
  function Unlink(n: Nfa, from: nat, l: Label, to: nat): (res: (Nfa, nat))
    ensures res.1 == 1 <==> HasEdge(n, from, l, to)
    ensures res.1 == 0 <==> !HasEdge(n, from, l, to)
    ensures forall s: nat, l': Label, t: nat :: HasEdge(res.0, s, l', t) <==> HasEdge(n, s, l', t) && (s, l', t) != (from, l, to)
    ensures res.0.states == n.states && res.0.eps == n.eps && res.0.accept == n.accept && res.0.begin == n.begin
    ensures res.0.trans.Keys == n.trans.Keys
    ensures forall s | s in res.0.trans :: res.0.trans[s].Keys == n.trans[s].Keys
    ensures Valid(n) ==> Valid(res.0)
  {
    if from !in n.trans || l !in n.trans[from] then (n, 0)
    else
      var targets := n.trans[from][l];
      (n.(trans := n.trans[from := n.trans[from][l := targets - {to}]]), if to in targets then 1 else 0)
  }

  /** `remove_transition`: 0 when the (from, c) key is missing, else the bitset erase. */
  function RemoveTransition(n: Nfa, from: nat, c: Byte, to: nat): (res: (Nfa, nat))
    requires to < Bitset.Capacity
    ensures res.1 == 1 <==> HasEdge(n, from, Sym(c), to)
    ensures res.1 == 0 <==> !HasEdge(n, from, Sym(c), to)
    ensures forall s: nat, l: Label, t: nat :: HasEdge(res.0, s, l, t) <==> HasEdge(n, s, l, t) && (s, l, t) != (from, Sym(c), to)
    ensures Valid(n) ==> Valid(res.0)
  {
    Unlink(n, from, Sym(c), to)
  }

  /** `remove_epsilon_transition`. */
  function RemoveEpsilonTransition(n: Nfa, from: nat, to: nat): (res: (Nfa, nat))
    requires to < Bitset.Capacity
    ensures res.1 == 1 <==> HasEps(n, from, to)
    ensures res.1 == 0 <==> !HasEps(n, from, to)
    ensures forall s: nat, t: nat :: HasEps(res.0, s, t) <==> HasEps(n, s, t) && (s, t) != (from, to)
    ensures res.0.trans == n.trans && res.0.states == n.states && res.0.eps.Keys == n.eps.Keys
    ensures Valid(n) ==> Valid(res.0)
  {
    if from !in n.eps then (n, 0)
    else (n.(eps := n.eps[from := n.eps[from] - {to}]), if to in n.eps[from] then 1 else 0)
  }

  /**
   `remove_alphabet_transition` as written: the guard probes the label in
   `tmp_transition` (whatever byte label was last used) rather than ALL, and
   the erase then looks ALL up with `map_at`, which fails when it is absent:
   with `exit(INVKEY)` when another label of `from` shares ALL's bucket
   (`shared`), with a NULL dereference when none does (HashMap.AtMissFault).
   The default hash of a label reads bytes of the label struct that are
   never set, so the model takes that layout fact as a parameter.
   */
  function RemoveAlphabetTransitionAsWritten(n: Nfa, from: nat, to: nat, probe: Byte, shared: bool): (r: Result<(Nfa, nat), Fault>)
    requires to < Bitset.Capacity
    ensures from !in n.trans || Sym(probe) !in n.trans[from] ==> r == Success((n, 0))
    ensures from in n.trans && Sym(probe) in n.trans[from] && All !in n.trans[from] ==>
      r == Failure(if shared then Exit(HashMap.InvKey) else NullDeref)
    ensures r.Success? && r.value.1 == 1 ==> HasEdge(n, from, All, to)
  {
    if from !in n.trans || Sym(probe) !in n.trans[from] then Success((n, 0))
    else if All !in n.trans[from] then Failure(if shared then Exit(HashMap.InvKey) else NullDeref)
    else Success(Unlink(n, from, All, to))
  }

  /** `remove_alphabet_transition` with the guard testing the ALL key it erases from. */
  function RemoveAlphabetTransition(n: Nfa, from: nat, to: nat): (res: (Nfa, nat))
    requires to < Bitset.Capacity
    ensures res.1 == 1 <==> HasEdge(n, from, All, to)
    ensures res.1 == 0 <==> !HasEdge(n, from, All, to)
    ensures forall s: nat, l: Label, t: nat :: HasEdge(res.0, s, l, t) <==> HasEdge(n, s, l, t) && (s, l, t) != (from, All, to)
    ensures Valid(n) ==> Valid(res.0)
  {
    Unlink(n, from, All, to)
  }

  /** An NFA with just the ALL edge 0 -> 1 after a byte edge 2 -a-> 3: the erase is skipped. */
  lemma AlphabetRemovalMissed(shared: bool)
    ensures var n := Link(Link(New(0), 2, Sym(97), 3), 0, All, 1);
      && HasEdge(n, 0, All, 1)
      && RemoveAlphabetTransitionAsWritten(n, 0, 1, 97, shared) == Success((n, 0))
      && RemoveAlphabetTransition(n, 0, 1).1 == 1
      && !HasEdge(RemoveAlphabetTransition(n, 0, 1).0, 0, All, 1)
  {
  }

  /** `add_accept_state`: a bitset insert. */
  function AddAcceptState(n: Nfa, s: nat): (r: Result<Nfa, Fault>)
    ensures r.Failure? <==> s >= Bitset.Capacity
    ensures r.Success? ==>
      && r.value.accept == n.accept + {s}
      && r.value.trans == n.trans && r.value.eps == n.eps && r.value.states == n.states
      && (Valid(n) ==> Valid(r.value))
  {
    if s >= Bitset.Capacity then Failure(AssertFailed) else Success(n.(accept := n.accept + {s}))
  }

  /** `remove_accept_state`: a bitset erase, 1 when `s` was accepting. */
  function RemoveAcceptState(n: Nfa, s: nat): (res: (Nfa, nat))
    requires s < Bitset.Capacity
    ensures res.1 == 1 <==> s in n.accept
    ensures res.1 == 0 <==> s !in n.accept
    ensures res.0.accept == n.accept - {s} && res.0.trans == n.trans && res.0.eps == n.eps && res.0.states == n.states
    ensures Valid(n) ==> Valid(res.0)
  {
    (n.(accept := n.accept - {s}), if s in n.accept then 1 else 0)
  }

  /** Edges are stored in sets: adding one twice is adding it once. */
  lemma AddTransitionIdempotent(n: Nfa, from: nat, c: Byte, to: nat)
    requires from < Bitset.Capacity && to < Bitset.Capacity
    ensures AddTransition(AddTransition(n, from, c, to).value, from, c, to) == AddTransition(n, from, c, to)
  {
    var once := Link(n, from, Sym(c), to);
    assert once.trans[from][Sym(c)] + {to} == once.trans[from][Sym(c)];
    assert once.trans[from][Sym(c) := once.trans[from][Sym(c)]] == once.trans[from];
    assert once.trans[from := once.trans[from]] == once.trans;
  }

  /** Removing an edge right after adding it reports it present. */
  lemma RemoveAfterAdd(n: Nfa, from: nat, c: Byte, to: nat)
    requires from < Bitset.Capacity && to < Bitset.Capacity
    ensures RemoveTransition(AddTransition(n, from, c, to).value, from, c, to).1 == 1
  {
  }

  /* ---------- ε-reachable sets ---------- */

  /** The states a bitset's element list yields, ascending. */
  function Ascending(s: set<nat>): (r: seq<nat>)
    ensures forall x :: x in r <==> x in s && x < Bitset.Capacity
  {
    AscendingFrom(s, 0)
  }

  function AscendingFrom(s: set<nat>, i: nat): (r: seq<nat>)
    ensures forall x :: x in r <==> x in s && i <= x < Bitset.Capacity
    decreases Bitset.Capacity - i
  {
    if i >= Bitset.Capacity then []
    else (if i in s then [i] else []) + AscendingFrom(s, i + 1)
  }

  ghost predicate Closed(n: Nfa, s: set<nat>)
  {
    forall x, y :: x in s && HasEps(n, x, y) ==> y in s
  }

  ghost predicate Below(stack: seq<nat>)
  {
    forall i :: 0 <= i < |stack| ==> stack[i] < Bitset.Capacity
  }

  /** The ε-successors of `x` in the ascending order a bitset lists them. */
  function Adjacent(n: Nfa, x: nat): (adj: seq<nat>)
    ensures Below(adj)
    ensures forall y: nat :: y in adj <==> HasEps(n, x, y) && y < Bitset.Capacity
  {
    if x in n.eps then
      var a := Ascending(n.eps[x]);
      assert forall i :: 0 <= i < |a| ==> a[i] in a;
      a
    else []
  }

  lemma BelowPush(stack: seq<nat>, adj: seq<nat>)
    requires |stack| > 0 && Below(stack) && Below(adj)
    ensures Below(stack[1..] + adj)
  {
    var next := stack[1..] + adj;
    forall i | 0 <= i < |next| ensures next[i] < Bitset.Capacity {
      if i < |stack| - 1 {
        assert next[i] == stack[i + 1];
      } else {
        assert next[i] == adj[i - (|stack| - 1)];
      }
    }
  }

  lemma InRange(x: nat)
    requires x < Bitset.Capacity
    ensures x in Range
  {
  }

  /**
   The depth-first walk of `fill_epsilon_reachable_map`: pop the front of
   the stack; if unseen, mark it and push its ε-successors.
   */
  function Walk(n: Nfa, stack: seq<nat>, seen: set<nat>): (r: set<nat>)
    requires seen <= Range && Below(stack)
    ensures r <= Range
    decreases Range - seen, |stack|
  {
    if |stack| == 0 then seen
    else
      var x := stack[0];
      if x in seen then Walk(n, stack[1..], seen)
      else
        BelowPush(stack, Adjacent(n, x));
        InRange(x);
        Walk(n, stack[1..] + Adjacent(n, x), seen + {x})
  }

  /** The ε-reachable set of `root`. */
  function Ers(n: Nfa, root: nat): (r: set<nat>)
    requires root < Bitset.Capacity
    ensures root in r && r <= Range
    ensures Valid(n) ==> Closed(n, r)
  {
    WalkSpec(n, [root], {});
    Walk(n, [root], {})
  }

  lemma {:induction false} WalkSpec(n: Nfa, stack: seq<nat>, seen: set<nat>)
    requires seen <= Range && Below(stack)
    requires forall x: nat, y: nat :: x in seen && HasEps(n, x, y) && y < Bitset.Capacity ==> y in seen || y in stack
    ensures seen <= Walk(n, stack, seen)
    ensures forall i :: 0 <= i < |stack| ==> stack[i] in Walk(n, stack, seen)
    ensures Valid(n) ==> Closed(n, Walk(n, stack, seen))
    decreases Range - seen, |stack|
  {
    if |stack| > 0 {
      var x := stack[0];
      if x in seen {
        WalkSpec(n, stack[1..], seen);
        forall i | 0 <= i < |stack|
          ensures stack[i] in Walk(n, stack, seen)
        {
          if i > 0 {
            assert stack[i] == stack[1..][i - 1];
          }
        }
      } else {
        var adj := Adjacent(n, x);
        var next := stack[1..] + adj;
        BelowPush(stack, adj);
        InRange(x);
        forall a: nat, b: nat | a in seen + {x} && HasEps(n, a, b) && b < Bitset.Capacity
          ensures b in seen + {x} || b in next
        {
          if a == x {
            assert b in adj;
          } else if b !in seen && b != x {
            var k :| 0 <= k < |stack| && stack[k] == b;
            assert next[k - 1] == b;
          }
        }
        WalkSpec(n, next, seen + {x});
        forall i | 0 <= i < |stack|
          ensures stack[i] in Walk(n, stack, seen)
        {
          if i > 0 {
            assert stack[i] == next[i - 1];
          }
        }
      }
    } else if Valid(n) {
      forall a: nat, b: nat | a in seen && HasEps(n, a, b) ensures b in seen {
        assert b in n.states;
      }
    }
  }

  lemma {:induction false} WalkLeast(n: Nfa, stack: seq<nat>, seen: set<nat>, s: set<nat>)
    requires seen <= Range && Below(stack)
    requires seen <= s && (forall i :: 0 <= i < |stack| ==> stack[i] in s) && Closed(n, s)
    ensures Walk(n, stack, seen) <= s
    decreases Range - seen, |stack|
  {
    if |stack| > 0 {
      var x := stack[0];
      BelowPush(stack, Adjacent(n, x));
      if x in seen {
        WalkLeast(n, stack[1..], seen, s);
      } else {
        var adj := Adjacent(n, x);
        var next := stack[1..] + adj;
        InRange(x);
        forall i | 0 <= i < |next|
          ensures next[i] in s
        {
          if i >= |stack| - 1 {
            assert next[i] in adj;
          } else {
            assert next[i] == stack[i + 1];
          }
        }
        WalkLeast(n, next, seen + {x}, s);
      }
    }
  }

  /** The ε-reachable set is the least ε-closed set that contains the root. */
  lemma ErsIsLeast(n: Nfa, root: nat, s: set<nat>)
    requires root < Bitset.Capacity
    requires root in s && Closed(n, s)
    ensures Ers(n, root) <= s
  {
    WalkLeast(n, [root], {}, s);
  }

  /** `fill_epsilon_reachable_map`: one ε-reachable set per state of `all_states`. */
  function ErsMap(n: Nfa): (m: map<nat, set<nat>>)
    requires Valid(n)
    ensures m.Keys == n.states
    ensures forall s | s in m :: m[s] <= Range
  {
    map s | s in n.states :: Ers(n, s)
  }

  /* ---------- ALL-edge expansion ---------- */

  /** Each ALL edge `from -> to` becomes one byte edge per alphabet symbol. */
  function AllEdges(n: Nfa, alphabet: seq<Byte>): (es: seq<(nat, Byte, nat)>)
    ensures forall e :: e in es <==> e.0 < Bitset.Capacity && HasEdge(n, e.0, All, e.2) && e.2 < Bitset.Capacity && e.1 in alphabet
  {
    AllEdgesFrom(n, alphabet, 0)
  }

  function AllEdgesFrom(n: Nfa, alphabet: seq<Byte>, i: nat): (es: seq<(nat, Byte, nat)>)
    ensures forall e :: e in es <==> i <= e.0 < Bitset.Capacity && HasEdge(n, e.0, All, e.2) && e.2 < Bitset.Capacity && e.1 in alphabet
    decreases Bitset.Capacity - i
  {
    if i >= Bitset.Capacity then []
    else
      var here := if i in n.trans && All in n.trans[i] then Fan(i, Ascending(n.trans[i][All]), alphabet) else [];
      here + AllEdgesFrom(n, alphabet, i + 1)
  }

  /** The edges `from -c-> t` for every listed target `t` and alphabet byte `c`. */
  function Fan(from: nat, targets: seq<nat>, alphabet: seq<Byte>): (es: seq<(nat, Byte, nat)>)
    ensures forall e :: e in es <==> e.0 == from && e.2 in targets && e.1 in alphabet
  {
    if |targets| == 0 then []
    else
      assert targets == [targets[0]] + targets[1..];
      Spread(from, alphabet, targets[0]) + Fan(from, targets[1..], alphabet)
  }

  /** The edges `from -c-> to` for every alphabet byte `c`. */
  function Spread(from: nat, alphabet: seq<Byte>, to: nat): (es: seq<(nat, Byte, nat)>)
    ensures forall e :: e in es <==> e.0 == from && e.2 == to && e.1 in alphabet
  {
    if |alphabet| == 0 then []
    else
      assert alphabet == [alphabet[0]] + alphabet[1..];
      [(from, alphabet[0], to)] + Spread(from, alphabet[1..], to)
  }

  /** Adds the byte edges `es` one after another. */
  function AddEdges(n: Nfa, es: seq<(nat, Byte, nat)>): (r: Nfa)
    requires Valid(n)
    requires forall e | e in es :: e.0 in n.states && e.2 in n.states
    ensures Valid(r) && r.states == n.states
    ensures forall s: nat, l: Label, t: nat :: HasEdge(r, s, l, t) <==> HasEdge(n, s, l, t) || (l.Sym? && (s, l.c, t) in es)
    ensures r.eps == n.eps && r.accept == n.accept && r.begin == n.begin
  {
    if |es| == 0 then n
    else
      var last := es[|es| - 1];
      var front := es[..|es| - 1];
      assert es == front + [last];
      Link(AddEdges(n, front), last.0, Sym(last.1), last.2)
  }

  lemma EdgesWithin(n: Nfa)
    requires Valid(n)
    ensures forall s: nat, l: Label, t: nat :: HasEdge(n, s, l, t) ==> s in n.states && t in n.states
    ensures forall s: nat, l: Label, t: nat :: HasEdge(n, s, l, t) ==> s < Bitset.Capacity && t < Bitset.Capacity
  {
    forall s: nat, l: Label, t: nat | HasEdge(n, s, l, t)
      ensures s in n.states && t in n.states && s < Bitset.Capacity && t < Bitset.Capacity
    {
      assert n.trans[s][l] <= n.states;
      InRangeBelow(s, n.states);
      InRangeBelow(t, n.states);
    }
  }

  lemma InRangeBelow(x: nat, s: set<nat>)
    requires x in s && s <= Range
    ensures x < Bitset.Capacity
  {
  }

  /** `replace_all_transitions_with_alphabet_set_transitions`. */
  function ExpandAll(n: Nfa, alphabet: seq<Byte>): (r: Nfa)
    requires Valid(n)
    ensures Valid(r) && r.eps == n.eps && r.accept == n.accept && r.begin == n.begin && r.states == n.states
    ensures forall s: nat, l: Label, t: nat :: HasEdge(r, s, l, t) <==>
      HasEdge(n, s, l, t) || (l.Sym? && l.c in alphabet && HasEdge(n, s, All, t))
  {
    AllEdgesExact(n, alphabet);
    AddEdges(n, AllEdges(n, alphabet))
  }

  lemma AllEdgesExact(n: Nfa, alphabet: seq<Byte>)
    requires Valid(n)
    ensures forall e | e in AllEdges(n, alphabet) :: e.0 in n.states && e.2 in n.states
    ensures forall s: nat, c: Byte, t: nat :: (s, c, t) in AllEdges(n, alphabet) <==> HasEdge(n, s, All, t) && c in alphabet
  {
    EdgesWithin(n);
    var es := AllEdges(n, alphabet);
    forall e | e in es ensures e.0 in n.states && e.2 in n.states {
      assert HasEdge(n, e.0, All, e.2);
    }
    forall s: nat, c: Byte, t: nat
      ensures (s, c, t) in es <==> HasEdge(n, s, All, t) && c in alphabet
    {
      AllEdgeAt(n, alphabet, s, c, t);
    }
  }

  lemma AllEdgeAt(n: Nfa, alphabet: seq<Byte>, s: nat, c: Byte, t: nat)
    requires Valid(n)
    ensures (s, c, t) in AllEdges(n, alphabet) <==> HasEdge(n, s, All, t) && c in alphabet
  {
    var es, e := AllEdges(n, alphabet), (s, c, t);
    assert e in es ==> HasEdge(n, s, All, t) && c in alphabet;
    if HasEdge(n, s, All, t) {
      EdgeBelow(n, s, All, t);
      if c in alphabet {
        MemberOfAll(n, alphabet, es, e);
      }
    }
  }

  lemma MemberOfAll(n: Nfa, alphabet: seq<Byte>, es: seq<(nat, Byte, nat)>, e: (nat, Byte, nat))
    requires forall e :: e in es <==> e.0 < Bitset.Capacity && HasEdge(n, e.0, All, e.2) && e.2 < Bitset.Capacity && e.1 in alphabet
    requires e.0 < Bitset.Capacity && HasEdge(n, e.0, All, e.2) && e.2 < Bitset.Capacity && e.1 in alphabet
    ensures e in es
  {
  }

  lemma EdgeBelow(n: Nfa, s: nat, l: Label, t: nat)
    requires Valid(n) && HasEdge(n, s, l, t)
    ensures s < Bitset.Capacity && t < Bitset.Capacity
  {
    assert n.trans[s][l] <= n.states;
    InRangeBelow(s, n.states);
    InRangeBelow(t, n.states);
  }

  /* ---------- subset construction ---------- */

  /** The labels leaving any state of `p`. */
  function Labels(n: Nfa, p: set<nat>): set<Label>
  {
    set s, l | s in p && s in n.trans && l in n.trans[s] :: l
  }

  /** `compute_transition_set`: the union of `ers[t]` over the direct `l`-successors `t` of `p`. */
  function TransitionSet(n: Nfa, ers: map<nat, set<nat>>, p: set<nat>, l: Label): (r: set<nat>)
    ensures forall y :: y in r <==> exists s, t :: s in p && HasEdge(n, s, l, t) && t in ers && y in ers[t]
  {
    set s, t, y | s in p && s in n.trans && l in n.trans[s] && t in n.trans[s][l] && t in ers && y in ers[t] :: y
  }

  lemma NoLabelNoSuccessors(n: Nfa, ers: map<nat, set<nat>>, p: set<nat>, l: Label)
    requires l !in Labels(n, p)
    ensures TransitionSet(n, ers, p, l) == {}
  {
  }

  /** The state sets the subset simulation passes through on `w`. */
  ghost function SubsetRun(n: Nfa, ers: map<nat, set<nat>>, p: set<nat>, w: seq<Byte>): set<nat>
    decreases |w|
  {
    if |w| == 0 then p else SubsetRun(n, ers, TransitionSet(n, ers, p, Sym(w[0])), w[1..])
  }

  lemma {:induction false} EmptyStaysEmpty(n: Nfa, ers: map<nat, set<nat>>, w: seq<Byte>)
    ensures SubsetRun(n, ers, {}, w) == {}
    decreases |w|
  {
    if |w| > 0 {
      NoLabelNoSuccessors(n, ers, {}, Sym(w[0]));
      EmptyStaysEmpty(n, ers, w[1..]);
    }
  }

  /** A state set of the DFA is accepting when it holds an NFA accept state. */
  predicate HoldsAccept(n: Nfa, x: set<nat>)
  {
    x * n.accept != {}
  }

  /**
   The NFA's language: from the ε-reachable set of the begin state, move on
   each byte to the ε-reachable sets of the direct successors; accept when an
   accept state is among the final states.
   */
  ghost predicate Accepts(n: Nfa, w: seq<Byte>)
    requires Valid(n)
  {
    n.begin in n.states && HoldsAccept(n, SubsetRun(n, ErsMap(n), Ers(n, n.begin), w))
  }

  ghost function PowerSet(u: set<nat>): (ps: set<set<nat>>)
    ensures forall s :: s <= u ==> s in ps
  {
    if u == {} then
      assert forall s :: s <= u ==> s == {};
      {{}}
    else
      var x :| x in u;
      var smaller := PowerSet(u - {x});
      var r := smaller + set s | s in smaller :: s + {x};
      forall s | s <= u ensures s in r {
        assert s - {x} <= u - {x};
        if x in s {
          assert s == (s - {x}) + {x};
        } else {
          assert s == s - {x};
        }
      }
      r
  }

  /** Transitions of the DFA under construction are exactly the byte labels of processed sets. */
  ghost predicate TransOk(n: Nfa, ers: map<nat, set<nat>>, trans: map<(set<nat>, Byte), set<nat>>, seen: set<set<nat>>)
  {
    forall k | k in trans :: k.0 in seen && Sym(k.1) in Labels(n, k.0) && trans[k] == TransitionSet(n, ers, k.0, Sym(k.1))
  }

  ghost predicate Complete(n: Nfa, ers: map<nat, set<nat>>, trans: map<(set<nat>, Byte), set<nat>>,
                           seen: set<set<nat>>, queue: seq<set<nat>>)
  {
    forall p: set<nat>, c: Byte :: p in seen && Sym(c) in Labels(n, p) ==>
      (p, c) in trans && (TransitionSet(n, ers, p, Sym(c)) in seen || TransitionSet(n, ers, p, Sym(c)) in queue)
  }

  ghost predicate AcceptOk(n: Nfa, accept: set<set<nat>>, seen: set<set<nat>>)
  {
    && (forall x | x in accept :: HoldsAccept(n, x))
    && (forall p | p in seen && HoldsAccept(n, p) :: p in accept)
  }

  /**
   `process_next_state_set`: mark `p` accepting if it holds an accept state;
   then, once per label leaving `p`, compute the successor set, add the DFA
   transition for a byte label, mark the successor accepting if it is, and
   queue it.
   */
  method ProcessSet(n: Nfa, ers: map<nat, set<nat>>, d: MapDfa.Dfa<set<nat>, Byte>, p: set<nat>)
    returns (d': MapDfa.Dfa<set<nat>, Byte>, pushed: seq<set<nat>>)
    requires !d.locked
    requires forall s | s in ers :: ers[s] <= Range
    ensures !d'.locked && d'.begin == d.begin
    ensures RowDone(n, ers, d.trans, d'.trans, p, Labels(n, p))
    ensures forall l | l in Labels(n, p) :: TransitionSet(n, ers, p, l) in pushed
    ensures forall x | x in pushed :: x <= Range
    ensures AcceptDone(n, d.accept, d'.accept, p, pushed)
  {
    d' := d;
    if HoldsAccept(n, p) {
      d' := MapDfa.AddAcceptState(d', p).value;
    }
    pushed := [];
    var todo := Labels(n, p);
    ghost var done: set<Label> := {};
    while todo != {}
      invariant todo + done == Labels(n, p) && todo !! done
      invariant !d'.locked && d'.begin == d.begin
      invariant RowDone(n, ers, d.trans, d'.trans, p, done)
      invariant forall l | l in done :: TransitionSet(n, ers, p, l) in pushed
      invariant forall x | x in pushed :: x <= Range
      invariant AcceptDone(n, d.accept, d'.accept, p, pushed)
      decreases todo
    {
      var l :| l in todo;
      d', pushed := ProcessLabel(n, ers, d, d', p, l, done, pushed);
      todo := todo - {l};
      done := done + {l};
    }
  }

  /** The transitions out of `p` for the labels in `done` have been added to `base`. */
  ghost predicate RowDone(n: Nfa, ers: map<nat, set<nat>>, base: map<(set<nat>, Byte), set<nat>>,
                          cur: map<(set<nat>, Byte), set<nat>>, p: set<nat>, done: set<Label>)
  {
    && (forall k :: k in cur <==> k in base || (k.0 == p && Sym(k.1) in done))
    && (forall k | k in cur ::
          cur[k] == if k.0 == p && Sym(k.1) in done then TransitionSet(n, ers, p, Sym(k.1)) else base[k])
  }

  /** The accept sets are `base` plus `p` and the pushed sets, each when it holds an accept state. */
  ghost predicate AcceptDone(n: Nfa, base: set<set<nat>>, cur: set<set<nat>>, p: set<nat>, pushed: seq<set<nat>>)
  {
    forall x :: x in cur <==> x in base || ((x == p || x in pushed) && HoldsAccept(n, x))
  }

  /** One label of `process_next_state_set`. */
  method ProcessLabel(n: Nfa, ers: map<nat, set<nat>>, d0: MapDfa.Dfa<set<nat>, Byte>, d: MapDfa.Dfa<set<nat>, Byte>,
                      p: set<nat>, l: Label, ghost done: set<Label>, pushed: seq<set<nat>>)
    returns (d': MapDfa.Dfa<set<nat>, Byte>, pushed': seq<set<nat>>)
    requires !d.locked && l !in done
    requires forall s | s in ers :: ers[s] <= Range
    requires RowDone(n, ers, d0.trans, d.trans, p, done)
    requires AcceptDone(n, d0.accept, d.accept, p, pushed)
    requires forall x | x in pushed :: x <= Range
    ensures !d'.locked && d'.begin == d.begin
    ensures RowDone(n, ers, d0.trans, d'.trans, p, done + {l})
    ensures AcceptDone(n, d0.accept, d'.accept, p, pushed')
    ensures pushed' == pushed + [TransitionSet(n, ers, p, l)]
    ensures forall x | x in pushed' :: x <= Range
  {
    var next := TransitionSet(n, ers, p, l);
    TransitionSetBelow(n, ers, p, l);
    d' := d;
    if l.Sym? {
      d' := MapDfa.AddTransition(d', p, l.c, next).value;
      RowAdd(n, ers, d0.trans, d.trans, d'.trans, p, done, l);
    } else {
      RowSkip(n, ers, d0.trans, d.trans, p, done, l);
    }
    var d1 := d';
    if HoldsAccept(n, next) {
      d' := MapDfa.AddAcceptState(d', next).value;
    }
    pushed' := pushed + [next];
    AcceptPush(n, d0.accept, d1.accept, d'.accept, p, pushed, next);
  }

  /** Filling in the row entry for symbol `l` extends the finished part of the row by `l`. */
  lemma RowAdd(n: Nfa, ers: map<nat, set<nat>>, base: map<(set<nat>, Byte), set<nat>>,
               cur: map<(set<nat>, Byte), set<nat>>, cur': map<(set<nat>, Byte), set<nat>>,
               p: set<nat>, done: set<Label>, l: Label)
    requires l.Sym? && l !in done && RowDone(n, ers, base, cur, p, done)
    requires cur'.Keys == cur.Keys + {(p, l.c)} && cur'[(p, l.c)] == TransitionSet(n, ers, p, l)
    requires forall k | k in cur && k != (p, l.c) :: cur'[k] == cur[k]
    ensures RowDone(n, ers, base, cur', p, done + {l})
  {
    forall k | k in cur'
      ensures cur'[k] == if k.0 == p && Sym(k.1) in done + {l} then TransitionSet(n, ers, p, Sym(k.1)) else base[k]
    {
      if k != (p, l.c) {
        assert k in cur;
      }
    }
  }

  /** The ALL label adds no row entry. */
  lemma RowSkip(n: Nfa, ers: map<nat, set<nat>>, base: map<(set<nat>, Byte), set<nat>>,
                cur: map<(set<nat>, Byte), set<nat>>, p: set<nat>, done: set<Label>, l: Label)
    requires !l.Sym? && RowDone(n, ers, base, cur, p, done)
    ensures RowDone(n, ers, base, cur, p, done + {l})
  {
    forall k: (set<nat>, Byte) ensures Sym(k.1) in done + {l} <==> Sym(k.1) in done {
    }
  }

  /** Marking the pushed set accepting when it holds an accept state keeps the accept sets exact. */
  lemma AcceptPush(n: Nfa, base: set<set<nat>>, cur: set<set<nat>>, cur': set<set<nat>>,
                   p: set<nat>, pushed: seq<set<nat>>, next: set<nat>)
    requires AcceptDone(n, base, cur, p, pushed)
    requires cur' == if HoldsAccept(n, next) then cur + {next} else cur
    ensures AcceptDone(n, base, cur', p, pushed + [next])
  {
    forall x ensures x in pushed + [next] <==> x in pushed || x == next {
    }
  }

  lemma TransitionSetBelow(n: Nfa, ers: map<nat, set<nat>>, p: set<nat>, l: Label)
    requires forall s | s in ers :: ers[s] <= Range
    ensures TransitionSet(n, ers, p, l) <= Range
  {
  }

  /**
   `nfa_to_dfa`: ε-reachable sets first, then ALL expansion, then a
   breadth-first walk from the begin state's ε-reachable set that expands
   each distinct state set once. When the begin state is not in
   `all_states`, the first `map_at` fails as `BeginMissFault` says.
   */
  method ToDfa(n: Nfa, alphabet: seq<Byte>) returns (r: Result<MapDfa.Dfa<set<nat>, Byte>, Fault>)
    requires Valid(n)
    ensures r.Failure? <==> n.begin !in n.states
    ensures r.Failure? ==> r.error == BeginMissFault(n)
    ensures r.Success? ==> r.value.begin == Ers(n, n.begin) && !r.value.locked
    ensures r.Success? ==> forall x | x in r.value.accept :: HoldsAccept(n, x)
    ensures r.Success? ==> forall w :: MapDfa.Accepts(r.value, w) <==> Accepts(ExpandAll(n, alphabet), w)
  {
    var ers := ErsMap(n);
    if n.begin !in ers {
      return Failure(BeginMissFault(n));
    }
    var m := ExpandAll(n, alphabet);
    ExpandKeepsErs(n, alphabet);
    var d0 := MapDfa.New(ers[n.begin]);
    assert Walking(n, m, ers, d0, [ers[n.begin]], {});
    var d, seen := Explore(n, m, ers, d0);
    ToDfaLanguage(n, m, ers, d, seen);
    r := Success(d);
  }

  /**
   How `map_at(epsilon_reachable_map, begin_state)` fails when the begin
   state is not recorded. The map holds one entry per recorded state, and its
   default hash reads a `size_t` key's bytes back in place, so a key is its
   own hash: the lookup exits with INVKEY when a recorded state shares the
   begin state's bucket and dereferences NULL when none does.
   */
  function BeginMissFault(n: Nfa): Fault
  {
    var b := HashMap.BucketsAfter(|n.states|);
    if exists t | t in n.states :: t % b == n.begin % b then Exit(HashMap.InvKey) else NullDeref
  }

  /**
   Filling the ε-reachable map by inserting the recorded states in any
   order and then asking for a begin state that is not among them stops
   exactly as `BeginMissFault` says.
   */
  lemma BeginMissFaultAgrees(n: Nfa, es: seq<(nat, set<nat>)>)
    requires n.begin !in n.states
    requires HashMap.DistinctKeys(es) && HashMap.KeysOf(es) == n.states
    ensures HashMap.At(HashMap.InsertAll(HashMap.New(), HashMap.Id, es), HashMap.Id, n.begin) == Failure(BeginMissFault(n))
  {
    HashMap.FilledMissFault(HashMap.Id, es, n.begin);
  }

  /** With no edges at all nothing is recorded, and the lookup dereferences NULL. */
  lemma NoEdgesDerefsNull(n: Nfa)
    requires n.states == {}
    ensures BeginMissFault(n) == NullDeref
  {
  }

  /** The breadth-first walk from the begin state's ε-reachable set, until the queue is empty. */
  method Explore(ghost n: Nfa, m: Nfa, ers: map<nat, set<nat>>, d0: MapDfa.Dfa<set<nat>, Byte>)
    returns (d: MapDfa.Dfa<set<nat>, Byte>, seen: set<set<nat>>)
    requires n.begin in ers && Walking(n, m, ers, d0, [ers[n.begin]], {})
    ensures Walking(n, m, ers, d, [], seen)
  {
    d := d0;
    var queue := [d0.begin];
    seen := {};
    ghost var all := PowerSet(Range);
    while |queue| > 0
      invariant Walking(n, m, ers, d, queue, seen)
      decreases all - seen, |queue|
    {
      d, queue, seen := Advance(n, m, ers, d, queue, seen);
    }
  }

  /** The invariants of the breadth-first walk of `nfa_to_dfa`. */
  ghost predicate Walking(n: Nfa, m: Nfa, ers: map<nat, set<nat>>, d: MapDfa.Dfa<set<nat>, Byte>,
                          queue: seq<set<nat>>, seen: set<set<nat>>)
    requires n.begin in ers
  {
    && !d.locked && d.begin == ers[n.begin]
    && (forall s | s in ers :: ers[s] <= Range)
    && (forall x | x in queue :: x <= Range)
    && seen <= PowerSet(Range)
    && TransOk(m, ers, d.trans, seen)
    && Complete(m, ers, d.trans, seen, queue)
    && AcceptOk(n, d.accept, seen)
    && (ers[n.begin] in seen || ers[n.begin] in queue)
    && m.accept == n.accept
  }

  /** One turn of the walk: take the front set and expand it unless it was expanded before. */
  method Advance(ghost n: Nfa, m: Nfa, ers: map<nat, set<nat>>, d: MapDfa.Dfa<set<nat>, Byte>,
                 queue: seq<set<nat>>, seen: set<set<nat>>)
    returns (d': MapDfa.Dfa<set<nat>, Byte>, queue': seq<set<nat>>, seen': set<set<nat>>)
    requires |queue| > 0 && n.begin in ers
    requires Walking(n, m, ers, d, queue, seen)
    ensures Walking(n, m, ers, d', queue', seen')
    ensures seen <= seen' <= PowerSet(Range)
    ensures seen' == seen ==> |queue'| < |queue|
    ensures seen' != seen ==> PowerSet(Range) - seen' < PowerSet(Range) - seen
  {
    var p := queue[0];
    if p !in seen {
      var pushed;
      d', pushed := ProcessSet(m, ers, d, p);
      ProcessKeeps(m, ers, d, d', seen, queue, pushed);
      PowerSetHas(p);
      d', seen', queue' := d', seen + {p}, queue[1..] + pushed;
      assert m.accept == n.accept;
    } else {
      d', seen', queue' := d, seen, queue[1..];
    }
  }

  lemma PowerSetHas(p: set<nat>)
    requires p <= Range
    ensures p in PowerSet(Range)
  {
  }

  /** ALL expansion adds only labelled edges, so the ε-reachable sets stay the same. */
  lemma ExpandKeepsErs(n: Nfa, alphabet: seq<Byte>)
    requires Valid(n)
    ensures ErsMap(ExpandAll(n, alphabet)) == ErsMap(n)
  {
    var m := ExpandAll(n, alphabet);
    forall s | s in n.states ensures Ers(m, s) == Ers(n, s) {
      InRangeBelow(s, n.states);
      SameEpsSameErs(n, m, s);
    }
  }

  /** The ε-reachable sets depend on the ε-edges alone. */
  lemma SameEpsSameErs(n: Nfa, m: Nfa, s: nat)
    requires Valid(n) && Valid(m) && n.eps == m.eps && s < Bitset.Capacity
    ensures Ers(m, s) == Ers(n, s)
  {
    var a, b := Ers(n, s), Ers(m, s);
    SameEpsClosed(n, m, a);
    SameEpsClosed(n, m, b);
    ErsIsLeast(m, s, a);
    ErsIsLeast(n, s, b);
  }

  lemma SameEpsClosed(n: Nfa, m: Nfa, a: set<nat>)
    requires n.eps == m.eps
    ensures Closed(n, a) <==> Closed(m, a)
  {
  }

  /** Processing the queue's front set `p` keeps the breadth-first walk's invariants. */
  lemma ProcessKeeps(n: Nfa, ers: map<nat, set<nat>>, d: MapDfa.Dfa<set<nat>, Byte>, d': MapDfa.Dfa<set<nat>, Byte>,
                     seen: set<set<nat>>, queue: seq<set<nat>>, pushed: seq<set<nat>>)
    requires |queue| > 0 && queue[0] !in seen
    requires TransOk(n, ers, d.trans, seen) && Complete(n, ers, d.trans, seen, queue) && AcceptOk(n, d.accept, seen)
    requires RowDone(n, ers, d.trans, d'.trans, queue[0], Labels(n, queue[0]))
    requires forall l | l in Labels(n, queue[0]) :: TransitionSet(n, ers, queue[0], l) in pushed
    requires AcceptDone(n, d.accept, d'.accept, queue[0], pushed)
    ensures TransOk(n, ers, d'.trans, seen + {queue[0]})
    ensures Complete(n, ers, d'.trans, seen + {queue[0]}, queue[1..] + pushed)
    ensures AcceptOk(n, d'.accept, seen + {queue[0]})
  {
    var p := queue[0];
    var next := queue[1..] + pushed;
    forall q: set<nat>, c: Byte | q in seen + {p} && Sym(c) in Labels(n, q)
      ensures (q, c) in d'.trans
      ensures TransitionSet(n, ers, q, Sym(c)) in seen + {p} || TransitionSet(n, ers, q, Sym(c)) in next
    {
      var t := TransitionSet(n, ers, q, Sym(c));
      if q != p && t !in seen && t != p {
        assert t in queue;
        var k :| 0 <= k < |queue| && queue[k] == t;
        assert next[k - 1] == t;
      }
    }
  }

  /** With the queue empty, the DFA accepts exactly the words the subset simulation accepts. */
  lemma ToDfaLanguage(n: Nfa, m: Nfa, ers: map<nat, set<nat>>, d: MapDfa.Dfa<set<nat>, Byte>, seen: set<set<nat>>)
    requires Valid(n) && Valid(m) && m.accept == n.accept && m.begin == n.begin && m.states == n.states
    requires n.begin in n.states && ErsMap(m) == ers && ErsMap(n) == ers && d.begin == ers[n.begin]
    requires TransOk(m, ers, d.trans, seen) && Complete(m, ers, d.trans, seen, []) && AcceptOk(n, d.accept, seen)
    requires ers[n.begin] in seen
    ensures d.begin == Ers(n, n.begin)
    ensures forall w :: MapDfa.Accepts(d, w) <==> Accepts(m, w)
  {
    forall w ensures MapDfa.Accepts(d, w) <==> Accepts(m, w) {
      ClosedRun(m, ers, d.trans, seen, ers[n.begin], w);
    }
  }

  /** Once the queue is empty, the DFA run from a processed set follows the subset simulation. */
  lemma {:induction false} ClosedRun(n: Nfa, ers: map<nat, set<nat>>, trans: map<(set<nat>, Byte), set<nat>>,
                                     seen: set<set<nat>>, p: set<nat>, w: seq<Byte>)
    requires p in seen
    requires TransOk(n, ers, trans, seen) && Complete(n, ers, trans, seen, [])
    ensures var q := MapDfa.Delta(trans, p, w);
      && (q.Some? ==> q.value == SubsetRun(n, ers, p, w) && q.value in seen)
      && (q.None? ==> SubsetRun(n, ers, p, w) == {})
    decreases |w|
  {
    if |w| > 0 {
      if (p, w[0]) in trans {
        ClosedRun(n, ers, trans, seen, trans[(p, w[0])], w[1..]);
      } else {
        NoLabelNoSuccessors(n, ers, p, Sym(w[0]));
        EmptyStaysEmpty(n, ers, w[1..]);
      }
    }
  }
}

=== FILE: regex_syntax.dfy ===
/**
 Pattern syntax shared by the two regex front ends, src/lexer/greedy_regex.h
 and src/lexer/regex.c: splitting a pattern into its top-level alternatives
 and reading the bounds of a `{m,n}` repeat token.

 Positions are 0-based offsets into the pattern; a `Slice(start, end)` is
 the segment `[start, end)`, as `_regex_string_segment_from` builds it.
 Counters the C code keeps in `size_t` are kept modulo `SizeRange` here.
 */
module RegexSyntax {
  import opened Wrappers

  datatype Slice = Slice(start: nat, end: nat)

  function Text(s: string, g: Slice): string
    requires g.start <= g.end <= |s|
  {
    s[g.start..g.end]
  }

  /* ---------- splitting into alternatives ---------- */

  /** The scan steps over the character right after an unskipped backslash. */
  predicate Skipped(s: string, j: nat)
    requires j <= |s|
  {
    j > 0 && s[j - 1] == '\\' && !Skipped(s, j - 1)
  }

  /** How the parenthesis depth changes at `j`: skipped characters do not count. */
  function Delta(s: string, j: nat): int
    requires j < |s|
  {
    if Skipped(s, j) then 0 else if s[j] == '(' then 1 else if s[j] == ')' then -1 else 0
  }

  /** The parenthesis depth in front of position `i`, as an unbounded integer. */
  function Depth(s: string, i: nat): int
    requires i <= |s|
  {
    if i == 0 then 0 else Depth(s, i - 1) + Delta(s, i - 1)
  }

  /** A `|` that separates alternatives: not escaped and at depth 0 (as a `size_t`). */
  predicate IsCut(s: string, j: nat)
    requires j < |s|
  {
    !Skipped(s, j) && s[j] == '|' && Depth(s, j) % SizeRange == 0
  }

  /**
   `g` lists the alternatives of `s` from left to right: consecutive
   slices separated by exactly the cuts of `s`, where a cut in the last
   position leaves no empty alternative behind it.
   */
  ghost predicate Splits(s: string, g: seq<Slice>)
  {
    && (|g| == 0 <==> |s| == 0)
    && (forall k :: 0 <= k < |g| ==> g[k].start <= g[k].end <= |s|)
    && (|g| > 0 ==> g[0].start == 0)
    && (forall k :: 0 <= k < |g| - 1 ==> g[k].end < |s| && IsCut(s, g[k].end) && g[k + 1].start == g[k].end + 1)
    && (forall k, j :: 0 <= k < |g| && g[k].start <= j < g[k].end ==> !IsCut(s, j))
    && (|g| > 0 ==> g[|g| - 1].end == |s| || (g[|g| - 1].end == |s| - 1 && IsCut(s, |s| - 1)))
  }

  /** The alternatives found so far: `acc` tiles `s[..begin]` and nothing in `[begin, upto)` is a cut. */
  ghost predicate SplitSoFar(s: string, acc: seq<Slice>, begin: nat, upto: nat)
  {
    && begin <= upto <= |s|
    && (|acc| == 0 ==> begin == 0)
    && (|acc| > 0 ==> acc[0].start == 0 && begin == acc[|acc| - 1].end + 1)
    && (forall k :: 0 <= k < |acc| ==> acc[k].start <= acc[k].end < |s| && IsCut(s, acc[k].end))
    && (forall k :: 0 <= k < |acc| - 1 ==> acc[k + 1].start == acc[k].end + 1)
    && (forall k, j :: 0 <= k < |acc| && acc[k].start <= j < acc[k].end ==> !IsCut(s, j))
    && (forall j :: begin <= j < upto ==> !IsCut(s, j))
  }

  /** Where the scan can stand: an unskipped position, or one past the end after a final backslash. */
  ghost predicate ScanPos(s: string, i: nat)
  {
    (i <= |s| && !Skipped(s, i)) || (i == |s| + 1 && Skipped(s, |s|))
  }

  function Min(a: nat, b: nat): nat
  {
    if a < b then a else b
  }

  /** The depth change of an unskipped character, as the C code computes it. */
  function Step(c: char): int
  {
    (if c == '(' then 1 else 0) - (if c == ')' then 1 else 0)
  }

  /** A backslash and the character it escapes leave the depth and the cuts alone. */
  lemma EscapeStep(s: string, i: nat, begin: nat, acc: seq<Slice>)
    requires i < |s| && s[i] == '\\' && ScanPos(s, i) && SplitSoFar(s, acc, begin, i)
    ensures ScanPos(s, i + 2) && Depth(s, Min(i + 2, |s|)) == Depth(s, i)
    ensures SplitSoFar(s, acc, begin, Min(i + 2, |s|))
  {
    assert Delta(s, i) == 0;
    assert i + 1 < |s| ==> Skipped(s, i + 1) && Delta(s, i + 1) == 0;
  }

  /** Any other character moves the depth by `Step` and is a cut exactly when the scan cuts there. */
  lemma PlainStep(s: string, i: nat, level: nat, begin: nat, acc: seq<Slice>)
    requires i < |s| && s[i] != '\\' && ScanPos(s, i) && SplitSoFar(s, acc, begin, i)
    requires level == Depth(s, i) % SizeRange
    ensures ScanPos(s, i + 1)
    ensures (level + Step(s[i])) % SizeRange == Depth(s, i + 1) % SizeRange
    ensures IsCut(s, i) <==> s[i] == '|' && (level + Step(s[i])) % SizeRange == 0
    ensures IsCut(s, i) ==> SplitSoFar(s, acc + [Slice(begin, i)], i + 1, i + 1)
    ensures !IsCut(s, i) ==> SplitSoFar(s, acc, begin, i + 1)
  {
    assert !Skipped(s, i + 1);
    assert Delta(s, i) == Step(s[i]);
    assert (level + Step(s[i])) % SizeRange == (Depth(s, i) + Step(s[i])) % SizeRange;
  }

  /** The scan's final push completes the split. */
  lemma FinishStep(s: string, begin: nat, acc: seq<Slice>)
    requires SplitSoFar(s, acc, begin, |s|)
    ensures Splits(s, if begin != |s| then acc + [Slice(begin, |s|)] else acc)
  {
    if begin != |s| {
      FinishPush(s, begin, acc);
    } else if |acc| > 0 {
      FinishAtCut(s, acc);
    }
  }

  /** A scan that ends right after a cut adds no empty alternative. */
  lemma FinishAtCut(s: string, acc: seq<Slice>)
    requires |acc| > 0 && SplitSoFar(s, acc, |s|, |s|)
    ensures Splits(s, acc)
  {
    assert acc[|acc| - 1].end == |s| - 1 && IsCut(s, |s| - 1);
    assert forall k :: 0 <= k < |acc| - 1 ==> acc[k].end < |s| && IsCut(s, acc[k].end) && acc[k + 1].start == acc[k].end + 1;
  }

  lemma FinishPush(s: string, begin: nat, acc: seq<Slice>)
    requires SplitSoFar(s, acc, begin, |s|) && begin < |s|
    ensures Splits(s, acc + [Slice(begin, |s|)])
  {
    var g := acc + [Slice(begin, |s|)];
    PushKeeps(acc, Slice(begin, |s|));
    FinishTiles(s, begin, acc);
    forall k, j | 0 <= k < |g| && g[k].start <= j < g[k].end
      ensures !IsCut(s, j)
    {
      if k < |acc| {
        assert g[k] == acc[k];
      }
    }
  }

  /** The final push keeps the slices in bounds and separated by exactly one cut each. */
  lemma FinishTiles(s: string, begin: nat, acc: seq<Slice>)
    requires SplitSoFar(s, acc, begin, |s|) && begin < |s|
    ensures var g := acc + [Slice(begin, |s|)];
      && (forall k :: 0 <= k < |g| ==> g[k].start <= g[k].end <= |s|)
      && g[0].start == 0
      && (forall k :: 0 <= k < |g| - 1 ==> g[k].end < |s| && IsCut(s, g[k].end) && g[k + 1].start == g[k].end + 1)
  {
    var g := acc + [Slice(begin, |s|)];
    PushKeeps(acc, Slice(begin, |s|));
    forall k | 0 <= k < |g| - 1
      ensures g[k].end < |s| && IsCut(s, g[k].end) && g[k + 1].start == g[k].end + 1
    {
      assert g[k] == acc[k];
      if k + 1 < |acc| {
        assert g[k + 1] == acc[k + 1];
      }
    }
  }

  lemma PushKeeps(acc: seq<Slice>, last: Slice)
    ensures forall k :: 0 <= k < |acc| ==> (acc + [last])[k] == acc[k]
    ensures (acc + [last])[|acc|] == last
  {
  }

  /**
   The loop of `_regex_split_by_capturing_groups`. `level` is the `size_t`
   paren counter; `begin` is `capture_group_begin_offset`.
   */
  function GroupScan(s: string, i: nat, level: nat, begin: nat, acc: seq<Slice>): (r: Result<seq<Slice>, Fault>)
    requires ScanPos(s, i) && level == Depth(s, Min(i, |s|)) % SizeRange
    requires SplitSoFar(s, acc, begin, Min(i, |s|))
    ensures r.Failure? <==> Depth(s, |s|) % SizeRange != 0
    ensures r.Failure? ==> r.error == AssertFailed
    ensures r.Success? ==> Splits(s, r.value)
    decreases |s| + 1 - i
  {
    if i >= |s| then
      FinishStep(s, begin, acc);
      if level != 0 then Failure(AssertFailed)
      else Success(if begin != |s| then acc + [Slice(begin, |s|)] else acc)
    else if s[i] == '\\' then
      EscapeStep(s, i, begin, acc);
      GroupScan(s, i + 2, level, begin, acc)
    else
      var level' := (level + Step(s[i])) % SizeRange;
      PlainStep(s, i, level, begin, acc);
      if s[i] == '|' && level' == 0 then
        GroupScan(s, i + 1, level', i + 1, acc + [Slice(begin, i)])
      else
        GroupScan(s, i + 1, level', begin, acc)
  }

  /**
   `_regex_split_by_capturing_groups` (both front ends). The depth counter
   is a `size_t`, so a `)` with no open `(` wraps it around instead of
   making it negative, and the `0 > paren_level` test never fires.
   */
  function SplitGroups(s: string): (r: Result<seq<Slice>, Fault>)
    ensures r.Failure? <==> Depth(s, |s|) % SizeRange != 0
    ensures r.Failure? ==> r.error == AssertFailed
    ensures r.Success? ==> Splits(s, r.value)
  {
    GroupScan(s, 0, 0, 0, [])
  }

  /** A `)` met when the `size_t` depth is 0: the case the dead `0 > paren_level` test was written for. */
  predicate ClosesUnopened(s: string, j: nat)
    requires j < |s|
  {
    Delta(s, j) == -1 && Depth(s, j) % SizeRange == 0
  }

  ghost predicate Balanced(s: string)
  {
    Depth(s, |s|) % SizeRange == 0 && forall j :: 0 <= j < |s| ==> !ClosesUnopened(s, j)
  }

  /** The scan with the intended test: a `)` at depth 0 is rejected before the counter wraps. */
  function CheckedGroupScan(s: string, i: nat, level: nat, begin: nat, acc: seq<Slice>): (r: Result<seq<Slice>, Fault>)
    requires ScanPos(s, i) && level == Depth(s, Min(i, |s|)) % SizeRange
    requires SplitSoFar(s, acc, begin, Min(i, |s|))
    requires forall j :: 0 <= j < Min(i, |s|) ==> !ClosesUnopened(s, j)
    ensures r.Failure? <==> !Balanced(s)
    ensures r.Success? ==> r == GroupScan(s, i, level, begin, acc)
    decreases |s| + 1 - i
  {
    if i >= |s| then
      assert Balanced(s) <==> Depth(s, |s|) % SizeRange == 0;
      GroupScan(s, i, level, begin, acc)
    else if s[i] == '\\' then
      EscapeStep(s, i, begin, acc);
      EscapeNoUnopened(s, i);
      CheckedGroupScan(s, i + 2, level, begin, acc)
    else if s[i] == ')' && level == 0 then
      assert ClosesUnopened(s, i);
      assert !Balanced(s);
      Failure(AssertFailed)
    else
      var level' := (level + Step(s[i])) % SizeRange;
      PlainStep(s, i, level, begin, acc);
      PlainNoUnopened(s, i, level);
      if s[i] == '|' && level' == 0 then
        CheckedGroupScan(s, i + 1, level', i + 1, acc + [Slice(begin, i)])
      else
        CheckedGroupScan(s, i + 1, level', begin, acc)
  }

  /** An escape pair never closes a parenthesis. */
  lemma EscapeNoUnopened(s: string, i: nat)
    requires i < |s| && s[i] == '\\' && !Skipped(s, i)
    requires forall j :: 0 <= j < i ==> !ClosesUnopened(s, j)
    ensures forall j :: 0 <= j < Min(i + 2, |s|) ==> !ClosesUnopened(s, j)
  {
    assert Delta(s, i) == 0;
    assert i + 1 < |s| ==> Delta(s, i + 1) == 0;
  }

  /** A character other than `)` at depth 0 keeps the text free of unopened closes. */
  lemma PlainNoUnopened(s: string, i: nat, level: nat)
    requires i < |s| && s[i] != '\\' && !Skipped(s, i) && level == Depth(s, i) % SizeRange
    requires !(s[i] == ')' && level == 0)
    requires forall j :: 0 <= j < i ==> !ClosesUnopened(s, j)
    ensures forall j :: 0 <= j < Min(i + 1, |s|) ==> !ClosesUnopened(s, j)
  {
    assert !ClosesUnopened(s, i);
  }

  /** The split with the evidently intended rejection of a `)` that closes nothing. */
  function SplitGroupsChecked(s: string): (r: Result<seq<Slice>, Fault>)
    ensures r.Failure? <==> !Balanced(s)
    ensures r.Success? ==> r == SplitGroups(s) && Splits(s, r.value)
  {
    CheckedGroupScan(s, 0, 0, 0, [])
  }

  lemma {:induction false} DepthBound(s: string, i: nat)
    requires i <= |s|
    ensures -(i as int) <= Depth(s, i) <= i
  {
    if i > 0 {
      DepthBound(s, i - 1);
    }
  }

  lemma SmallMod(x: int)
    requires 0 <= x < SizeRange
    ensures x % SizeRange == 0 <==> x == 0
  {
  }

  lemma {:induction false} BalancedPrefixes(s: string, n: nat)
    requires n <= |s| < SizeRange
    requires forall j :: 0 <= j < |s| ==> !ClosesUnopened(s, j)
    ensures forall i :: 0 <= i <= n ==> Depth(s, i) >= 0
  {
    if n > 0 {
      BalancedPrefixes(s, n - 1);
      DepthBound(s, n - 1);
      if Depth(s, n - 1) == 0 {
        assert !ClosesUnopened(s, n - 1);
      }
    }
  }

  /** No prefix of `s` closes more parentheses than it opens. */
  ghost predicate NeverNegative(s: string)
  {
    forall i :: 0 <= i <= |s| ==> Depth(s, i) >= 0
  }

  /** For patterns shorter than 2^64, `Balanced` is the textbook notion: no prefix closes more than it opens. */
  lemma BalancedMeansNeverNegative(s: string)
    requires |s| < SizeRange
    ensures Balanced(s) <==> Depth(s, |s|) == 0 && NeverNegative(s)
  {
    DepthBound(s, |s|);
    if Balanced(s) {
      BalancedPrefixes(s, |s|);
      assert Depth(s, |s|) >= 0;
      SmallMod(Depth(s, |s|));
    }
    if Depth(s, |s|) == 0 && NeverNegative(s) {
      NeverNegativeBalanced(s);
    }
  }

  lemma NeverNegativeBalanced(s: string)
    requires |s| < SizeRange
    requires Depth(s, |s|) == 0 && NeverNegative(s)
    ensures Balanced(s)
  {
    forall j | 0 <= j < |s| ensures !ClosesUnopened(s, j) {
      DepthBound(s, j);
      assert Depth(s, j) >= 0 && Depth(s, j + 1) >= 0;
      SmallMod(Depth(s, j));
    }
  }

  /** `)(` closes before it opens, yet the as-written split accepts it as one alternative. */
  lemma UnopenedParenAccepted(s: string)
    requires s == ")("
    ensures SplitGroups(s) == Success([Slice(0, 2)])
    ensures SplitGroupsChecked(s).Failure?
  {
    UnopenedDepths(s);
    assert ClosesUnopened(s, 0);
    UnopenedTail(s);
    assert (0 + Step(s[0])) % SizeRange == SizeMax;
  }

  lemma UnopenedDepths(s: string)
    requires s == ")("
    ensures !Skipped(s, 0) && !Skipped(s, 1) && !Skipped(s, 2)
    ensures Delta(s, 0) == -1 && Depth(s, 1) == -1 && Delta(s, 1) == 1 && Depth(s, 2) == 0
  {
  }

  /** After the `)` has wrapped the counter, the `(` brings it back to 0 and the whole text is one alternative. */
  lemma UnopenedTail(s: string)
    requires s == ")("
    ensures ScanPos(s, 1) && SizeMax == Depth(s, 1) % SizeRange && SplitSoFar(s, [], 0, 1)
    ensures GroupScan(s, 1, SizeMax, 0, []) == Success([Slice(0, 2)])
  {
    UnopenedDepths(s);
    assert Min(2, |s|) == 2 && ScanPos(s, 2);
    assert SplitSoFar(s, [], 0, 2);
    assert [] + [Slice(0, 2)] == [Slice(0, 2)];
    assert GroupScan(s, 2, 0, 0, []) == Success([Slice(0, 2)]);
    assert (SizeMax + Step(s[1])) % SizeRange == 0;
  }

  /** The alternatives of a split, joined with `|`. */
  function Join(s: string, g: seq<Slice>): string
    requires forall k :: 0 <= k < |g| ==> g[k].start <= g[k].end <= |s|
  {
    if |g| == 0 then ""
    else if |g| == 1 then Text(s, g[0])
    else Join(s, g[..|g| - 1]) + "|" + Text(s, g[|g| - 1])
  }

  lemma {:induction false} RejoinPrefix(s: string, g: seq<Slice>, n: nat)
    requires Splits(s, g) && 1 <= n <= |g|
    ensures Join(s, g[..n]) == s[..g[n - 1].end]
  {
    if n == 1 {
      assert g[..1] == [g[0]];
    } else {
      RejoinPrefix(s, g, n - 1);
      assert g[..n][..n - 1] == g[..n - 1];
      var a, b := g[n - 2].end, g[n - 1].end;
      assert s[..b] == s[..a] + "|" + s[a + 1..b];
    }
  }

  /** Joining the alternatives gives the pattern back, short of a final `|` whose empty alternative is dropped. */
  lemma Rejoin(s: string, g: seq<Slice>)
    requires Splits(s, g)
    ensures Join(s, g) == s || Join(s, g) + "|" == s
  {
    if |g| > 0 {
      RejoinPrefix(s, g, |g|);
      assert g[..|g|] == g;
      var e := g[|g| - 1].end;
      if e == |s| {
        assert s[..e] == s;
      } else {
        assert e == |s| - 1 && s[e] == '|';
        TrailingBar(s);
      }
    }
  }

  lemma TrailingBar(s: string)
    requires |s| > 0 && s[|s| - 1] == '|'
    ensures s[..|s| - 1] + "|" == s
  {
  }

  /* ---------- `{m,n}` repeat tokens ---------- */

  predicate IsDigit(c: char)
  {
    '0' <= c <= '9'
  }

  /** What `isspace` accepts in the C locale. */
  predicate IsSpace(c: char)
  {
    c == ' ' || c == '\t' || c == '\n' || c == '\U{000B}' || c == '\U{000C}' || c == '\r'
  }

  /** The value of the leading digits of `s`, read left to right onto `acc`. */
  function LeadingDigits(s: string, acc: nat): (r: nat)
    ensures r >= acc
  {
    if |s| == 0 || !IsDigit(s[0]) then acc
    else LeadingDigits(s[1..], 10 * acc + (s[0] as int - '0' as int))
  }

  /** `atoi`: leading white space, an optional sign, then digits; anything else ends the number. */
  function Atoi(s: string): int
  {
    if |s| > 0 && IsSpace(s[0]) then Atoi(s[1..])
    else if |s| > 0 && s[0] == '-' then -(LeadingDigits(s[1..], 0) as int)
    else if |s| > 0 && s[0] == '+' then LeadingDigits(s[1..], 0)
    else LeadingDigits(s, 0)
  }

  /**
   The copying loops of `_regex_process_repeat_token`: from `i`, advance
   while `i < |s| - 1` and `s[i] != stop`.
   */
  function ScanTo(s: string, i: nat, stop: char): (k: nat)
    requires 1 <= |s| && i <= |s|
    ensures i <= k && (k <= |s| - 1 || k == i)
    ensures k < |s| - 1 ==> s[k] == stop
    ensures forall j :: i <= j < k ==> s[j] != stop
    decreases |s| - i
  {
    if i >= |s| - 1 || s[i] == stop then i else ScanTo(s, i + 1, stop)
  }

  /**
   `_regex_process_repeat_token` on a `{...}` token: the lower bound is the
   text before the comma (or the closing brace), the upper bound the text
   after it. `{m}` gives `m..m`, `{m,}` leaves the upper bound at `~0`
   (no bound), and an empty or zero lower bound, or a zero upper bound,
   fails the assert. Both values are `atoi` results stored in a `size_t`.
   */
  function RepeatBounds(tok: string): (r: Result<(nat, nat), Fault>)
    requires |tok| >= 1
    ensures r.Success? ==> 1 <= r.value.0 < SizeRange && 1 <= r.value.1 < SizeRange
    ensures r.Failure? ==> r.error == AssertFailed
  {
    var k := ScanTo(tok, 1, ',');
    if k == 1 then Failure(AssertFailed)
    else
      var from := Atoi(tok[1..k]) % SizeRange;
      if from == 0 then Failure(AssertFailed)
      else if k == |tok| - 1 || tok[k] == '}' then Success((from, from))
      else
        var k2 := ScanTo(tok, k + 1, '}');
        if k2 == k + 1 then Success((from, SizeMax))
        else
          var to := Atoi(tok[k + 1..k2]) % SizeRange;
          if to == 0 then Failure(AssertFailed) else Success((from, to))
  }

  /** The decimal numeral of `n`, without leading zeros. */
  function Decimal(n: nat): (r: string)
    ensures |r| >= 1 && forall i :: 0 <= i < |r| ==> IsDigit(r[i])
  {
    if n < 10 then [('0' as int + n) as char]
    else Decimal(n / 10) + [('0' as int + n % 10) as char]
  }

  lemma {:induction false} LeadingDigitsAppend(s: string, c: char, acc: nat)
    requires forall i :: 0 <= i < |s| ==> IsDigit(s[i])
    requires IsDigit(c)
    ensures LeadingDigits(s + [c], acc) == 10 * LeadingDigits(s, acc) + (c as int - '0' as int)
  {
    if |s| > 0 {
      assert (s + [c])[1..] == s[1..] + [c];
      LeadingDigitsAppend(s[1..], c, 10 * acc + (s[0] as int - '0' as int));
    }
  }

  /** `atoi` reads back every numeral. */
  lemma {:induction false} AtoiDecimal(n: nat)
    ensures LeadingDigits(Decimal(n), 0) == n
    ensures Atoi(Decimal(n)) == n
  {
    var d := Decimal(n);
    assert IsDigit(d[0]);
    if n >= 10 {
      AtoiDecimal(n / 10);
      LeadingDigitsAppend(Decimal(n / 10), ('0' as int + n % 10) as char, 0);
    }
  }

  /** The copying loop stops at `k` when it meets no `stop` before it. */
  lemma {:induction false} ScanFrom(tok: string, i: nat, k: nat, stop: char)
    requires 1 <= i <= k <= |tok| - 1 && (tok[k] == stop || k == |tok| - 1)
    requires forall j :: i <= j < k ==> tok[j] != stop
    ensures ScanTo(tok, i, stop) == k
    decreases k - i
  {
    if i < k {
      ScanFrom(tok, i + 1, k, stop);
    }
  }

  /** A numeral of at most nine digits: what fits the ten-byte buffer with its terminator. */
  predicate FitsBuffer(m: nat)
  {
    m < 1000000000
  }

  lemma ScanNumeral(tok: string, i: nat, d: string, stop: char)
    requires 1 <= i && i + |d| <= |tok| - 1 && tok[i..i + |d|] == d
    requires forall j :: 0 <= j < |d| ==> IsDigit(d[j])
    requires !IsDigit(stop) && (tok[i + |d|] == stop || i + |d| == |tok| - 1)
    ensures ScanTo(tok, i, stop) == i + |d|
  {
    forall j | i <= j < i + |d| ensures tok[j] != stop {
      assert tok[j] == d[j - i];
    }
    ScanFrom(tok, i, i + |d|, stop);
  }

  /** `{m}` repeats exactly `m` times. */
  lemma RepeatExact(m: nat)
    requires 1 <= m && FitsBuffer(m)
    ensures RepeatBounds("{" + Decimal(m) + "}") == Success((m, m))
  {
    var d := Decimal(m);
    var tok := "{" + d + "}";
    assert tok[1..|d| + 1] == d;
    ScanNumeral(tok, 1, d, ',');
    AtoiDecimal(m);
  }

  /** `RepeatBounds` on a token whose comma sits at `c` and whose closing brace at `c2`. */
  lemma RepeatBoundsSplit(tok: string, c: nat, c2: nat)
    requires 2 <= c && c + 1 < c2 && |tok| == c2 + 1 && tok[c] == ','
    requires ScanTo(tok, 1, ',') == c && ScanTo(tok, c + 1, '}') == c2
    requires Atoi(tok[1..c]) % SizeRange != 0 && Atoi(tok[c + 1..c2]) % SizeRange != 0
    ensures RepeatBounds(tok) == Success((Atoi(tok[1..c]) % SizeRange, Atoi(tok[c + 1..c2]) % SizeRange))
  {
  }

  /** `{m,n}` repeats between `m` and `n` times. */
  lemma RepeatRange(m: nat, n: nat)
    requires 1 <= m && FitsBuffer(m) && 1 <= n && FitsBuffer(n)
    ensures RepeatBounds("{" + Decimal(m) + "," + Decimal(n) + "}") == Success((m, n))
  {
    var d, e := Decimal(m), Decimal(n);
    var tok, c, c2 := "{" + d + "," + e + "}", |d| + 1, |d| + 2 + |e|;
    RangeToken(d, e);
    NumeralWraps(m);
    NumeralWraps(n);
    RepeatBoundsSplit(tok, c, c2);
  }

  /** A buffer-sized numeral reads back unchanged through the `size_t` conversion. */
  lemma NumeralWraps(m: nat)
    requires FitsBuffer(m)
    ensures Atoi(Decimal(m)) % SizeRange == m
  {
    AtoiDecimal(m);
  }

  lemma RangeToken(d: string, e: string)
    requires 1 <= |d| && 1 <= |e|
    requires forall j :: 0 <= j < |d| ==> IsDigit(d[j])
    requires forall j :: 0 <= j < |e| ==> IsDigit(e[j])
    ensures var tok, c, c2 := "{" + d + "," + e + "}", |d| + 1, |d| + 2 + |e|;
      && |tok| == c2 + 1 && tok[c] == ',' && tok[1..c] == d && tok[c + 1..c2] == e
      && ScanTo(tok, 1, ',') == c && ScanTo(tok, c + 1, '}') == c2
  {
    var tok := "{" + d + "," + e + "}";
    var c := |d| + 1;
    var c2 := c + 1 + |e|;
    assert tok[1..c] == d && tok[c] == ',';
    ScanNumeral(tok, 1, d, ',');
    assert tok[c + 1..c2] == e && tok[c2] == '}';
    ScanNumeral(tok, c + 1, e, '}');
  }

  /** `{m,}` has no upper bound: the `~0` preset survives. */
  lemma RepeatOpen(m: nat)
    requires 1 <= m && FitsBuffer(m)
    ensures RepeatBounds("{" + Decimal(m) + ",}") == Success((m, SizeMax))
  {
    var d := Decimal(m);
    var tok := "{" + d + ",}";
    var c := |d| + 1;
    assert tok[1..c] == d && tok[c] == ',' && |tok| == c + 2;
    ScanNumeral(tok, 1, d, ',');
    NumeralWraps(m);
    RepeatBoundsOpen(tok, c);
  }

  /** `RepeatBounds` on a token that ends in `,}` with the comma at `c`. */
  lemma RepeatBoundsOpen(tok: string, c: nat)
    requires 2 <= c && |tok| == c + 2 && tok[c] == ','
    requires ScanTo(tok, 1, ',') == c && Atoi(tok[1..c]) % SizeRange != 0
    ensures RepeatBounds(tok) == Success((Atoi(tok[1..c]) % SizeRange, SizeMax))
  {
    assert ScanTo(tok, c + 1, '}') == c + 1;
  }

  /** A zero or missing lower bound fails the assert. */
  lemma RepeatNeedsLowerBound()
    ensures RepeatBounds("{0}").Failure? && RepeatBounds("{}").Failure? && RepeatBounds("{,3}").Failure?
  {
    assert ScanTo("{0}", 1, ',') == 2;
    assert Atoi("0") == 0;
  }

  /** `_regex_is_special_character`: a quantifier token. */
  predicate IsQuantifier(tok: string)
  {
    tok == "*" || tok == "?" || tok == "+" || (|tok| > 0 && tok[0] == '{' && tok[|tok| - 1] == '}')
  }
}

=== FILE: regex_tokens.dfy ===
/**
 The token scan of the regex front ends, `_regex_split_by_tokens` in
 src/lexer/greedy_regex.h (both parse directions) and src/lexer/regex.c
 (forward only).

 The scan walks one alternative `t` left to right and appends a slice of
 `t` to the token list whenever a token is complete. The model keeps the
 appends as a sequence of `Push`es and builds the list the C code builds
 from them (`Assemble`): `list_push_back` in the forward direction;
 `list_push_front`, followed by swapping the two front elements after a
 quantifier, in the backward direction.

 `prev` is the character in memory just before `t` (the `ptr[i-1]` the
 scan reads at `i == 0`); `None` when `t` starts the pattern buffer.
 */
module RegexTokens {
  import opened Wrappers
  import opened RegexSyntax

  datatype Dir = Forward | Backward

  /** One append of the scan: the slice, and whether it is a quantifier the backward scan swaps behind its atom. */
  datatype Push = Push(slice: Slice, quant: bool)

  /** The scan's three `size_t` nesting counters, the start of the pending token, and the appends so far. */
  datatype Scan = Scan(paren: nat, bracket: nat, curly: nat, off: nat, pushes: seq<Push>)

  const Start := Scan(0, 0, 0, 0, [])

  /** `size_t` increment and decrement. */
  function Up(n: nat): nat
  {
    (n + 1) % SizeRange
  }

  function Down(n: nat): nat
  {
    if n == 0 then SizeMax else n - 1
  }

  predicate Delimiter(c: char)
  {
    c == '(' || c == ')' || c == '[' || c == ']' || c == '{' || c == '}'
  }

  /** `IS_SPECIAL_CHARACTER`. */
  predicate QuantChar(c: char)
  {
    c == '*' || c == '+' || c == '?'
  }

  /** The character the scan reads as `ptr[i-1]`. */
  function Before(t: string, prev: Option<char>, i: nat): Option<char>
    requires i <= |t|
  {
    if i > 0 then Some(t[i - 1]) else prev
  }

  /**
   What a scan state at position `i` keeps: the pending token starts at
   or before `i`, and the appended slices are non-empty, in order, and end
   at or before the pending token.
   */
  ghost predicate Inside(t: string, i: nat, sc: Scan)
  {
    && sc.off <= i <= |t|
    && (forall k :: 0 <= k < |sc.pushes| ==> sc.pushes[k].slice.start < sc.pushes[k].slice.end <= sc.off)
    && (forall k, l :: 0 <= k < l < |sc.pushes| ==> sc.pushes[k].slice.end <= sc.pushes[l].slice.start)
  }

  /**
   One append. Backward, a quantifier is swapped with the token in front
   of it; when it is the only token, `list_get_front` on the emptied list
   dereferences NULL.
   */
  function Emit(dir: Dir, sc: Scan, g: Slice, quant: bool): (r: Result<Scan, Fault>)
    ensures r.Failure? <==> dir == Backward && quant && |sc.pushes| == 0
    ensures r.Failure? ==> r.error == NullDeref
    ensures r.Success? ==> r.value == Pushed(sc, g, quant)
  {
    if dir == Backward && quant && |sc.pushes| == 0 then Failure(NullDeref)
    else Success(Pushed(sc, g, quant))
  }

  /** The state after appending `g`: the next token starts where `g` ends. */
  function Pushed(sc: Scan, g: Slice, quant: bool): Scan
  {
    sc.(pushes := sc.pushes + [Push(g, quant)], off := g.end)
  }

  lemma EmitInside(t: string, i: nat, sc: Scan, g: Slice, quant: bool)
    requires Inside(t, i, sc) && g.start == sc.off && sc.off < g.end <= |t| && i <= g.end
    ensures Inside(t, g.end, Pushed(sc, g, quant))
  {
    var ps := sc.pushes + [Push(g, quant)];
    assert forall k :: 0 <= k < |sc.pushes| ==> ps[k] == sc.pushes[k];
  }

  /** One pass of the scan's loop body at `i`: the next position and state. */
  function Step(t: string, prev: Option<char>, dir: Dir, i: nat, sc: Scan): (r: Result<(nat, Scan), Fault>)
    requires i < |t| && Inside(t, i, sc)
    ensures r.Success? ==> i < r.value.0 && Inside(t, r.value.0, r.value.1)
    ensures r.Success? ==> sc.pushes <= r.value.1.pushes && |r.value.1.pushes| <= |sc.pushes| + 1
  {
    var c := t[i];
    if c == '\\' && sc.paren == 0 && sc.bracket == 0 then
      if i + 1 == |t| then Failure(OutOfBounds)
      else
        EmitInside(t, i, sc, Slice(sc.off, i + 2), false);
        Success((i + 2, Pushed(sc, Slice(sc.off, i + 2), false)))
    else if !Delimiter(c) && sc.paren == 0 && sc.bracket == 0 && sc.curly == 0 then
      EmitInside(t, i, sc, Slice(sc.off, i + 1), QuantChar(c));
      var sc' :- Emit(dir, sc, Slice(sc.off, i + 1), QuantChar(c));
      Success((i + 1, sc'))
    else if c == '[' && sc.paren == 0 then
      var sc' := if sc.bracket == 0 then sc.(off := i, bracket := 1) else sc;
      Advanced(t, i, sc, sc');
      Success((i + 1, sc'))
    else if c == '(' then
      var sc' := sc.(off := if sc.paren == 0 then i else sc.off, paren := Up(sc.paren));
      Advanced(t, i, sc, sc');
      Success((i + 1, sc'))
    else if c == ']' && sc.bracket == 1 && Before(t, prev, i).None? then
      Failure(OutOfBounds)
    else if c == ']' && sc.bracket == 1 && Before(t, prev, i) != Some('[') && sc.paren == 0 then
      EmitInside(t, i, sc, Slice(sc.off, i + 1), false);
      Success((i + 1, Pushed(sc.(bracket := 0), Slice(sc.off, i + 1), false)))
    else if c == ')' && sc.paren == 1 then
      EmitInside(t, i, sc, Slice(sc.off, i + 1), false);
      Success((i + 1, Pushed(sc.(paren := 0), Slice(sc.off, i + 1), false)))
    else if c == ']' && sc.paren == 0 then
      if Before(t, prev, i).None? then Failure(OutOfBounds)
      else
        var sc' := if Before(t, prev, i) != Some('[') then sc.(bracket := Down(sc.bracket)) else sc;
        Advanced(t, i, sc, sc');
        Success((i + 1, sc'))
    else if c == ')' then
      Advanced(t, i, sc, sc.(paren := Down(sc.paren)));
      Success((i + 1, sc.(paren := Down(sc.paren))))
    else if c == '{' && sc.paren == 0 then
      Advanced(t, i, sc, sc.(curly := Up(sc.curly), off := i));
      Success((i + 1, sc.(curly := Up(sc.curly), off := i)))
    else if c == '}' && sc.paren == 0 then
      EmitInside(t, i, sc, Slice(sc.off, i + 1), true);
      var sc' :- Emit(dir, sc.(curly := Down(sc.curly)), Slice(sc.off, i + 1), true);
      Success((i + 1, sc'))
    else
      Advanced(t, i, sc, sc);
      Success((i + 1, sc))
  }

  /** A step that appends nothing and moves the pending token's start no further than `i` stays inside. */
  lemma Advanced(t: string, i: nat, sc: Scan, sc': Scan)
    requires i < |t| && Inside(t, i, sc)
    requires sc'.pushes == sc.pushes && sc.off <= sc'.off <= i
    ensures Inside(t, i + 1, sc')
  {
  }

  /** The scan's loop from position `i`. */
  function Loop(t: string, prev: Option<char>, dir: Dir, i: nat, sc: Scan): (r: Result<Scan, Fault>)
    requires Inside(t, i, sc)
    ensures r.Success? ==> Inside(t, |t|, r.value) && sc.pushes <= r.value.pushes
    decreases |t| - i
  {
    if i >= |t| then Success(sc)
    else
      var st :- Step(t, prev, dir, i, sc);
      Loop(t, prev, dir, st.0, st.1)
  }

  /** The token list the appends build, by direction. */
  function Assemble(dir: Dir, ps: seq<Push>): (r: seq<Slice>)
    ensures |r| == |ps|
  {
    if |ps| == 0 then []
    else
      var rest := Assemble(dir, ps[..|ps| - 1]);
      var p := ps[|ps| - 1];
      if dir == Forward then rest + [p.slice]
      else
        var l := [p.slice] + rest;
        if p.quant && |l| >= 2 then [l[1], l[0]] + l[2..] else l
  }

  function Slices(ps: seq<Push>): (r: seq<Slice>)
    ensures |r| == |ps| && forall k :: 0 <= k < |ps| ==> r[k] == ps[k].slice
  {
    if |ps| == 0 then [] else Slices(ps[..|ps| - 1]) + [ps[|ps| - 1].slice]
  }

  /** Forward, the list holds the appends in the order they were made. */
  lemma {:induction false} AssembleForward(ps: seq<Push>)
    ensures Assemble(Forward, ps) == Slices(ps)
  {
    if |ps| > 0 {
      AssembleForward(ps[..|ps| - 1]);
    }
  }

  /** In either direction the list holds exactly the appended slices. */
  lemma {:induction false} AssemblePermutes(dir: Dir, ps: seq<Push>)
    ensures multiset(Assemble(dir, ps)) == multiset(Slices(ps))
  {
    if |ps| > 0 {
      AssemblePermutes(dir, ps[..|ps| - 1]);
      var rest := Assemble(dir, ps[..|ps| - 1]);
      var p := ps[|ps| - 1];
      if dir == Backward {
        var l := [p.slice] + rest;
        if p.quant && |l| >= 2 {
          SwapPermutes(l);
        }
      }
    }
  }

  lemma SwapPermutes<T>(l: seq<T>)
    requires |l| >= 2
    ensures multiset([l[1], l[0]] + l[2..]) == multiset(l)
  {
    assert l == [l[0], l[1]] + l[2..];
  }

  /** A token that is exactly the one character `c`. */
  predicate Lone(t: string, g: Slice, c: char)
    requires g.start <= g.end <= |t|
  {
    Text(t, g) == [c]
  }

  /** The tokens appear in the order of the text and do not overlap. */
  ghost predicate Ordered(toks: seq<Slice>)
  {
    forall k, l :: 0 <= k < l < |toks| ==> toks[k].end <= toks[l].start
  }

  lemma ForwardOrdered(t: string, sc: Scan)
    requires Inside(t, |t|, sc)
    ensures Ordered(Assemble(Forward, sc.pushes))
    ensures Ordered(Assemble(Forward, sc.pushes) + [Slice(sc.off, |t|)])
  {
    AssembleForward(sc.pushes);
    var a := Assemble(Forward, sc.pushes) + [Slice(sc.off, |t|)];
    assert forall k :: 0 <= k < |sc.pushes| ==> a[k] == sc.pushes[k].slice;
  }

  ghost predicate AllWithin(t: string, toks: seq<Slice>)
  {
    forall k :: 0 <= k < |toks| ==> toks[k].start < toks[k].end <= |t|
  }

  /**
   The backward scan's repair of displaced anchors: a lone `$` at the
   front goes to the back and a lone `^` at the back goes to the front.
   */
  function FixAnchors(t: string, toks: seq<Slice>): (r: seq<Slice>)
    requires |toks| > 0 && AllWithin(t, toks)
    ensures |r| == |toks|
  {
    var front, back := toks[0], toks[|toks| - 1];
    var case1, case2 := Lone(t, front, '$'), Lone(t, back, '^');
    if case1 && case2 then [back] + toks[1..|toks| - 1] + [front]
    else if case1 then toks[1..] + [front]
    else if case2 then [back] + toks[..|toks| - 1]
    else toks
  }

  /** Appends `g` to the list by direction. */
  function Append(dir: Dir, toks: seq<Slice>, g: Slice): seq<Slice>
  {
    if dir == Forward then toks + [g] else [g] + toks
  }

  /** Appending a slice inside the text keeps the list inside it and adds just that slice. */
  lemma AppendFacts(t: string, dir: Dir, toks: seq<Slice>, g: Slice)
    requires AllWithin(t, toks) && g.start < g.end <= |t|
    ensures AllWithin(t, Append(dir, toks, g))
    ensures multiset(Append(dir, toks, g)) == multiset(toks) + multiset{g}
    ensures dir == Forward ==> Append(dir, toks, g) == toks + [g]
  {
    var a := Append(dir, toks, g);
    forall k | 0 <= k < |a| ensures a[k].start < a[k].end <= |t| {
      if dir == Forward {
        if k < |toks| {
          assert a[k] == toks[k];
        }
      } else if k > 0 {
        assert a[k] == toks[k - 1];
      }
    }
  }

  lemma AssembleWithin(t: string, dir: Dir, ps: seq<Push>)
    requires forall k :: 0 <= k < |ps| ==> ps[k].slice.start < ps[k].slice.end <= |t|
    ensures AllWithin(t, Assemble(dir, ps))
  {
    AssemblePermutes(dir, ps);
    var a := Assemble(dir, ps);
    forall k | 0 <= k < |a| ensures a[k].start < a[k].end <= |t| {
      assert a[k] in multiset(Slices(ps));
    }
  }

  /** The appended slices as a list, with the anchor repair when scanning backward. */
  function Arranged(t: string, dir: Dir, sc: Scan): (r: seq<Slice>)
    requires Inside(t, |t|, sc) && |sc.pushes| > 0
    ensures |r| == |sc.pushes| && AllWithin(t, r)
    ensures multiset(r) == multiset(Slices(sc.pushes))
    ensures dir == Forward ==> Ordered(r) && Ordered(r + [Slice(sc.off, |t|)])
  {
    AssembleWithin(t, dir, sc.pushes);
    AssemblePermutes(dir, sc.pushes);
    var toks := Assemble(dir, sc.pushes);
    if dir == Forward then
      ForwardOrdered(t, sc);
      toks
    else
      FixAnchorsPermutes(t, toks);
      var fixed := FixAnchors(t, toks);
      assert AllWithin(t, fixed) by {
        forall k | 0 <= k < |fixed| ensures fixed[k].start < fixed[k].end <= |t| {
          assert fixed[k] in multiset(toks);
        }
      }
      fixed
  }

  /** The token after the last append, when the text does not end there. */
  function Trailing(t: string, sc: Scan): multiset<Slice>
  {
    if sc.off != |t| then multiset{Slice(sc.off, |t|)} else multiset{}
  }

  /** After the loop: the anchor repair, the balance assert, and the trailing token. */
  function Finish(t: string, dir: Dir, sc: Scan): (r: Result<seq<Slice>, Fault>)
    requires Inside(t, |t|, sc)
    ensures r.Success? ==> AllWithin(t, r.value)
    ensures r.Success? && dir == Forward ==> Ordered(r.value)
    ensures r.Failure? <==> |sc.pushes| == 0 || sc.paren != 0 || sc.bracket != 0
    ensures r.Success? ==> multiset(r.value) == multiset(Slices(sc.pushes)) + Trailing(t, sc)
  {
    if |sc.pushes| == 0 then Failure(NullDeref)
    else
      var fixed := Arranged(t, dir, sc);
      if sc.paren != 0 || sc.bracket != 0 then Failure(AssertFailed)
      else Success(WithTrailing(t, dir, sc.off, fixed))
  }

  /** Appends the token that runs from `off` to the end of the text, if it is not empty. */
  function WithTrailing(t: string, dir: Dir, off: nat, toks: seq<Slice>): (r: seq<Slice>)
    requires off <= |t| && AllWithin(t, toks)
    requires dir == Forward ==> Ordered(toks) && Ordered(toks + [Slice(off, |t|)])
    ensures AllWithin(t, r)
    ensures multiset(r) == multiset(toks) + (if off != |t| then multiset{Slice(off, |t|)} else multiset{})
    ensures dir == Forward ==> Ordered(r)
  {
    if off != |t| then
      var g := Slice(off, |t|);
      AppendFacts(t, dir, toks, g);
      Append(dir, toks, g)
    else toks
  }

  /**
   `_regex_split_by_tokens` of src/lexer/greedy_regex.h. It reads the
   front and the back of the list before checking the balance, so a scan
   that appended nothing dereferences NULL.
   */
  function SplitTokens(t: string, prev: Option<char>, dir: Dir): (r: Result<seq<Slice>, Fault>)
    ensures r.Success? ==> |r.value| > 0 && AllWithin(t, r.value)
    ensures r.Success? && dir == Forward ==> Ordered(r.value)
  {
    var sc :- Loop(t, prev, dir, 0, Start);
    Finish(t, dir, sc)
  }

  /** `_regex_split_by_tokens` of src/lexer/regex.c: the same loop, forward, with no anchor repair. */
  function SplitTokensClassic(t: string, prev: Option<char>): (r: Result<seq<Slice>, Fault>)
    ensures r.Success? ==> AllWithin(t, r.value) && Ordered(r.value)
  {
    var sc :- Loop(t, prev, Forward, 0, Start);
    AssembleWithin(t, Forward, sc.pushes);
    ForwardOrdered(t, sc);
    if sc.paren != 0 || sc.bracket != 0 then Failure(AssertFailed)
    else if sc.off != |t| then Success(Assemble(Forward, sc.pushes) + [Slice(sc.off, |t|)])
    else Success(Assemble(Forward, sc.pushes))
  }

  lemma FixAnchorsPermutes(t: string, toks: seq<Slice>)
    requires |toks| > 0 && AllWithin(t, toks)
    ensures multiset(FixAnchors(t, toks)) == multiset(toks)
  {
    var n := |toks|;
    var case1, case2 := Lone(t, toks[0], '$'), Lone(t, toks[n - 1], '^');
    if case1 && case2 {
      assert toks == [toks[0]] + toks[1..n - 1] + [toks[n - 1]];
    } else if case1 {
      assert toks == [toks[0]] + toks[1..];
    } else if case2 {
      assert toks == toks[..n - 1] + [toks[n - 1]];
    }
  }

  /* ---------- the two front ends agree ---------- */

  /** The two scans differ only in that the newer one dereferences NULL when the loop appended nothing. */
  lemma ClassicAgrees(t: string, prev: Option<char>)
    ensures SplitTokens(t, prev, Forward).Success? ==> SplitTokensClassic(t, prev) == SplitTokens(t, prev, Forward)
    ensures SplitTokensClassic(t, prev).Success? && SplitTokens(t, prev, Forward).Failure? ==>
      SplitTokens(t, prev, Forward).error == NullDeref
  {
  }

  /** An empty alternative: the newer scan crashes, the older one returns no tokens. */
  lemma EmptyAlternative()
    ensures SplitTokens("", None, Forward) == Failure(NullDeref)
    ensures SplitTokensClassic("", None) == Success([])
  {
  }

  /* ---------- the two directions agree ---------- */

  lemma StepDirections(t: string, prev: Option<char>, i: nat, sc: Scan)
    requires i < |t| && Inside(t, i, sc)
    ensures var f, b := Step(t, prev, Forward, i, sc), Step(t, prev, Backward, i, sc);
      && (f.Failure? ==> b == f)
      && (f.Success? ==> b == if |sc.pushes| == 0 && |f.value.1.pushes| > 0 && f.value.1.pushes[0].quant then Failure(NullDeref) else f)
  {
  }

  /**
   The backward loop makes the same appends as the forward one; it only
   stops early, dereferencing NULL, when its first append is a quantifier.
   */
  lemma {:induction false} LoopDirections(t: string, prev: Option<char>, i: nat, sc: Scan)
    requires Inside(t, i, sc)
    ensures var f, b := Loop(t, prev, Forward, i, sc), Loop(t, prev, Backward, i, sc);
      && (f.Failure? ==> b.Failure?)
      && (f.Success? ==> b == if |sc.pushes| == 0 && |f.value.pushes| > 0 && f.value.pushes[0].quant then Failure(NullDeref) else f)
    decreases |t| - i
  {
    if i < |t| {
      StepDirections(t, prev, i, sc);
      var f := Step(t, prev, Forward, i, sc);
      if f.Success? {
        var j, sc' := f.value.0, f.value.1;
        LoopDirections(t, prev, j, sc');
        var lf := Loop(t, prev, Forward, j, sc');
        if lf.Success? {
          assert sc'.pushes <= lf.value.pushes;
          if |sc'.pushes| > 0 {
            assert lf.value.pushes[0] == sc'.pushes[0];
          }
        }
      }
    }
  }

  /**
   The backward scan yields the forward scan's tokens, rearranged; it fails
   where the forward scan succeeds only by dereferencing NULL.
   */
  lemma BackwardPermutesForward(t: string, prev: Option<char>)
    ensures var f, b := SplitTokens(t, prev, Forward), SplitTokens(t, prev, Backward);
      && (b.Success? ==> f.Success? && multiset(b.value) == multiset(f.value))
      && (f.Success? && b.Failure? ==> b.error == NullDeref)
  {
    LoopDirections(t, prev, 0, Start);
  }

  /* ---------- the backward order ---------- */

  /** Each quantifier follows an atom: it is not first and does not follow another quantifier. */
  ghost predicate QuantsFollowAtoms(ps: seq<Push>)
  {
    forall k :: 0 <= k < |ps| && ps[k].quant ==> k > 0 && !ps[k - 1].quant
  }

  /** `ps` read from the end, with every quantifier kept right after the atom it was written after. */
  function Flipped(ps: seq<Push>): (r: seq<Push>)
    ensures |r| == |ps|
  {
    if |ps| == 0 then []
    else if ps[|ps| - 1].quant && |ps| >= 2 then [ps[|ps| - 2], ps[|ps| - 1]] + Flipped(ps[..|ps| - 2])
    else [ps[|ps| - 1]] + Flipped(ps[..|ps| - 1])
  }

  /** The backward list reverses the atoms and keeps each quantifier after its atom. */
  lemma {:induction false} BackwardFlips(ps: seq<Push>)
    requires QuantsFollowAtoms(ps)
    ensures Assemble(Backward, ps) == Slices(Flipped(ps))
    decreases |ps|
  {
    var n := |ps|;
    if n > 0 {
      if ps[n - 1].quant {
        var init := ps[..n - 2];
        QuantsPrefix(ps, n - 2);
        BackwardFlips(init);
        assert init + [ps[n - 2], ps[n - 1]] == ps;
        FlipQuantStep(init, ps[n - 2], ps[n - 1]);
      } else {
        var init := ps[..n - 1];
        QuantsPrefix(ps, n - 1);
        BackwardFlips(init);
        assert init + [ps[n - 1]] == ps;
        FlipAtomStep(init, ps[n - 1]);
      }
    }
  }

  /** A prefix of a well-formed append sequence is well formed, and a quantifier never comes first or twice. */
  lemma QuantsPrefix(ps: seq<Push>, m: nat)
    requires QuantsFollowAtoms(ps) && m <= |ps|
    ensures QuantsFollowAtoms(ps[..m])
    ensures |ps| > 0 && ps[|ps| - 1].quant ==> |ps| >= 2 && !ps[|ps| - 2].quant
  {
    assert forall k :: 0 <= k < m ==> ps[..m][k] == ps[k];
  }

  /** Appending an atom puts it in front of the backward list. */
  lemma FlipAtomStep(init: seq<Push>, p: Push)
    requires !p.quant
    requires Assemble(Backward, init) == Slices(Flipped(init))
    ensures Assemble(Backward, init + [p]) == Slices(Flipped(init + [p]))
  {
    var ps := init + [p];
    assert ps[..|ps| - 1] == init;
    var f := Flipped(init);
    assert Flipped(ps) == [p] + f;
    assert Assemble(Backward, ps) == [p.slice] + Slices(f);
    assert Slices([p] + f) == [p.slice] + Slices(f);
  }

  /** Appending a quantifier after an atom swaps it behind that atom at the front of the backward list. */
  lemma FlipQuantStep(init: seq<Push>, a: Push, q: Push)
    requires q.quant && !a.quant
    requires Assemble(Backward, init) == Slices(Flipped(init))
    ensures Assemble(Backward, init + [a, q]) == Slices(Flipped(init + [a, q]))
  {
    var ps := init + [a, q];
    AssemblePair(init, a, q);
    var f := Flipped(init);
    assert Flipped(ps) == [a, q] + f;
    SlicesCons([a, q], f);
    assert Slices([a, q]) == [a.slice, q.slice];
  }

  /** Backward, a plain token followed by a quantifier is put in front of the list in its original order. */
  lemma AssemblePair(init: seq<Push>, a: Push, q: Push)
    requires q.quant && !a.quant
    ensures Assemble(Backward, init + [a, q]) == [a.slice, q.slice] + Assemble(Backward, init)
  {
    var ps := init + [a, q];
    assert ps[..|ps| - 1] == init + [a] && (init + [a])[..|init|] == init;
    var rest := Assemble(Backward, init);
    assert Assemble(Backward, init + [a]) == [a.slice] + rest;
    var l := [q.slice] + ([a.slice] + rest);
    assert Assemble(Backward, ps) == [l[1], l[0]] + l[2..];
    assert l[2..] == rest;
  }

  lemma {:induction false} SlicesCons(a: seq<Push>, b: seq<Push>)
    ensures Slices(a + b) == Slices(a) + Slices(b)
  {
    var l, r := Slices(a + b), Slices(a) + Slices(b);
    assert forall k :: 0 <= k < |a| ==> (a + b)[k] == a[k];
    assert forall k :: |a| <= k < |a + b| ==> (a + b)[k] == b[k - |a|];
    assert |l| == |r|;
    forall k | 0 <= k < |l| ensures l[k] == r[k] {
    }
  }

  /** Without quantifiers the backward list is the forward list reversed. */
  lemma {:induction false} FlippedReverses(ps: seq<Push>)
    requires forall k :: 0 <= k < |ps| ==> !ps[k].quant
    ensures forall k :: 0 <= k < |ps| ==> Flipped(ps)[k] == ps[|ps| - 1 - k]
  {
    if |ps| > 0 {
      var init := ps[..|ps| - 1];
      FlippedReverses(init);
      assert Flipped(ps) == [ps[|ps| - 1]] + Flipped(init);
    }
  }

  /* ---------- anchor repair ---------- */

  /** The repair brings a lone `^` to the front and a lone `$` to the back, keeping the rest in order. */
  lemma AnchorsToEnds(t: string, toks: seq<Slice>)
    requires |toks| >= 2 && AllWithin(t, toks)
    ensures var r := FixAnchors(t, toks);
      && (Lone(t, toks[|toks| - 1], '^') ==> r[0] == toks[|toks| - 1])
      && (Lone(t, toks[0], '$') ==> r[|r| - 1] == toks[0])
      && (Lone(t, toks[0], '$') && Lone(t, toks[|toks| - 1], '^') ==> r[1..|r| - 1] == toks[1..|toks| - 1])
      && (!Lone(t, toks[0], '$') && !Lone(t, toks[|toks| - 1], '^') ==> r == toks)
  {
  }

  /* ---------- tokens of well-formed text ---------- */

  /** The first `]` at or after `j`, when only ordinary characters (backslashes included) come before it. */
  function ClassClose(t: string, j: nat): (r: Option<nat>)
    ensures r.Some? ==> j <= r.value < |t| && t[r.value] == ']'
    ensures r.Some? ==> forall m :: j <= m < r.value ==> !Delimiter(t[m])
    decreases |t| - j
  {
    if j >= |t| then None
    else if t[j] == ']' then Some(j)
    else if Delimiter(t[j]) then None
    else ClassClose(t, j + 1)
  }

  /** The first `}` at or after `j`, when only ordinary characters other than backslash come before it. */
  function CurlyClose(t: string, j: nat): (r: Option<nat>)
    ensures r.Some? ==> j <= r.value < |t| && t[r.value] == '}'
    ensures r.Some? ==> forall m :: j <= m < r.value ==> !Delimiter(t[m]) && t[m] != '\\'
    decreases |t| - j
  {
    if j >= |t| then None
    else if t[j] == '}' then Some(j)
    else if Delimiter(t[j]) || t[j] == '\\' then None
    else CurlyClose(t, j + 1)
  }

  /** The `)` that brings the parenthesis depth `d` down to zero, counting parentheses only. */
  function GroupClose(t: string, j: nat, d: nat): (r: Option<nat>)
    requires d >= 1
    ensures r.Some? ==> j <= r.value < |t| && t[r.value] == ')'
    decreases |t| - j
  {
    if j >= |t| then None
    else if t[j] == '(' then GroupClose(t, j + 1, d + 1)
    else if t[j] == ')' then (if d == 1 then Some(j) else GroupClose(t, j + 1, d - 1))
    else GroupClose(t, j + 1, d)
  }

  /**
   The token that starts at `i` in the token grammar: an escape pair, one
   ordinary character, a non-empty bracket class, a repeat `{...}` or a
   parenthesised group. Quantifiers are marked.
   */
  function UnitAt(t: string, i: nat): (r: Option<Push>)
    requires i < |t|
    ensures r.Some? ==> r.value.slice.start == i < r.value.slice.end <= |t|
  {
    var c := t[i];
    if c == '\\' then
      if i + 1 < |t| then Some(Push(Slice(i, i + 2), false)) else None
    else if !Delimiter(c) then Some(Push(Slice(i, i + 1), QuantChar(c)))
    else if c == '[' then
      match ClassClose(t, i + 1)
      case Some(e) => if e > i + 1 then Some(Push(Slice(i, e + 1), false)) else None
      case None => None
    else if c == '{' then
      match CurlyClose(t, i + 1)
      case Some(e) => Some(Push(Slice(i, e + 1), true))
      case None => None
    else if c == '(' then
      match GroupClose(t, i + 1, 1)
      case Some(e) => Some(Push(Slice(i, e + 1), false))
      case None => None
    else None
  }

  /** The text from `i` on cut into tokens of the grammar, or `None` when it does not parse. */
  function Units(t: string, i: nat): (r: Option<seq<Push>>)
    requires i <= |t|
    decreases |t| - i
  {
    if i == |t| then Some([])
    else match UnitAt(t, i)
      case None => None
      case Some(p) =>
        match Units(t, p.slice.end)
        case None => None
        case Some(rest) => Some([p] + rest)
  }

  /** A scan state between tokens: nothing pending, nothing open. */
  ghost predicate AtUnit(t: string, i: nat, sc: Scan)
  {
    Inside(t, i, sc) && sc.off == i && sc.paren == 0 && sc.bracket == 0 && sc.curly == 0
  }

  lemma {:induction false} ClassBodyScan(t: string, prev: Option<char>, dir: Dir, i: nat, k: nat, e: nat, sc: Scan)
    requires AtUnit(t, i, sc) && i < k <= e && ClassClose(t, k) == Some(e) && !Delimiter(t[e - 1])
    ensures Inside(t, e + 1, Pushed(sc, Slice(i, e + 1), false))
    ensures Loop(t, prev, dir, k, sc.(bracket := 1)) == Loop(t, prev, dir, e + 1, Pushed(sc, Slice(i, e + 1), false))
    decreases e - k
  {
    EmitInside(t, e, sc, Slice(i, e + 1), false);
    var sc1, done := sc.(bracket := 1), Pushed(sc, Slice(i, e + 1), false);
    ClassStep(t, prev, dir, i, k, e, sc);
    LoopStep(t, prev, dir, k, sc1);
    if k < e {
      assert Step(t, prev, dir, k, sc1).value == (k + 1, sc1);
      ClassBodyScan(t, prev, dir, i, k + 1, e, sc);
    } else {
      assert Step(t, prev, dir, k, sc1).value == (e + 1, done);
    }
  }

  /** Inside a bracket class the scan only moves on, until the `]` appends the whole class. */
  lemma ClassStep(t: string, prev: Option<char>, dir: Dir, i: nat, k: nat, e: nat, sc: Scan)
    requires AtUnit(t, i, sc) && i < k <= e && ClassClose(t, k) == Some(e) && !Delimiter(t[e - 1])
    ensures Inside(t, k, sc.(bracket := 1))
    ensures Step(t, prev, dir, k, sc.(bracket := 1)) ==
      Success(if k == e then (k + 1, Pushed(sc, Slice(i, e + 1), false)) else (k + 1, sc.(bracket := 1)))
  {
    if k < e {
      assert !Delimiter(t[k]);
    } else {
      assert Before(t, prev, k) == Some(t[e - 1]);
    }
  }

  lemma {:induction false} CurlyBodyScan(t: string, prev: Option<char>, dir: Dir, i: nat, k: nat, e: nat, sc: Scan)
    requires AtUnit(t, i, sc) && i < k <= e && CurlyClose(t, k) == Some(e)
    requires dir == Forward || |sc.pushes| > 0
    ensures Inside(t, e + 1, Pushed(sc, Slice(i, e + 1), true))
    ensures Loop(t, prev, dir, k, sc.(curly := 1)) == Loop(t, prev, dir, e + 1, Pushed(sc, Slice(i, e + 1), true))
    decreases e - k
  {
    EmitInside(t, e, sc, Slice(i, e + 1), true);
    var sc1, done := sc.(curly := 1), Pushed(sc, Slice(i, e + 1), true);
    CurlyStep(t, prev, dir, i, k, e, sc);
    LoopStep(t, prev, dir, k, sc1);
    if k < e {
      assert Step(t, prev, dir, k, sc1).value == (k + 1, sc1);
      CurlyBodyScan(t, prev, dir, i, k + 1, e, sc);
    } else {
      assert Step(t, prev, dir, k, sc1).value == (e + 1, done);
    }
  }

  /** Inside a repeat `{...}` the scan only moves on, until the `}` appends the whole repeat. */
  lemma CurlyStep(t: string, prev: Option<char>, dir: Dir, i: nat, k: nat, e: nat, sc: Scan)
    requires AtUnit(t, i, sc) && i < k <= e && CurlyClose(t, k) == Some(e)
    requires dir == Forward || |sc.pushes| > 0
    ensures Inside(t, k, sc.(curly := 1))
    ensures Step(t, prev, dir, k, sc.(curly := 1)) ==
      Success(if k == e then (k + 1, Pushed(sc, Slice(i, e + 1), true)) else (k + 1, sc.(curly := 1)))
  {
    if k < e {
      assert !Delimiter(t[k]) && t[k] != '\\';
    }
  }

  /** One pass of the loop body, when it succeeds, leaves the rest of the loop to run from the new state. */
  lemma LoopStep(t: string, prev: Option<char>, dir: Dir, i: nat, sc: Scan)
    requires i < |t| && Inside(t, i, sc) && Step(t, prev, dir, i, sc).Success?
    ensures Loop(t, prev, dir, i, sc) == Loop(t, prev, dir, Step(t, prev, dir, i, sc).value.0, Step(t, prev, dir, i, sc).value.1)
  {
  }

  lemma {:induction false} GroupBodyScan(t: string, prev: Option<char>, dir: Dir, i: nat, k: nat, d: nat, e: nat, sc: Scan)
    requires AtUnit(t, i, sc) && |t| < SizeRange && 1 <= d <= k - i && GroupClose(t, k, d) == Some(e)
    ensures Inside(t, e + 1, Pushed(sc, Slice(i, e + 1), false))
    ensures Loop(t, prev, dir, k, sc.(paren := d)) == Loop(t, prev, dir, e + 1, Pushed(sc, Slice(i, e + 1), false))
    decreases |t| - k
  {
    EmitInside(t, e, sc, Slice(i, e + 1), false);
    var c := t[k];
    if c == ')' && d == 1 {
      GroupLoopStep(t, prev, dir, i, k, d, sc, Pushed(sc, Slice(i, k + 1), false));
    } else {
      var d' := if c == '(' then d + 1 else if c == ')' then d - 1 else d;
      GroupLoopStep(t, prev, dir, i, k, d, sc, sc.(paren := d'));
      assert GroupClose(t, k + 1, d') == Some(e);
      GroupBodyScan(t, prev, dir, i, k + 1, d', e, sc);
    }
  }

  /** One pass of the loop inside a group, as the rest of the loop from the next position. */
  lemma GroupLoopStep(t: string, prev: Option<char>, dir: Dir, i: nat, k: nat, d: nat, sc: Scan, next: Scan)
    requires AtUnit(t, i, sc) && |t| < SizeRange && 1 <= d <= k - i && k < |t|
    requires next == if t[k] == '(' then sc.(paren := d + 1) else if t[k] == ')' && d == 1 then Pushed(sc, Slice(i, k + 1), false) else if t[k] == ')' then sc.(paren := d - 1) else sc.(paren := d)
    ensures Inside(t, k, sc.(paren := d))
    ensures Loop(t, prev, dir, k, sc.(paren := d)) == Loop(t, prev, dir, k + 1, next)
  {
    GroupStep(t, prev, dir, i, k, d, sc);
    LoopStep(t, prev, dir, k, sc.(paren := d));
  }

  /** Inside a group only parentheses change the scan state. */
  lemma GroupStep(t: string, prev: Option<char>, dir: Dir, i: nat, k: nat, d: nat, sc: Scan)
    requires AtUnit(t, i, sc) && |t| < SizeRange && 1 <= d <= k - i && k < |t|
    ensures Inside(t, k, sc.(paren := d))
    ensures Step(t, prev, dir, k, sc.(paren := d)) == Success(
      if t[k] == '(' then (k + 1, sc.(paren := d + 1))
      else if t[k] == ')' && d == 1 then (k + 1, Pushed(sc, Slice(i, k + 1), false))
      else if t[k] == ')' then (k + 1, sc.(paren := d - 1))
      else (k + 1, sc.(paren := d)))
  {
  }

  /** The scan reads one token of the grammar and appends exactly it. */
  lemma UnitScan(t: string, prev: Option<char>, dir: Dir, i: nat, sc: Scan, p: Push)
    requires i < |t| && |t| < SizeRange && AtUnit(t, i, sc) && UnitAt(t, i) == Some(p)
    requires dir == Forward || |sc.pushes| > 0 || !p.quant
    ensures Inside(t, p.slice.end, Pushed(sc, p.slice, p.quant))
    ensures Loop(t, prev, dir, i, sc) == Loop(t, prev, dir, p.slice.end, Pushed(sc, p.slice, p.quant))
  {
    EmitInside(t, i, sc, p.slice, p.quant);
    var c := t[i];
    if c == '[' {
      ClassUnitScan(t, prev, dir, i, sc, p);
    } else if c == '{' {
      CurlyUnitScan(t, prev, dir, i, sc, p);
    } else if c == '(' {
      GroupUnitScan(t, prev, dir, i, sc, p);
    } else {
      AtomScan(t, prev, dir, i, sc, p);
    }
  }

  lemma ClassUnitScan(t: string, prev: Option<char>, dir: Dir, i: nat, sc: Scan, p: Push)
    requires i < |t| && AtUnit(t, i, sc) && t[i] == '[' && UnitAt(t, i) == Some(p)
    ensures Loop(t, prev, dir, i, sc) == Loop(t, prev, dir, p.slice.end, Pushed(sc, p.slice, p.quant))
  {
    var e := ClassClose(t, i + 1).value;
    assert p == Push(Slice(i, e + 1), false);
    ClassScan(t, prev, dir, i, e, sc);
  }

  lemma CurlyUnitScan(t: string, prev: Option<char>, dir: Dir, i: nat, sc: Scan, p: Push)
    requires i < |t| && AtUnit(t, i, sc) && t[i] == '{' && UnitAt(t, i) == Some(p)
    requires dir == Forward || |sc.pushes| > 0
    ensures Loop(t, prev, dir, i, sc) == Loop(t, prev, dir, p.slice.end, Pushed(sc, p.slice, p.quant))
  {
    var e := CurlyClose(t, i + 1).value;
    assert p == Push(Slice(i, e + 1), true);
    CurlyScan(t, prev, dir, i, e, sc);
  }

  lemma GroupUnitScan(t: string, prev: Option<char>, dir: Dir, i: nat, sc: Scan, p: Push)
    requires i < |t| && |t| < SizeRange && AtUnit(t, i, sc) && t[i] == '(' && UnitAt(t, i) == Some(p)
    ensures Loop(t, prev, dir, i, sc) == Loop(t, prev, dir, p.slice.end, Pushed(sc, p.slice, p.quant))
  {
    var e := GroupClose(t, i + 1, 1).value;
    assert p == Push(Slice(i, e + 1), false);
    ParenScan(t, prev, dir, i, e, sc);
  }

  lemma ClassScan(t: string, prev: Option<char>, dir: Dir, i: nat, e: nat, sc: Scan)
    requires i < |t| && AtUnit(t, i, sc) && t[i] == '[' && ClassClose(t, i + 1) == Some(e) && e > i + 1
    ensures Loop(t, prev, dir, i, sc) == Loop(t, prev, dir, e + 1, Pushed(sc, Slice(i, e + 1), false))
  {
    assert Step(t, prev, dir, i, sc) == Success((i + 1, sc.(bracket := 1)));
    LoopStep(t, prev, dir, i, sc);
    ClassBodyScan(t, prev, dir, i, i + 1, e, sc);
  }

  lemma CurlyScan(t: string, prev: Option<char>, dir: Dir, i: nat, e: nat, sc: Scan)
    requires i < |t| && AtUnit(t, i, sc) && t[i] == '{' && CurlyClose(t, i + 1) == Some(e)
    requires dir == Forward || |sc.pushes| > 0
    ensures Loop(t, prev, dir, i, sc) == Loop(t, prev, dir, e + 1, Pushed(sc, Slice(i, e + 1), true))
  {
    assert Step(t, prev, dir, i, sc) == Success((i + 1, sc.(curly := 1)));
    LoopStep(t, prev, dir, i, sc);
    CurlyBodyScan(t, prev, dir, i, i + 1, e, sc);
  }

  lemma ParenScan(t: string, prev: Option<char>, dir: Dir, i: nat, e: nat, sc: Scan)
    requires i < |t| && |t| < SizeRange && AtUnit(t, i, sc) && t[i] == '(' && GroupClose(t, i + 1, 1) == Some(e)
    ensures Loop(t, prev, dir, i, sc) == Loop(t, prev, dir, e + 1, Pushed(sc, Slice(i, e + 1), false))
  {
    assert Step(t, prev, dir, i, sc) == Success((i + 1, sc.(paren := 1)));
    LoopStep(t, prev, dir, i, sc);
    GroupBodyScan(t, prev, dir, i, i + 1, 1, e, sc);
  }

  lemma AtomScan(t: string, prev: Option<char>, dir: Dir, i: nat, sc: Scan, p: Push)
    requires i < |t| && AtUnit(t, i, sc) && !Delimiter(t[i]) && UnitAt(t, i) == Some(p)
    requires dir == Forward || |sc.pushes| > 0 || !p.quant
    ensures Loop(t, prev, dir, i, sc) == Loop(t, prev, dir, p.slice.end, Pushed(sc, p.slice, p.quant))
  {
    EmitInside(t, i, sc, p.slice, p.quant);
    assert Step(t, prev, dir, i, sc) == Success((p.slice.end, Pushed(sc, p.slice, p.quant)));
  }

  /** The scan over text that parses into `us` appends exactly `us`. */
  lemma {:induction false} UnitsScan(t: string, prev: Option<char>, dir: Dir, i: nat, sc: Scan, us: seq<Push>)
    requires i <= |t| && |t| < SizeRange && AtUnit(t, i, sc) && Units(t, i) == Some(us)
    requires dir == Forward || |sc.pushes| > 0 || |us| == 0 || !us[0].quant
    ensures Loop(t, prev, dir, i, sc) == Success(sc.(pushes := sc.pushes + us, off := |t|))
    decreases |t| - i
  {
    if i < |t| {
      var p := UnitAt(t, i).value;
      var rest := Units(t, p.slice.end).value;
      var sc' := Pushed(sc, p.slice, p.quant);
      EmitInside(t, i, sc, p.slice, p.quant);
      UnitsScan(t, prev, dir, p.slice.end, sc', rest);
      UnitsCons(t, prev, dir, i, sc, p, rest, us);
    } else {
      assert us == [];
      assert sc.(pushes := sc.pushes + us, off := |t|) == sc;
    }
  }

  /** One token read by the scan, followed by the scan of the rest. */
  lemma UnitsCons(t: string, prev: Option<char>, dir: Dir, i: nat, sc: Scan, p: Push, rest: seq<Push>, us: seq<Push>)
    requires i < |t| && |t| < SizeRange && AtUnit(t, i, sc) && UnitAt(t, i) == Some(p) && us == [p] + rest
    requires dir == Forward || |sc.pushes| > 0 || !p.quant
    requires var sc' := Pushed(sc, p.slice, p.quant); Loop(t, prev, dir, p.slice.end, sc') == Success(sc'.(pushes := sc'.pushes + rest, off := |t|))
    ensures Loop(t, prev, dir, i, sc) == Success(sc.(pushes := sc.pushes + us, off := |t|))
  {
    var sc' := Pushed(sc, p.slice, p.quant);
    UnitScan(t, prev, dir, i, sc, p);
    assert sc'.pushes + rest == sc.pushes + us;
  }

  /**
   Text that parses into tokens is cut into exactly those tokens: in
   order by both forward scans, and backward with the atoms reversed, each
   quantifier kept behind its atom, and the anchors repaired.
   */
  lemma UnitsTokens(t: string, prev: Option<char>, us: seq<Push>)
    requires |t| < SizeRange && Units(t, 0) == Some(us) && |us| > 0
    ensures SplitTokens(t, prev, Forward) == Success(Slices(us))
    ensures SplitTokensClassic(t, prev) == Success(Slices(us))
    ensures QuantsFollowAtoms(us) ==>
      && AllWithin(t, Slices(Flipped(us)))
      && SplitTokens(t, prev, Backward) == Success(FixAnchors(t, Slices(Flipped(us))))
  {
    ForwardUnits(t, prev, us);
    ClassicUnits(t, prev, us);
    if QuantsFollowAtoms(us) {
      BackwardUnits(t, prev, us);
    }
  }

  lemma ForwardUnits(t: string, prev: Option<char>, us: seq<Push>)
    requires |t| < SizeRange && Units(t, 0) == Some(us) && |us| > 0
    ensures SplitTokens(t, prev, Forward) == Success(Slices(us))
  {
    var sc := Start.(pushes := us, off := |t|);
    assert Start.pushes + us == us;
    assert Loop(t, prev, Forward, 0, Start) == Success(sc) by {
      UnitsScan(t, prev, Forward, 0, Start, us);
    }
    assert Inside(t, |t|, sc);
    var a := Arranged(t, Forward, sc);
    assert a == Slices(us) by {
      AssembleForward(us);
    }
    assert WithTrailing(t, Forward, |t|, a) == a;
    assert Finish(t, Forward, sc) == Success(a);
  }

  lemma ClassicUnits(t: string, prev: Option<char>, us: seq<Push>)
    requires |t| < SizeRange && Units(t, 0) == Some(us)
    ensures SplitTokensClassic(t, prev) == Success(Slices(us))
  {
    var sc := Start.(pushes := us, off := |t|);
    assert Start.pushes + us == us;
    assert Loop(t, prev, Forward, 0, Start) == Success(sc) by {
      UnitsScan(t, prev, Forward, 0, Start, us);
    }
    AssembleForward(us);
  }

  lemma BackwardUnits(t: string, prev: Option<char>, us: seq<Push>)
    requires |t| < SizeRange && Units(t, 0) == Some(us) && |us| > 0 && QuantsFollowAtoms(us)
    ensures AllWithin(t, Slices(Flipped(us)))
    ensures SplitTokens(t, prev, Backward) == Success(FixAnchors(t, Slices(Flipped(us))))
  {
    var sc := Start.(pushes := us, off := |t|);
    assert Loop(t, prev, Backward, 0, Start) == Success(sc) by {
      assert Start.pushes + us == us;
      UnitsScan(t, prev, Backward, 0, Start, us);
    }
    BackwardFinish(t, sc);
  }

  /** After a backward scan that appended `us` and consumed the text, the atoms come out reversed and repaired. */
  lemma BackwardFinish(t: string, sc: Scan)
    requires Inside(t, |t|, sc) && sc.off == |t| && sc.paren == 0 && sc.bracket == 0
    requires |sc.pushes| > 0 && QuantsFollowAtoms(sc.pushes)
    ensures AllWithin(t, Slices(Flipped(sc.pushes)))
    ensures Finish(t, Backward, sc) == Success(FixAnchors(t, Slices(Flipped(sc.pushes))))
  {
    BackwardFlips(sc.pushes);
    AssembleWithin(t, Backward, sc.pushes);
    var a := Arranged(t, Backward, sc);
    assert WithTrailing(t, Backward, |t|, a) == a;
  }

}

=== FILE: thompson.dfy ===
/**
 The regex-to-NFA construction shared by src/lexer/greedy_regex.h and
 src/lexer/regex.c: `_regex_parse` (alternatives), `_regex_expand` and
 `_regex_expand_with_root_tokens` (one alternative), the token loop
 `_regex_expand_non_root_token`, and `_regex_expand_token` (one atom).

 The construction is modelled as the sequence of NFA edits it makes, in
 order (`Op`); `Labelled` replays them for the labelled edges. State
 numbers are `size_t` counters that only grow by small steps, so they are
 kept as unbounded naturals.

 The two front ends differ in three places, selected by `Front`: the
 newer one tokenises in either direction, reads character spans inside
 brackets, and does not wrap the root alternatives in any-character
 loops; the older one reads brackets character by character and wraps
 unanchored root alternatives.
 */
module Thompson {
  import opened Wrappers
  import opened RegexSyntax
  import opened RegexTokens

  /** One edit of the NFA under construction. */
  datatype Op =
    | Eps(from: nat, to: nat)              // nfa_add_epsilon_transition
    | Add(from: nat, c: Byte, to: nat)     // nfa_add_transition
    | AddAll(from: nat, to: nat)           // one nfa_add_transition per alphabet byte
    | Del(from: nat, c: Byte, to: nat)     // nfa_remove_transition

  /** The newer front end in one parse direction, or the older one. */
  datatype Front = Greedy(dir: Dir) | Classic

  /** A built fragment: its edits and its end state. */
  datatype Frag = Frag(ops: seq<Op>, end: nat)

  /** What the token loop leaves: edits, `next_start`, `end`, and the last token read. */
  datatype Walk = Walk(ops: seq<Op>, next: nat, end: nat, last: string)

  /** A run of chained copies of one atom: edits, `next_start`, `end`, and the copies' ends. */
  datatype Copies = Copies(ops: seq<Op>, next: nat, end: nat, ends: seq<nat>)

  /** The byte a C `char` holds. */
  function Code(c: char): Byte
  {
    (c as int) % 256
  }

  /** That byte read as a signed `char`. */
  function Signed(b: Byte): (v: int)
    ensures -128 <= v < 128 && v % 256 == b
  {
    if b >= 128 then b - 256 else b
  }

  function Src(op: Op): nat
  {
    op.from
  }

  function Dst(op: Op): nat
  {
    op.to
  }

  /** Every edit stays within `[lo, hi]`. */
  ghost predicate Within(ops: seq<Op>, lo: int, hi: int)
  {
    forall k :: 0 <= k < |ops| ==> lo <= Src(ops[k]) <= hi && lo <= Dst(ops[k]) <= hi
  }

  /** Every edit stays within `[lo, hi]` and none leaves `hi`. */
  ghost predicate Below(ops: seq<Op>, lo: int, hi: int)
  {
    forall k :: 0 <= k < |ops| ==> lo <= Src(ops[k]) < hi && lo <= Dst(ops[k]) <= hi
  }

  /** `_regex_is_special_character`: a quantifier token. */
  predicate Special(a: string)
  {
    a == "*" || a == "?" || a == "+" || (|a| > 0 && a[0] == '{' && a[|a| - 1] == '}')
  }

  /** The byte an escape pair `\x` stands for. */
  function Escaped(x: char): Byte
  {
    if x == 'n' then 10 else if x == 'r' then 13 else if x == 't' then 9 else Code(x)
  }

  /** `ε` from each state of `xs` to `e`, in order. */
  function Fan(xs: seq<nat>, e: nat): (r: seq<Op>)
    ensures |r| == |xs| && forall k :: 0 <= k < |xs| ==> r[k] == Eps(xs[k], e)
  {
    if |xs| == 0 then [] else [Eps(xs[0], e)] + Fan(xs[1..], e)
  }

  /** The any-character loop the older front end puts around an unanchored root alternative. */
  function AnyLoop(n: nat): seq<Op>
  {
    [Eps(n, n + 1), AddAll(n + 1, n + 1), Eps(n + 1, n + 2)]
  }

  /* ---------- bracket classes ---------- */

  /**
   The items of a bracket class of the newer front end from `i` to `e`
   (exclusive), as inclusive ranges of signed `char` values. A span
   `x-y` needs room before the closing bracket and an `x` that is not a
   backslash; `y < x` fails the assert, and `y == 127` never ends, since
   the `char` counter wraps before it can exceed 127.
   */
  function Items(a: string, i: nat, e: nat): (r: Result<seq<(int, int)>, Fault>)
    requires e <= |a|
    ensures r.Success? ==> forall k :: 0 <= k < |r.value| ==> -128 <= r.value[k].0 <= r.value[k].1 < 128
    decreases e - i
  {
    if i >= e then Success([])
    else if i + 2 < e && a[i] != '\\' && a[i + 1] == '-' then
      var lo, hi := Signed(Code(a[i])), Signed(Code(a[i + 2]));
      if hi < lo then Failure(AssertFailed)
      else if hi == 127 then Failure(Diverges)
      else
        var rest :- Items(a, i + 3, e);
        Success([(lo, hi)] + rest)
    else
      var v := Signed(Code(a[i]));
      var rest :- Items(a, i + 1, e);
      Success([(v, v)] + rest)
  }

  /** One edit per value of `[lo, hi]`: added, or removed in an inverted class. */
  function RangeOps(b: nat, lo: int, hi: int, inv: bool): (r: seq<Op>)
    decreases hi - lo + 1
  {
    if lo > hi then []
    else [if inv then Del(b, lo % 256, b + 1) else Add(b, lo % 256, b + 1)] + RangeOps(b, lo + 1, hi, inv)
  }

  function ItemOps(items: seq<(int, int)>, b: nat, inv: bool): seq<Op>
  {
    if |items| == 0 then [] else RangeOps(b, items[0].0, items[0].1, inv) + ItemOps(items[1..], b, inv)
  }

  /** One edit per character of `a[i..e]`, the older front end's reading of a class. */
  function CharOps(a: string, i: nat, e: nat, b: nat, inv: bool): (r: seq<Op>)
    requires i <= e <= |a|
    decreases e - i
  {
    if i == e then []
    else [if inv then Del(b, Code(a[i]), b + 1) else Add(b, Code(a[i]), b + 1)] + CharOps(a, i + 1, e, b, inv)
  }

  /** A bracket token `[...]` or `[^...]` as edits from `b` to `b + 1`. */
  function ClassOps(fr: Front, a: string, b: nat): (r: Result<seq<Op>, Fault>)
    requires |a| >= 2 && a[0] == '[' && a[|a| - 1] == ']'
  {
    var inv := a[1] == '^';
    var from := if inv then 2 else 1;
    var head := if inv then [AddAll(b, b + 1)] else [];
    match fr
    case Classic => Success(head + CharOps(a, from, |a| - 1, b, inv))
    case Greedy(_) =>
      var items :- Items(a, from, |a| - 1);
      Success(head + ItemOps(items, b, inv))
  }

  lemma RangeOpsWithin(b: nat, lo: int, hi: int, inv: bool)
    ensures Below(RangeOps(b, lo, hi, inv), b, b + 1)
    decreases hi - lo + 1
  {
    if lo <= hi {
      RangeOpsWithin(b, lo + 1, hi, inv);
    }
  }

  lemma ItemOpsWithin(items: seq<(int, int)>, b: nat, inv: bool)
    ensures Below(ItemOps(items, b, inv), b, b + 1)
  {
    if |items| > 0 {
      RangeOpsWithin(b, items[0].0, items[0].1, inv);
      ItemOpsWithin(items[1..], b, inv);
    }
  }

  lemma CharOpsWithin(a: string, i: nat, e: nat, b: nat, inv: bool)
    requires i <= e <= |a|
    ensures Below(CharOps(a, i, e, b, inv), b, b + 1)
    decreases e - i
  {
    if i < e {
      CharOpsWithin(a, i + 1, e, b, inv);
    }
  }

  lemma ClassOpsWithin(fr: Front, a: string, b: nat)
    requires |a| >= 2 && a[0] == '[' && a[|a| - 1] == ']'
    ensures ClassOps(fr, a, b).Success? ==> Below(ClassOps(fr, a, b).value, b, b + 1)
  {
    var inv := a[1] == '^';
    var from := if inv then 2 else 1;
    if fr.Classic? {
      CharOpsWithin(a, from, |a| - 1, b, inv);
    } else {
      var items := Items(a, from, |a| - 1);
      if items.Success? {
        ItemOpsWithin(items.value, b, inv);
      }
    }
  }

  lemma BelowAppend(x: seq<Op>, y: seq<Op>, lo: int, hi: int)
    requires Below(x, lo, hi) && Below(y, lo, hi)
    ensures Below(x + y, lo, hi)
  {
  }

  /* ---------- the construction ---------- */

  /** The token list of one alternative, by front end. */
  function Tokens(fr: Front, g: string, prev: Option<char>): (r: Result<seq<Slice>, Fault>)
    ensures r.Success? ==> AllWithin(g, r.value)
  {
    match fr
    case Greedy(d) => SplitTokens(g, prev, d)
    case Classic => SplitTokensClassic(g, prev)
  }

  /**
   `_regex_expand_token`: one atom from state `b`. A character, an escape
   pair or a bracket class becomes edges `b -> b + 1`; a parenthesised
   group is parsed from `b`; anything else fails the format assert.
   */
  function ExpandToken(fr: Front, a: string, b: nat): (r: Result<Frag, Fault>)
    ensures r.Success? ==> b <= r.value.end && Below(r.value.ops, b, r.value.end)
    decreases |a|, 0, 0
  {
    if |a| == 0 then Failure(AssertFailed)
    else if |a| == 1 then Success(Frag([Add(b, Code(a[0]), b + 1)], b + 1))
    else if |a| == 2 && a[0] == '\\' then Success(Frag([Add(b, Escaped(a[1]), b + 1)], b + 1))
    else if a[0] == '(' && a[|a| - 1] == ')' then Parse(fr, a[1..|a| - 1], Some('('), b)
    else if a[0] == '[' && a[|a| - 1] == ']' then
      ClassOpsWithin(fr, a, b);
      var ops :- ClassOps(fr, a, b);
      Success(Frag(ops, b + 1))
    else Failure(AssertFailed)
  }

  /** `count` copies of the atom `a` chained from `ns`, each starting where the last ended. */
  function Chain(fr: Front, a: string, count: nat, ns: nat, end: nat, ends: seq<nat>): (r: Result<Copies, Fault>)
    ensures r.Success? && count == 0 ==> r.value == Copies([], ns, end, ends)
    ensures r.Success? && count > 0 ==> ns <= r.value.end == r.value.next
    ensures r.Success? ==> Below(r.value.ops, ns, r.value.next)
    ensures r.Success? ==> |r.value.ends| == |ends| + count && r.value.ends[..|ends|] == ends
    ensures r.Success? ==> forall k :: |ends| <= k < |r.value.ends| ==> ns <= r.value.ends[k] <= r.value.next
    decreases |a|, 1, count
  {
    if count == 0 then Success(Copies([], ns, end, ends))
    else
      var f :- ExpandToken(fr, a, ns);
      var rest :- Chain(fr, a, count - 1, f.end, f.end, ends + [f.end]);
      assert (ends + [f.end])[..|ends|] == ends;
      Success(Copies(f.ops + rest.ops, rest.next, rest.end, rest.ends))
  }

  /** The `*` fragment: an ε into the atom, a loop back from its end, an exit, and a skip. */
  function Star(ns: nat, f: Frag): seq<Op>
  {
    [Eps(ns, ns + 1)] + f.ops + [Eps(f.end, ns + 1), Eps(f.end, f.end + 1), Eps(ns, f.end + 1)]
  }

  /** The `?` fragment: as `*` without the loop. */
  function Opt(ns: nat, f: Frag): seq<Op>
  {
    [Eps(ns, ns + 1)] + f.ops + [Eps(f.end, f.end + 1), Eps(ns, f.end + 1)]
  }

  /** The `+` fragment: as `*` without the skip. */
  function Plus(ns: nat, f: Frag): seq<Op>
  {
    [Eps(ns, ns + 1)] + f.ops + [Eps(f.end, f.end + 1), Eps(f.end, ns + 1)]
  }

  /**
   One pass of the token loop: the pending atom `cur` with the token
   `next` after it, from `next_start == ns`. A pending quantifier adds
   nothing; a `{m,n}` repeat chains `m` required copies, then `n - m`
   optional ones whose ends all lead to one fresh end (or a `*` loop when
   unbounded).
   */
  function Quantified(fr: Front, cur: string, next: string, ns: nat, end: nat): (r: Result<Frag, Fault>)
    ensures r.Success? ==> Within(r.value.ops, ns, r.value.end)
    ensures r.Success? ==> ns <= r.value.end || (r.value == Frag([], end) && Special(cur))
    decreases |cur|, 2, 1
  {
    if Special(cur) then Success(Frag([], end))
    else if next == "*" || next == "?" || next == "+" then
      var f :- ExpandToken(fr, cur, ns + 1);
      Success(Frag(Quant(next[0], ns, f), f.end + 1))
    else if |next| > 0 && next[0] == '{' && next[|next| - 1] == '}' then
      var bounds :- RepeatBounds(next);
      Repeat(fr, cur, bounds.0, bounds.1, ns, end)
    else ExpandToken(fr, cur, ns)
  }

  /** The fragment of the quantifier `q` around the atom `f` built from `ns + 1`. */
  function Quant(q: char, ns: nat, f: Frag): (r: seq<Op>)
    requires ns + 1 <= f.end && Below(f.ops, ns + 1, f.end)
    ensures Within(r, ns, f.end + 1)
  {
    if q == '*' then Star(ns, f) else if q == '?' then Opt(ns, f) else Plus(ns, f)
  }

  /**
   A `{from,to}` repeat of the atom `cur` from `ns`: `from` chained
   copies, then, when bounded, `to - from` optional ones whose ends all
   lead to one fresh end; when unbounded, a `*` loop.
   */
  function Repeat(fr: Front, cur: string, from: nat, to: nat, ns: nat, end: nat): (r: Result<Frag, Fault>)
    requires from >= 1
    ensures r.Success? ==> ns <= r.value.end && Within(r.value.ops, ns, r.value.end)
    decreases |cur|, 2, 0
  {
    var c :- Chain(fr, cur, from, ns + 1, end, []);
    if to != SizeMax then
      var s := c.next + 1;
      var d :- Chain(fr, cur, if to > from then to - from else 0, s, c.end, [s]);
      var e := d.end + 1;
      assert Within([Eps(ns, ns + 1)] + c.ops + [Eps(c.next, s)] + d.ops + Fan(d.ends, e), ns, e) by {
        BoundedShape(ns, c, s, d, e);
      }
      Success(Frag([Eps(ns, ns + 1)] + c.ops + [Eps(c.next, s)] + d.ops + Fan(d.ends, e), e))
    else
      var f :- ExpandToken(fr, cur, c.next + 1);
      assert Within([Eps(ns, ns + 1)] + c.ops + Star(c.next, f), ns, f.end + 1) by {
        Widen(c.ops, ns + 1, c.next, ns, f.end + 1);
        StarWithin(c.next, f);
        WithinJoin([Eps(ns, ns + 1)], c.ops, ns, f.end + 1);
        WithinJoin([Eps(ns, ns + 1)] + c.ops, Star(c.next, f), ns, f.end + 1);
      }
      Success(Frag([Eps(ns, ns + 1)] + c.ops + Star(c.next, f), f.end + 1))
  }

  lemma BoundedShape(ns: nat, c: Copies, s: nat, d: Copies, e: nat)
    requires ns + 1 <= c.next && Below(c.ops, ns + 1, c.next) && s == c.next + 1
    requires Below(d.ops, s, d.next) && s <= d.next && e == d.end + 1 && d.next <= e
    requires forall k :: 0 <= k < |d.ends| ==> s <= d.ends[k] <= e
    ensures Within([Eps(ns, ns + 1)] + c.ops + [Eps(c.next, s)] + d.ops + Fan(d.ends, e), ns, e)
  {
    Widen(c.ops, ns + 1, c.next, ns, e);
    Widen(d.ops, s, d.next, ns, e);
    WithinJoin([Eps(ns, ns + 1)], c.ops, ns, e);
    WithinJoin([Eps(ns, ns + 1)] + c.ops, [Eps(c.next, s)], ns, e);
    WithinJoin([Eps(ns, ns + 1)] + c.ops + [Eps(c.next, s)], d.ops, ns, e);
    WithinJoin([Eps(ns, ns + 1)] + c.ops + [Eps(c.next, s)] + d.ops, Fan(d.ends, e), ns, e);
  }

  lemma StarWithin(ns: nat, f: Frag)
    requires ns + 1 <= f.end && Below(f.ops, ns + 1, f.end)
    ensures Within(Star(ns, f), ns, f.end + 1)
  {
    Widen(f.ops, ns + 1, f.end, ns, f.end + 1);
  }

  lemma Widen(ops: seq<Op>, lo: int, hi: int, lo2: int, hi2: int)
    requires Below(ops, lo, hi) && lo2 <= lo && hi <= hi2
    ensures Within(ops, lo2, hi2)
  {
  }

  lemma WithinJoin(x: seq<Op>, y: seq<Op>, lo: int, hi: int)
    requires Within(x, lo, hi) && Within(y, lo, hi)
    ensures Within(x + y, lo, hi)
  {
  }

  /**
   `_regex_expand_non_root_token`: the loop over the tokens from `k` on
   with one token of look-ahead, then the last pending atom unless it is
   a quantifier or `$`.
   */
  function NonRoot(fr: Front, g: string, toks: seq<Slice>, k: nat, cur: string, ns: nat, end: nat, ops: seq<Op>)
    : (r: Result<Walk, Fault>)
    requires k <= |toks| && AllWithin(g, toks) && |cur| <= |g| && end <= ns
    ensures r.Success? ==> end <= r.value.end <= r.value.next && ops <= r.value.ops
    ensures r.Success? ==> Within(r.value.ops[|ops|..], end, r.value.end)
    ensures r.Success? ==> r.value.last == if k < |toks| then Text(g, toks[|toks| - 1]) else cur
    decreases |g|, 3, |toks| - k
  {
    if k == |toks| then
      if !Special(cur) && cur != "$" then
        var f :- ExpandToken(fr, cur, ns);
        Widen(f.ops, ns, f.end, end, f.end);
        TailJoin(ops, f.ops, ops + f.ops, end, f.end, f.end);
        Success(Walk(ops + f.ops, f.end, f.end, cur))
      else Success(Walk(ops, ns, end, cur))
    else
      var next := Text(g, toks[k]);
      var q :- Quantified(fr, cur, next, ns, end);
      var w :- NonRoot(fr, g, toks, k + 1, next, q.end, q.end, ops + q.ops);
      Loosen(q.ops, ns, q.end, end, w.end);
      TailJoin(ops, q.ops, w.ops, end, q.end, w.end);
      Success(w)
  }

  lemma Loosen(ops: seq<Op>, lo: int, hi: int, lo2: int, hi2: int)
    requires Within(ops, lo, hi) && lo2 <= lo && hi <= hi2
    ensures Within(ops, lo2, hi2)
  {
  }

  /** The edits after `ops` are `x`, within `[lo, hi]`, then edits within `[mid, hi]`. */
  lemma TailJoin(ops: seq<Op>, x: seq<Op>, all: seq<Op>, lo: int, mid: int, hi: int)
    requires ops + x <= all && lo <= mid
    requires Within(x, lo, hi) && Within(all[|ops| + |x|..], mid, hi)
    ensures Within(all[|ops|..], lo, hi)
  {
    var rest := all[|ops| + |x|..];
    assert all[|ops|..] == x + rest;
    Loosen(rest, mid, hi, lo, hi);
    WithinJoin(x, rest, lo, hi);
  }

  /**
   `_regex_expand` and `_regex_expand_with_root_tokens`: one alternative
   `g` from state `b`. At the root a leading `^` token is skipped; the
   older front end also wraps the alternative in any-character loops,
   at the start unless it begins with `^` and at the end unless its last
   token is `$`. An empty token list dereferences an empty list.
   */
  function Expand(fr: Front, g: string, prev: Option<char>, b: nat, root: bool): (r: Result<Frag, Fault>)
    requires b >= 1
    ensures r.Success? ==> b - 1 <= r.value.end && Within(r.value.ops, b - 1, r.value.end)
    ensures r.Success? ==> Tokens(fr, g, prev).Success? && |Tokens(fr, g, prev).value| > 0
    ensures r.Success? && root && fr.Classic? ==>
      var toks := Tokens(fr, g, prev).value;
      && (Text(g, toks[0]) != "^" ==> AnyLoop(b) <= r.value.ops)
      && (Text(g, toks[|toks| - 1]) != "$" ==> r.value.end >= 2 && |r.value.ops| >= 3 && r.value.ops[|r.value.ops| - 3..] == AnyLoop(r.value.end - 2))
    decreases |g|, 4, 1
  {
    var toks :- Tokens(fr, g, prev);
    if |toks| == 0 then Failure(NullDeref)
    else
      var w :- Walked(fr, g, toks, b, root);
      Success(Closed(fr, g, toks, b, root, w))
  }

  /** The end of one alternative: the older front end's closing any-character loop at the root. */
  function Closed(fr: Front, g: string, toks: seq<Slice>, b: nat, root: bool, w: Walk): (r: Frag)
    requires b >= 1 && |toks| > 0 && AllWithin(g, toks)
    requires b - 1 <= w.end <= w.next && Within(w.ops, b - 1, w.end)
    requires w.last == Text(g, toks[|toks| - 1])
    ensures b - 1 <= r.end && Within(r.ops, b - 1, r.end) && w.ops <= r.ops
    ensures root && fr.Classic? && w.last != "$" ==> r.end >= 2 && |r.ops| >= 3 && r.ops[|r.ops| - 3..] == AnyLoop(r.end - 2)
  {
    if root && fr.Classic? && w.last != "$" then
      assert Within(w.ops + AnyLoop(w.next), b - 1, w.next + 2) by {
        WithinWiden(w.ops, b - 1, w.end, b - 1, w.next + 2);
        WithinJoin(w.ops, AnyLoop(w.next), b - 1, w.next + 2);
      }
      assert (w.ops + AnyLoop(w.next))[|w.ops + AnyLoop(w.next)| - 3..] == AnyLoop(w.next);
      Frag(w.ops + AnyLoop(w.next), w.next + 2)
    else Frag(w.ops, w.end)
  }

  /**
   The token loop of one alternative from `b`: at the root a leading `^`
   is skipped (a lone `^` has no token after it to read), and the older
   front end first puts an any-character loop before an unanchored root
   alternative.
   */
  function Walked(fr: Front, g: string, toks: seq<Slice>, b: nat, root: bool): (r: Result<Walk, Fault>)
    requires b >= 1 && |toks| > 0 && AllWithin(g, toks)
    ensures r.Success? ==> b - 1 <= r.value.end <= r.value.next && Within(r.value.ops, b - 1, r.value.end)
    ensures r.Success? ==> r.value.last == Text(g, toks[|toks| - 1])
    ensures r.Success? && root && fr.Classic? && Text(g, toks[0]) != "^" ==> AnyLoop(b) <= r.value.ops
    decreases |g|, 4, 0
  {
    var first := Text(g, toks[0]);
    var wrap := root && fr.Classic? && first != "^";
    var ns := if wrap then b + 2 else b;
    var end := if wrap then b + 2 else b - 1;
    var pre := if wrap then AnyLoop(b) else [];
    var skip := root && first == "^";
    if skip && |toks| == 1 then Failure(NullDeref)
    else
      var k := if skip then 2 else 1;
      var w :- NonRoot(fr, g, toks, k, Text(g, toks[k - 1]), ns, end, pre);
      WalkedShape(wrap, b, end, w);
      Success(w)
  }

  /** The token loop's edits after the opening any-character loop, if any, stay within `[b - 1, w.end]`. */
  lemma WalkedShape(wrap: bool, b: nat, end: int, w: Walk)
    requires b >= 1 && end == (if wrap then b + 2 else b - 1)
    requires end <= w.end <= w.next && (if wrap then AnyLoop(b) else []) <= w.ops
    requires Within(w.ops[|if wrap then AnyLoop(b) else []|..], end, w.end)
    ensures b - 1 <= w.end <= w.next && Within(w.ops, b - 1, w.end)
    ensures wrap ==> AnyLoop(b) <= w.ops
  {
    var pre := if wrap then AnyLoop(b) else [];
    assert Within(pre, b - 1, w.end);
    PrefixWithin(pre, w.ops, b - 1, end, w.end);
  }

  /** Edits that extend `pre` within `[end, hi]` stay within `[lo, hi]` when `pre` does. */
  lemma PrefixWithin(pre: seq<Op>, ops: seq<Op>, lo: int, end: int, hi: int)
    requires pre <= ops && Within(pre, lo, hi) && Within(ops[|pre|..], end, hi) && lo <= end
    ensures Within(ops, lo, hi)
  {
    assert ops == pre + ops[|pre|..];
    WithinWiden(ops[|pre|..], end, hi, lo, hi);
    WithinJoin(pre, ops[|pre|..], lo, hi);
  }

  lemma WithinWiden(ops: seq<Op>, lo: int, hi: int, lo2: int, hi2: int)
    requires Within(ops, lo, hi) && lo2 <= lo && hi <= hi2
    ensures Within(ops, lo2, hi2)
  {
  }

  /**
   The alternatives loop of `_regex_parse`: an ε from `b` into each
   alternative, each starting one past the previous one's end.
   */
  function Alts(fr: Front, t: string, prev: Option<char>, gs: seq<Slice>, k: nat, b: nat, ns: nat,
                ops: seq<Op>, ends: seq<nat>): (r: Result<Frag, Fault>)
    requires k <= |gs| && forall j :: 0 <= j < |gs| ==> gs[j].start <= gs[j].end <= |t|
    requires AltsInv(b, ns, ops, ends)
    ensures r.Success? ==> b <= r.value.end && Below(r.value.ops, b, r.value.end)
    ensures r.Success? ==> ops <= r.value.ops && forall j :: 0 <= j < |ends| ==> Eps(ends[j], r.value.end) in r.value.ops
    ensures r.Success? && k < |gs| ==> Eps(b, ns) in r.value.ops
    decreases |t|, 5, |gs| - k
  {
    if k == |gs| then
      var e := if |ends| == 0 then b else ends[|ends| - 1] + 1;
      AltsClose(b, ns, ops, ends, e);
      Success(Frag(ops + Fan(ends, e), e))
    else
      var g := gs[k];
      var gp := if g.start == 0 then prev else Some(t[g.start - 1]);
      var f :- Expand(fr, Text(t, g), gp, ns, b == 0);
      var ops', ends' := ops + [Eps(b, ns)] + f.ops, ends + [f.end];
      AltsStep(b, ns, ops, ends, f);
      var r := Alts(fr, t, prev, gs, k + 1, b, f.end + 1, ops', ends');
      if r.Success? then
        AltsGrow(b, ns, ops, f.ops, ends, f.end, r.value);
        r
      else r
  }

  /** What the rest of the alternatives loop keeps of the edits and ends before one more alternative. */
  lemma AltsGrow(b: nat, ns: nat, ops: seq<Op>, fops: seq<Op>, ends: seq<nat>, x: nat, r: Frag)
    requires ops + [Eps(b, ns)] + fops <= r.ops
    requires forall j :: 0 <= j < |ends + [x]| ==> Eps((ends + [x])[j], r.end) in r.ops
    ensures ops <= r.ops && Eps(b, ns) in r.ops
    ensures forall j :: 0 <= j < |ends| ==> Eps(ends[j], r.end) in r.ops
  {
    var ops' := ops + [Eps(b, ns)] + fops;
    assert ops'[|ops|] == Eps(b, ns) && r.ops[|ops|] == ops'[|ops|];
    assert ops == ops'[..|ops|] && ops' == r.ops[..|ops'|];
    forall j | 0 <= j < |ends| ensures Eps(ends[j], r.end) in r.ops {
      assert (ends + [x])[j] == ends[j];
    }
  }

  /** What the alternatives loop keeps: edits below `ns`, ends so far below `ns`, `ns` one past the last end. */
  ghost predicate AltsInv(b: nat, ns: nat, ops: seq<Op>, ends: seq<nat>)
  {
    && b < ns && Below(ops, b, ns)
    && (|ends| == 0 ==> ns == b + 1 && ops == [])
    && (|ends| > 0 ==> ns == ends[|ends| - 1] + 1)
    && (forall j :: 0 <= j < |ends| ==> b <= ends[j] < ns)
  }

  lemma AltsStep(b: nat, ns: nat, ops: seq<Op>, ends: seq<nat>, f: Frag)
    requires AltsInv(b, ns, ops, ends) && ns - 1 <= f.end && Within(f.ops, ns - 1, f.end)
    ensures AltsInv(b, f.end + 1, ops + [Eps(b, ns)] + f.ops, ends + [f.end])
  {
    var ops2 := ops + [Eps(b, ns)] + f.ops;
    forall j | 0 <= j < |ops2|
      ensures b <= Src(ops2[j]) < f.end + 1 && b <= Dst(ops2[j]) <= f.end + 1
    {
      if j < |ops| {
        assert ops2[j] == ops[j];
      } else if j == |ops| {
        assert ops2[j] == Eps(b, ns);
      } else {
        assert ops2[j] == f.ops[j - |ops| - 1];
      }
    }
  }

  lemma AltsClose(b: nat, ns: nat, ops: seq<Op>, ends: seq<nat>, e: nat)
    requires AltsInv(b, ns, ops, ends) && e == (if |ends| == 0 then b else ends[|ends| - 1] + 1)
    ensures Below(ops + Fan(ends, e), b, e)
    ensures ops <= ops + Fan(ends, e) && forall j :: 0 <= j < |ends| ==> Eps(ends[j], e) in ops + Fan(ends, e)
  {
    var all := ops + Fan(ends, e);
    forall j | 0 <= j < |all|
      ensures b <= Src(all[j]) < e && b <= Dst(all[j]) <= e
    {
      assert all[j] == if j < |ops| then ops[j] else Eps(ends[j - |ops|], e);
    }
    forall j | 0 <= j < |ends| ensures Eps(ends[j], e) in all {
      assert all[|ops| + j] == Eps(ends[j], e);
    }
  }

  /**
   `_regex_parse`: the alternatives of `t` from state `b`, joined by ε
   into one fresh end state, which is returned and has no edge out of it;
   the first alternative is entered at `b + 1`. The root alternatives
   (`b == 0`) are expanded with root tokens. `prev` is the character
   before `t` in memory.
   */
  function Parse(fr: Front, t: string, prev: Option<char>, b: nat): (r: Result<Frag, Fault>)
    ensures r.Success? ==> b <= r.value.end && Below(r.value.ops, b, r.value.end)
    ensures r.Success? && |t| > 0 ==> Eps(b, b + 1) in r.value.ops
    decreases |t|, 6, 0
  {
    var gs :- SplitGroups(t);
    Alts(fr, t, prev, gs, 0, b, b + 1, [], [])
  }

  /* ---------- labelled edges ---------- */

  /** Whether `op` writes the labelled edge `s -c-> t`. */
  predicate Touches(op: Op, s: nat, c: Byte, t: nat)
  {
    match op
    case Eps(_, _) => false
    case Add(x, d, y) => x == s && d == c && y == t
    case AddAll(x, y) => x == s && y == t
    case Del(x, d, y) => x == s && d == c && y == t
  }

  /**
   Whether the edge `s -c-> t` is present once `ops` have been applied in
   order: the last edit that writes it decides, and no edit leaves it absent.
   */
  function Labelled(ops: seq<Op>, s: nat, c: Byte, t: nat): bool
  {
    if |ops| == 0 then false
    else if Touches(ops[|ops| - 1], s, c, t) then !ops[|ops| - 1].Del?
    else Labelled(ops[..|ops| - 1], s, c, t)
  }

  /** Whether some edit of `ops` writes `s -c-> t`. */
  ghost predicate Written(ops: seq<Op>, s: nat, c: Byte, t: nat)
  {
    exists k :: 0 <= k < |ops| && Touches(ops[k], s, c, t)
  }

  lemma WrittenJoin(x: seq<Op>, y: seq<Op>, s: nat, c: Byte, t: nat)
    ensures Written(x + y, s, c, t) <==> Written(x, s, c, t) || Written(y, s, c, t)
  {
    if Written(x + y, s, c, t) {
      var k :| 0 <= k < |x + y| && Touches((x + y)[k], s, c, t);
      if k < |x| {
        assert Touches(x[k], s, c, t);
      } else {
        assert Touches(y[k - |x|], s, c, t);
      }
    }
    if Written(x, s, c, t) {
      var k :| 0 <= k < |x| && Touches(x[k], s, c, t);
      assert (x + y)[k] == x[k];
    }
    if Written(y, s, c, t) {
      var k :| 0 <= k < |y| && Touches(y[k], s, c, t);
      assert (x + y)[|x| + k] == y[k];
    }
  }

  lemma WrittenOne(op: Op, s: nat, c: Byte, t: nat)
    ensures Written([op], s, c, t) <==> Touches(op, s, c, t)
  {
    assert [op][0] == op;
  }

  /** The edits of `y` that write an edge override whatever `x` left. */
  lemma {:induction false} LabelledJoin(x: seq<Op>, y: seq<Op>, s: nat, c: Byte, t: nat)
    ensures Labelled(x + y, s, c, t) == if Written(y, s, c, t) then Labelled(y, s, c, t) else Labelled(x, s, c, t)
    decreases |y|
  {
    if |y| == 0 {
      assert x + y == x;
    } else {
      var n := |y| - 1;
      assert (x + y)[..|x + y| - 1] == x + y[..n];
      assert (x + y)[|x + y| - 1] == y[n];
      assert y == y[..n] + [y[n]];
      WrittenJoin(y[..n], [y[n]], s, c, t);
      WrittenOne(y[n], s, c, t);
      LabelledJoin(x, y[..n], s, c, t);
    }
  }

  /** Every edit adds (or, inverted, removes) a byte edge `b -> b + 1`. */
  ghost predicate Uniform(ops: seq<Op>, b: nat, inv: bool)
  {
    forall k :: 0 <= k < |ops| ==> ops[k].from == b && ops[k].to == b + 1 && (if inv then ops[k].Del? else ops[k].Add?)
  }

  lemma {:induction false} UniformLabels(ops: seq<Op>, b: nat, inv: bool, c: Byte)
    requires Uniform(ops, b, inv)
    ensures Labelled(ops, b, c, b + 1) <==> !inv && Written(ops, b, c, b + 1)
    decreases |ops|
  {
    if |ops| > 0 {
      var n := |ops| - 1;
      assert ops == ops[..n] + [ops[n]];
      WrittenJoin(ops[..n], [ops[n]], b, c, b + 1);
      WrittenOne(ops[n], b, c, b + 1);
      UniformLabels(ops[..n], b, inv, c);
    }
  }

  lemma UniformJoin(x: seq<Op>, y: seq<Op>, b: nat, inv: bool)
    requires Uniform(x, b, inv) && Uniform(y, b, inv)
    ensures Uniform(x + y, b, inv)
  {
  }

  /* ---------- what a bracket class matches ---------- */

  /** The older front end's reading: `c` is one of the characters `a[i..e]`. */
  ghost predicate Listed(a: string, i: nat, e: nat, c: Byte)
    requires i <= e <= |a|
  {
    exists k :: i <= k < e && Code(a[k]) == c
  }

  /** The newer front end's reading: the signed `char` of `c` lies in one of the ranges. */
  ghost predicate Covers(items: seq<(int, int)>, c: Byte)
  {
    exists k :: 0 <= k < |items| && items[k].0 <= Signed(c) <= items[k].1
  }

  /** Whether the class token `a` lists `c`, before any inversion. */
  ghost predicate InClass(fr: Front, a: string, c: Byte)
    requires |a| >= 2 && a[0] == '[' && a[|a| - 1] == ']'
  {
    var from := if a[1] == '^' then 2 else 1;
    match fr
    case Classic => Listed(a, from, |a| - 1, c)
    case Greedy(_) => Items(a, from, |a| - 1).Success? && Covers(Items(a, from, |a| - 1).value, c)
  }

  /** A signed `char` names exactly one byte. */
  lemma SignedUnique(v: int, c: Byte)
    requires -128 <= v < 128
    ensures v % 256 == c <==> v == Signed(c)
  {
  }

  lemma {:induction false} CharOpsWritten(a: string, i: nat, e: nat, b: nat, inv: bool, c: Byte)
    requires i <= e <= |a|
    ensures Uniform(CharOps(a, i, e, b, inv), b, inv)
    ensures Written(CharOps(a, i, e, b, inv), b, c, b + 1) <==> Listed(a, i, e, c)
    decreases e - i
  {
    if i < e {
      var head := [if inv then Del(b, Code(a[i]), b + 1) else Add(b, Code(a[i]), b + 1)];
      CharOpsWritten(a, i + 1, e, b, inv, c);
      WrittenJoin(head, CharOps(a, i + 1, e, b, inv), b, c, b + 1);
      WrittenOne(head[0], b, c, b + 1);
      if Listed(a, i, e, c) && Code(a[i]) != c {
        var k :| i <= k < e && Code(a[k]) == c;
        assert i + 1 <= k;
      }
    }
  }

  lemma {:induction false} RangeOpsWritten(b: nat, lo: int, hi: int, inv: bool, c: Byte)
    requires -128 <= lo && hi < 128
    ensures Uniform(RangeOps(b, lo, hi, inv), b, inv)
    ensures Written(RangeOps(b, lo, hi, inv), b, c, b + 1) <==> lo <= Signed(c) <= hi
    decreases hi - lo + 1
  {
    if lo <= hi {
      var head := [if inv then Del(b, lo % 256, b + 1) else Add(b, lo % 256, b + 1)];
      RangeOpsWritten(b, lo + 1, hi, inv, c);
      WrittenJoin(head, RangeOps(b, lo + 1, hi, inv), b, c, b + 1);
      WrittenOne(head[0], b, c, b + 1);
      SignedUnique(lo, c);
    }
  }

  lemma {:induction false} ItemOpsWritten(items: seq<(int, int)>, b: nat, inv: bool, c: Byte)
    requires forall k :: 0 <= k < |items| ==> -128 <= items[k].0 && items[k].1 < 128
    ensures Uniform(ItemOps(items, b, inv), b, inv)
    ensures Written(ItemOps(items, b, inv), b, c, b + 1) <==> Covers(items, c)
    decreases |items|
  {
    if |items| > 0 {
      RangeOpsWritten(b, items[0].0, items[0].1, inv, c);
      ItemOpsWritten(items[1..], b, inv, c);
      WrittenJoin(RangeOps(b, items[0].0, items[0].1, inv), ItemOps(items[1..], b, inv), b, c, b + 1);
      if Covers(items, c) && !(items[0].0 <= Signed(c) <= items[0].1) {
        var k :| 0 <= k < |items| && items[k].0 <= Signed(c) <= items[k].1;
        assert items[1..][k - 1] == items[k];
      }
      if Covers(items[1..], c) {
        var k :| 0 <= k < |items[1..]| && items[1..][k].0 <= Signed(c) <= items[1..][k].1;
        assert items[k + 1] == items[1..][k];
      }
    }
  }

  /**
   A bracket class labels `b -c-> b + 1` exactly when it lists `c`, or,
   for a `[^...]` class, exactly when it does not: the inverted class
   first adds every byte and then removes the listed ones.
   */
  lemma ClassLabels(fr: Front, a: string, b: nat, c: Byte)
    requires |a| >= 2 && a[0] == '[' && a[|a| - 1] == ']'
    requires ClassOps(fr, a, b).Success?
    ensures Labelled(ClassOps(fr, a, b).value, b, c, b + 1) <==> InClass(fr, a, c) != (a[1] == '^')
  {
    var inv := a[1] == '^';
    var from := if inv then 2 else 1;
    var head := if inv then [AddAll(b, b + 1)] else [];
    var body;
    if fr.Classic? {
      body := CharOps(a, from, |a| - 1, b, inv);
      CharOpsWritten(a, from, |a| - 1, b, inv, c);
    } else {
      var items := Items(a, from, |a| - 1).value;
      body := ItemOps(items, b, inv);
      ItemOpsWritten(items, b, inv, c);
    }
    assert ClassOps(fr, a, b).value == head + body;
    UniformLabels(body, b, inv, c);
    LabelledJoin(head, body, b, c, b + 1);
  }

  /** A span fails when it runs backwards and never ends when it reaches 127; the class then fails likewise. */
  lemma ClassFailure(d: Dir, a: string, b: nat)
    requires |a| >= 2 && a[0] == '[' && a[|a| - 1] == ']'
    ensures var from := if a[1] == '^' then 2 else 1;
      ClassOps(Greedy(d), a, b).Failure? <==> Items(a, from, |a| - 1).Failure?
    ensures ClassOps(Classic, a, b).Success?
  {
  }

  /** A span from `x` to `y` with `y < x` fails the assert. */
  lemma BackwardSpan(a: string, i: nat, e: nat)
    requires i + 2 < e <= |a| && a[i] != '\\' && a[i + 1] == '-'
    requires Signed(Code(a[i + 2])) < Signed(Code(a[i]))
    ensures Items(a, i, e) == Failure(AssertFailed)
  {
  }

  /** A class without `-` reads the same in both front ends. */
  lemma {:induction false} PlainItems(a: string, i: nat, e: nat, b: nat, inv: bool)
    requires i <= e <= |a| && forall k :: i <= k < e ==> a[k] != '-'
    ensures Items(a, i, e).Success? && ItemOps(Items(a, i, e).value, b, inv) == CharOps(a, i, e, b, inv)
    decreases e - i
  {
    if i < e {
      PlainItems(a, i + 1, e, b, inv);
      var v := Signed(Code(a[i]));
      var rest := Items(a, i + 1, e).value;
      assert Items(a, i, e) == Success([(v, v)] + rest);
      assert ([(v, v)] + rest)[1..] == rest;
      assert RangeOps(b, v, v, inv) == [if inv then Del(b, Code(a[i]), b + 1) else Add(b, Code(a[i]), b + 1)];
    }
  }

  lemma FrontsAgree(d: Dir, a: string, b: nat)
    requires |a| >= 2 && a[0] == '[' && a[|a| - 1] == ']'
    requires forall k :: 0 < k < |a| - 1 ==> a[k] != '-'
    ensures ClassOps(Greedy(d), a, b) == ClassOps(Classic, a, b)
  {
    var from := if a[1] == '^' then 2 else 1;
    PlainItems(a, from, |a| - 1, b, a[1] == '^');
  }

  /* ---------- atoms ---------- */

  /** The bytes a single-state atom (a character, an escape pair or a class) accepts. */
  ghost predicate AtomMatches(fr: Front, a: string, c: Byte)
    requires |a| >= 1
  {
    if |a| == 1 then c == Code(a[0])
    else if |a| == 2 && a[0] == '\\' then c == Escaped(a[1])
    else |a| >= 2 && a[0] == '[' && a[|a| - 1] == ']' && InClass(fr, a, c) != (a[1] == '^')
  }

  /**
   A character, an escape pair or a bracket class becomes one step
   `b -> b + 1` labelled by exactly the bytes it matches, and nothing else.
   */
  lemma AtomLabels(fr: Front, a: string, b: nat, c: Byte)
    requires |a| == 1 || (|a| == 2 && a[0] == '\\') || (|a| >= 2 && a[0] == '[' && a[|a| - 1] == ']' && a[0] != '(')
    requires ExpandToken(fr, a, b).Success?
    ensures ExpandToken(fr, a, b).value.end == b + 1
    ensures Labelled(ExpandToken(fr, a, b).value.ops, b, c, b + 1) <==> AtomMatches(fr, a, c)
    ensures forall k :: 0 <= k < |ExpandToken(fr, a, b).value.ops| ==> !ExpandToken(fr, a, b).value.ops[k].Eps?
  {
    if |a| >= 2 && !(|a| == 2 && a[0] == '\\') {
      ClassLabels(fr, a, b, c);
      var inv := a[1] == '^';
      var from := if inv then 2 else 1;
      if fr.Classic? {
        CharOpsWritten(a, from, |a| - 1, b, inv, c);
      } else {
        ItemOpsWritten(Items(a, from, |a| - 1).value, b, inv, c);
      }
    }
  }

  /** The escapes `\n`, `\r`, `\t` name control bytes; any other escaped character stands for itself. */
  lemma EscapeBytes(x: char)
    ensures Escaped('n') == 10 && Escaped('r') == 13 && Escaped('t') == 9
    ensures x != 'n' && x != 'r' && x != 't' ==> Escaped(x) == Code(x)
  {
  }

  /* ---------- quantifiers ---------- */

  /**
   `*`, `?` and `+` around an atom built from `ns + 1` to `e`: an ε into
   the atom and one out of it to the fresh end `e + 1`; a loop back
   `e -> ns + 1` except for `?`; a skip `ns -> e + 1` except for `+`.
   */
  lemma QuantifierEdges(fr: Front, cur: string, q: string, ns: nat, end: nat)
    requires !Special(cur) && (q == "*" || q == "?" || q == "+")
    ensures var r, f := Quantified(fr, cur, q, ns, end), ExpandToken(fr, cur, ns + 1);
      && (r.Success? <==> f.Success?)
      && (r.Failure? ==> r.error == f.error)
      && (r.Success? ==>
        && r.value.end == f.value.end + 1
        && Eps(ns, ns + 1) in r.value.ops && Eps(f.value.end, r.value.end) in r.value.ops
        && (Eps(f.value.end, ns + 1) in r.value.ops <==> q != "?")
        && (Eps(ns, r.value.end) in r.value.ops <==> q != "+"))
  {
    var f := ExpandToken(fr, cur, ns + 1);
    if f.Success? {
      assert Quantified(fr, cur, q, ns, end) == Success(Frag(Quant(q[0], ns, f.value), f.value.end + 1));
      QuantEdges(q[0], ns, f.value);
    }
  }

  /** The ε-edges a quantifier adds around its atom's fragment, and the ones it leaves out. */
  lemma QuantEdges(q: char, ns: nat, f: Frag)
    requires ns + 1 <= f.end && Below(f.ops, ns + 1, f.end) && (q == '*' || q == '?' || q == '+')
    ensures var r, e := Quant(q, ns, f), f.end;
      && Eps(ns, ns + 1) in r && Eps(e, e + 1) in r
      && (Eps(e, ns + 1) in r <==> q != '?')
      && (Eps(ns, e + 1) in r <==> q != '+')
  {
    var e := f.end;
    var ops := f.ops;
    assert Eps(e, ns + 1) !in ops by {
      forall k | 0 <= k < |ops| ensures ops[k] != Eps(e, ns + 1) {
        assert Src(ops[k]) < e;
      }
    }
    assert Eps(ns, e + 1) !in ops by {
      forall k | 0 <= k < |ops| ensures ops[k] != Eps(ns, e + 1) {
        assert ns + 1 <= Src(ops[k]);
      }
    }
    var r := Quant(q, ns, f);
    if q == '*' {
      assert r == [Eps(ns, ns + 1)] + ops + [Eps(e, ns + 1), Eps(e, e + 1), Eps(ns, e + 1)];
    } else if q == '?' {
      assert r == [Eps(ns, ns + 1)] + ops + [Eps(e, e + 1), Eps(ns, e + 1)];
      assert Eps(e, ns + 1) != Eps(e, e + 1);
    } else {
      assert r == [Eps(ns, ns + 1)] + ops + [Eps(e, e + 1), Eps(e, ns + 1)];
      assert Eps(ns, e + 1) != Eps(ns, ns + 1) && Eps(ns, e + 1) != Eps(e, e + 1);
    }
  }

  /**
   A `{m}` repeat chains `m` copies of the atom and then reaches a fresh
   state through ε; that state carries an ε self-loop, since the list of
   optional ends is seeded with it.
   */
  lemma ExactRepeat(fr: Front, cur: string, m: nat, ns: nat, end: nat)
    requires m >= 1 && m != SizeMax
    ensures var r, c := Repeat(fr, cur, m, m, ns, end), Chain(fr, cur, m, ns + 1, end, []);
      && (r.Success? <==> c.Success?)
      && (r.Success? ==>
        && r.value.end == c.value.next + 1
        && r.value.ops == [Eps(ns, ns + 1)] + c.value.ops + [Eps(c.value.next, r.value.end), Eps(r.value.end, r.value.end)]
        && |c.value.ends| == m)
  {
    var c := Chain(fr, cur, m, ns + 1, end, []);
    if c.Success? {
      var s := c.value.next + 1;
      assert Chain(fr, cur, 0, s, c.value.end, [s]) == Success(Copies([], s, c.value.end, [s]));
      assert Fan([s], s) == [Eps(s, s)];
    }
  }

  /* ---------- alternatives and the root ---------- */

  /** An empty pattern (or group) builds nothing: its end is its begin. */
  lemma EmptyParse(fr: Front, prev: Option<char>, b: nat)
    ensures Parse(fr, "", prev, b) == Success(Frag([], b))
  {
    assert SplitGroups("").Success?;
  }

  /**
   The newer front end treats the root like any other alternative except
   that a leading `^` is skipped.
   */
  lemma GreedyRootPlain(d: Dir, g: string, prev: Option<char>, b: nat)
    requires b >= 1 && Tokens(Greedy(d), g, prev).Success?
    requires var toks := Tokens(Greedy(d), g, prev).value; |toks| > 0 && Text(g, toks[0]) != "^"
    ensures Expand(Greedy(d), g, prev, b, true) == Expand(Greedy(d), g, prev, b, false)
  {
  }
}

=== FILE: vector.dfy ===
/**
 The growable array of src/util/vector.h.

 A vector is modelled by its live elements `_array_ptr[0.._size)` and its
 `_capacity`; the slots between size and capacity hold nothing observable.
 */
module Vec {

  datatype Vector<T> = Vector(items: seq<T>, capacity: nat)

  ghost predicate Valid<T>(v: Vector<T>)
  {
    1 <= v.capacity && |v.items| <= v.capacity
  }

  /** Capacity never exceeds twice the element count (or 1): what doubling on demand guarantees. */
  ghost predicate Tight<T>(v: Vector<T>)
  {
    v.capacity <= 1 || v.capacity <= 2 * |v.items|
  }

  ghost predicate IsPow2(n: nat)
  {
    n == 1 || (n > 1 && n % 2 == 0 && IsPow2(n / 2))
  }

  function New<T>(): (v: Vector<T>)
    ensures Valid(v) && Tight(v) && IsPow2(v.capacity)
    ensures v.items == [] && v.capacity == 1
  {
    Vector([], 1)
  }

  function Size<T>(v: Vector<T>): nat
  {
    |v.items|
  }

  function Get<T>(v: Vector<T>, i: nat): T
    requires i < |v.items|
  {
    v.items[i]
  }

  /** `set` overwrites slot `i` only; the size does not change. */
  function Set<T>(v: Vector<T>, i: nat, x: T): (v': Vector<T>)
    requires i < |v.items|
    ensures |v'.items| == |v.items| && v'.capacity == v.capacity
    ensures Get(v', i) == x
    ensures forall j :: 0 <= j < |v.items| && j != i ==> Get(v', j) == Get(v, j)
  {
    Vector(v.items[i := x], v.capacity)
  }

  function DoubleCapacity<T>(v: Vector<T>): (v': Vector<T>)
    ensures v'.items == v.items && v'.capacity == 2 * v.capacity
    ensures IsPow2(v.capacity) ==> IsPow2(v'.capacity)
  {
    Vector(v.items, v.capacity * 2)
  }

  /** `push_back` doubles the capacity when the array is full, then appends. */
  function PushBack<T>(v: Vector<T>, x: T): (v': Vector<T>)
    ensures v'.items == v.items + [x]
    ensures Valid(v) ==> Valid(v')
    ensures Valid(v) && Tight(v) ==> Tight(v')
    ensures IsPow2(v.capacity) ==> IsPow2(v'.capacity)
    ensures v'.capacity == v.capacity || v'.capacity == 2 * v.capacity
  {
    var w := if v.capacity < |v.items| + 1 then DoubleCapacity(v) else v;
    Vector(w.items + [x], w.capacity)
  }

  /** `pop_back` decrements the size; the remaining prefix is untouched. */
  function PopBack<T>(v: Vector<T>): (v': Vector<T>)
    requires |v.items| > 0
    ensures |v'.items| + 1 == |v.items|
    ensures forall j :: 0 <= j < |v'.items| ==> Get(v', j) == Get(v, j)
    ensures v'.capacity == v.capacity
    ensures Valid(v) ==> Valid(v')
  {
    Vector(v.items[..|v.items| - 1], v.capacity)
  }

  /**
   `remove` saves slot `index`, shifts the tail one slot to the left and
   decrements the size.
   */
  method Remove<T>(v: Vector<T>, index: nat) returns (v': Vector<T>, removed: T)
    requires index < |v.items|
    ensures removed == v.items[index]
    ensures v'.items == v.items[..index] + v.items[index + 1..]
    ensures v'.capacity == v.capacity
    ensures multiset(v'.items) + multiset{removed} == multiset(v.items)
  {
    removed := v.items[index];
    var a := v.items;
    var i := index;
    while i < |a| - 1
      invariant |a| == |v.items|
      invariant index <= i <= |a| - 1
      invariant forall k :: 0 <= k < index ==> a[k] == v.items[k]
      invariant forall k :: index <= k < i ==> a[k] == v.items[k + 1]
      invariant forall k :: i <= k < |a| ==> a[k] == v.items[k]
    {
      a := a[i := a[i + 1]];
      i := i + 1;
    }
    v' := Vector(a[..|a| - 1], v.capacity);
    assert v'.items == v.items[..index] + v.items[index + 1..];
    assert v.items == v.items[..index] + [removed] + v.items[index + 1..];
  }

  function Min(a: nat, b: nat): nat
  {
    if a < b then a else b
  }

  /**
   `resize(n, fill)` keeps the first min(size, n) elements, fills any new
   slots with `fill`, and sets the capacity to n, or 1 when n is 0.
   */
  function Resize<T>(v: Vector<T>, n: nat, fill: T): (v': Vector<T>)
    ensures |v'.items| == n
    ensures forall j :: 0 <= j < Min(|v.items|, n) ==> Get(v', j) == Get(v, j)
    ensures forall j :: |v.items| <= j < n ==> Get(v', j) == fill
    ensures v'.capacity == (if n == 0 then 1 else n)
    ensures Valid(v')
  {
    var keep := v.items[..Min(|v.items|, n)];
    Vector(keep + seq(n - |keep|, _ => fill), if n == 0 then 1 else n)
  }

  lemma GetAfterSet<T>(v: Vector<T>, i: nat, j: nat, x: T)
    requires i < |v.items| && j < |v.items|
    ensures Get(Set(v, i, x), j) == if i == j then x else Get(v, j)
  {
  }

  /** `pop_back` undoes `push_back` on the elements. */
  lemma PopUndoesPush<T>(v: Vector<T>, x: T)
    ensures PopBack(PushBack(v, x)).items == v.items
  {
    assert (v.items + [x])[..|v.items|] == v.items;
  }

  /** A vector grown only by `push_back` from `new` keeps a power-of-two capacity at most twice its size. */
  lemma {:induction false} PushesKeepCapacityTight<T>(xs: seq<T>)
    ensures Valid(PushAll(New(), xs))
    ensures Tight(PushAll(New(), xs)) && IsPow2(PushAll(New(), xs).capacity)
    ensures PushAll(New(), xs).items == xs
  {
    if |xs| > 0 {
      PushesKeepCapacityTight(xs[..|xs| - 1]);
      assert xs[..|xs| - 1] + [xs[|xs| - 1]] == xs;
    }
  }

  function PushAll<T>(v: Vector<T>, xs: seq<T>): Vector<T>
  {
    if |xs| == 0 then v else PushBack(PushAll(v, xs[..|xs| - 1]), xs[|xs| - 1])
  }
}

=== FILE: wrappers.dfy ===
/**
 Option, Result, Byte, Fault and the `size_t` range: definitions shared by every module of the model.

 `Failure` values stand for the places where the C code stops instead of
 returning: a failed `assert`, an `exit(...)` call, a dereference of a NULL
 pointer, a read outside a buffer, or a loop that never ends.
 */
module Wrappers {

  datatype Option<+T> = None | Some(value: T)
  {
    function GetOr(default: T): T
    {
      match this
      case Some(v) => v
      case None => default
    }
  }

  datatype Result<+R, +E> = Success(value: R) | Failure(error: E)
  {
    predicate IsFailure()
    {
      Failure?
    }

    function PropagateFailure<U>(): Result<U, E>
      requires Failure?
    {
      Failure(error)
    }

    function Extract(): R
      requires Success?
    {
      value
    }
  }

  /** The number of `size_t` values on an LP64 target; `size_t` arithmetic is modulo this. */
  const SizeRange: nat := 0x1_0000_0000_0000_0000

  /** The largest `size_t`, written `~0UL` or `-1` in the C code. */
  const SizeMax: nat := SizeRange - 1

  /** A byte: a C `char` seen through `255 & c`. */
  type Byte = b: int | 0 <= b < 256

  /** Why a C routine stops instead of returning. */
  datatype Fault =
    | NullDeref            // a NULL pointer is dereferenced
    | AssertFailed         // an `assert(...)` does not hold
    | Exit(code: int)      // the program calls `exit(code)`
    | OutOfBounds          // a read before the start or past the end of a buffer
    | Diverges             // a loop whose counter wraps around and never meets its bound
    | Undefined            // signed `int` overflow or division by zero, which C leaves undefined
}
